=== FILE: README.md ===
# SIMS health dashboard — a Dafny model

SIMS-Dashboard-Saude is a public-health dashboard. It shows hospital admissions
(internações) and deaths (óbitos) by sex, age bracket, race, marital status,
place of death and ICD-10 chapter, together with a monthly series and a map of
Brazil's states. A React frontend reads a FastAPI backend. This project models
the logic that decides what the dashboard computes and shows:

- `Js` (js.dfy): a JavaScript value (undefined, null, booleans, integers,
  strings, arrays, objects with ordered keys), truthiness, `||`, property
  reads and writes, `trim`, case mapping, `Number(…)` and `parseInt`.
- `Sync` (sync.dfy): the application shell (`App.jsx`). This covers loading
  the datasets with retries, the 24-hour localStorage cache, the sync flag that
  unlocks navigation, the refresh button, the tutorial, and the URL ↔ page
  routing with history.
- `Charts`, `Series`, `StateMap`, `Geo` (charts.dfy, series.dfy,
  statemap.dfy, geo.dfy): each chart's validate → normalise → draw pipeline,
  its size and colour rules, and click forwarding. This includes the monthly
  series with sorting, brush and zoom, and both state maps with their GeoJSON
  loading, per-state totals and colour buckets.
- `Filters` (filters.dfy): the filter panel. It searches localities, shows the
  selected city, parses selects, builds the applied object and resets.
- `Pages`, `Stats` (pages.dfy, stats.dfy): the pages. They build query
  parameters, apply filters against the server, drill down, and compute
  totals, leaders, shares, means and the year lists. They also build the
  filter lines printed on exports.
- `Export`, `Descriptions` (export.dfy, descriptions.dfy): CSV export, with a
  reader that proves what a CSV line reads back as, plus PNG/SVG canvas sizing,
  file names and the chart description table.
- `Auth` (auth.dfy): sign-up, password-reset and profile forms, the
  recovery-link handling, and the session kept in localStorage.
- `Backend` (backend.dfy): the API's query assembly (`main.py`). This covers
  placeholders and parameters for the optional filters, the column search for
  place of death, display names from e-mail addresses, the silent
  forgot-password reply and the profile update.

Everything outside the program is a parameter of the functions that need it:
the outcome of each HTTP request, the identity provider's replies, JSON
`parse`/`stringify`, the clock and the database. localStorage is a
`map<string, string>`; whether it accepts a write of the map cache under its
quota is a parameter too. Every operation is a pure function over immutable
datatypes. React state updates become a new state value.

## Model

| member | source | states |
|---|---|---|
| Js.SetField | frontend/src/components/ChartFilters.jsx:120-128 | assigning a property makes it read back the new value, leaves every other property as it was, keeps an existing key in its place and appends a new key last |
| Js.SetFieldUnchanged | frontend/src/components/ObitosPorCidCapChart.jsx:54-58 | re-spreading a defined field with its own value leaves the object identical |
| Js.Trim | frontend/src/components/ChartFilters.jsx:87 | the trimmed text neither starts nor ends with white space, is no longer than the input, and is the input itself when it holds no white space |
| Js.TrimIsInfix | frontend/src/components/ChartFilters.jsx:87 | the trimmed text is a contiguous part of the input, and everything removed before and after it is white space |
| Js.TrimIdempotent | frontend/src/components/ObitosPorCidCapChart.jsx:57 | trimming an already trimmed text changes nothing |
| Js.Includes | frontend/src/components/ChartFilters.jsx:73-75 | `includes` holds exactly when the term occurs at some position of the text |
| Js.DecimalRoundTrip | frontend/src/components/ChartFilters.jsx:273-274 | reading back the decimal digits an option is written with gives the number |
| Js.ParseIntToStr | frontend/src/components/ChartFilters.jsx:90-91 | `Number` of the decimal text of any integer, negative ones included, is that integer |
| Js.NumberOfStringRoundTrip | frontend/src/components/ChartFilters.jsx:90-91 | `Number(String(n)) \|\| 0` is `n` for every integer |
| Js.ToNumber | frontend/src/components/MonthlySeriesChart.jsx:58-62 | `Number` of a number is itself, of null 0, of a boolean 1 or 0, and of undefined or an object NaN |
| Js.ParseNumber | frontend/src/components/MonthlySeriesChart.jsx:58-62 | `Number` of a text reads blank text as 0 and accepts only an optionally signed run of digits once the surrounding white space is removed |
| Js.ParseTrimmed | frontend/src/components/MonthlySeriesChart.jsx:58-62 | reading a text and reading its trimmed text give the same number |
| Js.NumberOr0 | frontend/src/components/MonthlySeriesChart.jsx:58-62 | `Number(v) \|\| 0` is 0 for every falsy value and for NaN, and a number is kept |
| Js.ToStr | frontend/src/utils/exportChart.js:453-457 | a text prints as itself; a non-negative number prints as decimal digits and a negative one as '-' and digits; an empty array, or one holding only null, prints as nothing |
| Js.Utf16Length | frontend/src/components/SignUp.jsx:33 | `length` counts UTF-16 units: between the number of characters and twice it, and exactly the number of characters when none lies above U+FFFF |
| Js.Utf16LengthAppend | frontend/src/components/ResetPassword.jsx:87 | the length of a concatenation is the sum of the lengths |
| Descriptions.Find | frontend/src/utils/chartDescriptions.js:15-17 | the scan returns '' exactly when no entry from the starting position has the id, and otherwise the text of the first such entry |
| Descriptions.Describe | frontend/src/utils/chartDescriptions.js:15-17 | `getChartDescription` is '' exactly for an id the table lacks, and for a known id it is that entry's text |
| Descriptions.Distinct | frontend/src/utils/chartDescriptions.js:2-12 | the table holds nine entries under nine different ids |
| Descriptions.RequestedAreKnown | frontend/src/pages/SerieMensalPage.jsx:139-140 | every chart id the pages export with a description (serie-mensal, internacoes-faixa-etaria, obitos-local-ocorrencia, obitos-estado-civil, obitos-raca) is in the table and gets a non-empty text |
| Filters.Search | frontend/src/components/ChartFilters.jsx:67-77 | the filtered list holds only non-null localities of the input that the term matches, and every such locality appears in it |
| Filters.EmptyTermKeepsAll | frontend/src/components/ChartFilters.jsx:67-77 | an empty search term keeps the whole list of non-null localities |
| Filters.SearchOutcome | frontend/src/components/ChartFilters.jsx:67-77 | the filter throws exactly when a non-null locality has a non-text municipio, or an unmatched municipio and a non-text uf; otherwise its result is the search's, and with text-only localities it never throws |
| Filters.SearchIgnoresCase | frontend/src/components/ChartFilters.jsx:69-75 | typing the term in upper or lower case finds the same localities |
| Filters.SearchNarrows | frontend/src/components/Filters.jsx:39-49 | a locality found for a longer term is also found for each of its prefixes |
| Filters.Find | frontend/src/components/ChartFilters.jsx:83 | `find` yields the first truthy locality whose `id_localidade` is the selection, or none when no locality has it |
| Filters.SelectedText | frontend/src/components/ChartFilters.jsx:79-88 | 'all' shows "Todas as Cidades" and an unknown id shows the placeholder |
| Filters.PlaceholderUnreachable | frontend/src/components/ChartFilters.jsx:85-87 | for a found locality the text is its trimmed label and never the placeholder, because the label always keeps its '-' |
| Filters.NamelessLocalityShowsDash | frontend/src/components/Filters.jsx:57-59 | a locality with neither municipality nor UF shows "-" instead of the placeholder |
| Filters.SelectedTextIntended | frontend/src/components/Filters.jsx:51-60 | the corrected text is the placeholder exactly when the id is unknown or both parts are blank, and "Todas as Cidades" exactly for 'all' |
| Filters.Pick | frontend/src/components/ChartFilters.jsx:91 | 'all' stays 'all'; any other option becomes the number it reads as, so a numeric id is picked as itself |
| Filters.Choose | frontend/src/components/ChartFilters.jsx:90-95 | choosing an option stores its pick as the selection, closes the list and clears the term |
| Filters.TypeText | frontend/src/components/ChartFilters.jsx:147-150 | typing sets the term, opens the list and keeps the selection |
| Filters.Focus | frontend/src/components/ChartFilters.jsx:152-156 | focusing opens the list, clears the term and keeps the selection |
| Filters.FocusListsEverything | frontend/src/components/ChartFilters.jsx:152-156 | after a focus the list offers every locality, whatever was typed before |
| Filters.ChosenCityIsShown | frontend/src/components/ChartFilters.jsx:79-95 | choosing a locality's numeric id shows that locality's trimmed label |
| Filters.DefaultSelection | frontend/src/components/Filters.jsx:20-24 | an empty selection becomes 'all' once there are localities; a set selection is kept |
| Filters.YearOptions | frontend/src/components/ChartFilters.jsx:22-24 | the given years when there are some, else the twenty years counting down from the current one |
| Filters.Least | frontend/src/components/ChartFilters.jsx:26 | `Math.min` is an element no greater than any other |
| Filters.Greatest | frontend/src/components/ChartFilters.jsx:27 | `Math.max` is an element no smaller than any other |
| Filters.DefaultYearRange | frontend/src/components/ChartFilters.jsx:22-27 | without given years the range runs from nineteen years ago to the current year |
| Filters.OrYear | frontend/src/components/ChartFilters.jsx:29-32 | a missing or zero value falls back, any other value is kept |
| Filters.InitialPanel | frontend/src/components/ChartFilters.jsx:20-35 | the panel starts from the props, falling back to the least and greatest option years, with a month only when one was given and the list closed |
| Filters.ParseSelect | frontend/src/components/ChartFilters.jsx:107-117 | the empty option reads as null |
| Filters.ParseSelectRoundTrip | frontend/src/components/ChartFilters.jsx:107-117 | an option written from a year or month reads back as that number |
| Filters.Applied | frontend/src/components/ChartFilters.jsx:119-128 | the applied object always carries the locality, the year range only when shown, and the year and month only when shown |
| Filters.ApplyTarget | frontend/src/components/ChartFilters.jsx:129-133 | `onApplyFilters` receives the filters whenever it exists, `onFilterChange` only without it |
| Filters.Reset | frontend/src/components/ChartFilters.jsx:136-145 | reset selects the full year range and its latest year, no month and all cities, and leaves the dropdown's term and openness alone |
| Charts.LocalDesc | frontend/src/components/ObitosPorLocalChart.jsx:34 | the place text is the first truthy one of local_ocorrencia_desc, local_desc, descricao and local_ocorrencia, and '' when all four are falsy |
| Charts.LocalTotal | frontend/src/components/ObitosPorLocalChart.jsx:36-38 | `total_obitos` unless null or undefined, then `qtd_obitos` on the same terms, then the fallback |
| Charts.Check | frontend/src/components/ObitosPorCidCapChart.jsx:31-36 | a record is kept only with a non-blank string text and a total that is neither null nor undefined, and the filter throws exactly on a truthy text that is not a string |
| Charts.Filter | frontend/src/components/ObitosPorCidCapChart.jsx:31-36 | filtering fails exactly when some verdict throws; otherwise it keeps exactly the records judged Keep |
| Charts.Validate | frontend/src/components/ObitosPorCidCapChart.jsx:31-36 | the valid records are exactly the input's kept records, and the filter fails exactly when it throws on one |
| Charts.ValidateAppend | frontend/src/components/ObitosPorCidCapChart.jsx:31-36 | filtering a concatenation filters each part and keeps their order |
| Charts.Normalise | frontend/src/components/ObitosPorCidCapChart.jsx:54-58 | the total becomes `Number(..) \|\| 0`, the texts are trimmed strings, every other field is untouched, and a record that passes the second filter is clean |
| Charts.Passing | frontend/src/components/ObitosPorCidCapChart.jsx:59 | the second filter keeps exactly the normalised records with a non-empty text and a positive total |
| Charts.NormalisedAreClean | frontend/src/components/ObitosPorCidCapChart.jsx:54-59 | normalisation never adds a record and every record it keeps is clean |
| Charts.Pipeline | frontend/src/components/ObitosPorCidCapChart.jsx:31-59 | the pipeline fails exactly when the first filter throws; otherwise its rows are clean, each is the normalisation of a record the first filter keeps, and every kept record whose normalisation passes the second filter is among them |
| Charts.PipelineKeepsOrder | frontend/src/components/ObitosPorCidCapChart.jsx:31-59 | the rows of a concatenation are the rows of its first part followed by those of its second |
| Charts.ValidateKeepsNothing | frontend/src/components/ObitosPorCidCapChart.jsx:31-52 | the filter keeps nothing exactly when it drops every record |
| Charts.Render | frontend/src/components/ObitosPorCidCapChart.jsx:15-75 | no data exactly for a missing or empty array, a crash exactly when the filter throws, "invalid" exactly when it drops everything, "none valid" exactly when records pass the first filter but none the second, and the drawn rows are the pipeline's rows |
| Charts.CleanIsKept | frontend/src/components/ObitosPorLocalChart.jsx:32-41 | a clean record passes the validity filter |
| Charts.CleanIsFixed | frontend/src/components/ObitosPorLocalChart.jsx:59-70 | a clean record normalises to itself |
| Charts.CleanRowsAreFixed | frontend/src/components/ObitosPorCidCapChart.jsx:31-59 | clean rows pass both filters unchanged |
| Charts.RenderIsIdempotent | frontend/src/components/ObitosPorCidCapChart.jsx:15-75 | feeding a chart the rows it draws draws the same rows |
| Charts.BarHeight | frontend/src/components/ObitosPorCidCapChart.jsx:88-92 | 240 on the home page, else between 400 and 700: 400 exactly up to 8 records and 700 from 28 on |
| Charts.BarHeightGrows | frontend/src/components/ObitosPorLocalChart.jsx:90-93 | more records never make the chart shorter, and between 8 and 28 each adds 15 pixels |
| Charts.FaixaHeight | frontend/src/components/InternacoesPorFaixaChart.jsx:80-85 | the height stays within 350 and 800: 350 exactly up to 6 records and 800 from 18 on |
| Charts.FaixaHeightGrows | frontend/src/components/InternacoesPorFaixaChart.jsx:80-85 | more records never make the chart shorter, and between 7 and 17 each adds 40 pixels |
| Charts.AxisFitsMargin | frontend/src/components/ObitosPorLocalChart.jsx:116-126 | the slanted axis always fits the bottom margin with at most 20 pixels to spare, and fills it from 13 records on |
| Charts.FaixaAxisCoversMargin | frontend/src/components/InternacoesPorFaixaChart.jsx:112-136 | the category axis is never narrower than the left margin, and both are 120 up to 15 records |
| Charts.RacaAngle | frontend/src/components/ObitosPorRacaChart.jsx:118 | the labels slant at -45 exactly beyond six records, else -35 |
| Charts.LocalAngle | frontend/src/components/ObitosPorLocalChart.jsx:124 | the labels slant at -40 exactly beyond six records, else -30 |
| Charts.PositionBucket | frontend/src/components/ObitosPorCidCapChart.jsx:213-224 | the colour band is one of the five, the first bar takes the first and the last of two or more takes the last |
| Charts.PositionBucketMonotone | frontend/src/components/ObitosPorCidCapChart.jsx:213-224 | later bars never take an earlier band |
| Charts.BarClick | frontend/src/components/ObitosPorCidCapChart.jsx:82-86 | a payload is forwarded exactly when a handler exists and the click carries a first active payload |
| Charts.ClickForwardsTheBar | frontend/src/components/ObitosPorCidCapChart.jsx:82-86 | clicking a bar forwards exactly that bar's record, and nothing without a handler |
| Charts.WithLabel | frontend/src/components/ObitosPorCidCapChart.jsx:77-80 | adding the label leaves every other field as it was |
| Charts.LabelOfDrawnRow | frontend/src/components/InternacoesPorCidCapChart.jsx:77-80 | a drawn chapter bar is labelled by its code, " - " and its name |
| Charts.HomeBars | frontend/src/components/InternacoesCid10HomeChart.jsx:82-87 | the home chart labels the first ten rows, or all of them when fewer |
| Charts.MaxTotal | frontend/src/components/ObitosPorRacaChart.jsx:76 | the axis maximum is at least 1, at least every record's total, and is 1 or one of the totals |
| Series.PointCheck | frontend/src/components/MonthlySeriesChart.jsx:34-38 | the point filter never throws and keeps only objects |
| Series.NormalisePoint | frontend/src/components/MonthlySeriesChart.jsx:56-62 | both counts, the year and the month become `Number(..) \|\| 0`, `ano_mes` becomes its trimmed text, and every other field is the record's own |
| Series.NormalisedIsPlotted | frontend/src/components/MonthlySeriesChart.jsx:56-63 | a normalised point with a non-empty `ano_mes` has all the numeric fields the chart plots |
| Series.NormalisedPoints | frontend/src/components/MonthlySeriesChart.jsx:56-63 | every kept point is plottable and is the normalisation of a valid point, and every normalised point with a non-empty month text is kept |
| Series.Insert | frontend/src/components/MonthlySeriesChart.jsx:64-69 | inserting into a (year, month)-ordered list keeps it ordered and adds exactly the one element |
| Series.Sort | frontend/src/components/MonthlySeriesChart.jsx:64-69 | the sorted points are ordered by (year, month) and are a permutation of the input |
| Series.TiesAppend | frontend/src/components/MonthlySeriesChart.jsx:64-69 | the points sharing a key in a concatenation are those of each part, in order |
| Series.InsertTies | frontend/src/components/MonthlySeriesChart.jsx:64-69 | inserting a point places it after every earlier point with the same key |
| Series.SortKeepsTies | frontend/src/components/MonthlySeriesChart.jsx:64-69 | the sort is stable: points with equal (year, month) keep their input order |
| Series.SortOfSorted | frontend/src/components/MonthlySeriesChart.jsx:64-69 | sorting an already ordered series leaves it unchanged |
| Series.ValidPoints | frontend/src/components/MonthlySeriesChart.jsx:34-38 | the valid points are exactly the input points that pass the check, and there are none exactly when every point is dropped |
| Series.SortedPoints | frontend/src/components/MonthlySeriesChart.jsx:56-69 | the plotted points are ordered by (year, month) and are a permutation of the normalised non-blank points: plottable, each from a valid point, none missing |
| Series.Render | frontend/src/components/MonthlySeriesChart.jsx:18-85 | no data exactly for a missing or empty array, "invalid" exactly when every point is dropped, never a crash, and the drawn points are the sorted normalised valid points |
| Series.Height | frontend/src/components/MonthlySeriesChart.jsx:98-100 | the height stays within 450 and 800: 450 exactly up to 31 points and 800 from 75 on |
| Series.HeightGrows | frontend/src/components/MonthlySeriesChart.jsx:98-100 | more points never make the chart shorter, and between 32 and 75 each adds 8 pixels |
| Series.DefaultBrush | frontend/src/components/MonthlySeriesChart.jsx:102-106 | the first 31 points of a series longer than 30, else the whole series, always inside the series |
| Series.BrushChange | frontend/src/components/MonthlySeriesChart.jsx:108-115 | a reported window replaces the current one and no report changes nothing |
| Series.ZoomIn | frontend/src/components/MonthlySeriesChart.jsx:124-137 | zooming in keeps the window inside the series and, from five points on, inside the current window |
| Series.Recentre | frontend/src/components/MonthlySeriesChart.jsx:124-152 | the new window lies inside the series, holds at most the target number of points, exactly that many when neither side is clamped, and lies inside the old window when the target is no wider |
| Series.ZoomOut | frontend/src/components/MonthlySeriesChart.jsx:139-152 | zooming out keeps the window inside the series and never shrinks it |
| Series.ZoomInNarrows | frontend/src/components/MonthlySeriesChart.jsx:124-137 | zooming in leaves no more points than the larger of the current width and five |
| Series.Visible | frontend/src/components/MonthlySeriesChart.jsx:154-156 | the visible points are exactly the window's points, in order |
| Series.TicksOfYearMonth | frontend/src/components/MonthlySeriesChart.jsx:323-332 | a `YYYY-MM` label shows as `YYYY` on a crowded axis, unchanged on a sparse one, and as `YYYY/MM` on the brush |
| Series.AxisTick | frontend/src/components/MonthlySeriesChart.jsx:323-332 | a sparse axis and a non-text value keep the label; a changed label is the part of the text before a '-' |
| Series.BrushTick | frontend/src/components/MonthlySeriesChart.jsx:394-402 | the brush label has the same length as the value and differs from it only where a '-' became a '/'; a non-text value is kept |
| Stats.TotalAppend | frontend/src/pages/HomePage.jsx:19-24 | the sum over a concatenation is the sum over each part |
| Stats.Total | frontend/src/pages/HomePage.jsx:19-24 | a sum over items whose field is falsy (or adds nothing) is 0, and a sum of non-negative amounts is non-negative |
| Stats.TwoWithinTotal | frontend/src/pages/InternacoesSexoPage.jsx:94-96 | with no negative amounts, two different entries together never exceed the total |
| Stats.TotalNonNegative | frontend/src/pages/ObitosRacaPage.jsx:111 | with no negative amounts the total is not negative |
| Stats.OneWithinTotal | frontend/src/pages/ObitosRacaPage.jsx:111-117 | with no negative amounts every entry is at most the total |
| Stats.PositiveTotalHasPositiveEntry | frontend/src/pages/ObitosRacaPage.jsx:111 | a positive total needs a positive entry |
| Stats.Largest | frontend/src/pages/ObitosRacaPage.jsx:112-114 | the reduce picks an entry no smaller than any other and strictly larger than every earlier one: the first of the tied maxima |
| Stats.FirstMaximumIsUnique | frontend/src/pages/ObitosLocalPage.jsx:114-118 | those two properties single out exactly the entry the reduce picks |
| Stats.Biggest | frontend/src/pages/ObitosLocalPage.jsx:114-118 | the largest group is null exactly for an empty list |
| Stats.ShareOf | frontend/src/pages/ObitosLocalPage.jsx:119-121 | the share shows 0 exactly when there is no largest group or the total is not positive |
| Stats.ShareIsPercentage | frontend/src/pages/ObitosEstadoCivilPage.jsx:113-121 | with no negative amounts and a positive total, the largest group's share is a percentage above 0 and at most 100 |
| Stats.Mean | frontend/src/pages/SerieMensalPage.jsx:170-171 | the monthly mean is 0 for no months and otherwise the total over the count rounded half up |
| Stats.MeanOfEqualMonths | frontend/src/pages/SerieMensalPage.jsx:170-171 | the mean of months with equal figures is that figure |
| Stats.InsertDescending | frontend/src/pages/SerieMensalPage.jsx:27 | adding a year keeps the list latest-first and holds exactly the old years and the new one |
| Stats.Years | frontend/src/pages/SerieMensalPage.jsx:27 | the available years are latest-first and are exactly the records' non-zero years |
| Stats.AvailableYears | frontend/src/pages/SerieMensalPage.jsx:25-33 | the years come from the full data when it has records, else from the shown series, else the previous list stays |
| Stats.YearBounds | frontend/src/pages/SerieMensalPage.jsx:35-36 | the bounds are the least and greatest available year, or the last ten years when there are none |
| Stats.BoundsOfDescending | frontend/src/pages/SerieMensalPage.jsx:27-36 | for the latest-first list the bounds are its last and first entries |
| Stats.YearsAnalysed | frontend/src/pages/SerieMensalPage.jsx:230 | 'Anos Analisados' is at least 1 for a non-empty series and at most the number of records |
| Stats.YearsAnalysedCountsYears | frontend/src/pages/SerieMensalPage.jsx:230 | when every record has a non-zero year, 'Anos Analisados' is the number of available years |
| Stats.DescendingDistinct | frontend/src/pages/SerieMensalPage.jsx:27 | a latest-first list has no repeated years |
| Stats.FirstWith | frontend/src/pages/InternacoesSexoPage.jsx:95-96 | `find` yields the first record whose field has the value, or none when no record has it |
| Stats.SexCount | frontend/src/pages/InternacoesSexoPage.jsx:95-96 | a sex's count is 0 when no record names it, else the first such record's total or 0 |
| Stats.SexCountsWithinTotal | frontend/src/pages/InternacoesSexoPage.jsx:94-96 | the male and female counts never add up to more than the total |
| Stats.SexShare | frontend/src/pages/InternacoesSexoPage.jsx:97-98 | a sex's share is 0 without a positive total and within 0 to 100 otherwise |
| Stats.SexRatio | frontend/src/pages/InternacoesSexoPage.jsx:172 | the ratio is 'N/A' exactly without female admissions, and otherwise times the female count gives the male count |
| Pages.Abbreviation | frontend/src/pages/HomePage.jsx:34-36 | a month gives a non-empty abbreviation exactly when it is a number from 1 to 12 |
| Pages.FormatPeriod | frontend/src/pages/HomePage.jsx:29-32 | without a period or either of its years the text is "Período não disponível" |
| Pages.PeriodFields | frontend/src/pages/HomePage.jsx:29-47 | the period object the dashboard receives reads back its two years and two months |
| Pages.PeriodWithinOneYear | frontend/src/pages/HomePage.jsx:38-41 | within one year and with both months the text is "Mmm/Y - Mmm/Y" |
| Pages.PeriodWithinOneYearBare | frontend/src/pages/HomePage.jsx:38-42 | within one year and without both months the text is the bare year |
| Pages.PeriodAcrossYears | frontend/src/pages/HomePage.jsx:45-47 | across years each end shows "Mmm/Y" when it has a month and "Y" otherwise |
| Pages.AvailablePeriodIsShown | frontend/src/pages/HomePage.jsx:29-47 | with two non-zero years the text is never the unavailable notice |
| Pages.Top | frontend/src/pages/HomePage.jsx:26-27 | the top chapter is null exactly for an empty list, else the first record |
| Pages.FirstTen | frontend/src/pages/HomePage.jsx:250 | the deaths chart receives the first ten records, or all when fewer |
| Pages.DrillDown | frontend/src/pages/HomePage.jsx:252-261 | a click opens a drill-down exactly when it carries a chapter code, whose records are exactly the list's records with that code and whose original list is the whole list |
| Pages.DrillDownIsIdempotent | frontend/src/pages/HomePage.jsx:191-200 | drilling into the drilled records with the same click finds them all again |
| Pages.Received | frontend/src/pages/InternacoesCidCapPage.jsx:82 | `res.data \|\| []` and the failure branch both leave a truthy list |
| Pages.Params | frontend/src/pages/SerieMensalPage.jsx:96-108 | there are no parameters exactly when the locality is 'all' and no year or month is set |
| Pages.LookupParams | frontend/src/pages/SerieMensalPage.jsx:96-108 | a key reads the first set filter that writes it, or undefined |
| Pages.ParamsCarryFilters | frontend/src/pages/SerieMensalPage.jsx:96-108 | each parameter carries its filter's value and only set filters appear |
| Pages.Run | frontend/src/pages/SerieMensalPage.jsx:110-117 | the server is asked exactly when there are parameters, and the list shows its reply; otherwise the full data |
| Pages.Override | frontend/src/pages/SerieMensalPage.jsx:92-95 | a defined field of the applied object wins over the page's state |
| Pages.ApplySeries | frontend/src/pages/SerieMensalPage.jsx:87-121 | the list is blanked, the series is requested exactly when some filter in force is set, and otherwise the full data is shown |
| Pages.StoredFiltersApplyTheSame | frontend/src/pages/SerieMensalPage.jsx:194-207 | storing the applied object's defined fields and then applying it is the same as applying the stored state alone |
| Pages.PanelFiltersReachTheQuery | frontend/src/pages/SerieMensalPage.jsx:194-211 | the panel's object on this page carries every filter, so the page applies exactly what the panel holds |
| Pages.ApplyChapters | frontend/src/pages/InternacoesCidCapPage.jsx:66-92 | the list is not blanked, the server is asked exactly when a locality, year or month is set, and the drill-down closes unless the request failed |
| Pages.StoreChapters | frontend/src/pages/InternacoesCidCapPage.jsx:142-151 | each defined field of the applied object replaces the stored one; with none the state is unchanged |
| Pages.ApplyChaptersWith | frontend/src/pages/ObitosCidCapPage.jsx:142-155 | the intended handler: the request is made exactly when the stored locality, year or month is set, the stored state being the panel's |
| Pages.ChapterPanelReachesQuery | frontend/src/pages/InternacoesCidCapPage.jsx:142-158 | the panel's locality, year and month become the page's state and decide the request, whatever the page held before |
| Pages.ApplyChaptersAsWritten | frontend/src/pages/InternacoesCidCapPage.jsx:142-155 | the handler as written stores the panel's fields but the deferred `aplicarFiltros` queries with the state the handler was created with: a request exactly when that locality, year or month is set |
| Pages.StaleApplyIgnoresPanel | frontend/src/pages/ObitosCidCapPage.jsx:152-154 | what the handler as written shows does not depend on the panel's filters at all |
| Pages.StaleChapterApply | frontend/src/pages/InternacoesCidCapPage.jsx:152-154 | from the initial state, picking locality 5 stores it but makes no request, where the intended handler queries `id_localidade` 5 |
| Pages.EffectiveMunicipio | frontend/src/pages/InternacoesFaixaPage.jsx:68 | an argument that is neither null nor undefined wins over the selection |
| Pages.ApplyLocality | frontend/src/pages/InternacoesFaixaPage.jsx:64-83 | the list is blanked and the server is asked, with just the locality, exactly for a concrete locality; otherwise the full data |
| Pages.ApplyState | frontend/src/pages/ObitosRacaPage.jsx:63-80 | the server is asked, with just the locality, exactly when the selection is not 'all' |
| Pages.LocalityRulesAgree | frontend/src/pages/InternacoesSexoPage.jsx:61-76 | the two locality rules agree except on a null selection, which the race and sex pages send and the others do not |
| Pages.FailureShowsNothing | frontend/src/pages/ObitosRacaPage.jsx:75-76 | a failed request leaves an empty list |
| Pages.AdoptInitial | frontend/src/pages/ObitosRacaPage.jsx:47-52 | a non-empty initial list replaces both the full and the shown data; otherwise both stay |
| Pages.LocalityLine | frontend/src/pages/SerieMensalPage.jsx:125-130 | the "Município" line is written exactly when a locality is selected and found in the list |
| Pages.Head | frontend/src/pages/SerieMensalPage.jsx:128 | a line's head is its longest prefix without ':' |
| Pages.HeadOfLabel | frontend/src/pages/SerieMensalPage.jsx:128 | the head of "name: value" is the name |
| Pages.Line | frontend/src/pages/SerieMensalPage.jsx:132 | a written line's head is its name |
| Pages.Optional | frontend/src/pages/SerieMensalPage.jsx:131-138 | a line is written only when its filter is set |
| Pages.SeriesLines | frontend/src/pages/SerieMensalPage.jsx:123-138 | the lines are Município, Período and Mês, in that order, each exactly when its filter is set |
| Pages.ChapterLines | frontend/src/pages/InternacoesCidCapPage.jsx:94-113 | the lines are Município, Ano, Mês and Capítulo, in that order, each exactly when its filter or drill-down is set |
| Pages.MonthName | frontend/src/pages/InternacoesCidCapPage.jsx:107-109 | `meses[m]` is a non-empty month name for 1..12, empty for 0 and "undefined" for anything else |
| Export.Split | frontend/src/components/MonthlySeriesChart.jsx:325 | splitting always yields at least one part |
| Export.SplitJoin | frontend/src/components/MonthlySeriesChart.jsx:325 | splitting a join on a character no part holds gives the parts back |
| Export.Escape | frontend/src/utils/exportChart.js:454 | the quote-doubling the CSV writer would need leaves text without quotes unchanged |
| Export.ReadRecordOfEncoded | frontend/src/utils/exportChart.js:450-458 | a comma-joined line whose fields each carry their text as-is or quoted reads back to exactly those texts |
| Export.Cells | frontend/src/utils/exportChart.js:452-457 | a row's fields come one per header, in header order, each from that header's value |
| Export.Texts | frontend/src/utils/exportChart.js:453 | a row's texts come one per header, each the value or '' when it is falsy |
| Export.ExportCsv | frontend/src/utils/exportChart.js:444-463 | null or empty data gives no download; otherwise one named filename-timestamp.csv |
| Export.CsvLayout | frontend/src/utils/exportChart.js:449-458 | with no line break in keys or values the file has one header line of the first row's keys and one line per row over those keys |
| Export.LineAvoids | frontend/src/utils/exportChart.js:452-457 | a written line holds no character (other than comma and quote) that none of its values holds |
| Export.FalsyIsEmpty | frontend/src/utils/exportChart.js:453 | a missing, null, zero, false or empty value is written as an empty field |
| Export.QuotingRule | frontend/src/utils/exportChart.js:453-456 | a string is wrapped in quotes exactly when it contains a comma, with inner quotes kept; any other value is written as its text |
| Export.CsvLineReadsBack | frontend/src/utils/exportChart.js:450-458 | a row with no quote in its values, and commas only in strings, reads back field by field under RFC 4180 |
| Export.CellEncodes | frontend/src/utils/exportChart.js:453-456 | a value without quotes, holding a comma only as a string, is written in a form an RFC 4180 reader reads back |
| Export.EmbeddedQuoteBreaksField | frontend/src/utils/exportChart.js:454-455 | the string a,"b is written so that an RFC 4180 reader does not read it back |
| Export.RfcCell | frontend/src/utils/exportChart.js:454-455 | the corrected field quotes text with a comma, quote or line break and doubles inner quotes, so it always encodes its text |
| Export.RfcLineReadsBack | frontend/src/utils/exportChart.js:450-458 | with the corrected field every row reads back exactly, whatever its values |
| Export.NamesCarryTimestamp | frontend/src/utils/exportChart.js:463 | CSV and PNG download names are the name, a dash, the timestamp and the extension, and the timestamp reads back from the CSV name |
| Export.Cell | frontend/src/utils/exportChart.js:453-456 | a falsy value writes nothing; a text holding a comma is written between two quotes with the text unchanged inside; anything else is written as its text |
| Export.CsvName | frontend/src/utils/exportChart.js:463 | the CSV download name starts with the chosen name and a dash and ends in ".csv" |
| Export.PngName | frontend/src/utils/exportChart.js:305 | the PNG download name starts with the chosen name and a dash and ends in ".png" |
| Export.JoinSplit | frontend/src/components/MonthlySeriesChart.jsx:325 | joining the pieces of `split` on the same character gives the text back |
| Export.Measured | frontend/src/utils/exportChart.js:164-165 | a measured size falls back through the client size to a positive default, so it is never 0 |
| Export.PngCanvas | frontend/src/utils/exportChart.js:163-174 | the final canvas is at least 800 wide and at least as wide as the SVG; its height fits title, filters box, padding and the taller of the SVG and the captured chart |
| Export.SvgCanvas | frontend/src/utils/exportChart.js:336-344 | the fallback canvas is at least 800 wide and taller than its title band, filters box and padding together |
| Export.FiltersBoxGrowth | frontend/src/utils/exportChart.js:170 | the first filter line adds 100 pixels to the box and each further one 30 |
| Export.FallbackMatchesPrimary | frontend/src/utils/exportChart.js:336-344 | when the captured chart is no taller than the SVG, the fallback lays out the same canvas as the primary path |
| Auth.PasswordCheck | frontend/src/components/ResetPassword.jsx:81-91 | a password passes exactly when it matches its confirmation and its `length`, in UTF-16 units, is at least 6; a mismatch is reported first |
| Auth.AstralPasswordIsLongEnough | frontend/src/components/ResetPassword.jsx:87 | three emoji are six UTF-16 units, so they pass the length rule |
| Auth.SignUpCheck | frontend/src/components/SignUp.jsx:21-37 | the form passes exactly when all four fields are filled, the passwords match and have a `length` of 6 UTF-16 units; each failure gets its own message, in that order |
| Auth.SignUpReply | frontend/src/contexts/AuthContext.jsx:87-112 | sign-up succeeds exactly when the body has `success`, carries the confirmation flag then, and otherwise always has a truthy error: "Erro ao criar conta" for a body without `success`, the server-down text for a network failure, else the response's detail as sent (a 422 validation list included), else the message, else the default |
| Auth.SignUpSubmit | frontend/src/components/SignUp.jsx:17-66 | a failed check refuses with its message and never consults the server; otherwise the server's answer decides between refusal, email confirmation (for the typed email) and going to /, and a refusal shows the returned error when truthy, else "Erro ao criar conta" |
| Auth.ValidationListReachesToast | frontend/src/contexts/AuthContext.jsx:109-110 | a 422 answer whose detail is a list of validation errors reaches the sign-up toast as that list |
| Auth.Cut | frontend/src/components/ResetPassword.jsx:33 | a pair splits at its first '=' into a key without '=' and the rest; without '=' the value is empty |
| Auth.CutOf | frontend/src/components/ResetPassword.jsx:33 | a key without '=' joined to any value by '=' cuts back into that key and value |
| Auth.ParamOf | frontend/src/components/ResetPassword.jsx:33-36 | a parameter is found exactly when some non-empty pair has that key, and its value is the value of the first such pair |
| Auth.Open | frontend/src/components/ResetPassword.jsx:22-69 | no client is reported first; an empty hash checks for a session; a hash is exchanged only with a non-empty access token and the recovery type |
| Auth.ReportsInvalidLink | frontend/src/components/ResetPassword.jsx:38-67 | the link is reported invalid exactly for a bad hash, a failed exchange, or no session when there is no hash |
| Auth.RecoveryHashSplits | frontend/src/components/ResetPassword.jsx:31-33 | the identity provider's recovery link splits on '&' into its three pairs |
| Auth.RecoveryParams | frontend/src/components/ResetPassword.jsx:33-36 | the three pairs give back the access token, the refresh token and the recovery type |
| Auth.RecoveryLinkExchanges | frontend/src/components/ResetPassword.jsx:31-43 | a recovery link with a non-empty access token is exchanged for exactly the tokens it carries |
| Auth.NonRecoveryLinkIsBad | frontend/src/components/ResetPassword.jsx:52-57 | a non-empty hash without the recovery type is always a bad link |
| Auth.ResetCheck | frontend/src/components/ResetPassword.jsx:75-97 | the reset passes exactly when both fields are filled, match, have a `length` of 6 UTF-16 units and a client exists; an empty field and a missing client get their own messages |
| Auth.ResetChecksMatchSignUp | frontend/src/components/ResetPassword.jsx:75-91 | with a client and name and email filled, the reset form refuses exactly what the sign-up form refuses, with the same message |
| Auth.ResetMessage | frontend/src/components/ResetPassword.jsx:120-126 | a failure mentioning "expired" or "invalid" asks for a new link; any other is shown as is, or the default when empty |
| Auth.ResetSubmit | frontend/src/components/ResetPassword.jsx:71-130 | the password changes exactly when every check passes and the provider returns a user; a failed check refuses with its message, a provider error with its translated message, an update without a user with "Erro ao redefinir senha" |
| Auth.Restore | frontend/src/contexts/AuthContext.jsx:11-21 | start-up restores the token, the parsed user and the header exactly when both saved items are non-empty, and nothing otherwise |
| Auth.LoginError | frontend/src/contexts/AuthContext.jsx:43-84 | timeout first, then an unreachable server; a 401 gets the rejection of its detail (the wrong-password hint when a string detail names bad credentials), and throws when that detail has no `includes`; any other error shows its detail as sent (a 422 validation list included), else its message, else the generic text; every text given is truthy |
| Auth.Rejected | frontend/src/contexts/AuthContext.jsx:61-76 | a falsy detail gives the default; a string or array detail naming wrong credentials, else an unconfirmed email, gets the matching hint, any other is shown as it is; any other truthy detail throws |
| Auth.Login | frontend/src/contexts/AuthContext.jsx:23-85 | a login succeeds exactly for a body with `success` and a user, then stores user, token and refresh token; it throws exactly when LoginError does; a failure changes nothing and returns a truthy error, the login error or "Credenciais inválidas" |
| Auth.LoginSubmit | frontend/src/components/Login.jsx:14-38 | both fields are required; then a success toast exactly for a signed-in result, the returned error when truthy (else "Erro ao fazer login"), and "Erro inesperado. Tente novamente." when login throws |
| Auth.ValidationListReachesLoginToast | frontend/src/contexts/AuthContext.jsx:77-78 | a 422 answer whose detail is a list of validation errors reaches the login toast as that list |
| Auth.ObjectDetailIsUnexpected | frontend/src/contexts/AuthContext.jsx:61-66 | a 401 whose detail is an object makes `login` throw, and the login form shows its generic text |
| Auth.Logout | frontend/src/contexts/AuthContext.jsx:114-121 | no user, no token, no header, and exactly the three session keys removed from localStorage |
| Auth.LogoutUndoesLogin | frontend/src/contexts/AuthContext.jsx:23-39 | logging out after any login leaves localStorage as before, apart from the three session keys |
| Auth.LogoutForgetsSession | frontend/src/contexts/AuthContext.jsx:11-21 | after logging out a restart restores no session |
| Auth.LoginSurvivesRestart | frontend/src/contexts/AuthContext.jsx:11-39 | a successful login with a non-empty token is restored by a restart with the same user and header |
| Auth.Spread | frontend/src/contexts/AuthContext.jsx:131-134 | a key neither object has is undefined in the spread |
| Auth.SpreadKeeps | frontend/src/contexts/AuthContext.jsx:131-134 | a key the profile lacks keeps the user's value |
| Auth.SpreadOverrides | frontend/src/contexts/AuthContext.jsx:131-134 | the profile's last field with a key gives that key's value |
| Auth.UpdateProfile | frontend/src/contexts/AuthContext.jsx:123-147 | refused without user and token; succeeds exactly for a body with `success` and a profile, keeping the user's other fields and saving the merge; a failure changes nothing, has a truthy error, and a truthy detail is passed on as sent |
| Auth.ProfileOverridesUser | frontend/src/contexts/AuthContext.jsx:130-138 | after an update every field the profile carries has the profile's value |
| Auth.InitialForm | frontend/src/pages/PerfilPage.jsx:9-14 | the form has exactly the keys name, phone, organization and bio, each the user's value or '' |
| Auth.Change | frontend/src/pages/PerfilPage.jsx:17-23 | the named field takes the typed value and every other field is unchanged |
| Auth.EditsKeepProfileKeys | frontend/src/pages/PerfilPage.jsx:9-30 | any sequence of edits to the four inputs keeps the four keys, so the submitted object never carries an email |
| Auth.SaveNotice | frontend/src/pages/PerfilPage.jsx:30-36 | the toast is a success exactly when the update succeeded; an error shows the returned error when truthy, else the default |
| Auth.Cancel | frontend/src/pages/PerfilPage.jsx:138-144 | cancel calls the caller's handler exactly when one is given, else goes back in history |
| Backend.Placeholders | backend/app/main.py:423-483 | a query has at most one placeholder per fragment |
| Backend.PlaceholdersAppend | backend/app/main.py:423-483 | the placeholders of two query pieces add up |
| Backend.Filter | backend/app/main.py:424-426 | a truthy parameter appends its clause and itself; None or 0 leaves the query and parameters as they were |
| Backend.ActiveOnly | backend/app/main.py:424-432 | the bound parameters are exactly the truthy ones, never more than were given |
| Backend.ActiveOnlyAppend | backend/app/main.py:424-432 | the parameters of two runs of optional filters are those of the first run followed by those of the second |
| Backend.FilterBalanced | backend/app/main.py:424-426 | an optional filter keeps one placeholder per bound parameter |
| Backend.Append | backend/app/main.py:434-453 | fixed SQL text adds no placeholder and no parameter |
| Backend.FilterRun | backend/app/main.py:424-432 | a run of optional filters keeps one placeholder per parameter and binds exactly the truthy ones, in order |
| Backend.SeriesQuery | backend/app/main.py:406-483 | the monthly series query has one placeholder per parameter; the parameters are the truthy time filters, the locality twice, then the limit |
| Backend.SeriesParamCount | backend/app/main.py:423-483 | only the limit is bound without filters; each truthy time filter adds one parameter and the locality two; the limit comes last |
| Backend.ActiveOnlyOfThree | backend/app/main.py:424-432 | three optional filters bind the truthy ones among them, one each, in order |
| Backend.Count | backend/app/main.py:424 | a parameter counts one exactly when it is truthy |
| Backend.ChapterQuery | backend/app/main.py:730-801 | the chapter query has one placeholder per parameter, binds the truthy year, month and locality in that order, and is the unfiltered aggregate exactly when none is truthy |
| Backend.FilteredChapters | backend/app/main.py:756-801 | the filtered branch starts with the time CTE and binds the truthy year, month and locality in that order |
| Backend.Period | backend/app/main.py:393-402 | the period has the four keys in order, each the row's value (None when the row lacks it), or all None without a row |
| Backend.PyGet | backend/app/main.py:397-400 | `get` gives the stored value, or None for a missing key |
| Backend.TryColumns | backend/app/main.py:662-702 | the first column that answers wins after column errors on all before it; any other error is raised at once; none left exactly when every column fails on a column error |
| Backend.LocalOccurrence | backend/app/main.py:653-709 | rows exactly when some column answers; every error is a 500: the no-column detail, or the failure text quoting the error |
| Backend.FirstColumnWins | backend/app/main.py:662-695 | when `local_desc` answers no other column is tried |
| Backend.EmailPrefix | backend/app/main.py:179 | the prefix is the address up to its first '@', or the whole address without one |
| Backend.EmailPrefixIsFirstPart | backend/app/main.py:179 | the prefix is the first part of splitting the address on '@' |
| Backend.PrefixOfAddress | backend/app/main.py:216 | the address user@domain, with no '@' in user, is named user |
| Backend.SignUpName | backend/app/main.py:216 | the sign-up name is the given one unless it is missing or empty, else the email prefix |
| Backend.LoginName | backend/app/main.py:168-179 | with a profile the login name is its name (None when absent); without one it is the email prefix |
| Backend.ForgotPassword | backend/app/main.py:270-293 | the answer is always success with the same message |
| Backend.ForgotPasswordRevealsNothing | backend/app/main.py:282-293 | the answer is the same whether or not sending the email fails |
| Backend.UpdateProfileAsWritten | backend/app/main.py:312-321 | an empty update leaves as a 500 carrying the 400's text; a failing update is a 500 with its message |
| Backend.UpdateOutcome | backend/app/main.py:317-321 | the update is an error exactly when the database fails, and then it is a 500 |
| Backend.EmptyUpdateIsServerError | backend/app/main.py:314-321 | an empty update is answered with status 500 |
| Backend.UpdateProfile | backend/app/main.py:313-321 | the corrected endpoint answers 400 "Nenhum campo para atualizar" exactly for an empty update, and a 400 only then |
| Backend.UpdateProfileCorrectsOnlyEmpty | backend/app/main.py:313-321 | the corrected and the written endpoints agree exactly when some field was sent |
| Geo.FeatureUf | frontend/src/components/BrasilMapSimple.jsx:181-190 | the code is null exactly when none of the six code properties is truthy, and otherwise the first truthy one |
| Geo.RealFeatureUf | frontend/src/components/BrasilMapReal.jsx:250-256 | the code is the first truthy of `uf`, `sigla`, `SIGLA` and `UF`, and the upper-cased first two letters of `name` when all four are falsy |
| Geo.NamePrefix | frontend/src/components/BrasilMapReal.jsx:255 | a string name gives its first two characters (fewer for a shorter name), upper-cased |
| Geo.NamedFeatureHasNoCode | frontend/src/components/BrasilMapReal.jsx:250-255 | a feature carrying only its name has none of the four code properties, so its code comes from the name |
| Geo.PaNameIsPa | frontend/src/components/BrasilMapReal.jsx:250-255 | every name-only feature whose name starts with "Pa" gets the code PA |
| Geo.NamePrefixCollides | frontend/src/components/BrasilMapReal.jsx:250-255 | name-only features for Pará, Paraíba and Paraná all get the code PA |
| Geo.FeatureName | frontend/src/components/BrasilMapRealLeaflet.jsx:259-262 | the name is the first truthy name property, else the code, else "Desconhecido", and is never falsy |
| Geo.NameLookup | frontend/src/components/BrasilMapRealLeaflet.jsx:102-111 | a name is found exactly when the table has an entry for the code, and then it is that entry's name |
| Geo.NameLookupAt | frontend/src/components/BrasilMapRealLeaflet.jsx:102-111 | an entry whose code no earlier entry has is found with its own name |
| Geo.NameFromUf | frontend/src/components/BrasilMapRealLeaflet.jsx:101-112 | a code the table lacks is shown as itself |
| Geo.StateCodesDistinct | frontend/src/components/BrasilMapRealLeaflet.jsx:102-110 | the table has 27 pairwise distinct codes |
| Geo.StateNamesNonEmpty | frontend/src/components/BrasilMapRealLeaflet.jsx:102-110 | every state name in the table is non-empty |
| Geo.NameFromUfKnown | frontend/src/components/BrasilMapRealLeaflet.jsx:101-111 | every code of the table is shown with the table's name for it |
| Geo.FallbackCoversStates | frontend/src/components/BrasilMapReal.jsx:37-66 | the fallback has 27 features with distinct codes, each resolving to its own code and named as the name table names it |
| Geo.FallbackMirrorsNames | frontend/src/components/BrasilMapReal.jsx:40-66 | the fallback lists the name table's pairs, in the same order, swapped |
| Geo.FallbackFeatureUf | frontend/src/components/BrasilMapReal.jsx:250-255 | a fallback feature with a non-empty code resolves to that code |
| Geo.RealStyle | frontend/src/components/BrasilMapReal.jsx:258-272 | a feature without a code is grey; one with a code is coloured by its total, with weight 2 and opacity 0.7 exactly when it has data |
| Geo.PopupOnlyWithData | frontend/src/components/BrasilMapReal.jsx:274-310 | a popup is bound only to a feature with a code whose state has a positive total, and never without a code |
| Geo.CidOptions | frontend/src/components/BrasilMapSimple.jsx:192-198 | "Todos os Capítulos" first, then one option per chapter, in order, valued by its code and labelled "code - name" |
| Geo.Shown | frontend/src/components/BrasilMapSimple.jsx:213 | a label is never over 50 characters: short ones as they are, long ones as their first 47 and "..." |
| Geo.NormaliseGeo | frontend/src/components/BrasilMapSimple.jsx:71-80 | a feature collection with features is kept; a bare array becomes a feature collection of it; anything else is kept as it is |
| Geo.NormaliseGeoIdempotent | frontend/src/components/BrasilMapSimple.jsx:73-80 | normalising an array or a collection twice is normalising it once |
| Geo.Recover | frontend/src/components/BrasilMapSimple.jsx:86-98 | after a failure the cache is used exactly when it can be read, however old; otherwise the map shows an error |
| Geo.CachedEntry | frontend/src/components/BrasilMapSimple.jsx:31-33 | an entry is read exactly when the cache holds a text that parses to a value other than null |
| Geo.FreshEntry | frontend/src/components/BrasilMapSimple.jsx:34-36 | a cached map is fresh exactly when less than 24 hours have passed since its numeric timestamp; a fresh entry has a numeric timestamp |
| Geo.FreshEarlier | frontend/src/components/BrasilMapSimple.jsx:34-36 | an entry fresh now was fresh at every earlier time |
| Geo.Accept | frontend/src/components/BrasilMapSimple.jsx:70-98 | a body that is not null, whose entry localStorage accepts, shows its normalised form, sets no error and caches exactly what it shows with the time; a refused write or a missing body falls back to the cache as it was |
| Geo.LoadGeoJson | frontend/src/components/BrasilMapSimple.jsx:29-101 | at most two fetches; none exactly for an unreadable or fresh cache; the second only after a 429; the cache is written only on success, with the time; a successful first fetch shows the normalised body and caches exactly what it shows when localStorage accepts it, and otherwise recovers from the old cache |
| Geo.RateLimitedUsesStaleCache | frontend/src/components/BrasilMapSimple.jsx:49-62 | when both servers refuse and an old cache exists, the old cache is shown after two fetches |
| Geo.RefusedWriteDropsFetchedMap | frontend/src/components/BrasilMapSimple.jsx:81-98 | when localStorage refuses the fetched map's entry, the store is unchanged and the old cache is shown, or the load error without one |
| Geo.GeoCacheRoundTrip | frontend/src/components/BrasilMapSimple.jsx:31-84 | when a load wrote its entry and that entry parses back as written, any load less than 24 hours later serves that map unchanged without fetching |
| StateMap.KeyOf | frontend/src/components/BrasilMapSimple.jsx:121-122 | a normalised key is the non-empty upper-cased trimmed code; a falsy or blank code skips the row; a truthy non-string throws; raw keys are the code's text |
| StateMap.Step | frontend/src/components/BrasilMapSimple.jsx:124-138 | one row adds its state and nothing else, adds its amount to that state's total, leaves other states alone, and keeps a chapter code or name once it is truthy |
| StateMap.RawAmount | frontend/src/components/BrasilMapReal.jsx:197 | a falsy total counts 0 and a number counts itself |
| StateMap.Collect | frontend/src/components/BrasilMapSimple.jsx:120-140 | reading the rows fails exactly when some row throws, and otherwise yields at most one contribution per row |
| StateMap.CollectKeys | frontend/src/components/BrasilMapSimple.jsx:120-140 | a state receives a contribution exactly when some row yields its key |
| StateMap.KeyedReadContributes | frontend/src/components/BrasilMapSimple.jsx:120-140 | every row that yields a key contributes to that key |
| StateMap.ContributionHasRead | frontend/src/components/BrasilMapSimple.jsx:120-140 | every contribution comes from a row that yields its key |
| StateMap.FirstTruthy | frontend/src/components/BrasilMapSimple.jsx:183-189 | the first truthy value, preceded only by falsy ones, or null exactly when all are falsy |
| StateMap.FirstTruthyAppend | frontend/src/components/BrasilMapSimple.jsx:133-138 | appending a value changes the first truthy value only when none was truthy before |
| StateMap.NoKeyNoCods | frontend/src/components/BrasilMapSimple.jsx:124-138 | a state no row names has no chapters and a zero sum |
| StateMap.Fold | frontend/src/components/BrasilMapSimple.jsx:118-140 | a state is present exactly when some row names it, and its total is the sum of its rows' amounts |
| StateMap.FoldKeepsFirstChapter | frontend/src/components/BrasilMapSimple.jsx:124-138 | a state's chapter code and name are the first truthy ones among its rows |
| StateMap.LastWins | frontend/src/components/BrasilMap.jsx:48-55 | a state is present exactly when some row names it |
| StateMap.LastAmountAppend | frontend/src/components/BrasilMap.jsx:48-55 | a new row for a state replaces its amount and leaves the others alone |
| StateMap.LastRowWins | frontend/src/components/BrasilMap.jsx:48-55 | each state ends with the amount of its last row |
| StateMap.LastAmountIsLastRow | frontend/src/components/BrasilMap.jsx:48-55 | the amount of a state is that of the row after which no row names it |
| StateMap.LastAmountUnchanged | frontend/src/components/BrasilMap.jsx:48-55 | rows for other states do not change a state's amount |
| StateMap.TotalGeral | frontend/src/components/BrasilMap.jsx:53 | the general total is the sum of the numeric hospitalisation and death totals; a falsy total counts 0, so a row with only one numeric total has that total and one with neither has 0 |
| StateMap.GeralContributions | frontend/src/components/BrasilMap.jsx:48-55 | reading fails exactly when a row is nullish; otherwise one contribution per row, keyed by its code, with its general total |
| StateMap.GeralLastRowWins | frontend/src/components/BrasilMap.jsx:48-55 | a state named by a row that no later row names is present with that row's general total |
| StateMap.LoadGeral | frontend/src/components/BrasilMap.jsx:42-60 | a failure keeps the previous map; a readable array gives exactly the states its rows name |
| StateMap.Totals | frontend/src/components/BrasilMapSimple.jsx:162-164 | the totals have the same states as the summaries, each the state's total |
| StateMap.MaxValue | frontend/src/components/BrasilMapSimple.jsx:162-165 | the maximum is at least 1, no total exceeds it, and it is 1 or one of the totals |
| StateMap.RatioAbove | frontend/src/components/BrasilMapSimple.jsx:173-177 | comparing the ratio with a fraction is comparing cross products |
| StateMap.Bucket | frontend/src/components/BrasilMapSimple.jsx:173-178 | the darkest shade exactly above 0.7 of the maximum, then above 0.5, 0.3 and 0.1, the lightest otherwise |
| StateMap.BucketMonotone | frontend/src/components/BrasilMapSimple.jsx:173-178 | a larger total never gets a lighter shade |
| StateMap.Colour | frontend/src/components/BrasilMapSimple.jsx:167-179 | a state without an entry or with a zero total gets the empty colour; any other gets the shade of its ratio |
| StateMap.MaxStateGetsTopColour | frontend/src/components/BrasilMapSimple.jsx:162-178 | a state holding the largest positive total gets the darkest shade |
| StateMap.RatioAtMostOne | frontend/src/components/BrasilMapSimple.jsx:162-165 | no state's total exceeds the maximum |
| StateMap.Radius | frontend/src/components/BrasilMap.jsx:117-120 | 12 without data; with data between 15 and 35, growing with the ratio, and 35 from 0.8 of the maximum on |
| StateMap.RadiusMonotone | frontend/src/components/BrasilMap.jsx:117-120 | a larger total never draws a smaller circle |
| StateMap.Opacity | frontend/src/components/BrasilMap.jsx:85-88 | a state is dimmed to 0.5 exactly while another state is hovered |
| StateMap.HoverKeepsData | frontend/src/components/BrasilMap.jsx:133-138 | only states with data ever become hovered, and leaving clears the hover |
| StateMap.HoveredStateStaysOpaque | frontend/src/components/BrasilMap.jsx:85-88 | after hovering a state with data it stays opaque and every other state is dimmed |
| StateMap.LoadNormalised | frontend/src/components/BrasilMapSimple.jsx:107-155 | an error always clears the map; a non-empty array is folded; anything else is an empty map; a failure shows the 429, timeout or generic message |
| StateMap.NormalisedKeysCome | frontend/src/components/BrasilMapSimple.jsx:119-122 | every state shown is a non-empty upper-cased trimmed code that some row carried |
| StateMap.ContributedKeyHasRow | frontend/src/components/BrasilMapSimple.jsx:119-122 | every folded state comes from a row whose code normalises to it |
| StateMap.LoadRaw | frontend/src/components/BrasilMapReal.jsx:169-215 | without chapters nothing loads; any error keeps the previous map with the timeout or generic message; success folds the rows under their raw codes |
| StateMap.Click | frontend/src/components/BrasilMapSimple.jsx:346-354 | clicking opens a state's details exactly when it has data, and otherwise changes nothing |
| Sync.RetryFrom | frontend/src/App.jsx:163-188 | from a given attempt on, the loop retries only after network failures, stops at a decisive attempt, and waits 3 s times the attempt number before each retry |
| Sync.LoadWithRetry | frontend/src/App.jsx:162-189 | at most retries + 1 requests; every attempt but the last was a network failure; the result is the body (or [] when falsy) or [] on failure, never falsy; a toast only for a forced refresh whose last attempt failed |
| Sync.NonNetworkFailureStops | frontend/src/App.jsx:183-185 | a failure that is not a network error ends the loop at once with [] and no toast |
| Sync.CacheIndex | frontend/src/App.jsx:256-266 | every dataset has its own position in the cached snapshot |
| Sync.CachedPeriod | frontend/src/App.jsx:265 | the cached period is the fetched one when it is truthy and null otherwise, and never another falsy value |
| Sync.StoreKeysDiffer | frontend/src/App.jsx:50-52 | the four localStorage keys are pairwise distinct |
| Sync.Initial | frontend/src/App.jsx:27-47 | the first render has every dataset [], nothing loading, navigation locked, and the saved page or the dashboard |
| Sync.LoadFromCache | frontend/src/App.jsx:114-140 | the cache changes only the datasets and the period, and every restored dataset is truthy; anything else is left as it was |
| Sync.CachedDatasets | frontend/src/App.jsx:127-134 | each of the eight datasets is restored, [] when missing or falsy |
| Sync.SnapshotKeysDistinct | frontend/src/App.jsx:256-266 | the snapshot's nine field names are pairwise distinct |
| Sync.SnapshotFields | frontend/src/App.jsx:142-149 | every field of the written snapshot reads back as the value written into it |
| Sync.CacheRoundTrip | frontend/src/App.jsx:114-149 | a snapshot read back within 24 hours restores exactly the datasets and period written |
| Sync.BeginSync | frontend/src/App.jsx:155-161 | the overlay, else the refresh indicator, else the loading indicator is raised, and nothing else changes |
| Sync.LoaderToasts | frontend/src/App.jsx:176-179 | at most one error toast per loader |
| Sync.ErrorMessage | frontend/src/App.jsx:176-178 | the failure toast is "Erro ao carregar ", the dataset's name and ". Tente novamente mais tarde." |
| Sync.ErrorMessagesDistinct | frontend/src/App.jsx:176-178 | two datasets never fail with the same message |
| Sync.LoadAll | frontend/src/App.jsx:237-246 | all eight datasets settle, each with its own retry loop; without a forced refresh no loader toasts |
| Sync.Settle | frontend/src/App.jsx:237-271 | each dataset takes its loader's result; the period is the body or the all-null placeholder; the snapshot is cached and the sync flag set; only loader toasts are added |
| Sync.Conclude | frontend/src/App.jsx:273-288 | indicators drop; navigation unlocks and the overlay succeeds only with the overlay; a success toast only for a forced refresh without it |
| Sync.SyncAll | frontend/src/App.jsx:154-289 | a sync settles all datasets, caches them, sets the sync flag, adds toasts only for a forced refresh, and leaves page, history and tutorial alone |
| Sync.NoToastWithoutRefresh | frontend/src/App.jsx:177-179 | loaders that notify nothing add no toast |
| Sync.Refresh | frontend/src/App.jsx:291-294 | a refresh marks the store as synced and unlocks navigation when it is the first sync |
| Sync.TutorialStartSync | frontend/src/App.jsx:296-300 | starting from the tutorial dismisses it for good, syncs with the overlay, unlocks navigation and adds no toast |
| Sync.SyncKeepsTutorial | frontend/src/App.jsx:268-271 | writing the cache and the sync flag keeps the tutorial flag, and the sync flag is set |
| Sync.TutorialClose | frontend/src/App.jsx:302-305 | closing the tutorial dismisses it for good and changes neither data nor navigation |
| Sync.LookupsInverse | frontend/src/App.jsx:55-66 | in a table with no repeated path or page, a path leads to a page exactly when that page leads to the path |
| Sync.UrlLookupFound | frontend/src/App.jsx:69 | a page found for a path comes from a row of the table |
| Sync.PageLookupFound | frontend/src/App.jsx:427 | a path found for a page comes from a row of the table |
| Sync.UrlLookupNone | frontend/src/App.jsx:55-69 | a path is missing from the table exactly when no row holds it |
| Sync.PageLookupNone | frontend/src/App.jsx:415-427 | a page is missing from the table exactly when no row holds it |
| Sync.UrlToPage | frontend/src/App.jsx:55-69 | a path leads to a page exactly when some route has that path, and then to that route's page |
| Sync.PageToUrl | frontend/src/App.jsx:415-427 | a page with a route leads to that route's path; a page without one leads to "/" |
| Sync.RoutesInverse | frontend/src/App.jsx:55-66 | a path selects a page exactly when that page's URL is the path, and that URL is pushed for it |
| Sync.RoutesBijective | frontend/src/App.jsx:415-426 | no path and no page appears twice in the routing table |
| Sync.ChangePage | frontend/src/App.jsx:407-429 | before the first sync only the dashboard can be opened; otherwise the page is shown, saved and one URL pushed; data and navigation are unchanged |
| Sync.PushedUrlRestoresPage | frontend/src/App.jsx:101-108 | the URL pushed for a page of the table leads back to it; any other page pushes the dashboard's URL |
| Sync.FollowUrl | frontend/src/App.jsx:68-75 | a known path selects and saves its page; any other path changes nothing |
| Sync.Mount | frontend/src/App.jsx:49-84 | after a sync, mounting unlocks navigation; otherwise the tutorial shows unless it was seen |
| Sync.ReloadRestoresSync | frontend/src/App.jsx:49-149 | reloading within 24 hours of a sync unlocks navigation and brings back the same datasets and the cached period, provided the written snapshot reads back as itself |
| Sync.RoutedAfterSync | frontend/src/App.jsx:27-84 | a reopened tab still holds the cache and the sync flag after following the URL |

## Left out

- Rendering: React components and hooks, Leaflet, Recharts and canvas drawing are not modelled. The model stops at the values they are given: rows, sizes, colours, labels and texts.
- Timers: `setTimeout` delays (retry back-off, the deferred apply, toast lifetimes) are not modelled. Only the order of the steps they schedule is kept.
- Floating point: numbers are integers. `toFixed`, percentages with decimals and the 0.7/1.4 zoom factors are modelled as integer arithmetic (cross-multiplication, floor).
- Outside services: the network, the database, the identity provider, JSON parse/stringify and the clock are parameters. A fetch is an outcome (data, HTTP error or network error) chosen by the caller.
- SQL: the queries are modelled as text plus parameter lists. Their evaluation in PostgreSQL is not, and neither are aborted transactions.
- Backend.ChapterQuery: the cid-cap fallback that re-runs the query without the chapter-name column after an UndefinedColumn error (backend/app/main.py:809-866) is not modelled.
- Backend.UpdateProfileAsWritten: the text of `str(HTTPException)` is a parameter, since it depends on the framework's formatting.
- Backend.TryColumns: Python's Unicode-aware `lower()` on the error text is modelled by `Js.Lower`, which maps ASCII and Latin-1 letters only.
- Js.NumberOr0: `Number(…)` reads signed decimal integers only. Fractions, exponents, hexadecimal and `Infinity` read as NaN, i.e. 0.
- Filters.ParseSelect: a select value that `parseInt` reads as NaN becomes null like the empty value. The dashboard's selects only offer numbers and ''.
- Stats.Largest: compares `total_obitos || 0` as integers, with a string total counting as 0. JavaScript's `>` would compare a numeric string numerically against a number and two strings by their characters ("9" > "10"), which is not an order, so the first maximum would depend on the order of the rows. The server sends numbers.
- Auth.ParamOf: `URLSearchParams` percent- and '+'-decoding of values is not modelled. Keys and values are taken verbatim.
- Descriptions.Describe: ids that name `Object.prototype` properties (such as `constructor`) are not modelled. They would return a function instead of ''.
- Pages.Abbreviation: a month given as a numeric string (`"3"`) indexes the table in JavaScript. The model treats only numbers 1..12 as months.
- Pages.LocalityLine: a `null` entry in the locality list makes the source's `find` throw. The model looks the id up with the null-skipping `Filters.Find`.
- Pages.ApplyChaptersWith: the chapter pages' panel handler as intended, applying the filters it has just stored. The handler as written runs `aplicarFiltros` through a closure of the render that created it; that is Pages.ApplyChaptersAsWritten, listed under "## Findings".
- Pages.ApplyState: the panel handlers of frontend/src/pages/InternacoesSexoPage.jsx:121-128 and frontend/src/pages/ObitosRacaPage.jsx:140-147 store the municipio and run `aplicarFiltros` through the same kind of closure, so the deferred call sees the previous municipio. Those two handlers are not modelled; Pages.ApplyState is the apply step itself.
- StateMap.KeyOf: `Js.Upper` maps only ASCII and Latin-1 letters, so a state code with other cased letters keys differently than `toUpperCase` would. Codes are two ASCII letters in practice.
- Geo.Shown: lengths and `substring` positions are counted in characters rather than UTF-16 units, so a label with characters above U+FFFF is cut at a different place than in the source.
- Stats.Total: a field holding a non-empty string or an object would be concatenated by `+` in the source. The model adds numbers as they are, `true` as 1 and every other value as 0.
- StateMap.RawAmount: a total sent as a non-empty string would make `+` concatenate in the source. The model counts it as 0, like other non-numeric truthy values.
- StateMap.TotalGeral: for the same reason the general total of a row with a string total is not the source's concatenated string.
- Stats.Years: a truthy non-numeric year (such as the string "2023") is kept by the source's `filter(Boolean)` and sorted by numeric coercion. The model lists numeric years only.
- Stats.SexCount: a sex's total sent as a non-empty string is returned as that string by the source. The model counts it like Stats.Total does.
- Export.ExportCsv: `Object.keys` lists integer-like keys (such as "2023") first, in numeric order. The model keeps the keys in insertion order.
- Geo.NamePrefix: a `name` that is neither a string nor null/undefined throws in the source, since it has no `substring`. The model gives `undefined` for it, as for a nullish name. `Js.Upper` maps only ASCII and Latin-1 letters, so other cased letters in a name are not upper-cased as `toUpperCase` would.
- Auth.Restore: a saved user that `JSON.parse` rejects throws during start-up in the source. `parse` is a total function of the model.
- Filters.Search: `Js.Lower` maps only ASCII and Latin-1 letters, so a term or locality with other cased letters may match differently than `toLowerCase`. The exception thrown by `.toLowerCase()` on a truthy non-string municipio or uf is modelled by Filters.SearchOutcome, not by Filters.Search.
- Sync.SyncAll: the outer `catch` of `carregarDados` (error overlay and error toast) is not modelled. Only an exception from localStorage could reach it.
- Sync.LoadAll: the requests run concurrently under `Promise.all`. The model settles them in dataset order, which only affects the order of the toasts.
- Sync.CachedPeriod: after `/api/periodo-dados` fails, the page shows the all-null period object but the cache stores `null`. A reload therefore shows "Período não disponível" either way, and Sync.ReloadRestoresSync states the cached value.
- Filters.jsx: its search, selected text, pick and focus rules are the same functions as ChartFilters.jsx's. They are modelled once, in `Filters`.

## Findings

| source | as written | input that shows it | evidently intended | confidence | as-written member | corrected member |
|---|---|---|---|---|---|---|
| frontend/src/utils/exportChart.js:454-456 | a string cell that contains a comma is wrapped in quotes, but quotes inside it are not doubled | the text `a,"b` becomes `"a,"b"`, which a CSV reader does not read back as `a,"b` | double embedded quotes (section 2 of RFC 4180) so that every cell reads back | not executed | Export.EmbeddedQuoteBreaksField | Export.RfcCell, Export.RfcLineReadsBack |
| frontend/src/components/ChartFilters.jsx:87 | the placeholder 'Selecione uma cidade' is the fallback for an empty trimmed "municipio - uf" text | a locality with neither municipio nor uf shows `-`, because `" - ".trim()` is `"-"`, which is truthy | show the placeholder when the locality has no name | not executed | Filters.NamelessLocalityShowsDash, Filters.PlaceholderUnreachable | Filters.SelectedTextIntended |
| backend/app/main.py:314-321 | the 400 "Nenhum campo para atualizar" is raised inside a `try` whose `except Exception` turns it into a 500 | a profile update with no fields gets status 500 | answer 400 for an empty update | not executed | Backend.UpdateProfileAsWritten, Backend.EmptyUpdateIsServerError | Backend.UpdateProfile, Backend.UpdateProfileCorrectsOnlyEmpty |
| frontend/src/pages/InternacoesCidCapPage.jsx:152-154 | the panel handler stores the filters with `setSelected…` and then runs `aplicarFiltros` 100 ms later, through a closure of the render that created the handler; the same holds at frontend/src/pages/ObitosCidCapPage.jsx:152-154 | from the initial state (all localities, no year, no month), applying locality 5 stores 5 but the deferred call still sees "all" and makes no request | query with the filters just applied | not executed | Pages.ApplyChaptersAsWritten, Pages.StaleChapterApply | Pages.ApplyChaptersWith, Pages.ChapterPanelReachesQuery |

=== FILE: auth.dfy ===
/** Accounts: the sign-up and password-reset forms (components/SignUp.jsx,
    components/ResetPassword.jsx), the session kept by the authentication
    context (contexts/AuthContext.jsx) and the profile form (pages/PerfilPage.jsx).

    The server, the identity provider and JSON are oracles passed in; the
    browser's localStorage is a map from key to string. */
module Auth {
  import opened Js
  import Export

  // ---------------------------------------------------------------------------
  // Messages

  const FillAll := "Por favor, preencha todos os campos"
  const NoMatch := "As senhas não coincidem"
  const TooShort := "A senha deve ter pelo menos 6 caracteres"
  const NoClient := "Configuração do Supabase não encontrada"
  const SignUpFailed := "Erro ao criar conta"
  const ServerDown := "Servidor não está rodando. Por favor, inicie o backend na porta 8000."
  const TimedOut := "Tempo de espera esgotado. Verifique sua conexão ou tente novamente."
  const BadCredentials := "Credenciais inválidas"
  const WrongPassword := "Email ou senha incorretos"
  const WrongPasswordHint := "Email ou senha incorretos. Verifique suas credenciais e tente novamente."
  const Unconfirmed := "Email não confirmado. Verifique sua caixa de entrada e confirme seu email antes de fazer login."
  const LinkInvalid := "Link inválido ou expirado"
  const LinkExpired := "Link inválido ou expirado. Solicite um novo link."
  const ResetFailed := "Erro ao redefinir senha"
  const NotSignedIn := "Usuário não autenticado"
  const ProfileFailed := "Erro ao atualizar perfil"
  const LoginFailed := "Erro ao fazer login"
  const Unexpected := "Erro inesperado. Tente novamente."

  /** The shortest password either form accepts. */
  const MinPassword := 6

  // ---------------------------------------------------------------------------
  // Password checks, shared by both forms in the same order

  /** The first failing password check, or `None` when both pass. */
  function PasswordCheck(password: string, confirm: string): (e: Option<string>)
    ensures e.None? <==> password == confirm && Utf16Length(password) >= MinPassword
    ensures e == Some(NoMatch) <==> password != confirm
  {
    if password != confirm then Some(NoMatch)
    else if Utf16Length(password) < MinPassword then Some(TooShort)
    else None
  }

  /** Three emoji are six UTF-16 code units, so they make a long enough password. */
  lemma AstralPasswordIsLongEnough()
    ensures Utf16Length("\U{1F600}\U{1F600}\U{1F600}") == 6
    ensures PasswordCheck("\U{1F600}\U{1F600}\U{1F600}", "\U{1F600}\U{1F600}\U{1F600}").None?
  {
    var e := "\U{1F600}";
    assert e + e + e == "\U{1F600}\U{1F600}\U{1F600}";
    Utf16LengthAppend(e, e);
    Utf16LengthAppend(e + e, e);
    assert e[..0] == [];
  }

  /** What the sign-up form holds. */
  datatype SignUpForm = SignUpForm(name: string, email: string, password: string, confirm: string)

  /** `handleSubmit` of the sign-up form, before calling the server: every field
      must be filled, then the passwords must match, then be long enough. */
  function SignUpCheck(f: SignUpForm): (e: Option<string>)
    ensures e.None? <==> (f.name != "" && f.email != "" && f.password != ""
      && f.password == f.confirm && Utf16Length(f.password) >= MinPassword)
    ensures e == Some(FillAll) <==> f.name == "" || f.email == "" || f.password == "" || f.confirm == ""
    ensures e == Some(NoMatch) <==> f.name != "" && f.email != "" && f.password != "" && f.confirm != "" && f.password != f.confirm
    ensures e == Some(TooShort) <==> f.name != "" && f.email != "" && f.password != "" && f.password == f.confirm && Utf16Length(f.password) < MinPassword
  {
    if f.name == "" || f.email == "" || f.password == "" || f.confirm == "" then Some(FillAll)
    else PasswordCheck(f.password, f.confirm)
  }

  /** A failure reported by the HTTP client: its code and message, the
      response's status when there was one, and `error.response?.data?.detail`
      (undefined without a response). The server's own errors carry a string
      detail; a request body that fails the server's validation (an email the
      `EmailStr` type refuses, say) is answered with status 422 and a list of
      error objects as its detail. */
  datatype Failure = Failure(code: string, message: string, status: Option<int>, detail: Value)

  /** The server's answer: the response body, or a failure. */
  datatype Reply = Ok(data: Value) | Err(failure: Failure)

  predicate IsNetwork(e: Failure) {
    e.code == "ERR_NETWORK" || e.message == "Network Error"
  }

  /** The result the context hands back to a form; `error` is whatever the
      context put there, a string or the server's detail as sent. */
  datatype SignUpResult = SignUpResult(success: bool, error: Value, needsConfirmation: bool)

  /** `signUp` of the context: a body with `success` signs up (and says whether
      the email must be confirmed); a network failure blames the server;
      otherwise the detail, the message or the default text. */
  function SignUpReply(r: Reply): (res: SignUpResult)
    ensures res.success <==> r.Ok? && Truthy(Get(r.data, "success"))
    ensures res.success ==> res.needsConfirmation == Truthy(Get(r.data, "needs_email_confirmation"))
    ensures !res.success ==> Truthy(res.error)
    ensures r.Ok? && !res.success ==> res.error == Str(SignUpFailed)
    ensures r.Err? && IsNetwork(r.failure) ==> res.error == Str(ServerDown)
    ensures r.Err? && !IsNetwork(r.failure) && Truthy(r.failure.detail) ==> res.error == r.failure.detail
    ensures r.Err? && !IsNetwork(r.failure) && !Truthy(r.failure.detail) ==>
      res.error == Str(if r.failure.message != "" then r.failure.message else SignUpFailed)
  {
    match r
    case Ok(data) =>
      if Truthy(Get(data, "success")) then SignUpResult(true, Str(""), Truthy(Get(data, "needs_email_confirmation")))
      else SignUpResult(false, Str(SignUpFailed), false)
    case Err(e) =>
      if IsNetwork(e) then SignUpResult(false, Str(ServerDown), false)
      else SignUpResult(false, Or(e.detail, Or(Str(e.message), Str(SignUpFailed))), false)
  }

  /** What the sign-up form ends with: the toast's content when refused. */
  datatype SignUpView = Refused(message: Value) | ConfirmEmail(email: string) | Welcome(path: string)

  /** The whole submit: the checks, then the server's result. The result is
      only consulted (the server only called) when every check passes. */
  function SignUpSubmit(f: SignUpForm, result: SignUpResult): (v: SignUpView)
    ensures SignUpCheck(f).Some? ==> v == Refused(Str(SignUpCheck(f).value))
    ensures SignUpCheck(f).None? ==>
      (v.Refused? <==> !result.success)
      && (v.ConfirmEmail? <==> result.success && result.needsConfirmation)
    ensures SignUpCheck(f).None? && !result.success && Truthy(result.error) ==> v == Refused(result.error)
    ensures SignUpCheck(f).None? && !result.success && !Truthy(result.error) ==> v == Refused(Str(SignUpFailed))
    ensures v.ConfirmEmail? ==> v.email == f.email
    ensures v.Welcome? ==> v.path == "/"
    ensures v.Refused? ==> Truthy(v.message)
  {
    match SignUpCheck(f)
    case Some(e) => Refused(Str(e))
    case None =>
      if !result.success then Refused(Or(result.error, Str(SignUpFailed)))
      else if result.needsConfirmation then ConfirmEmail(f.email)
      else Welcome("/")
  }

  /** An address the browser's email field accepts but the server's email type
      refuses is answered with a list of validation errors, and the sign-up
      form hands that list to the toast as it is. */
  lemma ValidationListReachesToast(f: SignUpForm, errors: seq<Value>)
    requires SignUpCheck(f).None?
    ensures var reply := Err(Failure("ERR_BAD_REQUEST", "Request failed with status code 422", Some(422), Arr(errors)));
      SignUpSubmit(f, SignUpReply(reply)) == Refused(Arr(errors))
  {
  }

  // ---------------------------------------------------------------------------
  // The recovery link

  /** A `key=value` pair, cut at its first '='; without one the value is empty. */
  function Cut(pair: string): (kv: (string, string))
    ensures '=' !in kv.0
    ensures '=' in pair ==> pair == kv.0 + "=" + kv.1
    ensures '=' !in pair ==> kv == (pair, "")
  {
    if |pair| == 0 then ("", "")
    else if pair[0] == '=' then
      assert pair == "" + "=" + pair[1..];
      ("", pair[1..])
    else
      var kv := Cut(pair[1..]);
      assert pair == [pair[0]] + pair[1..];
      ([pair[0]] + kv.0, kv.1)
  }

  lemma {:induction false} CutOf(k: string, v: string)
    requires '=' !in k
    ensures Cut(k + "=" + v) == (k, v)
  {
    if |k| > 0 {
      assert (k + "=" + v)[1..] == k[1..] + "=" + v;
      CutOf(k[1..], v);
      assert [k[0]] + k[1..] == k;
    } else {
      assert k + "=" + v == "=" + v;
    }
  }

  /** `new URLSearchParams(q).get(key)`: the value of the first pair with that
      key; empty pairs are skipped. */
  function ParamOf(pairs: seq<string>, key: string): (r: Option<string>)
    ensures r.Some? <==> exists i :: 0 <= i < |pairs| && Names(pairs[i], key)
    ensures forall i :: 0 <= i < |pairs| && Names(pairs[i], key) && (forall j :: 0 <= j < i ==> !Names(pairs[j], key)) ==>
      r == Some(Cut(pairs[i]).1)
  {
    if |pairs| == 0 then None
    else if Names(pairs[0], key) then Some(Cut(pairs[0]).1)
    else
      var r := ParamOf(pairs[1..], key);
      assert forall i :: 0 < i < |pairs| ==> pairs[i] == pairs[1..][i - 1];
      r
  }

  /** The pair is not empty and its key is `key`. */
  predicate Names(pair: string, key: string) {
    pair != "" && Cut(pair).0 == key
  }

  function HashParam(hash: string, key: string): Option<string>
    requires |hash| > 0
  {
    ParamOf(Export.Split(hash[1..], '&'), key)
  }

  /** What the reset page does when it opens. */
  datatype Opening = MissingClient | Exchange(access: string, refresh: string) | BadLink | NeedSession

  /** The effect of the reset page: no client is reported first; a hash must be
      a recovery link with an access token (the refresh token defaults to '');
      without a hash an existing session is required. */
  function Open(hasClient: bool, hash: string): (o: Opening)
    ensures !hasClient <==> o.MissingClient?
    ensures hasClient && hash == "" <==> o.NeedSession?
    ensures o.Exchange? ==> (o.access != "" && HashParam(hash, "type") == Some("recovery")
      && HashParam(hash, "access_token") == Some(o.access))
  {
    if !hasClient then MissingClient
    else if hash == "" then NeedSession
    else
      var access := HashParam(hash, "access_token");
      if HashParam(hash, "type") == Some("recovery") && access.Some? && access.value != "" then
        var refresh := HashParam(hash, "refresh_token");
        Exchange(access.value, if refresh.Some? then refresh.value else "")
      else BadLink
  }

  /** The link is reported invalid when it is not a recovery link, when the
      exchange fails, or when no session exists without a hash. */
  function ReportsInvalidLink(o: Opening, exchangeFails: bool, hasSession: bool): (b: bool)
    ensures b <==> o.BadLink? || (o.Exchange? && exchangeFails) || (o.NeedSession? && !hasSession)
  {
    match o
    case MissingClient => false
    case Exchange(_, _) => exchangeFails
    case BadLink => true
    case NeedSession => !hasSession
  }

  /** The pairs of the link the identity provider sends. */
  function RecoveryPairs(access: string, refresh: string): seq<string> {
    ["access_token" + "=" + access, "refresh_token" + "=" + refresh, "type" + "=" + "recovery"]
  }

  /** The link itself: the pairs joined by '&' after '#'. */
  function RecoveryHash(access: string, refresh: string): string {
    "#" + Join(RecoveryPairs(access, refresh), "&")
  }

  lemma RecoveryHashSplits(access: string, refresh: string)
    requires '&' !in access && '&' !in refresh
    ensures Export.Split(RecoveryHash(access, refresh)[1..], '&') == RecoveryPairs(access, refresh)
  {
    var parts := RecoveryPairs(access, refresh);
    assert forall i :: 0 <= i < |parts| ==> '&' !in parts[i];
    Export.SplitJoin(parts, '&');
    assert RecoveryHash(access, refresh)[1..] == Join(parts, "&");
  }

  lemma RecoveryParams(access: string, refresh: string)
    ensures var ps := RecoveryPairs(access, refresh);
      && ParamOf(ps, "access_token") == Some(access)
      && ParamOf(ps, "refresh_token") == Some(refresh)
      && ParamOf(ps, "type") == Some("recovery")
  {
    var ps := RecoveryPairs(access, refresh);
    CutOf("access_token", access);
    CutOf("refresh_token", refresh);
    CutOf("type", "recovery");
    assert ps[0] != "" && ps[1] != "" && ps[2] != "";
    assert "access_token"[0] != "refresh_token"[0] && "access_token"[0] != "type"[0] && "refresh_token"[0] != "type"[0];
    assert ParamOf(ps[2..], "type") == Some("recovery");
    assert ps[1..][1..] == ps[2..];
    assert ParamOf(ps[1..], "type") == Some("recovery");
    assert ParamOf(ps[1..], "refresh_token") == Some(refresh);
  }

  /** A recovery link opens with exactly the tokens it carries. */
  lemma RecoveryLinkExchanges(access: string, refresh: string)
    requires access != "" && '&' !in access && '&' !in refresh
    ensures Open(true, RecoveryHash(access, refresh)) == Exchange(access, refresh)
  {
    RecoveryHashSplits(access, refresh);
    RecoveryParams(access, refresh);
  }

  /** A hash without the recovery type is always a bad link. */
  lemma NonRecoveryLinkIsBad(hash: string)
    requires hash != "" && HashParam(hash, "type") != Some("recovery")
    ensures Open(true, hash) == BadLink
  {
  }

  /** `handleSubmit` of the reset form, before the update call: filled, matching,
      long enough, and a client to call. */
  function ResetCheck(password: string, confirm: string, hasClient: bool): (e: Option<string>)
    ensures e.None? <==> password != "" && password == confirm && Utf16Length(password) >= MinPassword && hasClient
    ensures e == Some(FillAll) <==> password == "" || confirm == ""
    ensures e == Some(NoClient) <==> password != "" && password == confirm && Utf16Length(password) >= MinPassword && !hasClient
  {
    if password == "" || confirm == "" then Some(FillAll)
    else match PasswordCheck(password, confirm)
      case Some(e) => Some(e)
      case None => if !hasClient then Some(NoClient) else None
  }

  /** With a client, the reset form refuses exactly what the sign-up form
      refuses for the same passwords once name and email are filled. */
  lemma ResetChecksMatchSignUp(name: string, email: string, password: string, confirm: string)
    requires name != "" && email != ""
    ensures ResetCheck(password, confirm, true) == SignUpCheck(SignUpForm(name, email, password, confirm))
  {
  }

  /** The identity provider's answer to the password update. */
  datatype Update = Updated(hasUser: bool) | UpdateError(message: string)

  /** What the reset form ends with. */
  datatype ResetView = ResetRefused(message: string) | PasswordChanged

  /** A failure message naming an expired or invalid link asks for a new link;
      any other is shown as it is (or the default when empty). */
  function ResetMessage(message: string): (m: string)
    ensures m != ""
    ensures var text := if message != "" then message else ResetFailed;
      && (Includes(text, "expired") || Includes(text, "invalid") ==> m == LinkExpired)
      && (!Includes(text, "expired") && !Includes(text, "invalid") ==> m == text)
  {
    var text := if message != "" then message else ResetFailed;
    if Includes(text, "expired") || Includes(text, "invalid") then LinkExpired else text
  }

  function ResetSubmit(password: string, confirm: string, hasClient: bool, u: Update): (v: ResetView)
    ensures v.PasswordChanged? <==> ResetCheck(password, confirm, hasClient).None? && u == Updated(true)
    ensures ResetCheck(password, confirm, hasClient).Some? ==> v == ResetRefused(ResetCheck(password, confirm, hasClient).value)
    ensures ResetCheck(password, confirm, hasClient).None? && u.UpdateError? ==> v == ResetRefused(ResetMessage(u.message))
    ensures ResetCheck(password, confirm, hasClient).None? && u == Updated(false) ==> v == ResetRefused(ResetFailed)
    ensures v.ResetRefused? ==> v.message != ""
  {
    match ResetCheck(password, confirm, hasClient)
    case Some(e) => ResetRefused(e)
    case None =>
      match u
      case Updated(hasUser) => if hasUser then PasswordChanged else ResetRefused(ResetFailed)
      case UpdateError(message) => ResetRefused(ResetMessage(message))
  }

  // ---------------------------------------------------------------------------
  // The session

  /** The context's state: the user, the token, localStorage and the
      Authorization header sent with every request. */
  datatype Session = Session(user: Value, token: Value, store: map<string, string>, header: Option<string>, loading: bool)

  const StoreKeys: set<string> := {"user", "auth_token", "refresh_token"}

  /** A saved item counts when it is present and not empty. */
  predicate Saved(store: map<string, string>, k: string) {
    k in store && store[k] != ""
  }

  /** On start-up the session is restored only when both the token and the user
      were saved; loading ends either way. */
  function Restore(store: map<string, string>, parse: string -> Value): (s: Session)
    ensures !s.loading && s.store == store
    ensures s.header.Some? <==> Saved(store, "auth_token") && Saved(store, "user")
    ensures s.header.Some? ==> (s.token == Str(store["auth_token"]) && s.user == parse(store["user"])
      && s.header.value == "Bearer " + store["auth_token"])
    ensures s.header.None? ==> s.user == Null && s.token == Null
  {
    if Saved(store, "auth_token") && Saved(store, "user") then
      Session(parse(store["user"]), Str(store["auth_token"]), store, Some("Bearer " + store["auth_token"]), false)
    else Session(Null, Null, store, None, false)
  }

  /** The result of `login` and `updateProfile`; `error` is a string or the
      server's detail as sent. */
  datatype LoginResult = LoginResult(success: bool, error: Value)

  /** How an awaited call of the context ends: with the object it returns, or
      with an exception that propagates to the form. */
  datatype Settled<T> = Returned(value: T) | Threw

  predicate SignedIn(res: Settled<LoginResult>) {
    res.Returned? && res.value.success
  }

  predicate TimedOutFailure(e: Failure) {
    e.code == "ECONNABORTED" || Includes(e.message, "timeout")
  }

  /** The login failure text: a timeout first, then an unreachable server, then
      for a 401 the recognised phrases of the detail, else the detail or
      message as given. `None` when the 401 branch throws: a detail that is
      neither a string nor an array has no `includes`. */
  function LoginError(e: Failure): (m: Option<Value>)
    ensures m.None? <==> !TimedOutFailure(e) && !IsNetwork(e) && e.status == Some(401) && Rejected(e.detail).None?
    ensures m.Some? ==> Truthy(m.value)
    ensures TimedOutFailure(e) ==> m == Some(Str(TimedOut))
    ensures !TimedOutFailure(e) && IsNetwork(e) ==> m == Some(Str(ServerDown))
    ensures !TimedOutFailure(e) && !IsNetwork(e) && e.status != Some(401) && Truthy(e.detail) ==> m == Some(e.detail)
    ensures !TimedOutFailure(e) && !IsNetwork(e) && e.status != Some(401) && !Truthy(e.detail) ==>
      m == Some(Str(if e.message != "" then e.message else WrongPassword))
    ensures !TimedOutFailure(e) && !IsNetwork(e) && e.status == Some(401) ==> m == Rejected(e.detail)
    ensures (!TimedOutFailure(e) && !IsNetwork(e) && e.status == Some(401)
      && e.detail.Str? && CredentialPhrase(e.detail)) ==> m == Some(Str(WrongPasswordHint))
  {
    if TimedOutFailure(e) then Some(Str(TimedOut))
    else if IsNetwork(e) then Some(Str(ServerDown))
    else if e.status == Some(401) then Rejected(e.detail)
    else Some(Or(e.detail, Or(Str(e.message), Str(WrongPassword))))
  }

  /** A 401's detail (`detail || ''`): wrong credentials, an unconfirmed email,
      or the detail itself. A string is searched for the phrases and an array
      for elements equal to them; on any other truthy value `includes` is not
      a function and the call throws (`None`). */
  function Rejected(detail: Value): (m: Option<Value>)
    ensures m.None? <==> Truthy(detail) && !detail.Str? && !detail.Arr?
    ensures m.Some? ==> Truthy(m.value)
    ensures !Truthy(detail) ==> m == Some(Str(WrongPassword))
    ensures Truthy(detail) && CredentialPhrase(detail) ==> m == Some(Str(WrongPasswordHint))
    ensures Truthy(detail) && !CredentialPhrase(detail) && ConfirmationPhrase(detail) ==> m == Some(Str(Unconfirmed))
    ensures Truthy(detail) && (detail.Str? || detail.Arr?) && !CredentialPhrase(detail) && !ConfirmationPhrase(detail) ==>
      m == Some(detail)
  {
    if !Truthy(detail) then Some(Str(WrongPassword))
    else if !detail.Str? && !detail.Arr? then None
    else if CredentialPhrase(detail) then Some(Str(WrongPasswordHint))
    else if ConfirmationPhrase(detail) then Some(Str(Unconfirmed))
    else Some(detail)
  }

  /** `detail.includes(phrase)` on a string or an array. */
  predicate Contains(detail: Value, phrase: string) {
    if detail.Str? then Includes(detail.s, phrase) else detail.Arr? && Str(phrase) in detail.items
  }

  predicate CredentialPhrase(detail: Value) {
    Contains(detail, "Email ou senha incorretos") || Contains(detail, "Credenciais inválidas")
    || Contains(detail, "Invalid login credentials") || Contains(detail, "invalid_credentials")
  }

  predicate ConfirmationPhrase(detail: Value) {
    Contains(detail, "Email não confirmado") || Contains(detail, "Email not confirmed")
    || Contains(detail, "email_not_confirmed")
  }

  /** `login`: a body with `success` and a user signs in, storing the user and
      the token, and the refresh token only when there is one. */
  function Login(s: Session, r: Reply, json: Value -> string): (out: (Session, Settled<LoginResult>))
    ensures out.1.Threw? <==> r.Err? && LoginError(r.failure).None?
    ensures SignedIn(out.1) <==> r.Ok? && Truthy(Get(r.data, "success")) && Truthy(Get(r.data, "user"))
    ensures !SignedIn(out.1) ==> out.0 == s
    ensures out.1.Returned? && !out.1.value.success ==> Truthy(out.1.value.error)
    ensures r.Err? && LoginError(r.failure).Some? ==> out.1 == Returned(LoginResult(false, LoginError(r.failure).value))
    ensures r.Ok? && !SignedIn(out.1) ==> out.1 == Returned(LoginResult(false, Str(BadCredentials)))
    ensures SignedIn(out.1) ==>
      && out.0.user == Get(r.data, "user") && out.0.token == Get(r.data, "access_token")
      && "user" in out.0.store && "auth_token" in out.0.store
      && out.0.store["user"] == json(Get(r.data, "user"))
      && out.0.store["auth_token"] == ToStr(Get(r.data, "access_token"))
      && out.0.header == Some("Bearer " + ToStr(Get(r.data, "access_token")))
      && (Truthy(Get(r.data, "refresh_token")) ==>
            "refresh_token" in out.0.store && out.0.store["refresh_token"] == ToStr(Get(r.data, "refresh_token")))
      && (!Truthy(Get(r.data, "refresh_token")) ==>
            ("refresh_token" in out.0.store <==> "refresh_token" in s.store)
            && ("refresh_token" in s.store ==> out.0.store["refresh_token"] == s.store["refresh_token"]))
      && (forall k :: k !in StoreKeys ==> (k in out.0.store <==> k in s.store))
      && (forall k :: k !in StoreKeys && k in s.store ==> out.0.store[k] == s.store[k])
  {
    match r
    case Err(e) =>
      (match LoginError(e)
       case Some(m) => (s, Returned(LoginResult(false, m)))
       case None => (s, Threw))
    case Ok(data) =>
      if Truthy(Get(data, "success")) && Truthy(Get(data, "user")) then
        var token := Get(data, "access_token");
        var refresh := Get(data, "refresh_token");
        var store := s.store["user" := json(Get(data, "user"))]["auth_token" := ToStr(token)];
        var store' := if Truthy(refresh) then store["refresh_token" := ToStr(refresh)] else store;
        (Session(Get(data, "user"), token, store', Some("Bearer " + ToStr(token)), s.loading), Returned(LoginResult(true, Str(""))))
      else (s, Returned(LoginResult(false, Str(BadCredentials))))
  }

  /** The toast of a form: a success text, or an error showing a value. */
  datatype Notice = Success(text: string) | Error(shown: Value)

  /** The login form's submit: both fields are required before `login` is
      called; then a success toast, the returned error (or the default), or
      the generic text when the call throws. */
  function LoginSubmit(email: string, password: string, res: Settled<LoginResult>): (n: Notice)
    ensures email == "" || password == "" ==> n == Error(Str(FillAll))
    ensures email != "" && password != "" ==>
      && (n.Success? <==> SignedIn(res))
      && (res.Threw? ==> n == Error(Str(Unexpected)))
      && (res.Returned? && !res.value.success && Truthy(res.value.error) ==> n == Error(res.value.error))
      && (res.Returned? && !res.value.success && !Truthy(res.value.error) ==> n == Error(Str(LoginFailed)))
  {
    if email == "" || password == "" then Error(Str(FillAll))
    else match res
      case Threw => Error(Str(Unexpected))
      case Returned(r) =>
        if r.success then Success("Login realizado com sucesso!")
        else Error(Or(r.error, Str(LoginFailed)))
  }

  /** An address the browser's email field accepts but the server's email type
      refuses is answered with a list of validation errors, which is what the
      login toast is given. */
  lemma ValidationListReachesLoginToast(s: Session, json: Value -> string, email: string, password: string,
                                        message: string, errors: seq<Value>)
    requires email != "" && password != ""
    requires !Includes(message, "timeout") && message != "Network Error"
    ensures var reply := Err(Failure("ERR_BAD_REQUEST", message, Some(422), Arr(errors)));
      LoginSubmit(email, password, Login(s, reply, json).1) == Error(Arr(errors))
  {
  }

  /** A 401 whose detail is an object makes `login` throw, and the form shows
      its generic text. */
  lemma ObjectDetailIsUnexpected(s: Session, json: Value -> string, email: string, password: string,
                                 message: string, fields: seq<(string, Value)>)
    requires email != "" && password != ""
    requires !Includes(message, "timeout") && message != "Network Error"
    ensures var reply := Err(Failure("ERR_BAD_REQUEST", message, Some(401), Obj(fields)));
      LoginSubmit(email, password, Login(s, reply, json).1) == Error(Str(Unexpected))
  {
  }

  /** `logout`: no user, no token, the three keys removed, no header. */
  function Logout(s: Session): (out: Session)
    ensures out.user == Null && out.token == Null && out.header.None?
    ensures forall k :: k in out.store <==> k in s.store && k !in StoreKeys
    ensures forall k :: k in out.store ==> out.store[k] == s.store[k]
  {
    Session(Null, Null, s.store - StoreKeys, None, s.loading)
  }

  /** Logging out after a login leaves localStorage as it was apart from the
      three session keys. */
  lemma LogoutUndoesLogin(s: Session, r: Reply, json: Value -> string)
    ensures var out := Logout(Login(s, r, json).0);
      && (forall k :: k in out.store <==> k in s.store && k !in StoreKeys)
      && (forall k :: k in out.store ==> out.store[k] == s.store[k])
  {
  }

  /** After logging out, a restart restores nothing. */
  lemma LogoutForgetsSession(s: Session, parse: string -> Value)
    ensures Restore(Logout(s).store, parse).header.None?
  {
  }

  /** A login that succeeds is restored by a restart, when the token is not
      empty and the user's JSON is parsed back. */
  lemma LoginSurvivesRestart(s: Session, r: Reply, json: Value -> string, parse: string -> Value)
    requires SignedIn(Login(s, r, json).1)
    requires ToStr(Get(r.data, "access_token")) != "" && json(Get(r.data, "user")) != ""
    requires parse(json(Get(r.data, "user"))) == Get(r.data, "user")
    ensures var back := Restore(Login(s, r, json).0.store, parse);
      back.user == Login(s, r, json).0.user && back.header == Login(s, r, json).0.header
  {
  }

  /** `{ ...a, ...b }` over object fields: each of b's fields in turn overrides. */
  function Spread(a: seq<(string, Value)>, b: seq<(string, Value)>): (r: seq<(string, Value)>)
    ensures forall k :: !HasKey(a, k) && !HasKey(b, k) ==> Lookup(r, k) == Undefined
    decreases |b|
  {
    if |b| == 0 then
      assert forall k :: !HasKey(a, k) ==> Lookup(a, k) == Undefined by {
        forall k | Lookup(a, k) != Undefined ensures HasKey(a, k) {
          DefinedHasKey(a, k);
        }
      }
      a
    else
      var a' := SetField(a, b[0].0, b[0].1);
      var r := Spread(a', b[1..]);
      assert forall k :: !HasKey(a, k) && !HasKey(b, k) ==> !HasKey(a', k) && !HasKey(b[1..], k) by {
        forall k | !HasKey(a, k) && !HasKey(b, k) ensures !HasKey(a', k) && !HasKey(b[1..], k) {
          NotInTail(b, k);
          SetFieldHasKey(a, b[0].0, b[0].1, k);
        }
      }
      r
  }

  lemma SetFieldHasKey(a: seq<(string, Value)>, k: string, x: Value, j: string)
    requires j != k && !HasKey(a, j)
    ensures !HasKey(SetField(a, k, x), j)
  {
    KeysHasKey(a, j);
    KeysHasKey(SetField(a, k, x), j);
  }

  lemma NotInTail(b: seq<(string, Value)>, k: string)
    requires |b| > 0 && !HasKey(b, k)
    ensures !HasKey(b[1..], k) && b[0].0 != k
  {
  }

  /** Keys the profile does not carry keep the user's value. */
  lemma {:induction false} SpreadKeeps(a: seq<(string, Value)>, b: seq<(string, Value)>, k: string)
    requires !HasKey(b, k)
    ensures Lookup(Spread(a, b), k) == Lookup(a, k)
    decreases |b|
  {
    if |b| > 0 {
      NotInTail(b, k);
      SpreadKeeps(SetField(a, b[0].0, b[0].1), b[1..], k);
    }
  }

  /** The last field of the profile with a key gives that key's value. */
  lemma {:induction false} SpreadOverrides(a: seq<(string, Value)>, b: seq<(string, Value)>, i: nat)
    requires i < |b| && LastOf(b, i)
    ensures Lookup(Spread(a, b), b[i].0) == b[i].1
    decreases |b|
  {
    var a' := SetField(a, b[0].0, b[0].1);
    if i == 0 {
      SpreadKeeps(a', b[1..], b[0].0);
    } else {
      assert LastOf(b[1..], i - 1);
      SpreadOverrides(a', b[1..], i - 1);
    }
  }

  /** Field i is the last with its key. */
  predicate LastOf(b: seq<(string, Value)>, i: int)
    requires 0 <= i < |b|
  {
    forall j :: i < j < |b| ==> b[j].0 != b[i].0
  }

  function Fields(v: Value): seq<(string, Value)> {
    if v.Obj? then v.fields else []
  }

  /** `updateProfile`: refused without a user and a token; a body with
      `success` and a profile merges the profile over the user and saves it. */
  function UpdateProfile(s: Session, r: Reply, json: Value -> string): (out: (Session, LoginResult))
    ensures !(Truthy(s.user) && Truthy(s.token)) ==> out == (s, LoginResult(false, Str(NotSignedIn)))
    ensures out.1.success <==> (Truthy(s.user) && Truthy(s.token) && r.Ok?
      && Truthy(Get(r.data, "success")) && Truthy(Get(r.data, "profile")))
    ensures !out.1.success ==> out.0 == s && Truthy(out.1.error)
    ensures Truthy(s.user) && Truthy(s.token) && r.Err? && Truthy(r.failure.detail) ==> out.1 == LoginResult(false, r.failure.detail)
    ensures out.1.success ==>
      && (forall k :: !HasKey(Fields(Get(r.data, "profile")), k) ==> Get(out.0.user, k) == Get(s.user, k))
      && out.0.store == s.store["user" := json(out.0.user)]
      && out.0.token == s.token && out.0.header == s.header
  {
    if !(Truthy(s.user) && Truthy(s.token)) then (s, LoginResult(false, Str(NotSignedIn)))
    else match r
      case Err(e) => (s, LoginResult(false, Or(e.detail, Str(ProfileFailed))))
      case Ok(data) =>
        if Truthy(Get(data, "success")) && Truthy(Get(data, "profile")) then
          var user := Obj(Spread(Fields(s.user), Fields(Get(data, "profile"))));
          assert forall k :: !HasKey(Fields(Get(data, "profile")), k) ==> Get(user, k) == Get(s.user, k) by {
            forall k | !HasKey(Fields(Get(data, "profile")), k) ensures Get(user, k) == Get(s.user, k) {
              SpreadKeeps(Fields(s.user), Fields(Get(data, "profile")), k);
            }
          }
          (s.(user := user, store := s.store["user" := json(user)]), LoginResult(true, Str("")))
        else (s, LoginResult(false, Str(ProfileFailed)))
  }

  /** A profile with distinct keys overrides the user field for field. */
  lemma ProfileOverridesUser(s: Session, r: Reply, json: Value -> string, k: string)
    requires UpdateProfile(s, r, json).1.success
    requires var p := Fields(Get(r.data, "profile"));
      forall a, b :: 0 <= a < b < |p| ==> p[a].0 != p[b].0
    requires HasKey(Fields(Get(r.data, "profile")), k)
    ensures Get(UpdateProfile(s, r, json).0.user, k) == Get(Get(r.data, "profile"), k)
  {
    var p := Fields(Get(r.data, "profile"));
    var i :| 0 <= i < |p| && p[i].0 == k;
    LookupDistinct(p, i);
    assert LastOf(p, i);
    SpreadOverrides(Fields(s.user), p, i);
  }

  // ---------------------------------------------------------------------------
  // The profile form

  const ProfileKeys: seq<string> := ["name", "phone", "organization", "bio"]

  /** The form starts from the user's four fields, '' where missing. */
  function InitialForm(user: Value): (form: seq<(string, Value)>)
    ensures Keys(form) == ProfileKeys
    ensures forall i :: 0 <= i < |ProfileKeys| ==> Lookup(form, ProfileKeys[i]) == Or(Get(user, ProfileKeys[i]), Str(""))
  {
    var form := [("name", Or(Get(user, "name"), Str(""))), ("phone", Or(Get(user, "phone"), Str(""))),
                 ("organization", Or(Get(user, "organization"), Str(""))), ("bio", Or(Get(user, "bio"), Str("")))];
    assert forall a, b :: 0 <= a < b < |form| ==> form[a].0 != form[b].0 by {
      assert form[0].0[0] != form[1].0[0] && form[0].0[0] != form[2].0[0] && form[0].0[0] != form[3].0[0];
      assert form[1].0[0] != form[2].0[0] && form[1].0[0] != form[3].0[0] && form[2].0[0] != form[3].0[0];
    }
    LookupDistinct(form, 0);
    LookupDistinct(form, 1);
    LookupDistinct(form, 2);
    LookupDistinct(form, 3);
    form
  }

  /** `handleChange`: the named field takes the value, nothing else changes. */
  function Change(form: seq<(string, Value)>, name: string, value: string): (r: seq<(string, Value)>)
    ensures Lookup(r, name) == Str(value)
    ensures forall k :: k != name ==> Lookup(r, k) == Lookup(form, k)
  {
    SetField(form, name, Str(value))
  }

  /** Editing the form's own inputs keeps its four keys, so the object
      submitted never carries an email. */
  lemma {:induction false} EditsKeepProfileKeys(user: Value, edits: seq<(nat, string)>)
    requires forall i :: 0 <= i < |edits| ==> edits[i].0 < |ProfileKeys|
    ensures Keys(Edited(InitialForm(user), edits)) == ProfileKeys
    ensures !HasKey(Edited(InitialForm(user), edits), "email")
  {
    EditedKeys(InitialForm(user), edits);
    var f := Edited(InitialForm(user), edits);
    KeysHasKey(f, "email");
    assert "email" !in ProfileKeys by {
      assert forall i :: 0 <= i < |ProfileKeys| ==> ProfileKeys[i][0] != 'e';
    }
  }

  /** Applying the edits in order, each naming one of the four inputs. */
  function Edited(form: seq<(string, Value)>, edits: seq<(nat, string)>): seq<(string, Value)>
    requires forall i :: 0 <= i < |edits| ==> edits[i].0 < |ProfileKeys|
    decreases |edits|
  {
    if |edits| == 0 then form
    else Edited(Change(form, ProfileKeys[edits[0].0], edits[0].1), edits[1..])
  }

  lemma {:induction false} EditedKeys(form: seq<(string, Value)>, edits: seq<(nat, string)>)
    requires Keys(form) == ProfileKeys
    requires forall i :: 0 <= i < |edits| ==> edits[i].0 < |ProfileKeys|
    ensures Keys(Edited(form, edits)) == ProfileKeys
    decreases |edits|
  {
    if |edits| > 0 {
      var k := ProfileKeys[edits[0].0];
      KeysHasKey(form, k);
      EditedKeys(Change(form, k, edits[0].1), edits[1..]);
    }
  }

  lemma {:induction false} KeysHasKey(fields: seq<(string, Value)>, k: string)
    ensures HasKey(fields, k) <==> k in Keys(fields)
  {
    if |fields| > 0 {
      KeysHasKey(fields[1..], k);
      assert HasKey(fields, k) <==> fields[0].0 == k || HasKey(fields[1..], k) by {
        if HasKey(fields, k) && fields[0].0 != k {
          var i :| 0 <= i < |fields| && fields[i].0 == k;
          assert fields[1..][i - 1].0 == k;
        }
        if HasKey(fields[1..], k) {
          var i :| 0 <= i < |fields[1..]| && fields[1..][i].0 == k;
          assert fields[i + 1].0 == k;
        }
      }
    }
  }

  /** The toast after saving. */
  function SaveNotice(result: LoginResult): (n: Notice)
    ensures n.Success? <==> result.success
    ensures !result.success && Truthy(result.error) ==> n == Error(result.error)
    ensures !result.success && !Truthy(result.error) ==> n == Error(Str(ProfileFailed))
  {
    if result.success then Success("Perfil atualizado com sucesso!")
    else Error(Or(result.error, Str(ProfileFailed)))
  }

  /** Cancel goes to the caller's handler when there is one, else back in history. */
  datatype Leave = CallOnCancel | HistoryBack

  function Cancel(hasOnCancel: bool): (l: Leave)
    ensures l == CallOnCancel <==> hasOnCancel
  {
    if hasOnCancel then CallOnCancel else HistoryBack
  }
}

=== FILE: backend.dfy ===
/** The API's request logic (backend/app/main.py): the answer of
    `/api/periodo-dados`, the SQL text and parameters assembled by
    `/api/series/mensal` and `/api/internacoes/cid-cap`, the column search of
    `/api/obitos/local`, the default user name, `/api/auth/forgot-password`
    and the guard of `PUT /api/user/profile`.

    The database and the identity provider are oracles; SQL text is modelled
    as a list of fragments, the fixed ones by name and the filter clauses by
    their text, each of which holds one `%s` placeholder. */
module Backend {
  import opened Js
  import Export

  // ---------------------------------------------------------------------------
  // Optional query parameters

  /** A FastAPI `Optional[int]` query parameter: absent is `None`. */
  type Param = Option<int>

  /** Python truthiness of the parameter: neither None nor 0. */
  predicate Active(p: Param) {
    p.Some? && p.value != 0
  }

  /** A fragment of SQL: fixed text (named), or a filter clause with one placeholder. */
  datatype Fragment = Fixed(name: string) | Clause(text: string)

  /** The placeholders in a query: one per clause. */
  function Placeholders(q: seq<Fragment>): (n: nat)
    ensures n <= |q|
  {
    if |q| == 0 then 0 else (if q[0].Clause? then 1 else 0) + Placeholders(q[1..])
  }

  lemma {:induction false} PlaceholdersAppend(a: seq<Fragment>, b: seq<Fragment>)
    ensures Placeholders(a + b) == Placeholders(a) + Placeholders(b)
  {
    if |a| > 0 {
      assert (a + b)[1..] == a[1..] + b;
      PlaceholdersAppend(a[1..], b);
    } else {
      assert a + b == b;
    }
  }

  /** A query and its parameters, in the order they are bound. */
  datatype Sql = Sql(query: seq<Fragment>, params: seq<Param>)

  /** `if x: query += clause; params.append(x)` */
  function Filter(s: Sql, x: Param, clause: string): (r: Sql)
    ensures Active(x) ==> r == Sql(s.query + [Clause(clause)], s.params + [x])
    ensures !Active(x) ==> r == s
  {
    if Active(x) then Sql(s.query + [Clause(clause)], s.params + [x]) else s
  }

  /** The parameters a list of optional filters contributes: the active ones, in order. */
  function ActiveOnly(xs: seq<Param>): (r: seq<Param>)
    ensures |r| <= |xs|
    ensures forall p :: p in r <==> p in xs && Active(p)
  {
    if |xs| == 0 then []
    else (if Active(xs[0]) then [xs[0]] else []) + ActiveOnly(xs[1..])
  }

  lemma {:induction false} ActiveOnlyAppend(a: seq<Param>, b: seq<Param>)
    ensures ActiveOnly(a + b) == ActiveOnly(a) + ActiveOnly(b)
  {
    if |a| > 0 {
      assert (a + b)[1..] == a[1..] + b;
      ActiveOnlyAppend(a[1..], b);
    } else {
      assert a + b == b;
    }
  }

  /** Adding a filter keeps one placeholder per parameter. */
  lemma FilterBalanced(s: Sql, x: Param, clause: string)
    requires Placeholders(s.query) == |s.params|
    ensures Placeholders(Filter(s, x, clause).query) == |Filter(s, x, clause).params|
    ensures Filter(s, x, clause).params == s.params + ActiveOnly([x])
  {
    if Active(x) {
      PlaceholdersAppend(s.query, [Clause(clause)]);
    }
  }

  function Append(s: Sql, name: string): (r: Sql)
    ensures Placeholders(r.query) == Placeholders(s.query) && r.params == s.params
  {
    PlaceholdersAppend(s.query, [Fixed(name)]);
    Sql(s.query + [Fixed(name)], s.params)
  }

  // ---------------------------------------------------------------------------
  // /api/series/mensal

  /** The parameters of a list of optional filters. */
  function ParamsOf(fs: seq<(Param, string)>): (xs: seq<Param>)
    ensures |xs| == |fs| && forall i :: 0 <= i < |fs| ==> xs[i] == fs[i].0
  {
    seq(|fs|, i requires 0 <= i < |fs| => fs[i].0)
  }

  /** A run of `if x: query += clause; params.append(x)` steps. */
  function FilterRun(s: Sql, fs: seq<(Param, string)>): (r: Sql)
    requires Placeholders(s.query) == |s.params|
    ensures Placeholders(r.query) == |r.params|
    ensures r.params == s.params + ActiveOnly(ParamsOf(fs))
    decreases |fs|
  {
    if |fs| == 0 then
      assert ActiveOnly(ParamsOf(fs)) == [] && s.params + [] == s.params;
      s
    else
      FilterBalanced(s, fs[0].0, fs[0].1);
      var r := FilterRun(Filter(s, fs[0].0, fs[0].1), fs[1..]);
      assert ParamsOf(fs) == [fs[0].0] + ParamsOf(fs[1..]);
      ActiveOnlyAppend([fs[0].0], ParamsOf(fs[1..]));
      Associative(s.params, ActiveOnly([fs[0].0]), ActiveOnly(ParamsOf(fs[1..])));
      r
  }

  /** The monthly series query: the time filters inside the time CTE, the
      locality filter once in each of the admissions and deaths halves, and the
      row limit bound last. */
  function SeriesQuery(idLocalidade: Param, anoInicio: Param, anoFim: Param, mes: Param, limit: Param): (r: Sql)
    ensures Placeholders(r.query) == |r.params|
    ensures r.params == ActiveOnly([anoInicio, anoFim, mes]) + ActiveOnly([idLocalidade]) + ActiveOnly([idLocalidade]) + [limit]
  {
    var time := [(anoInicio, " AND ano >= %s"), (anoFim, " AND ano <= %s"), (mes, " AND mes = %s")];
    var place := [(idLocalidade, " AND f.id_localidade = %s")];
    assert ParamsOf(time) == [anoInicio, anoFim, mes];
    assert ParamsOf(place) == [idLocalidade];
    var a, p := ActiveOnly([anoInicio, anoFim, mes]), ActiveOnly([idLocalidade]);
    var t := FilterRun(Sql([Fixed("tempo_filtrado")], []), time);
    assert t.params == a by { assert [] + a == a; }
    var i := FilterRun(Append(t, "internacoes"), place);
    assert i.params == a + p;
    var o := FilterRun(Append(i, "obitos"), place);
    assert o.params == a + p + p;
    PlaceholdersAppend(o.query, [Clause("LIMIT %s")]);
    Sql(o.query + [Clause("LIMIT %s")], o.params + [limit])
  }

  /** With no active filter only the limit is bound; each active filter adds
      exactly one parameter (the locality two), in the order of the clauses. */
  lemma SeriesParamCount(idLocalidade: Param, anoInicio: Param, anoFim: Param, mes: Param, limit: Param)
    ensures var ps := SeriesQuery(idLocalidade, anoInicio, anoFim, mes, limit).params;
      && |ps| == 1 + Count(anoInicio) + Count(anoFim) + Count(mes) + 2 * Count(idLocalidade)
      && ps[|ps| - 1] == limit
      && (Active(anoInicio) ==> ps[0] == anoInicio)
  {
    ActiveOnlyOfThree(anoInicio, anoFim, mes);
  }

  lemma ActiveOnlyOfThree(a: Param, b: Param, c: Param)
    ensures ActiveOnly([a, b, c]) == ActiveOnly([a]) + ActiveOnly([b]) + ActiveOnly([c])
    ensures forall x :: |ActiveOnly([x])| == Count(x) && (Active(x) ==> ActiveOnly([x]) == [x])
  {
    ActiveOnlyAppend([a], [b]);
    ActiveOnlyAppend([a, b], [c]);
    assert [a] + [b] == [a, b];
    assert [a, b] + [c] == [a, b, c];
    forall x ensures |ActiveOnly([x])| == Count(x) && (Active(x) ==> ActiveOnly([x]) == [x]) {
      assert [x][1..] == [];
    }
  }

  function Count(p: Param): (n: nat)
    ensures n == 1 <==> Active(p)
    ensures n <= 1
  {
    if Active(p) then 1 else 0
  }

  // ---------------------------------------------------------------------------
  // /api/internacoes/cid-cap

  /** Without any active filter the ten largest chapters come from the
      aggregate query with no parameters; otherwise the year, month and
      locality filters are bound in that order. */
  function ChapterQuery(idLocalidade: Param, ano: Param, mes: Param): (r: Sql)
    ensures Placeholders(r.query) == |r.params|
    ensures r.params == ActiveOnly([ano, mes, idLocalidade])
    ensures r == Sql([Fixed("capitulos_agregados")], []) <==> !Active(ano) && !Active(mes) && !Active(idLocalidade)
  {
    if !Active(ano) && !Active(mes) && !Active(idLocalidade) then
      ActiveOnlyOfThree(ano, mes, idLocalidade);
      Sql([Fixed("capitulos_agregados")], [])
    else
      var r := FilteredChapters(idLocalidade, ano, mes);
      assert "tempo_filtrado"[0] != "capitulos_agregados"[0];
      r
  }

  /** The filtered branch: the time CTE, the filtered data and the top ten. */
  function FilteredChapters(idLocalidade: Param, ano: Param, mes: Param): (r: Sql)
    ensures Placeholders(r.query) == |r.params|
    ensures r.params == ActiveOnly([ano, mes, idLocalidade])
    ensures |r.query| > 0 && r.query[0] == Fixed("tempo_filtrado")
  {
    var fs := [(ano, " AND ano = %s"), (mes, " AND mes = %s")];
    var place := [(idLocalidade, " AND f.id_localidade = %s")];
    assert ParamsOf(fs) == [ano, mes];
    assert ParamsOf(place) == [idLocalidade];
    var a, p := ActiveOnly([ano, mes]), ActiveOnly([idLocalidade]);
    var t := FilterRun(Sql([Fixed("tempo_filtrado")], []), fs);
    assert t.params == a by { assert [] + a == a; }
    var d := FilterRun(Append(t, "dados_filtrados"), place);
    assert d.params == a + p;
    ActiveOnlyAppend([ano, mes], [idLocalidade]);
    assert [ano, mes] + [idLocalidade] == [ano, mes, idLocalidade];
    FiltersKeepHead(Sql([Fixed("tempo_filtrado")], []), fs);
    FiltersKeepHead(Append(t, "dados_filtrados"), place);
    Append(d, "top_10")
  }

  lemma {:induction false} FiltersKeepHead(s: Sql, fs: seq<(Param, string)>)
    requires Placeholders(s.query) == |s.params| && |s.query| > 0
    ensures |FilterRun(s, fs).query| > 0 && FilterRun(s, fs).query[0] == s.query[0]
    decreases |fs|
  {
    if |fs| > 0 {
      FilterBalanced(s, fs[0].0, fs[0].1);
      FiltersKeepHead(Filter(s, fs[0].0, fs[0].1), fs[1..]);
    }
  }

  // ---------------------------------------------------------------------------
  // /api/periodo-dados

  /** The period: the four columns of the row, or all four None without a row. */
  function Period(row: Option<seq<(string, Value)>>): (r: seq<(string, Value)>)
    ensures Keys(r) == ["ano_inicio", "ano_fim", "mes_inicio", "mes_fim"]
    ensures (row.None? || |row.value| == 0) ==> forall i :: 0 <= i < |r| ==> r[i].1 == Null
    ensures row.Some? && |row.value| > 0 ==> forall i :: 0 <= i < |r| ==> r[i].1 == PyGet(row.value, r[i].0)
  {
    if row.Some? && |row.value| > 0 then
      [("ano_inicio", PyGet(row.value, "ano_inicio")), ("ano_fim", PyGet(row.value, "ano_fim")),
       ("mes_inicio", PyGet(row.value, "mes_inicio")), ("mes_fim", PyGet(row.value, "mes_fim"))]
    else [("ano_inicio", Null), ("ano_fim", Null), ("mes_inicio", Null), ("mes_fim", Null)]
  }

  /** `d.get(k)`: None for a missing key. */
  function PyGet(d: seq<(string, Value)>, k: string): (v: Value)
    ensures v != Undefined
    ensures Lookup(d, k) != Undefined ==> v == Lookup(d, k)
  {
    if Lookup(d, k) == Undefined then Null else Lookup(d, k)
  }

  // ---------------------------------------------------------------------------
  // /api/obitos/local

  /** The description columns tried, in order. */
  const LocalColumns: seq<string> := ["local_desc", "local_ocorrencia_desc", "descricao", "local_ocor_desc", "nome"]

  /** What the database does with the query for one column. */
  datatype Attempt = Rows(rows: seq<Value>) | Fails(message: string)

  /** An error about the column: its text, lower-cased, names a column or a
      missing object. */
  predicate ColumnError(a: Attempt) {
    a.Fails? && (Includes(Lower(a.message), "column") || Includes(Lower(a.message), "does not exist"))
  }

  /** The outcome of the endpoint. */
  datatype LocalAnswer = Found(column: string, rows: seq<Value>) | Raised(message: string) | NoColumn

  /** Try each column in turn: the first that answers wins; a column error moves
      on; any other error is raised at once; none left is a 500. */
  function TryColumns(cols: seq<string>, attempt: string -> Attempt): (r: LocalAnswer)
    ensures r.Found? ==> exists i :: (0 <= i < |cols| && cols[i] == r.column
      && attempt(cols[i]) == Rows(r.rows) && forall j :: 0 <= j < i ==> ColumnError(attempt(cols[j])))
    ensures r.Raised? ==> exists i :: (0 <= i < |cols| && attempt(cols[i]) == Fails(r.message)
      && !ColumnError(attempt(cols[i])) && forall j :: 0 <= j < i ==> ColumnError(attempt(cols[j])))
    ensures r.NoColumn? <==> forall i :: 0 <= i < |cols| ==> ColumnError(attempt(cols[i]))
  {
    if |cols| == 0 then NoColumn
    else
      match attempt(cols[0])
      case Rows(rows) => Found(cols[0], rows)
      case Fails(m) =>
        if !ColumnError(attempt(cols[0])) then Raised(m)
        else
          var r := TryColumns(cols[1..], attempt);
          assert forall i :: 0 < i < |cols| ==> cols[i] == cols[1..][i - 1];
          r
  }

  /** An HTTP answer. */
  datatype Response = Ok(body: Value) | Error(status: int, detail: string)

  const NoColumnDetail := "Não foi possível encontrar coluna de descrição na tabela dim_local_ocorrencia"
  const LocalFailed := "Erro ao buscar dados de local de ocorrência. Verifique os logs do backend. Erro: "

  /** The endpoint: rows on success; the missing-column 500 passes through,
      any other error becomes a 500 quoting it. */
  function LocalOccurrence(attempt: string -> Attempt): (r: Response)
    ensures r.Ok? <==> TryColumns(LocalColumns, attempt).Found?
    ensures r.Error? ==> r.status == 500
    ensures (forall i :: 0 <= i < |LocalColumns| ==> ColumnError(attempt(LocalColumns[i]))) ==> r == Error(500, NoColumnDetail)
    ensures TryColumns(LocalColumns, attempt).Raised? ==> r == Error(500, LocalFailed + TryColumns(LocalColumns, attempt).message)
  {
    match TryColumns(LocalColumns, attempt)
    case Found(_, rows) => Ok(Arr(rows))
    case NoColumn => Error(500, NoColumnDetail)
    case Raised(m) =>
      Error(500, LocalFailed + m)
  }

  /** When the first column exists, the endpoint never looks at another. */
  lemma FirstColumnWins(attempt: string -> Attempt, rows: seq<Value>)
    requires attempt(LocalColumns[0]) == Rows(rows)
    ensures TryColumns(LocalColumns, attempt) == Found("local_desc", rows)
  {
  }

  // ---------------------------------------------------------------------------
  // Names and constant answers

  /** `email.split("@")[0]` */
  function EmailPrefix(email: string): (p: string)
    ensures '@' !in p
    ensures |p| <= |email| && p == email[..|p|]
    ensures |p| < |email| ==> email[|p|] == '@'
  {
    if |email| == 0 || email[0] == '@' then ""
    else [email[0]] + EmailPrefix(email[1..])
  }

  /** The prefix agrees with splitting on '@'. */
  lemma {:induction false} EmailPrefixIsFirstPart(email: string)
    ensures EmailPrefix(email) == Export.Split(email, '@')[0]
  {
    if |email| > 0 && email[0] != '@' {
      EmailPrefixIsFirstPart(email[1..]);
    }
  }

  /** An address "user@domain" is named "user". */
  lemma {:induction false} PrefixOfAddress(user: string, domain: string)
    requires '@' !in user
    ensures EmailPrefix(user + "@" + domain) == user
  {
    if |user| > 0 {
      assert (user + "@" + domain)[1..] == user[1..] + "@" + domain;
      PrefixOfAddress(user[1..], domain);
    }
  }

  /** The name at sign-up: the given name unless it is missing or empty, else
      the email prefix. */
  function SignUpName(name: Option<string>, email: string): (n: string)
    ensures name.Some? && name.value != "" ==> n == name.value
    ensures !(name.Some? && name.value != "") ==> n == EmailPrefix(email)
  {
    if name.Some? && name.value != "" then name.value else EmailPrefix(email)
  }

  /** The name at login: the profile's name (None when it has none) when a
      non-empty profile was found, else the email prefix. */
  function LoginName(profile: Option<seq<(string, Value)>>, email: string): (n: Value)
    ensures profile.Some? && |profile.value| > 0 ==> n == PyGet(profile.value, "name")
    ensures !(profile.Some? && |profile.value| > 0) ==> n == Str(EmailPrefix(email))
  {
    if profile.Some? && |profile.value| > 0 then PyGet(profile.value, "name") else Str(EmailPrefix(email))
  }

  const ForgotMessage := "Se o email estiver cadastrado, você receberá um link de recuperação."

  /** `forgot_password` answers the same whether or not the reset email could
      be sent, so the answer never reveals whether an account exists. */
  function ForgotPassword(sendFails: bool): (r: Response)
    ensures r == Ok(Obj([("success", Bool(true)), ("message", Str(ForgotMessage))]))
  {
    if sendFails then Ok(Obj([("success", Bool(true)), ("message", Str(ForgotMessage))]))
    else Ok(Obj([("success", Bool(true)), ("message", Str(ForgotMessage))]))
  }

  lemma ForgotPasswordRevealsNothing()
    ensures ForgotPassword(true) == ForgotPassword(false)
  {
  }

  // ---------------------------------------------------------------------------
  // PUT /api/user/profile

  const NothingToUpdate := "Nenhum campo para atualizar"

  /** What the profiles update does: the updated rows, or an error's text. */
  datatype Updated = UpdatedRows(rows: seq<Value>) | UpdateFailed(message: string)

  /** The request's fields that were sent (`exclude_unset`), the update's
      outcome when it runs, and `str()` of the 400 exception. As written the
      400 raised for an empty request is caught by the same `except Exception`
      that wraps database errors, so it leaves as a 500. */
  function UpdateProfileAsWritten(sent: seq<(string, Value)>, update: Updated, text400: string): (r: Response)
    ensures |sent| == 0 ==> r == Error(500, text400)
    ensures |sent| > 0 && update.UpdateFailed? ==> r == Error(500, update.message)
  {
    if |sent| == 0 then Error(500, text400)
    else UpdateOutcome(update)
  }

  function UpdateOutcome(update: Updated): (r: Response)
    ensures r.Error? <==> update.UpdateFailed?
    ensures r.Error? ==> r.status == 500
  {
    match update
    case UpdatedRows(rows) =>
      Ok(Obj([("success", Bool(true)), ("profile", if |rows| > 0 then rows[0] else Null)]))
    case UpdateFailed(m) => Error(500, m)
  }

  /** An empty update is reported as a server error. */
  lemma EmptyUpdateIsServerError(update: Updated, text400: string)
    ensures UpdateProfileAsWritten([], update, text400).Error?
    ensures UpdateProfileAsWritten([], update, text400).status == 500
  {
  }

  /** Intended: an empty request is the client's error (400) and never reaches
      the database; database errors stay 500. */
  function UpdateProfile(sent: seq<(string, Value)>, update: Updated): (r: Response)
    ensures r == Error(400, NothingToUpdate) <==> |sent| == 0
    ensures |sent| > 0 ==> r == UpdateOutcome(update)
    ensures r.Error? ==> (r.status == 400 <==> |sent| == 0)
  {
    if |sent| == 0 then Error(400, NothingToUpdate) else UpdateOutcome(update)
  }

  /** The two versions differ exactly on the empty request. */
  lemma UpdateProfileCorrectsOnlyEmpty(sent: seq<(string, Value)>, update: Updated, text400: string)
    ensures UpdateProfile(sent, update) == UpdateProfileAsWritten(sent, update, text400) <==> |sent| > 0
  {
  }
}

=== FILE: charts.dfy ===
/** The input pipeline the bar-chart components share: an empty-state check,
    a validity filter, a coercing normalisation followed by a second filter,
    and the layout arithmetic (heights, margins, axis angles, bar colours)
    computed from the number of records that survive. */
module Charts {
  import opened Js
  import opened StateMap

  /** What a chart component renders. */
  datatype View =
    | NoData            // "Nenhum dado disponível para exibir"
    | Invalid           // "Dados inválidos ou incompletos"
    | NoneValid         // "Nenhum dado válido para exibir"
    | Drawn(rows: seq<Value>)
    | Crash             // the validity filter threw (`trim` of a value that is not a string)

  /** The outcome of the validity filter on one record. */
  datatype Verdict = Keep | Drop | Throw

  /** The fields a category chart reads: the category text, the total, and
      for the chapter charts the chapter name. */
  datatype Fields = Fields(desc: string, total: string, name: Option<string>)

  /** `ObitosPorLocalChart` reads its text and its total through fallback
      chains; every other chart reads fixed fields. */
  datatype Schema = Category(f: Fields) | Local

  const ObitosCidCap := Category(Fields("capitulo_cod", "total_obitos", Some("capitulo_nome")))
  /** `InternacoesPorCidCapChart` and `InternacoesCid10HomeChart`. */
  const InternacoesCidCap := Category(Fields("capitulo_cod", "total_internacoes", Some("capitulo_nome")))
  const PorSexo := Category(Fields("sexo_desc", "total_internacoes", None))
  const PorFaixa := Category(Fields("faixa_desc", "total_internacoes", None))
  const PorRaca := Category(Fields("raca_desc", "total_obitos", None))

  /** The fields a schema writes are distinct. */
  predicate WellFormed(s: Schema) {
    s.Category? ==>
      s.f.desc != s.f.total && (s.f.name.Some? ==> s.f.name.value != s.f.desc && s.f.name.value != s.f.total)
  }

  function DescField(s: Schema): string {
    if s.Category? then s.f.desc else "local_ocorrencia_desc"
  }

  function TotalField(s: Schema): string {
    if s.Category? then s.f.total else "total_obitos"
  }

  /** Whether normalisation writes field `k`. */
  predicate Touched(s: Schema, k: string) {
    k == DescField(s) || k == TotalField(s) || (s.Category? && s.f.name == Some(k))
  }

  // ---------------------------------------------------------------------------
  // The validity filter

  const LocalDescFields: seq<string> := ["local_ocorrencia_desc", "local_desc", "descricao", "local_ocorrencia"]

  /** `d.local_ocorrencia_desc || d.local_desc || d.descricao || d.local_ocorrencia || ''` */
  function LocalDesc(d: Value): (r: Value)
    ensures Truthy(r) || r == Str("")
    ensures Truthy(Get(d, "local_ocorrencia_desc")) ==> r == Get(d, "local_ocorrencia_desc")
    ensures !Truthy(Get(d, "local_ocorrencia_desc")) && Truthy(Get(d, "local_desc")) ==>
      r == Get(d, "local_desc")
    ensures (!Truthy(Get(d, "local_ocorrencia_desc")) && !Truthy(Get(d, "local_desc"))
      && Truthy(Get(d, "descricao"))) ==> r == Get(d, "descricao")
    ensures (!Truthy(Get(d, "local_ocorrencia_desc")) && !Truthy(Get(d, "local_desc"))
      && !Truthy(Get(d, "descricao"))) ==> r == Or(Get(d, "local_ocorrencia"), Str(""))
  {
    var vs := Values(d, LocalDescFields);
    var first := FirstTruthy(vs);
    assert vs == [Get(d, "local_ocorrencia_desc"), Get(d, "local_desc"), Get(d, "descricao"), Get(d, "local_ocorrencia")];
    assert first == if Truthy(vs[0]) then vs[0] else FirstTruthy(vs[1..]);
    assert FirstTruthy(vs[1..]) == if Truthy(vs[1]) then vs[1] else FirstTruthy(vs[2..]);
    assert FirstTruthy(vs[2..]) == if Truthy(vs[2]) then vs[2] else FirstTruthy(vs[3..]);
    assert FirstTruthy(vs[3..]) == if Truthy(vs[3]) then vs[3] else Null;
    Or(first, Str(""))
  }

  /** `total_obitos` unless it is null or undefined, then `qtd_obitos` on the
      same terms, then `fallback`. */
  function LocalTotal(d: Value, fallback: Value): (r: Value)
    ensures !Nullish(Get(d, "total_obitos")) ==> r == Get(d, "total_obitos")
    ensures Nullish(Get(d, "total_obitos")) && !Nullish(Get(d, "qtd_obitos")) ==> r == Get(d, "qtd_obitos")
    ensures Nullish(Get(d, "total_obitos")) && Nullish(Get(d, "qtd_obitos")) ==> r == fallback
  {
    var t := Get(d, "total_obitos");
    if !Nullish(t) then t
    else
      var q := Get(d, "qtd_obitos");
      if !Nullish(q) then q else fallback
  }

  /** The validity filter. A chart keeps a truthy record whose text is
      non-blank and whose total is neither null nor undefined; calling `trim`
      on a truthy text that is not a string throws. */
  function Check(s: Schema, d: Value): (v: Verdict)
    ensures v == Throw <==> s.Category? && Truthy(d) && Truthy(Get(d, s.f.desc)) && !Get(d, s.f.desc).Str?
    ensures v == Keep && s.Category? ==>
      Get(d, s.f.desc).Str? && Trim(Get(d, s.f.desc).s) != "" && !Nullish(Get(d, s.f.total))
    ensures v == Keep && s.Local? ==>
      Trim(ToStr(LocalDesc(d))) != "" && !Nullish(LocalTotal(d, Null))
    ensures v == Keep ==> d.Obj?
  {
    if !Truthy(d) then Drop
    else match s
      case Category(f) =>
        var desc := Get(d, f.desc);
        if !Truthy(desc) then Drop
        else if !desc.Str? then Throw
        else if Trim(desc.s) != "" && !Nullish(Get(d, f.total)) then Keep
        else Drop
      case Local =>
        if Trim(ToStr(LocalDesc(d))) != "" && !Nullish(LocalTotal(d, Null)) then
          Keep
        else Drop
  }

  /** The elements of `xs` whose flag is set, in order. */
  function Select(xs: seq<Value>, keep: seq<bool>): (r: seq<Value>)
    requires |keep| == |xs|
    ensures |r| <= |xs|
    ensures forall x :: x in r ==> exists i :: 0 <= i < |xs| && keep[i] && xs[i] == x
    ensures forall i :: 0 <= i < |xs| && keep[i] ==> xs[i] in r
  {
    if |xs| == 0 then []
    else
      var rest := Select(xs[1..], keep[1..]);
      assert forall i :: 1 <= i < |xs| ==> xs[i] == xs[1..][i - 1] && keep[i] == keep[1..][i - 1];
      assert forall x :: x in rest ==> exists i :: 0 <= i < |xs| && keep[i] && xs[i] == x by {
        forall x | x in rest ensures exists i :: 0 <= i < |xs| && keep[i] && xs[i] == x {
          var i :| 0 <= i < |xs[1..]| && keep[1..][i] && xs[1..][i] == x;
          assert keep[i + 1] && xs[i + 1] == x;
        }
      }
      if keep[0] then [xs[0]] + rest else rest
  }

  /** Selecting from a concatenation selects from each part: selection keeps order. */
  lemma {:induction false} SelectAppend(a: seq<Value>, ka: seq<bool>, b: seq<Value>, kb: seq<bool>)
    requires |ka| == |a| && |kb| == |b|
    ensures Select(a + b, ka + kb) == Select(a, ka) + Select(b, kb)
  {
    if |a| > 0 {
      assert (a + b)[1..] == a[1..] + b;
      assert (ka + kb)[1..] == ka[1..] + kb;
      SelectAppend(a[1..], ka[1..], b, kb);
    } else {
      assert a + b == b && ka + kb == kb;
    }
  }

  /** The validity filter's verdict on each record. */
  function Verdicts(s: Schema, xs: seq<Value>): (vs: seq<Verdict>)
    ensures |vs| == |xs| && forall i :: 0 <= i < |xs| ==> vs[i] == Check(s, xs[i])
  {
    seq(|xs|, i requires 0 <= i < |xs| => Check(s, xs[i]))
  }

  function KeepFlags(vs: seq<Verdict>): (keep: seq<bool>)
    ensures |keep| == |vs| && forall i :: 0 <= i < |vs| ==> (keep[i] <==> vs[i] == Keep)
  {
    seq(|vs|, i requires 0 <= i < |vs| => vs[i] == Keep)
  }

  /** `xs.filter(check)` with the check's verdicts given: the kept records in
      their order, or `None` when the check throws on some record. */
  function Filter(xs: seq<Value>, vs: seq<Verdict>): (r: Option<seq<Value>>)
    requires |vs| == |xs|
    ensures r.None? <==> Throw in vs
    ensures r.Some? ==> |r.value| <= |xs|
    ensures r.Some? ==> forall x :: x in r.value ==> exists i :: 0 <= i < |xs| && vs[i] == Keep && xs[i] == x
    ensures r.Some? ==> forall i :: 0 <= i < |xs| && vs[i] == Keep ==> xs[i] in r.value
  {
    if Throw in vs then None else Some(Select(xs, KeepFlags(vs)))
  }

  lemma {:induction false} FilterAppend(a: seq<Value>, va: seq<Verdict>, b: seq<Value>, vb: seq<Verdict>)
    requires |va| == |a| && |vb| == |b|
    ensures Filter(a + b, va + vb).Some? <==> Filter(a, va).Some? && Filter(b, vb).Some?
    ensures Filter(a + b, va + vb).Some? ==> Filter(a + b, va + vb).value == Filter(a, va).value + Filter(b, vb).value
  {
    assert KeepFlags(va + vb) == KeepFlags(va) + KeepFlags(vb);
    assert Throw in va + vb <==> Throw in va || Throw in vb;
    SelectAppend(a, KeepFlags(va), b, KeepFlags(vb));
  }

  /** The chart's validity filter over its input. */
  function Validate(s: Schema, xs: seq<Value>): (r: Option<seq<Value>>)
    ensures r.None? <==> exists i :: 0 <= i < |xs| && Check(s, xs[i]) == Throw
    ensures r.Some? ==> |r.value| <= |xs|
    ensures r.Some? ==> forall j :: 0 <= j < |r.value| ==> Check(s, r.value[j]) == Keep
    ensures r.Some? ==> forall i :: 0 <= i < |xs| && Check(s, xs[i]) == Keep ==> xs[i] in r.value
    ensures r.Some? ==> forall x :: x in r.value ==> x in xs
  {
    var vs := Verdicts(s, xs);
    var r := Filter(xs, vs);
    assert r.None? ==> exists i :: 0 <= i < |xs| && Check(s, xs[i]) == Throw by {
      if r.None? {
        var i :| 0 <= i < |vs| && vs[i] == Throw;
      }
    }
    assert r.Some? ==> forall j :: 0 <= j < |r.value| ==> Check(s, r.value[j]) == Keep by {
      if r.Some? {
        forall j | 0 <= j < |r.value| ensures Check(s, r.value[j]) == Keep {
          assert r.value[j] in r.value;
        }
      }
    }
    r
  }

  /** Filtering a concatenation filters each part: the filter keeps order. */
  lemma {:induction false} ValidateAppend(s: Schema, a: seq<Value>, b: seq<Value>)
    ensures Validate(s, a + b).Some? <==> Validate(s, a).Some? && Validate(s, b).Some?
    ensures Validate(s, a + b).Some? ==> Validate(s, a + b).value == Validate(s, a).value + Validate(s, b).value
  {
    assert Verdicts(s, a + b) == Verdicts(s, a) + Verdicts(s, b);
    FilterAppend(a, Verdicts(s, a), b, Verdicts(s, b));
  }

  // ---------------------------------------------------------------------------
  // Normalisation

  /** `String(v || '').trim()` */
  function Text(v: Value): string {
    Trim(ToStr(Or(v, Str(""))))
  }

  /** A normalised record the chart draws: an object with a non-blank trimmed
      text, a positive numeric total and, for the chapter charts, a trimmed name. */
  predicate Clean(s: Schema, r: Value) {
    && r.Obj?
    && Get(r, DescField(s)).Str? && Get(r, DescField(s)).s != ""
    && Trim(Get(r, DescField(s)).s) == Get(r, DescField(s)).s
    && Get(r, TotalField(s)).Num? && Get(r, TotalField(s)).n > 0
    && (s.Category? && s.f.name.Some? ==>
          Get(r, s.f.name.value).Str? && Trim(Get(r, s.f.name.value).s) == Get(r, s.f.name.value).s)
  }

  /** The second filter, applied to a normalised record: `desc !== '' && total > 0`. */
  predicate Passes(s: Schema, r: Value) {
    Get(r, DescField(s)) != Str("") && Get(r, TotalField(s)).Num? && Get(r, TotalField(s)).n > 0
  }

  /** The spread `{ ...d, total: Number(..) || 0, desc: String(..).trim(), … }`. */
  function Normalise(s: Schema, d: Value): (r: Value)
    requires WellFormed(s) && d.Obj?
    ensures r.Obj?
    ensures s.Category? ==> Get(r, s.f.total) == Num(NumberOr0(Get(d, s.f.total)))
    ensures s.Category? ==> Get(r, s.f.desc) == Str(Text(Get(d, s.f.desc)))
    ensures s.Category? && s.f.name.Some? ==> Get(r, s.f.name.value) == Str(Text(Get(d, s.f.name.value)))
    ensures s.Local? ==> Get(r, "local_ocorrencia_desc") == Str(Trim(ToStr(LocalDesc(d))))
    ensures s.Local? ==> Get(r, "total_obitos") == Num(NumberOr0(LocalTotal(d, Num(0))))
    ensures forall k :: !Touched(s, k) ==> Get(r, k) == Get(d, k)
    ensures Passes(s, r) ==> Clean(s, r)
  {
    match s
    case Category(f) =>
      CategoryNormal(f, d);
      Obj(CategoryFields(f, d))
    case Local =>
      LocalNormal(d);
      Obj(LocalFields(d))
  }

  /** What normalising a chapter, sex, age or race record writes. */
  lemma CategoryNormal(f: Fields, d: Value)
    requires WellFormed(Category(f)) && d.Obj?
    ensures var r := Obj(CategoryFields(f, d));
      && Get(r, f.total) == Num(NumberOr0(Get(d, f.total)))
      && Get(r, f.desc) == Str(Text(Get(d, f.desc)))
      && (f.name.Some? ==> Get(r, f.name.value) == Str(Text(Get(d, f.name.value))))
      && (forall k :: !Touched(Category(f), k) ==> Get(r, k) == Get(d, k))
      && (Passes(Category(f), r) ==> Clean(Category(f), r))
  {
    TrimIdempotent(ToStr(Or(Get(d, f.desc), Str(""))));
    if f.name.Some? {
      TrimIdempotent(ToStr(Or(Get(d, f.name.value), Str(""))));
    }
  }

  /** What normalising a place-of-death record writes. */
  lemma LocalNormal(d: Value)
    requires d.Obj?
    ensures var r := Obj(LocalFields(d));
      && Get(r, "local_ocorrencia_desc") == Str(Trim(ToStr(LocalDesc(d))))
      && Get(r, "total_obitos") == Num(NumberOr0(LocalTotal(d, Num(0))))
      && (forall k :: !Touched(Local, k) ==> Get(r, k) == Get(d, k))
      && (Passes(Local, r) ==> Clean(Local, r))
  {
    TrimIdempotent(ToStr(LocalDesc(d)));
  }

  /** The fields of `{ ...d, total: …, desc: …, name: … }`, written in that order. */
  function CategoryFields(f: Fields, d: Value): seq<(string, Value)>
    requires d.Obj?
  {
    var a := SetField(d.fields, f.total, Num(NumberOr0(Get(d, f.total))));
    var b := SetField(a, f.desc, Str(Text(Get(d, f.desc))));
    if f.name.Some? then SetField(b, f.name.value, Str(Text(Get(d, f.name.value)))) else b
  }

  /** The fields of `{ ...d, local_ocorrencia_desc: …, total_obitos: … }`. */
  function LocalFields(d: Value): seq<(string, Value)>
    requires d.Obj?
  {
    var a := SetField(d.fields, "local_ocorrencia_desc", Str(Trim(ToStr(LocalDesc(d)))));
    SetField(a, "total_obitos", Num(NumberOr0(LocalTotal(d, Num(0)))))
  }

  /** `valid.map(normalise)` */
  function Normals(s: Schema, valid: seq<Value>): (ns: seq<Value>)
    requires WellFormed(s)
    requires forall i :: 0 <= i < |valid| ==> valid[i].Obj?
    ensures |ns| == |valid| && forall i :: 0 <= i < |valid| ==> ns[i] == Normalise(s, valid[i])
  {
    seq(|valid|, i requires 0 <= i < |valid| => Normalise(s, valid[i]))
  }

  function PassFlags(s: Schema, ns: seq<Value>): (keep: seq<bool>)
    ensures |keep| == |ns| && forall i :: 0 <= i < |ns| ==> (keep[i] <==> Passes(s, ns[i]))
  {
    seq(|ns|, i requires 0 <= i < |ns| => Passes(s, ns[i]))
  }

  /** `.filter(passes)` over normalised records. */
  function Passing(s: Schema, ns: seq<Value>): (rows: seq<Value>)
    ensures |rows| <= |ns|
    ensures forall j :: 0 <= j < |rows| ==> Passes(s, rows[j]) && rows[j] in ns
    ensures forall i :: 0 <= i < |ns| && Passes(s, ns[i]) ==> ns[i] in rows
  {
    var rows := Select(ns, PassFlags(s, ns));
    assert forall j :: 0 <= j < |rows| ==> Passes(s, rows[j]) && rows[j] in ns by {
      forall j | 0 <= j < |rows| ensures Passes(s, rows[j]) && rows[j] in ns {
        assert rows[j] in rows;
      }
    }
    rows
  }

  lemma PassingAppend(s: Schema, a: seq<Value>, b: seq<Value>)
    ensures Passing(s, a + b) == Passing(s, a) + Passing(s, b)
  {
    assert PassFlags(s, a + b) == PassFlags(s, a) + PassFlags(s, b);
    SelectAppend(a, PassFlags(s, a), b, PassFlags(s, b));
  }

  /** `valid.map(normalise).filter(passes)` */
  function Normalised(s: Schema, valid: seq<Value>): (rows: seq<Value>)
    requires WellFormed(s)
    requires forall i :: 0 <= i < |valid| ==> valid[i].Obj?
  {
    Passing(s, Normals(s, valid))
  }

  /** Normalisation drops records but never adds one, and every record it keeps is clean. */
  lemma NormalisedAreClean(s: Schema, valid: seq<Value>)
    requires WellFormed(s)
    requires forall i :: 0 <= i < |valid| ==> valid[i].Obj?
    ensures |Normalised(s, valid)| <= |valid|
    ensures forall j :: 0 <= j < |Normalised(s, valid)| ==> Clean(s, Normalised(s, valid)[j])
  {
    var ns := Normals(s, valid);
    var rows := Passing(s, ns);
    forall j | 0 <= j < |rows| ensures Clean(s, rows[j]) {
      var i :| 0 <= i < |ns| && ns[i] == rows[j];
    }
  }

  lemma {:induction false} NormalisedAppend(s: Schema, a: seq<Value>, b: seq<Value>)
    requires WellFormed(s)
    requires forall i :: 0 <= i < |a| ==> a[i].Obj?
    requires forall i :: 0 <= i < |b| ==> b[i].Obj?
    ensures Normalised(s, a + b) == Normalised(s, a) + Normalised(s, b)
  {
    NormalsAppend(s, a, b);
    PassingAppend(s, Normals(s, a), Normals(s, b));
  }

  lemma NormalsAppend(s: Schema, a: seq<Value>, b: seq<Value>)
    requires WellFormed(s)
    requires forall i :: 0 <= i < |a| ==> a[i].Obj?
    requires forall i :: 0 <= i < |b| ==> b[i].Obj?
    ensures Normals(s, a + b) == Normals(s, a) + Normals(s, b)
  {
  }

  /** The validity filter followed by normalisation; `None` when the filter throws. */
  function Pipeline(s: Schema, xs: seq<Value>): (r: Option<seq<Value>>)
    requires WellFormed(s)
    ensures r.None? <==> exists i :: 0 <= i < |xs| && Check(s, xs[i]) == Throw
    ensures r.Some? ==> |r.value| <= |xs| && forall j :: 0 <= j < |r.value| ==> Clean(s, r.value[j])
    ensures r.Some? ==> RowsFrom(s, xs, r.value) && RowsComplete(s, xs, r.value)
  {
    match Validate(s, xs)
    case None => None
    case Some(valid) =>
      ValidatedRows(s, xs, valid);
      Some(Normalised(s, valid))
  }

  /** What the rows normalised from the validity filter's output are, in
      terms of the filter's input. */
  lemma ValidatedRows(s: Schema, xs: seq<Value>, valid: seq<Value>)
    requires WellFormed(s)
    requires Validate(s, xs) == Some(valid)
    ensures forall i :: 0 <= i < |valid| ==> valid[i].Obj?
    ensures |Normalised(s, valid)| <= |xs|
    ensures forall j :: 0 <= j < |Normalised(s, valid)| ==> Clean(s, Normalised(s, valid)[j])
    ensures RowsFrom(s, xs, Normalised(s, valid)) && RowsComplete(s, xs, Normalised(s, valid))
  {
    assert forall i :: 0 <= i < |valid| ==> Check(s, valid[i]) == Keep;
    assert forall i :: 0 <= i < |valid| ==> Kept(s, valid[i]);
    NormalisedAreClean(s, valid);
    NormalisedFrom(s, xs, valid);
    NormalisedAll(s, xs, valid);
  }

  /** Every row is the normalisation of a record of `xs` the validity filter keeps. */
  predicate RowsFrom(s: Schema, xs: seq<Value>, rows: seq<Value>)
    requires WellFormed(s)
  {
    forall j :: 0 <= j < |rows| ==>
      exists i :: 0 <= i < |xs| && Kept(s, xs[i]) && rows[j] == Normalise(s, xs[i])
  }

  /** Every record of `xs` the validity filter keeps and whose normalisation
      passes the checks has that normalisation among the rows. */
  predicate RowsComplete(s: Schema, xs: seq<Value>, rows: seq<Value>)
    requires WellFormed(s)
  {
    forall i :: 0 <= i < |xs| && Kept(s, xs[i]) && Passes(s, Normalise(s, xs[i])) ==>
      Normalise(s, xs[i]) in rows
  }

  /** A record the validity filter keeps. */
  predicate Kept(s: Schema, d: Value) {
    d.Obj? && Check(s, d) == Keep
  }

  /** Every row normalised from the validity filter's output is the
      normalisation of a record of the input that the filter keeps. */
  lemma NormalisedFrom(s: Schema, xs: seq<Value>, valid: seq<Value>)
    requires WellFormed(s)
    requires forall j :: 0 <= j < |valid| ==> valid[j].Obj?
    requires forall j :: 0 <= j < |valid| ==> Kept(s, valid[j]) && valid[j] in xs
    ensures RowsFrom(s, xs, Normalised(s, valid))
  {
    var ns := Normals(s, valid);
    var rows := Passing(s, ns);
    assert rows == Normalised(s, valid);
    forall j | 0 <= j < |rows|
      ensures exists i :: 0 <= i < |xs| && Kept(s, xs[i]) && rows[j] == Normalise(s, xs[i])
    {
      var k :| 0 <= k < |ns| && ns[k] == rows[j];
      var i :| 0 <= i < |xs| && xs[i] == valid[k];
      assert Kept(s, xs[i]) && rows[j] == Normalise(s, xs[i]);
    }
  }

  /** Every kept record of the input whose normalisation passes the checks is
      among the rows normalised from the validity filter's output. */
  lemma NormalisedAll(s: Schema, xs: seq<Value>, valid: seq<Value>)
    requires WellFormed(s)
    requires forall j :: 0 <= j < |valid| ==> valid[j].Obj?
    requires forall i :: 0 <= i < |xs| && Kept(s, xs[i]) ==> xs[i] in valid
    ensures RowsComplete(s, xs, Normalised(s, valid))
  {
    var ns := Normals(s, valid);
    var rows := Passing(s, ns);
    assert rows == Normalised(s, valid);
    forall i | 0 <= i < |xs| && Kept(s, xs[i]) && Passes(s, Normalise(s, xs[i]))
      ensures Normalise(s, xs[i]) in rows
    {
      var k :| 0 <= k < |valid| && valid[k] == xs[i];
      assert ns[k] == Normalise(s, xs[i]);
    }
  }

  /** The pipeline keeps the input's order: the rows of a concatenation are
      the rows of its first part followed by those of its second. */
  lemma {:induction false} PipelineKeepsOrder(s: Schema, a: seq<Value>, b: seq<Value>)
    requires WellFormed(s)
    ensures Pipeline(s, a + b).Some? <==> Pipeline(s, a).Some? && Pipeline(s, b).Some?
    ensures Pipeline(s, a + b).Some? ==> Pipeline(s, a + b).value == Pipeline(s, a).value + Pipeline(s, b).value
  {
    ValidateAppend(s, a, b);
    if Pipeline(s, a + b).Some? {
      NormalisedAppend(s, Validate(s, a).value, Validate(s, b).value);
    }
  }

  /** The filter keeps nothing exactly when it drops every record. */
  lemma ValidateKeepsNothing(s: Schema, xs: seq<Value>)
    requires Validate(s, xs).Some?
    ensures |Validate(s, xs).value| == 0 <==> forall i :: 0 <= i < |xs| ==> Check(s, xs[i]) == Drop
  {
    var valid := Validate(s, xs).value;
    if |valid| == 0 {
      assert forall i :: 0 <= i < |xs| ==> Check(s, xs[i]) == Drop;
    } else {
      assert valid[0] in xs;
    }
  }

  /** The component's three empty states, its crash, and the rows it draws. */
  function Render(s: Schema, data: Value): (v: View)
    requires WellFormed(s)
    ensures v == NoData <==> !NonEmptyArray(data)
    ensures v == Crash <==> NonEmptyArray(data) && exists i :: 0 <= i < |data.items| && Check(s, data.items[i]) == Throw
    ensures v == Invalid <==> NonEmptyArray(data) && forall i :: 0 <= i < |data.items| ==> Check(s, data.items[i]) == Drop
    ensures v.Drawn? ==> 0 < |v.rows| <= |data.items| && forall j :: 0 <= j < |v.rows| ==> Clean(s, v.rows[j])
    ensures v.Drawn? ==> Pipeline(s, data.items) == Some(v.rows)
    ensures v == NoneValid <==> (NonEmptyArray(data) && Pipeline(s, data.items) == Some([])
      && exists i :: 0 <= i < |data.items| && Check(s, data.items[i]) == Keep)
  {
    if !NonEmptyArray(data) then NoData
    else match Validate(s, data.items)
      case None => Crash
      case Some(valid) =>
        ValidateKeepsNothing(s, data.items);
        if |valid| == 0 then Invalid
        else
          NormalisedAreClean(s, valid);
          var rows := Normalised(s, valid);
          if |rows| == 0 then NoneValid else Drawn(rows)
  }

  /** A clean record passes the validity filter. */
  lemma CleanIsKept(s: Schema, r: Value)
    requires WellFormed(s) && Clean(s, r)
    ensures Check(s, r) == Keep && Passes(s, r)
  {
    if s.Local? {
      var desc := Get(r, "local_ocorrencia_desc").s;
      var vs := Values(r, LocalDescFields);
      assert vs[0] == Str(desc);
      assert LocalDesc(r) == Str(desc);
    }
  }

  /** `String(v || '').trim()` of an already trimmed string is that string. */
  lemma TextFixed(v: Value)
    requires v.Str? && Trim(v.s) == v.s
    ensures Str(Text(v)) == v
  {
    if v.s == "" { assert Trim("") == ""; }
  }

  /** A clean chapter, sex, age-bracket or race record normalises to itself. */
  lemma {:induction false} CategoryFixed(f: Fields, r: Value)
    requires WellFormed(Category(f)) && Clean(Category(f), r)
    ensures CategoryFields(f, r) == r.fields
  {
    var fs := r.fields;
    var t := Get(r, f.total);
    assert Num(NumberOr0(t)) == t;
    TextFixed(Get(r, f.desc));
    SetFieldUnchanged(fs, f.total, t);
    SetFieldUnchanged(fs, f.desc, Get(r, f.desc));
    if f.name.Some? {
      TextFixed(Get(r, f.name.value));
      SetFieldUnchanged(fs, f.name.value, Get(r, f.name.value));
    }
  }

  /** A clean place-of-death record normalises to itself. */
  lemma {:induction false} LocalFixed(r: Value)
    requires Clean(Local, r)
    ensures LocalFields(r) == r.fields
  {
    var fs := r.fields;
    var desc := Get(r, "local_ocorrencia_desc");
    var vs := Values(r, LocalDescFields);
    assert vs[0] == desc;
    assert LocalDesc(r) == desc;
    SetFieldUnchanged(fs, "local_ocorrencia_desc", desc);
    var t := Get(r, "total_obitos");
    assert LocalTotal(r, Num(0)) == t;
    assert Num(NumberOr0(t)) == t;
    SetFieldUnchanged(fs, "total_obitos", t);
  }

  /** A clean record normalises to itself. */
  lemma CleanIsFixed(s: Schema, r: Value)
    requires WellFormed(s) && Clean(s, r)
    ensures Normalise(s, r) == r
  {
    if s.Local? { LocalFixed(r); } else { CategoryFixed(s.f, r); }
  }

  lemma {:induction false} SelectAll(xs: seq<Value>, keep: seq<bool>)
    requires |keep| == |xs| && forall i :: 0 <= i < |keep| ==> keep[i]
    ensures Select(xs, keep) == xs
  {
    if |xs| > 0 {
      SelectAll(xs[1..], keep[1..]);
      assert [xs[0]] + xs[1..] == xs;
    }
  }

  lemma CleanRowsAreFixed(s: Schema, rows: seq<Value>)
    requires WellFormed(s)
    requires forall j :: 0 <= j < |rows| ==> Clean(s, rows[j])
    ensures Validate(s, rows) == Some(rows)
    ensures Normalised(s, rows) == rows
  {
    CleanRowsValidate(s, rows);
    CleanRowsNormalise(s, rows);
  }

  /** Clean rows all pass validation. */
  lemma CleanRowsValidate(s: Schema, rows: seq<Value>)
    requires WellFormed(s)
    requires forall j :: 0 <= j < |rows| ==> Clean(s, rows[j])
    ensures Validate(s, rows) == Some(rows)
  {
    forall j | 0 <= j < |rows| ensures Check(s, rows[j]) == Keep {
      CleanIsKept(s, rows[j]);
    }
    var vs := Verdicts(s, rows);
    assert Throw !in vs;
    SelectAll(rows, KeepFlags(vs));
  }

  /** Clean rows all normalise to themselves and pass the second filter. */
  lemma CleanRowsNormalise(s: Schema, rows: seq<Value>)
    requires WellFormed(s)
    requires forall j :: 0 <= j < |rows| ==> Clean(s, rows[j])
    ensures (forall j :: 0 <= j < |rows| ==> rows[j].Obj?) && Normalised(s, rows) == rows
  {
    forall j | 0 <= j < |rows| ensures Passes(s, rows[j]) && Normalise(s, rows[j]) == rows[j] {
      CleanIsKept(s, rows[j]);
      CleanIsFixed(s, rows[j]);
    }
    assert Normals(s, rows) == rows;
    SelectAll(rows, PassFlags(s, rows));
  }

  /** Feeding a chart the rows it draws draws them again: normalisation is
      idempotent. */
  lemma {:induction false} RenderIsIdempotent(s: Schema, data: Value)
    requires WellFormed(s) && Render(s, data).Drawn?
    ensures Render(s, Arr(Render(s, data).rows)) == Render(s, data)
  {
    CleanRowsAreFixed(s, Render(s, data).rows);
  }

  // ---------------------------------------------------------------------------
  // Layout

  /** The height of the chapter, place and race charts: 240 on the home page,
      else 400 plus 15 per record beyond 8, capped at 700. */
  function BarHeight(n: nat, isHome: bool): (h: int)
    ensures isHome ==> h == 240
    ensures !isHome ==> 400 <= h <= 700
    ensures !isHome ==> (h == 400 <==> n <= 8) && (h == 700 <==> n >= 28)
  {
    if isHome then 240
    else
      var extra := if n > 8 then (n - 8) * 15 else 0;
      if 400 + extra < 700 then 400 + extra else 700
  }

  /** More records never make a chart shorter, and between 8 and 28 records
      each one adds 15 pixels. */
  lemma BarHeightGrows(n: nat, m: nat)
    requires n <= m
    ensures BarHeight(n, false) <= BarHeight(m, false)
    ensures 8 <= n < 28 ==> BarHeight(n + 1, false) == BarHeight(n, false) + 15
  {
  }

  /** `InternacoesPorFaixaChart`'s height: 40 per record plus 100, at least
      350 and at most 800. */
  function FaixaHeight(n: nat): (h: int)
    ensures 350 <= h <= 800
    ensures (h == 350 <==> n <= 6) && (h == 800 <==> n >= 18)
  {
    var calculated := if 350 > n * 40 + 100 then 350 else n * 40 + 100;
    if calculated < 800 then calculated else 800
  }

  lemma FaixaHeightGrows(n: nat, m: nat)
    requires n <= m
    ensures FaixaHeight(n) <= FaixaHeight(m)
    ensures 7 <= n < 17 ==> FaixaHeight(n + 1) == FaixaHeight(n) + 40
  {
  }

  function Max(a: int, b: int): (m: int)
    ensures m >= a && m >= b && (m == a || m == b)
  {
    if a >= b then a else b
  }

  /** The bottom margin of the place and race charts, and the height of their
      slanted category axis. */
  function BottomMargin(n: nat): int { Max(100, 8 * n) }
  function CategoryAxisHeight(n: nat): int { Max(80, 8 * n) }

  /** The slanted labels always fit inside the bottom margin, with at most 20
      pixels to spare. */
  lemma AxisFitsMargin(n: nat)
    ensures CategoryAxisHeight(n) <= BottomMargin(n) <= CategoryAxisHeight(n) + 20
    ensures n >= 13 ==> BottomMargin(n) == CategoryAxisHeight(n)
  {
  }

  /** The left margin and category-axis width of the horizontal age-bracket chart. */
  function FaixaLeftMargin(n: nat): int { Max(120, 2 * n) }
  function FaixaAxisWidth(n: nat): int { Max(120, 8 * n) }

  /** The bracket labels' axis is never narrower than the margin beside it. */
  lemma FaixaAxisCoversMargin(n: nat)
    ensures FaixaLeftMargin(n) <= FaixaAxisWidth(n)
    ensures n <= 15 ==> FaixaLeftMargin(n) == FaixaAxisWidth(n) == 120
  {
  }

  /** The x-axis label angle of the race chart (-45 beyond six records, else
      -35) and of the place chart (-40, else -30). */
  function RacaAngle(n: nat): (a: int)
    ensures -45 <= a <= -35 && (a == -45 <==> n > 6)
  {
    if n > 6 then -45 else -35
  }

  function LocalAngle(n: nat): (a: int)
    ensures -40 <= a <= -30 && (a == -40 <==> n > 6)
  {
    if n > 6 then -40 else -30
  }

  // ---------------------------------------------------------------------------
  // Bar colours, labels, clicks and maxima

  const PositionPalette: seq<string> := ["#8b5cf6", "#6366f1", "#3b82f6", "#0ea5e9", "#14b8a6"]

  /** `ObitosPorCidCapChart`'s colour band of bar `index` out of `count`: the
      position `index / (count - 1 || 1)` against 0.2, 0.4, 0.6 and 0.8. */
  function PositionBucket(index: nat, count: nat): (b: nat)
    requires index < count
    ensures b < |PositionPalette|
    ensures index == 0 ==> b == 0
    ensures count >= 2 && index == count - 1 ==> b == 4
  {
    var d := if count - 1 == 0 then 1 else count - 1;
    var pos := (index as real) / (d as real);
    if pos <= 0.2 then 0
    else if pos <= 0.4 then 1
    else if pos <= 0.6 then 2
    else if pos <= 0.8 then 3
    else 4
  }

  /** Later bars never take an earlier colour band. */
  lemma {:induction false} PositionBucketMonotone(i: nat, j: nat, count: nat)
    requires i <= j < count
    ensures PositionBucket(i, count) <= PositionBucket(j, count)
  {
    var d := if count - 1 == 0 then 1 else count - 1;
    var pi := (i as real) / (d as real);
    var pj := (j as real) / (d as real);
    assert pj - pi == ((j - i) as real) / (d as real);
    assert ((j - i) as real) / (d as real) >= 0.0;
  }

  /** `array[i]` for an array or a string; undefined out of range. */
  function At(v: Value, i: nat): Value {
    if v.Arr? && i < |v.items| then v.items[i]
    else if v.Str? && i < |v.s| then Str([v.s[i]])
    else Undefined
  }

  /** `handleBarClick`: the payload forwarded to the handler, if any. */
  function BarClick(hasHandler: bool, click: Value): (r: Option<Value>)
    ensures r.Some? <==> hasHandler && Truthy(click) && Truthy(Get(click, "activePayload"))
                         && Truthy(At(Get(click, "activePayload"), 0))
  {
    var active := Get(click, "activePayload");
    if hasHandler && Truthy(click) && Truthy(active) && Truthy(At(active, 0)) then
      Some(Get(At(active, 0), "payload"))
    else None
  }

  /** The click event recharts sends for a bar. */
  function BarEvent(row: Value): Value {
    Obj([("activePayload", Arr([Obj([("payload", row)])]))])
  }

  /** Clicking a bar forwards exactly that bar's record, and only when a
      handler exists. */
  lemma ClickForwardsTheBar(row: Value)
    ensures BarClick(true, BarEvent(row)) == Some(row)
    ensures BarClick(false, BarEvent(row)) == None
  {
  }

  /** The chapter charts' `capitulo_label` field, `${cod || ''} - ${nome || ''}`. */
  function WithLabel(row: Value): (r: Value)
    requires row.Obj?
    ensures r.Obj?
    ensures forall k :: k != "capitulo_label" ==> Get(r, k) == Get(row, k)
  {
    var cod := ToStr(Or(Get(row, "capitulo_cod"), Str("")));
    var nome := ToStr(Or(Get(row, "capitulo_nome"), Str("")));
    Obj(SetField(row.fields, "capitulo_label", Str(cod + " - " + nome)))
  }

  /** A drawn chapter bar is labelled by its code, " - " and its name. */
  lemma LabelOfDrawnRow(s: Schema, row: Value)
    requires s == ObitosCidCap || s == InternacoesCidCap
    requires Clean(s, row)
    ensures Get(WithLabel(row), "capitulo_label")
         == Str(Get(row, "capitulo_cod").s + " - " + Get(row, "capitulo_nome").s)
  {
  }

  /** `InternacoesCid10HomeChart`'s bars: the first ten rows, labelled. */
  function HomeBars(rows: seq<Value>): (bars: seq<Value>)
    requires forall j :: 0 <= j < |rows| ==> rows[j].Obj?
    ensures |bars| == if |rows| < 10 then |rows| else 10
    ensures forall j :: 0 <= j < |bars| ==> bars[j] == WithLabel(rows[j])
  {
    var top := rows[..if |rows| < 10 then |rows| else 10];
    seq(|top|, j requires 0 <= j < |top| => WithLabel(top[j]))
  }

  /** `Math.max(...rows.map(d => d.total || 0), 1)` of the sex, age-bracket and race charts. */
  function MaxTotal(s: Schema, rows: seq<Value>): (m: int)
    ensures m >= 1
    ensures forall j :: 0 <= j < |rows| ==> NumberOr0(Get(rows[j], TotalField(s))) <= m
    ensures m == 1 || exists j :: 0 <= j < |rows| && NumberOr0(Get(rows[j], TotalField(s))) == m
  {
    var totals := seq(|rows|, j requires 0 <= j < |rows| => NumberOr0(Get(rows[j], TotalField(s))));
    var m := MaxValue(totals);
    assert forall j :: 0 <= j < |rows| ==> totals[j] == NumberOr0(Get(rows[j], TotalField(s)));
    assert m != 1 ==> exists j :: 0 <= j < |rows| && NumberOr0(Get(rows[j], TotalField(s))) == m by {
      if m != 1 {
        var j :| 0 <= j < |totals| && totals[j] == m;
        assert NumberOr0(Get(rows[j], TotalField(s))) == m;
      }
    }
    m
  }
}

=== FILE: descriptions.dfy ===
/** The chart descriptions printed under exported charts
    (utils/chartDescriptions.js): a table from chart id to text, read with
    '' for an id the table lacks. */
module Descriptions {
  /** The table, in its source order. */
  const Table: seq<(string, string)> := [
    ("internacoes-sexo", "Distribuição das internações hospitalares segundo o sexo dos pacientes. Analise as diferenças e proporções entre os grupos."),
    ("internacoes-faixa-etaria", "Distribuição das internações hospitalares por faixa etária dos pacientes. Analise a concentração de casos por idade."),
    ("internacoes-cid10-capitulo", "Distribuição das internações hospitalares por capítulo CID-10. Analise os principais grupos de causas de internação."),
    ("obitos-raca", "Distribuição dos óbitos segundo a raça/cor dos pacientes. Analise as diferenças e proporções entre os grupos étnicos."),
    ("obitos-estado-civil", "Distribuição dos óbitos segundo o estado civil dos pacientes. Analise as diferenças entre os grupos."),
    ("obitos-local-ocorrencia", "Distribuição dos óbitos por local de ocorrência. Analise onde os óbitos estão acontecendo."),
    ("obitos-cid10-capitulo", "Distribuição dos óbitos por capítulo CID-10. Analise os principais grupos de causas de óbito."),
    ("serie-mensal", "Série temporal mensal de internações e óbitos. Analise as tendências e variações ao longo do tempo."),
    ("dashboard", "Dashboard geral com visão consolidada dos principais indicadores de saúde.")
  ]

  /** The chart ids the pages ask for when they export. */
  const Requested: seq<string> := ["serie-mensal", "internacoes-faixa-etaria", "obitos-local-ocorrencia", "obitos-estado-civil", "obitos-raca"]

  predicate Known(id: string) {
    exists i :: 0 <= i < |Table| && Table[i].0 == id
  }

  /** The description of the first entry with that id, from position `from` on. */
  function Find(id: string, from: nat): (d: string)
    requires from <= |Table|
    ensures d == "" <==> forall i :: from <= i < |Table| ==> Table[i].0 != id
    ensures forall i :: from <= i < |Table| && Table[i].0 == id && (forall j :: from <= j < i ==> Table[j].0 != id) ==> d == Table[i].1
    decreases |Table| - from
  {
    if from == |Table| then ""
    else if Table[from].0 == id then Table[from].1
    else Find(id, from + 1)
  }

  /** `getChartDescription`: the text for a known id, '' for any other. */
  function Describe(id: string): (d: string)
    ensures d == "" <==> !Known(id)
    ensures forall i :: 0 <= i < |Table| && Table[i].0 == id ==> d == Table[i].1
  {
    Distinct();
    Find(id, 0)
  }

  /** The nine ids are all different. */
  lemma Distinct()
    ensures |Table| == 9
    ensures forall i, j :: 0 <= i < j < |Table| ==> Table[i].0 != Table[j].0
  {
    assert Table[0].0[0] == 'i' && Table[1].0[0] == 'i' && Table[2].0[0] == 'i';
    assert Table[3].0[0] == 'o' && Table[4].0[0] == 'o' && Table[5].0[0] == 'o' && Table[6].0[0] == 'o';
    assert Table[7].0[0] == 's' && Table[8].0[0] == 'd';
    assert Table[0].0[12] != Table[1].0[12] && Table[0].0[12] != Table[2].0[12] && Table[1].0[12] != Table[2].0[12];
    assert Table[3].0[7] != Table[4].0[7] && Table[3].0[7] != Table[5].0[7] && Table[3].0[7] != Table[6].0[7];
    assert Table[4].0[7] != Table[5].0[7] && Table[4].0[7] != Table[6].0[7] && Table[5].0[7] != Table[6].0[7];
  }

  /** Every id a page asks for has its own description. */
  lemma RequestedAreKnown()
    ensures forall k :: 0 <= k < |Requested| ==> Known(Requested[k]) && Describe(Requested[k]) != ""
  {
    assert Table[7].0 == Requested[0] && Table[1].0 == Requested[1] && Table[5].0 == Requested[2];
    assert Table[4].0 == Requested[3] && Table[3].0 == Requested[4];
  }
}

=== FILE: export.dfy ===
/**
 Chart and data export (utils/exportChart.js): the CSV writer `exportDataAsCSV`,
 the download names, and the canvas-size arithmetic of `exportChartAsPNG` and
 its SVG fallback.

 The CSV writer is compared against a reader for one record of RFC 4180
 (section 2): fields separated by commas, a field in double quotes may hold
 commas, and a doubled quote inside it stands for one quote.
 */
module Export {
  import opened Js

  // ---------------------------------------------------------------------------
  // Splitting and joining on one character

  /** `s.split(c)` */
  function Split(s: string, c: char): (parts: seq<string>)
    ensures |parts| >= 1
  {
    if |s| == 0 then [""]
    else
      var rest := Split(s[1..], c);
      if s[0] == c then [""] + rest else [[s[0]] + rest[0]] + rest[1..]
  }

  lemma {:induction false} SplitFree(p: string, c: char)
    requires c !in p
    ensures Split(p, c) == [p]
  {
    if |p| > 0 {
      SplitFree(p[1..], c);
      assert [p[0]] + p[1..] == p;
    }
  }

  lemma {:induction false} SplitAppend(p: string, c: char, t: string)
    requires c !in p
    ensures Split(p + [c] + t, c) == [p] + Split(t, c)
  {
    if |p| == 0 {
      assert p + [c] + t == [c] + t;
      assert ([c] + t)[1..] == t;
    } else {
      assert (p + [c] + t)[1..] == p[1..] + [c] + t;
      SplitAppend(p[1..], c, t);
      assert [p[0]] + p[1..] == p;
    }
  }

  /** Splitting a join on a separator that no part contains gives the parts back. */
  lemma {:induction false} SplitJoin(parts: seq<string>, c: char)
    requires |parts| >= 1
    requires forall i :: 0 <= i < |parts| ==> c !in parts[i]
    ensures Split(Join(parts, [c]), c) == parts
  {
    if |parts| == 1 {
      SplitFree(parts[0], c);
    } else {
      SplitJoin(parts[1..], c);
      SplitAppend(parts[0], c, Join(parts[1..], [c]));
      assert [parts[0]] + parts[1..] == parts;
    }
  }

  /** Joining the pieces of a split on the same character gives the text back. */
  lemma {:induction false} JoinSplit(s: string, c: char)
    ensures Join(Split(s, c), [c]) == s
  {
    if |s| > 0 {
      var rest := Split(s[1..], c);
      JoinSplit(s[1..], c);
      var parts := Split(s, c);
      if s[0] == c {
        assert parts[1..] == rest;
        assert [s[0]] + s[1..] == s;
      } else if |rest| == 1 {
        assert [s[0]] + s[1..] == s;
      } else {
        assert parts[1..] == rest[1..];
        assert Join(rest, [c]) == rest[0] + [c] + Join(rest[1..], [c]);
        assert [s[0]] + s[1..] == s;
      }
    }
  }

  lemma {:induction false} JoinAvoids(parts: seq<string>, sep: string, c: char)
    requires c !in sep
    requires forall i :: 0 <= i < |parts| ==> c !in parts[i]
    ensures c !in Join(parts, sep)
  {
    if |parts| > 1 {
      JoinAvoids(parts[1..], sep, c);
    }
  }

  // ---------------------------------------------------------------------------
  // A reader for one RFC 4180 record

  /** An unquoted field: everything up to the next comma. */
  function ReadPlain(s: string): (r: (string, string))
    ensures |r.1| <= |s|
    ensures r.1 == [] || r.1[0] == ','
  {
    if |s| == 0 then ("", "")
    else if s[0] == ',' then ("", s)
    else
      var (f, rest) := ReadPlain(s[1..]);
      ([s[0]] + f, rest)
  }

  /** The inside of a quoted field, read after its opening quote; `""` stands for
      one quote and a lone quote closes the field. */
  function ReadQuoted(s: string): (r: (string, string))
    ensures |r.1| <= |s|
  {
    if |s| == 0 then ("", "")
    else if s[0] == '"' then
      if |s| > 1 && s[1] == '"' then
        var (f, rest) := ReadQuoted(s[2..]);
        (['"'] + f, rest)
      else ("", s[1..])
    else
      var (f, rest) := ReadQuoted(s[1..]);
      ([s[0]] + f, rest)
  }

  /** The fields of one record. */
  function ReadRecord(s: string): (fields: seq<string>)
    decreases |s|
  {
    var (field, rest) := if |s| > 0 && s[0] == '"' then ReadQuoted(s[1..]) else ReadPlain(s);
    if |rest| == 0 then [field] else [field] + ReadRecord(rest[1..])
  }

  /** A quote written as two quotes, as section 2 rule 7 of RFC 4180 requires. */
  function Escape(s: string): (r: string)
    ensures '"' !in s ==> r == s
  {
    if |s| == 0 then ""
    else (if s[0] == '"' then "\"\"" else [s[0]]) + Escape(s[1..])
  }

  lemma {:induction false} ReadPlainOf(p: string, t: string)
    requires ',' !in p
    requires t == [] || t[0] == ','
    ensures ReadPlain(p + t) == (p, t)
  {
    if |p| > 0 {
      assert (p + t)[1..] == p[1..] + t;
      ReadPlainOf(p[1..], t);
      assert [p[0]] + p[1..] == p;
    } else {
      assert p + t == t;
    }
  }

  lemma {:induction false} ReadQuotedOf(v: string, t: string)
    requires t == [] || t[0] == ','
    ensures ReadQuoted(Escape(v) + "\"" + t) == (v, t)
  {
    var q := "\"" + t;
    var s := Escape(v) + "\"" + t;
    Associative(Escape(v), "\"", t);
    if |v| == 0 {
      assert s == q;
      assert s[0] == '"' && s[1..] == t;
    } else {
      var h := if v[0] == '"' then "\"\"" else [v[0]];
      var e := Escape(v[1..]);
      ReadQuotedOf(v[1..], t);
      assert Escape(v) == h + e;
      Associative(e, "\"", t);
      Associative(h, e, q);
      var inner := e + q;
      assert s == h + inner;
      if v[0] == '"' {
        assert s[0] == '"' && s[1] == '"' && s[2..] == inner;
      } else {
        assert s[0] == v[0] && s[1..] == inner;
      }
      HeadAndTail(v);
    }
  }

  /** How a field may legitimately carry its text: as-is when that cannot be
      mistaken for a separator or a quoted field, or quoted with quotes doubled. */
  predicate Encodes(text: string, cell: string) {
    (cell == text && ',' !in text && (|text| == 0 || text[0] != '"'))
    || cell == "\"" + Escape(text) + "\""
  }

  lemma {:induction false} ReadOneField(text: string, cell: string, t: string)
    requires Encodes(text, cell)
    requires t == [] || t[0] == ','
    ensures (if |cell + t| > 0 && (cell + t)[0] == '"' then ReadQuoted((cell + t)[1..]) else ReadPlain(cell + t)) == (text, t)
  {
    if cell == "\"" + Escape(text) + "\"" {
      assert (cell + t)[1..] == Escape(text) + "\"" + t;
      ReadQuotedOf(text, t);
    } else {
      ReadPlainOf(text, t);
    }
  }

  /** Reading back a record whose fields are all properly encoded gives their texts. */
  lemma {:induction false} ReadRecordOfEncoded(texts: seq<string>, cells: seq<string>)
    requires |texts| == |cells| >= 1
    requires forall i :: 0 <= i < |cells| ==> Encodes(texts[i], cells[i])
    ensures ReadRecord(Join(cells, ",")) == texts
  {
    if |cells| == 1 {
      ReadOneField(texts[0], cells[0], "");
      assert cells[0] + "" == cells[0];
    } else {
      var tail := Join(cells[1..], ",");
      var t := "," + tail;
      assert Join(cells, ",") == cells[0] + t;
      ReadOneField(texts[0], cells[0], t);
      assert t[1..] == tail;
      ReadRecordOfEncoded(texts[1..], cells[1..]);
      assert [texts[0]] + texts[1..] == texts;
    }
  }

  // ---------------------------------------------------------------------------
  // exportDataAsCSV

  /** A row is an object; its fields are what `Object.keys` and `row[h]` see. */
  type Row = seq<(string, Value)>

  datatype Download = Download(name: string, content: string)

  /** The text a value stands for: `row[h] || ''`, printed the way `join` prints it. */
  function CellText(v: Value): string {
    ToStr(Or(v, Str("")))
  }

  /** One field as written: a string holding a comma goes in double quotes,
      with nothing inside escaped; every other value is written as its text. */
  function Cell(v: Value): (c: string)
    ensures !Truthy(v) ==> c == ""
    ensures v.Str? && Includes(v.s, ",") ==> |c| == |v.s| + 2 && c[0] == '"' && c[|c| - 1] == '"' && c[1..|c| - 1] == v.s
    ensures !(v.Str? && Includes(v.s, ",")) ==> c == CellText(v)
  {
    var x := Or(v, Str(""));
    if x.Str? && Includes(x.s, ",") then "\"" + x.s + "\"" else ToStr(x)
  }

  /** The fields of one row, in the order of `headers`. */
  function Cells(headers: seq<string>, row: Row, cell: Value -> string): (cs: seq<string>)
    ensures |cs| == |headers|
    ensures forall i :: 0 <= i < |headers| ==> cs[i] == cell(Lookup(row, headers[i]))
  {
    seq(|headers|, i requires 0 <= i < |headers| => cell(Lookup(row, headers[i])))
  }

  function Texts(headers: seq<string>, row: Row): (ts: seq<string>)
    ensures |ts| == |headers|
    ensures forall i :: 0 <= i < |headers| ==> ts[i] == CellText(Lookup(row, headers[i]))
  {
    seq(|headers|, i requires 0 <= i < |headers| => CellText(Lookup(row, headers[i])))
  }

  function Line(headers: seq<string>, row: Row, cell: Value -> string): string {
    Join(Cells(headers, row, cell), ",")
  }

  function CsvName(filename: string, now: int): (name: string)
    ensures |name| > |filename| + 5 && name[..|filename|] == filename && name[|filename|] == '-'
    ensures name[|name| - 4..] == ".csv"
  {
    filename + "-" + IntToStr(now) + ".csv"
  }

  /** `exportDataAsCSV(data, filename)`; `now` is `new Date().getTime()`. Null or
      empty data produces no file. */
  function ExportCsv(data: Option<seq<Row>>, filename: string, now: int): (r: Option<Download>)
    ensures r.None? <==> data.None? || |data.value| == 0
    ensures r.Some? ==> r.value.name == CsvName(filename, now)
  {
    if data.None? || |data.value| == 0 then None
    else
      var rows := data.value;
      var headers := Keys(rows[0]);
      var lines := seq(|rows|, i requires 0 <= i < |rows| => Line(headers, rows[i], Cell));
      Some(Download(CsvName(filename, now), Join([Join(headers, ",")] + lines, "\n")))
  }

  /** The written file: a header line of the first row's keys, then one line per
      row over exactly those keys; with no line break in any key or value, the
      file splits into exactly `|rows| + 1` lines. */
  lemma {:induction false} CsvLayout(rows: seq<Row>, filename: string, now: int)
    requires |rows| > 0
    requires forall i :: 0 <= i < |rows[0]| ==> '\n' !in rows[0][i].0
    requires forall r, h :: 0 <= r < |rows| && 0 <= h < |rows[0]| ==>
               '\n' !in CellText(Lookup(rows[r], rows[0][h].0))
    ensures var lines := Split(ExportCsv(Some(rows), filename, now).value.content, '\n');
      |lines| == |rows| + 1
      && lines[0] == Join(Keys(rows[0]), ",")
      && forall r :: 0 <= r < |rows| ==> lines[r + 1] == Line(Keys(rows[0]), rows[r], Cell)
  {
    var headers := Keys(rows[0]);
    var lines := seq(|rows|, i requires 0 <= i < |rows| => Line(headers, rows[i], Cell));
    var all := [Join(headers, ",")] + lines;
    JoinAvoids(headers, ",", '\n');
    forall r | 0 <= r < |rows| ensures '\n' !in lines[r] {
      LineAvoids(headers, rows[r], '\n');
    }
    assert forall i :: 0 <= i < |all| ==> '\n' !in all[i] by {
      forall i | 0 <= i < |all| ensures '\n' !in all[i] {
        if i > 0 { assert all[i] == lines[i - 1]; }
      }
    }
    SplitJoin(all, '\n');
  }

  /** A line holds a character none of its fields' texts holds, commas and quotes aside. */
  lemma LineAvoids(headers: seq<string>, row: Row, c: char)
    requires c != '"' && c != ','
    requires forall h :: 0 <= h < |headers| ==> c !in CellText(Lookup(row, headers[h]))
    ensures c !in Line(headers, row, Cell)
  {
    var cells := Cells(headers, row, Cell);
    forall h | 0 <= h < |headers| ensures c !in cells[h] {
      CellAvoids(Lookup(row, headers[h]), c);
    }
    JoinAvoids(cells, ",", c);
  }

  lemma CellAvoids(v: Value, c: char)
    requires c != '"'
    requires c !in CellText(v)
    ensures c !in Cell(v)
  {
  }

  /** Every falsy value (missing key, null, 0, false, '') is written as an empty field. */
  lemma FalsyIsEmpty(v: Value)
    requires !Truthy(v)
    ensures Cell(v) == ""
  {
  }

  /** A string is quoted exactly when it holds a comma, and quotes inside are kept
      as they are; any other value is written as its text. */
  lemma QuotingRule(v: Value)
    ensures v.Str? && Includes(v.s, ",") ==> Cell(v) == "\"" + v.s + "\""
    ensures !(v.Str? && Includes(v.s, ",")) ==> Cell(v) == CellText(v)
  {
  }

  /** A row whose values hold no double quote, and no comma unless they are
      strings, reads back field by field with an RFC 4180 reader. */
  lemma {:induction false} CsvLineReadsBack(headers: seq<string>, row: Row)
    requires |headers| >= 1
    requires forall h :: 0 <= h < |headers| ==> '"' !in CellText(Lookup(row, headers[h]))
    requires forall h :: 0 <= h < |headers| ==>
               ',' in CellText(Lookup(row, headers[h])) ==> Lookup(row, headers[h]).Str?
    ensures ReadRecord(Line(headers, row, Cell)) == Texts(headers, row)
  {
    var texts := Texts(headers, row);
    var cells := Cells(headers, row, Cell);
    forall h | 0 <= h < |headers| ensures Encodes(texts[h], cells[h]) {
      CellEncodes(Lookup(row, headers[h]));
    }
    ReadRecordOfEncoded(texts, cells);
  }

  lemma CellEncodes(v: Value)
    requires '"' !in CellText(v)
    requires ',' in CellText(v) ==> v.Str?
    ensures Encodes(CellText(v), Cell(v))
  {
    var t := CellText(v);
    var x := Or(v, Str(""));
    if ',' in t {
      var k :| 0 <= k < |t| && t[k] == ',';
      assert OccursAt(t, ",", k);
      assert x == v;
      assert Escape(t) == t;
    } else {
      NoCommaNoIncludes(t);
    }
  }

  lemma NoCommaNoIncludes(t: string)
    requires ',' !in t
    ensures !Includes(t, ",")
  {
    forall i | 0 <= i && i + 1 <= |t| ensures !OccursAt(t, ",", i) {
      assert t[i..i + 1] == [t[i]];
    }
  }

  /** A string holding both a comma and a double quote does not survive: an RFC
      4180 reader sees the quote as the end of the field. */
  lemma EmbeddedQuoteBreaksField()
    ensures ReadRecord(Cell(Str("a,\"b"))) != ["a,\"b"]
  {
    var text, p, t: string := "a,\"b", "a,", "b\"";
    assert Includes(text, ",") by { assert OccursAt(text, ",", 1); }
    QuotingRule(Str(text));
    var cell := "\"" + text + "\"";
    assert cell[0] == '"' && cell[1..] == p + "\"" + t;
    ReadQuotedStops(p, t);
    assert |t| > 0 && t[0] == 'b';
    assert ReadRecord(cell)[0] == p;
    assert |p| != |text|;
  }

  /** Inside a quoted field a lone quote ends it, whatever follows. */
  lemma {:induction false} ReadQuotedStops(p: string, t: string)
    requires '"' !in p
    requires t == [] || t[0] != '"'
    ensures ReadQuoted(p + "\"" + t) == (p, t)
  {
    var s := p + "\"" + t;
    if |p| == 0 {
      assert s == ['"'] + t;
      assert s[1..] == t;
    } else {
      ReadQuotedStops(p[1..], t);
      assert s[0] == p[0] && s[1..] == p[1..] + "\"" + t;
      assert [p[0]] + p[1..] == p;
    }
  }

  /** A field written the RFC 4180 way: quoted when the text holds a comma, a
      quote or a line break, with inner quotes doubled. */
  function RfcCell(v: Value): (c: string)
    ensures Encodes(CellText(v), c)
  {
    var t := CellText(v);
    if ',' in t || '"' in t || '\n' in t || '\r' in t then "\"" + Escape(t) + "\"" else t
  }

  /** With the RFC 4180 field, every row reads back exactly. */
  lemma {:induction false} RfcLineReadsBack(headers: seq<string>, row: Row)
    requires |headers| >= 1
    ensures ReadRecord(Line(headers, row, RfcCell)) == Texts(headers, row)
  {
    ReadRecordOfEncoded(Texts(headers, row), Cells(headers, row, RfcCell));
  }

  // ---------------------------------------------------------------------------
  // Download names

  function PngName(filename: string, now: int): (name: string)
    ensures |name| > |filename| + 5 && name[..|filename|] == filename && name[|filename|] == '-'
    ensures name[|name| - 4..] == ".png"
  {
    filename + "-" + IntToStr(now) + ".png"
  }

  /** A download name is the chosen name, a dash, the timestamp and the extension,
      and the timestamp can be read back from it. */
  lemma {:induction false} NamesCarryTimestamp(filename: string, now: int)
    ensures CsvName(filename, now) == filename + "-" + IntToStr(now) + ".csv"
    ensures PngName(filename, now) == filename + "-" + IntToStr(now) + ".png"
    ensures var n := CsvName(filename, now);
      ToNumber(Str(n[|filename| + 1..|n| - 4])) == Some(now)
  {
    var n := CsvName(filename, now);
    assert n[|filename| + 1..|n| - 4] == IntToStr(now);
    NumberOfStringRoundTrip(now);
  }

  // ---------------------------------------------------------------------------
  // Canvas sizes

  const Padding: nat := 50
  const MinCanvasWidth: nat := 800
  const DefaultSvgHeight: nat := 600
  const DefaultSvgWidth: nat := 800

  /** The title band: 60 pixels when there is a title. */
  function TitleHeight(hasTitle: bool): nat {
    if hasTitle then 60 else 0
  }

  /** The "Filtros Aplicados" box: 30 pixels a line plus 70, or nothing. */
  function FiltersBoxHeight(filters: nat): nat {
    if filters > 0 then filters * 30 + 70 else 0
  }

  /** `a || b || d` over measured sizes, where 0 means "not measured". */
  function Measured(a: nat, b: nat, d: nat): (r: nat)
    requires d > 0
    ensures r > 0
  {
    if a != 0 then a else if b != 0 then b else d
  }

  datatype Canvas = Canvas(width: nat, height: int)

  /** The final canvas of `exportChartAsPNG`: the width is at least 800, and the
      height is raised when the captured chart is taller than the SVG. */
  function PngCanvas(hasTitle: bool, filters: nat, rectWidth: nat, rectHeight: nat,
                     clientWidth: nat, clientHeight: nat, capturedHeight: int, headerHeight: int): (c: Canvas)
    ensures c.width >= MinCanvasWidth && c.width >= Measured(rectWidth, clientWidth, DefaultSvgWidth)
    ensures c.width == MinCanvasWidth || c.width == Measured(rectWidth, clientWidth, DefaultSvgWidth)
    ensures var fixed := TitleHeight(hasTitle) + FiltersBoxHeight(filters) + 2 * Padding;
      c.height >= fixed + Measured(rectHeight, clientHeight, DefaultSvgHeight)
      && c.height >= fixed + (capturedHeight - headerHeight)
      && (c.height == fixed + Measured(rectHeight, clientHeight, DefaultSvgHeight)
          || c.height == fixed + (capturedHeight - headerHeight))
  {
    var svgHeight := Measured(rectHeight, clientHeight, DefaultSvgHeight);
    var svgWidth := Measured(rectWidth, clientWidth, DefaultSvgWidth);
    var height := TitleHeight(hasTitle) + FiltersBoxHeight(filters) + svgHeight + Padding + 50;
    var needed := TitleHeight(hasTitle) + FiltersBoxHeight(filters) + (capturedHeight - headerHeight) + Padding + 50;
    Canvas(Max(svgWidth, MinCanvasWidth), if height < needed then needed else height)
  }

  /** The canvas of the SVG fallback, where the title band is reserved whenever
      the chart has a header. */
  function SvgCanvas(hasHeader: bool, filters: nat, rectWidth: nat, rectHeight: nat,
                     clientWidth: nat, clientHeight: nat): (c: Canvas)
    ensures c.width >= MinCanvasWidth
    ensures c.height > TitleHeight(hasHeader) + FiltersBoxHeight(filters) + 2 * Padding
  {
    var svgHeight := Measured(rectHeight, clientHeight, DefaultSvgHeight);
    var svgWidth := Measured(rectWidth, clientWidth, DefaultSvgWidth);
    Canvas(Max(svgWidth, MinCanvasWidth), svgHeight + TitleHeight(hasHeader) + FiltersBoxHeight(filters) + Padding + 50)
  }

  function Max(a: nat, b: nat): nat {
    if a > b then a else b
  }

  /** Each filter line adds 30 pixels to the box, and the first one adds 100. */
  lemma FiltersBoxGrowth(n: nat)
    ensures FiltersBoxHeight(n + 1) == FiltersBoxHeight(n) + (if n == 0 then 100 else 30)
  {
  }

  /** When the captured chart is no taller than the SVG, the fallback lays out the
      same canvas as the primary path. */
  lemma {:induction false} FallbackMatchesPrimary(hasTitle: bool, filters: nat, rectWidth: nat, rectHeight: nat,
                                                  clientWidth: nat, clientHeight: nat, capturedHeight: int, headerHeight: int)
    requires capturedHeight - headerHeight <= Measured(rectHeight, clientHeight, DefaultSvgHeight)
    ensures PngCanvas(hasTitle, filters, rectWidth, rectHeight, clientWidth, clientHeight, capturedHeight, headerHeight)
         == SvgCanvas(hasTitle, filters, rectWidth, rectHeight, clientWidth, clientHeight)
  {
  }
}

=== FILE: filters.dfy ===
/** The locality picker and filter panel shared by the pages (`ChartFilters`)
    and the older sidebar filter (`Filters`): the case-insensitive search,
    the selected text, the dropdown's state, and the applied filter object. */
module Filters {
  import opened Js
  import Charts

  // ---------------------------------------------------------------------------
  // Locality text and search

  /** `loc.municipio || ''` and `loc.uf || ''` as text. */
  function Part(loc: Value, k: string): string {
    ToStr(Or(Get(loc, k), Str("")))
  }

  /** `${municipio} - ${uf}` */
  function Label(loc: Value): string {
    Part(loc, "municipio") + " - " + Part(loc, "uf")
  }

  /** The term occurs, ignoring case, in the municipality, the UF, or the label. */
  predicate Matches(loc: Value, term: string) {
    var t := Lower(term);
    Includes(Lower(Part(loc, "municipio")), t) || Includes(Lower(Part(loc, "uf")), t) || Includes(Lower(Label(loc)), t)
  }

  function SearchFlags(locs: seq<Value>, term: string): (keep: seq<bool>)
    ensures |keep| == |locs|
    ensures forall i :: 0 <= i < |locs| ==> (keep[i] <==> Truthy(locs[i]) && Matches(locs[i], term))
  {
    seq(|locs|, i requires 0 <= i < |locs| => Truthy(locs[i]) && Matches(locs[i], term))
  }

  /** `filteredLocalidades`: the non-null localities the term matches, in list order. */
  function Search(locs: seq<Value>, term: string): (r: seq<Value>)
    ensures |r| <= |locs|
    ensures forall x :: x in r ==> x in locs && Truthy(x) && Matches(x, term)
    ensures forall i :: 0 <= i < |locs| && Truthy(locs[i]) && Matches(locs[i], term) ==> locs[i] in r
  {
    var keep := SearchFlags(locs, term);
    var r := Charts.Select(locs, keep);
    assert forall x :: x in r ==> x in locs && Truthy(x) && Matches(x, term) by {
      forall x | x in r ensures x in locs && Truthy(x) && Matches(x, term) {
        var i :| 0 <= i < |locs| && keep[i] && locs[i] == x;
      }
    }
    r
  }

  /** A part whose `.toLowerCase()` exists: a string, or a falsy value that `|| ''` replaces. */
  predicate Textual(v: Value) {
    !Truthy(v) || v.Str?
  }

  /** The search callback throws on this non-null locality: its municipio has
      no `.toLowerCase()`, or the municipio does not match and the uf has none. */
  predicate SearchThrowsOn(loc: Value, term: string) {
    !Textual(Get(loc, "municipio"))
      || (!Includes(Lower(Part(loc, "municipio")), Lower(term)) && !Textual(Get(loc, "uf")))
  }

  /** `filteredLocalidades` with the callback's exception: `None` when the
      filter throws, otherwise the search result. */
  function SearchOutcome(locs: seq<Value>, term: string): (r: Option<seq<Value>>)
    ensures r.None? <==> exists i :: 0 <= i < |locs| && Truthy(locs[i]) && SearchThrowsOn(locs[i], term)
    ensures r.Some? ==> r.value == Search(locs, term)
    ensures (forall i :: 0 <= i < |locs| ==> Textual(Get(locs[i], "municipio")) && Textual(Get(locs[i], "uf"))) ==>
      r == Some(Search(locs, term))
  {
    if |locs| == 0 then Some([])
    else
      var rest := SearchOutcome(locs[1..], term);
      assert forall i :: 1 <= i < |locs| ==> locs[i] == locs[1..][i - 1];
      if Truthy(locs[0]) && SearchThrowsOn(locs[0], term) then None
      else if rest.None? then None
      else
        SearchCons(locs, term);
        Some((if Truthy(locs[0]) && Matches(locs[0], term) then [locs[0]] else []) + rest.value)
  }

  /** The search result of a non-empty list: its head if kept, then the rest's result. */
  lemma SearchCons(locs: seq<Value>, term: string)
    requires |locs| > 0
    ensures Search(locs, term) ==
      (if Truthy(locs[0]) && Matches(locs[0], term) then [locs[0]] else []) + Search(locs[1..], term)
  {
    var keep := SearchFlags(locs, term);
    assert keep[1..] == SearchFlags(locs[1..], term);
  }

  lemma EmptyOccurs(s: string)
    ensures Includes(s, "")
  {
    assert OccursAt(s, "", 0);
  }

  /** An empty term keeps every non-null locality. */
  lemma EmptyTermKeepsAll(locs: seq<Value>)
    requires forall i :: 0 <= i < |locs| ==> Truthy(locs[i])
    ensures Search(locs, "") == locs
  {
    var keep := SearchFlags(locs, "");
    forall i | 0 <= i < |locs| ensures keep[i] {
      EmptyOccurs(Lower(Part(locs[i], "municipio")));
    }
    Charts.SelectAll(locs, keep);
  }

  lemma LowerUpperChar(c: char)
    ensures LowerChar(UpperChar(c)) == LowerChar(c)
    ensures LowerChar(LowerChar(c)) == LowerChar(c)
  {
  }

  /** Typing the term in upper or lower case finds the same localities. */
  lemma SearchIgnoresCase(locs: seq<Value>, term: string)
    ensures Search(locs, Upper(term)) == Search(locs, term)
    ensures Search(locs, Lower(term)) == Search(locs, term)
  {
    forall i | 0 <= i < |term| ensures LowerChar(UpperChar(term[i])) == LowerChar(term[i]) && LowerChar(LowerChar(term[i])) == LowerChar(term[i]) {
      LowerUpperChar(term[i]);
    }
    assert Lower(Upper(term)) == Lower(term);
    assert Lower(Lower(term)) == Lower(term);
    assert SearchFlags(locs, Upper(term)) == SearchFlags(locs, term);
    assert SearchFlags(locs, Lower(term)) == SearchFlags(locs, term);
  }

  lemma OccursPrefix(s: string, a: string, b: string)
    requires Includes(s, a + b)
    ensures Includes(s, a)
  {
    var i :| OccursAt(s, a + b, i);
    assert s[i..i + |a|] == s[i..i + |a + b|][..|a|] == (a + b)[..|a|] == a;
    assert OccursAt(s, a, i);
  }

  /** Typing more characters only narrows the list. */
  lemma SearchNarrows(locs: seq<Value>, term: string, more: string, x: Value)
    requires x in Search(locs, term + more)
    ensures x in Search(locs, term)
  {
    var t, u := Lower(term), Lower(more);
    assert Lower(term + more) == t + u;
    assert Truthy(x) && Matches(x, term + more);
    assert Matches(x, term) by {
      if Includes(Lower(Part(x, "municipio")), t + u) {
        OccursPrefix(Lower(Part(x, "municipio")), t, u);
      } else if Includes(Lower(Part(x, "uf")), t + u) {
        OccursPrefix(Lower(Part(x, "uf")), t, u);
      } else {
        OccursPrefix(Lower(Label(x)), t, u);
      }
    }
    var i :| 0 <= i < |locs| && locs[i] == x;
  }

  // ---------------------------------------------------------------------------
  // The selected locality

  /** `loc && loc.id_localidade === id`; the ids and the selection are
      numbers or 'all', for which `===` is equality of values. */
  predicate Owns(loc: Value, id: Value) {
    Truthy(loc) && Get(loc, "id_localidade") == id
  }

  /** `localidades.find(...)`, as the index of the first owner. */
  function Find(locs: seq<Value>, id: Value): (r: Option<nat>)
    ensures r.Some? ==> r.value < |locs| && Owns(locs[r.value], id)
    ensures r.Some? ==> forall j :: 0 <= j < r.value ==> !Owns(locs[j], id)
    ensures r.None? <==> forall j :: 0 <= j < |locs| ==> !Owns(locs[j], id)
  {
    if |locs| == 0 then None
    else if Owns(locs[0], id) then Some(0)
    else
      match Find(locs[1..], id)
      case None =>
        assert forall j :: 1 <= j < |locs| ==> locs[j] == locs[1..][j - 1];
        None
      case Some(k) =>
        assert forall j :: 1 <= j <= k ==> locs[j] == locs[1..][j - 1];
        Some(k + 1)
  }

  const AllCities := "Todas as Cidades"
  const Placeholder := "Selecione uma cidade"

  /** `getSelectedText` as written: 'all', a locality's trimmed label, or the
      placeholder when no locality has the id. */
  function SelectedText(selected: Value, locs: seq<Value>): (t: string)
    ensures selected == Str("all") ==> t == AllCities
    ensures selected != Str("all") && Find(locs, selected).None? ==> t == Placeholder
  {
    if selected == Str("all") then AllCities
    else
      match Find(locs, selected)
      case None => Placeholder
      case Some(i) =>
        var t := Trim(Label(locs[i]));
        if t == "" then Placeholder else t
  }

  /** Trimming keeps every character that is not white space. */
  lemma TrimKeeps(s: string, i: nat)
    requires i < |s| && !IsSpace(s[i])
    ensures s[i] in Trim(s)
  {
    var a := TrimStart(s);
    var k := |s| - |a|;
    assert k <= i;
    assert a[i - k] == s[i];
    var b := TrimEnd(a);
    assert i - k < |b|;
    assert b[i - k] == s[i];
  }

  /** A locality's trimmed label always keeps the '-' between its parts. */
  lemma LabelKeepsDash(loc: Value)
    ensures '-' in Trim(Label(loc))
  {
    var m := Part(loc, "municipio");
    var s := Label(loc);
    assert s[|m| + 1] == '-';
    TrimKeeps(s, |m| + 1);
  }

  lemma DashFree()
    ensures '-' !in AllCities && '-' !in Placeholder
  {
  }

  /** So the placeholder fallback after the trim is never taken. */
  lemma PlaceholderUnreachable(selected: Value, locs: seq<Value>)
    requires selected != Str("all") && Find(locs, selected).Some?
    ensures SelectedText(selected, locs) == Trim(Label(locs[Find(locs, selected).value]))
    ensures SelectedText(selected, locs) != Placeholder
  {
    LabelKeepsDash(locs[Find(locs, selected).value]);
    DashFree();
  }

  lemma TrimDash()
    ensures Trim(" - ") == "-"
  {
    var s, t, u: string := " - ", "- ", "-";
    assert s[0] == ' ' && s[1..] == t && t[0] == '-';
    TrimStartStep(s);
    TrimStartStep(t);
    assert t[1] == ' ' && t[..1] == u && u[0] == '-';
    TrimEndStep(t);
    TrimEndStep(u);
  }

  /** A locality with neither a municipality nor a UF shows as "-". */
  lemma NamelessLocalityShowsDash()
    ensures SelectedText(Num(7), [Obj([("id_localidade", Num(7))])]) == "-"
  {
    var loc := Obj([("id_localidade", Num(7))]);
    GetOfOne("id_localidade", Num(7), "municipio");
    GetOfOne("id_localidade", Num(7), "uf");
    assert Part(loc, "municipio") == "" && Part(loc, "uf") == "";
    assert Label(loc) == " - ";
    assert Owns(loc, Num(7));
    assert Find([loc], Num(7)) == Some(0);
    TrimDash();
    var dash := Trim(Label(loc));
    assert dash == "-" && dash != "";
    assert SelectedText(Num(7), [loc]) == dash;
  }

  /** `getSelectedText` with the fallback doing what it evidently means: a
      locality with neither a municipality nor a UF shows the placeholder. */
  function SelectedTextIntended(selected: Value, locs: seq<Value>): (t: string)
    ensures t == AllCities <==> selected == Str("all")
    ensures t == Placeholder <==>
      selected != Str("all")
      && (Find(locs, selected).None?
          || (Trim(Part(locs[Find(locs, selected).value], "municipio")) == ""
              && Trim(Part(locs[Find(locs, selected).value], "uf")) == ""))
  {
    DashFree();
    if selected == Str("all") then AllCities
    else
      match Find(locs, selected)
      case None => Placeholder
      case Some(i) =>
        if Trim(Part(locs[i], "municipio")) == "" && Trim(Part(locs[i], "uf")) == "" then Placeholder
        else
          LabelKeepsDash(locs[i]);
          Trim(Label(locs[i]))
  }

  // ---------------------------------------------------------------------------
  // The dropdown

  /** The selection, the search term and whether the list is open. */
  datatype Dropdown = Dropdown(selected: Value, term: string, open: bool)

  /** `value === 'all' ? 'all' : Number(value)`. The options carry 'all' or a
      locality's numeric id. */
  function Pick(value: Value): (r: Value)
    requires value == Str("all") || ToNumber(value).Some?
    ensures r == Str("all") || r.Num?
    ensures r == Str("all") <==> value == Str("all")
    ensures value != Str("all") ==> r == Num(ToNumber(value).value)
    ensures value.Num? ==> r == value
  {
    if value == Str("all") then Str("all") else Num(ToNumber(value).value)
  }

  /** `handleSelect` / `handleMunicipioSelect`: store the pick, close, clear the term. */
  function Choose(d: Dropdown, value: Value): (r: Dropdown)
    requires value == Str("all") || ToNumber(value).Some?
    ensures !r.open && r.term == "" && r.selected == Pick(value)
  {
    Dropdown(Pick(value), "", false)
  }

  /** `handleInputChange`: the typed text becomes the term and the list opens. */
  function TypeText(d: Dropdown, text: string): (r: Dropdown)
    ensures r.open && r.term == text && r.selected == d.selected
  {
    Dropdown(d.selected, text, true)
  }

  /** `handleInputFocus`: the list opens with the term cleared. */
  function Focus(d: Dropdown): (r: Dropdown)
    ensures r.open && r.term == "" && r.selected == d.selected
  {
    Dropdown(d.selected, "", true)
  }

  /** After a focus, the list offers every locality, whatever was typed before. */
  lemma FocusListsEverything(d: Dropdown, locs: seq<Value>)
    requires forall i :: 0 <= i < |locs| ==> Truthy(locs[i])
    ensures Search(locs, Focus(d).term) == locs
  {
    EmptyTermKeepsAll(locs);
  }

  /** Choosing a locality's numeric id shows that locality's label (the first
      one with that id). */
  lemma ChosenCityIsShown(d: Dropdown, locs: seq<Value>, i: nat)
    requires i < |locs| && Truthy(locs[i]) && Get(locs[i], "id_localidade").Num?
    requires forall j :: 0 <= j < i ==> !Owns(locs[j], Get(locs[i], "id_localidade"))
    ensures SelectedText(Choose(d, Get(locs[i], "id_localidade")).selected, locs) == Trim(Label(locs[i]))
  {
    var id := Get(locs[i], "id_localidade");
    assert Pick(id) == id;
    assert Find(locs, id) == Some(i);
    assert id != Str("all");
    PlaceholderUnreachable(id, locs);
  }

  /** `Filters`: select 'all' when nothing is selected and there are localities. */
  function DefaultSelection(selected: Value, count: nat): (r: Value)
    ensures count > 0 ==> Truthy(r)
    ensures Truthy(selected) ==> r == selected
    ensures !Truthy(selected) && count > 0 ==> r == Str("all")
  {
    if !Truthy(selected) && count > 0 then Str("all") else selected
  }

  // ---------------------------------------------------------------------------
  // The filter panel

  /** The year options: the given years when there are some, else the 20
      years counting down from the current one. */
  function YearOptions(available: Option<seq<int>>, current: int): (ys: seq<int>)
    ensures |ys| > 0
    ensures available.Some? && |available.value| > 0 ==> ys == available.value
    ensures !(available.Some? && |available.value| > 0) ==>
      |ys| == 20 && forall i :: 0 <= i < 20 ==> ys[i] == current - i
  {
    if available.Some? && |available.value| > 0 then available.value
    else seq(20, i requires 0 <= i < 20 => current - i)
  }

  /** `Math.min(...ys)` */
  function Least(ys: seq<int>): (m: int)
    requires |ys| > 0
    ensures m in ys && forall i :: 0 <= i < |ys| ==> m <= ys[i]
  {
    if |ys| == 1 then ys[0]
    else
      var rest := Least(ys[1..]);
      assert forall i :: 1 <= i < |ys| ==> ys[i] == ys[1..][i - 1];
      if ys[0] <= rest then ys[0] else rest
  }

  /** `Math.max(...ys)` */
  function Greatest(ys: seq<int>): (m: int)
    requires |ys| > 0
    ensures m in ys && forall i :: 0 <= i < |ys| ==> ys[i] <= m
  {
    if |ys| == 1 then ys[0]
    else
      var rest := Greatest(ys[1..]);
      assert forall i :: 1 <= i < |ys| ==> ys[i] == ys[1..][i - 1];
      if ys[0] >= rest then ys[0] else rest
  }

  /** Without given years the range runs from 19 years ago to this year. */
  lemma DefaultYearRange(current: int)
    ensures Least(YearOptions(None, current)) == current - 19
    ensures Greatest(YearOptions(None, current)) == current
  {
    var ys := YearOptions(None, current);
    assert ys[19] == current - 19 && ys[0] == current;
  }

  /** `x || fallback` for a year or month that may be missing or 0. */
  function OrYear(x: Option<int>, fallback: int): (r: int)
    ensures x.Some? && x.value != 0 ==> r == x.value
    ensures x.None? || x.value == 0 ==> r == fallback
  {
    if x.Some? && x.value != 0 then x.value else fallback
  }

  /** The panel's state: the year range, the single year and month (`None`
      is null), and the locality dropdown. */
  datatype Panel = Panel(yearStart: int, yearEnd: int, year: Option<int>, month: Option<int>, picker: Dropdown)

  /** The props a panel starts from. */
  datatype Props = Props(
    yearStart: Option<int>, yearEnd: Option<int>, year: Option<int>, month: Option<int>,
    municipio: Value, available: Option<seq<int>>)

  function InitialPanel(p: Props, current: int): (r: Panel)
    ensures var ys := YearOptions(p.available, current);
      && r.yearStart == OrYear(p.yearStart, Least(ys))
      && r.yearEnd == OrYear(p.yearEnd, Greatest(ys))
      && r.year == Some(OrYear(p.year, Greatest(ys)))
    ensures r.month.Some? <==> p.month.Some? && p.month.value != 0
    ensures r.picker == Dropdown(p.municipio, "", false)
  {
    var ys := YearOptions(p.available, current);
    Panel(OrYear(p.yearStart, Least(ys)), OrYear(p.yearEnd, Greatest(ys)),
          Some(OrYear(p.year, Greatest(ys))),
          if p.month.Some? && p.month.value != 0 then p.month else None,
          Dropdown(p.municipio, "", false))
  }

  /** The digits `parseInt` reads after optional leading white space and sign. */
  function LeadingDigits(s: string): (d: string)
    ensures |d| <= |s| && d == s[..|d|] && AllDigits(d)
    ensures |d| < |s| ==> !IsDigit(s[|d|])
  {
    if |s| > 0 && IsDigit(s[0]) then
      var rest := LeadingDigits(s[1..]);
      assert [s[0]] + rest == s[..|rest| + 1];
      [s[0]] + rest
    else ""
  }

  /** `parseInt(s)`; `None` stands for NaN. */
  function ParseInt(s: string): (r: Option<int>)
  {
    var t := TrimStart(s);
    if |t| > 0 && (t[0] == '-' || t[0] == '+') then
      var d := LeadingDigits(t[1..]);
      var v: int := DigitsValue(d);
      if d == "" then None else Some(if t[0] == '-' then -v else v)
    else
      var d := LeadingDigits(t);
      if d == "" then None else Some(DigitsValue(d))
  }

  /** `value === '' ? null : parseInt(value)` on a year or month select;
      `None` is null. */
  function ParseSelect(value: string): (r: Option<int>)
    ensures value == "" ==> r.None?
  {
    if value == "" then None else ParseInt(value)
  }

  lemma {:induction false} LeadingDigitsOfDigits(s: string)
    requires AllDigits(s)
    ensures LeadingDigits(s) == s
  {
    if |s| > 0 {
      LeadingDigitsOfDigits(s[1..]);
      assert [s[0]] + s[1..] == s;
    }
  }

  /** The select reads back the number an option was written from. */
  lemma ParseSelectRoundTrip(n: nat)
    ensures ParseSelect(Decimal(n)) == Some(n)
  {
    var s := Decimal(n);
    DecimalRoundTrip(n);
    DecimalHasNoSpace(n);
    assert TrimStart(s) == s;
    LeadingDigitsOfDigits(s);
    assert !(s[0] == '-' || s[0] == '+') by {
      assert IsDigit(s[0]);
    }
  }

  /** Which callback receives the applied filters. */
  datatype Target = OnApply | OnChange | Nobody

  /** `null` for a missing year or month. */
  function OptionalNumber(x: Option<int>): Value {
    if x.Some? then Num(x.value) else Null
  }

  /** `handleApplyFilters`: the object always carries the locality; the year
      range only when the range is shown; the year and month only when they
      are shown. `onApplyFilters` takes precedence over `onFilterChange`. */
  function Applied(p: Panel, showYearRange: bool, showMonthYear: bool): (r: Value)
    ensures r.Obj?
    ensures Get(r, "municipio") == p.picker.selected
    ensures Get(r, "yearStart") == (if showYearRange then Num(p.yearStart) else Undefined)
    ensures Get(r, "yearEnd") == (if showYearRange then Num(p.yearEnd) else Undefined)
    ensures Get(r, "year") == (if showMonthYear then OptionalNumber(p.year) else Undefined)
    ensures Get(r, "month") == (if showMonthYear then OptionalNumber(p.month) else Undefined)
  {
    var m, ys, ye, y, mo: string := "municipio", "yearStart", "yearEnd", "year", "month";
    assert m[0] == 'm' && mo[0] == 'm' && m[1] == 'u' && mo[1] == 'o';
    assert ys[0] == 'y' && ye[0] == 'y' && y[0] == 'y' && ys[4] == 'S' && ye[4] == 'E' && |y| == 4;
    var base := SetField([], m, p.picker.selected);
    var range := SetPair(base, showYearRange, ys, Num(p.yearStart), ye, Num(p.yearEnd));
    var single := SetPair(range, showMonthYear, y, OptionalNumber(p.year), mo, OptionalNumber(p.month));
    assert Lookup(single, m) == Lookup(range, m) == Lookup(base, m);
    assert Lookup(single, ys) == Lookup(range, ys) && Lookup(single, ye) == Lookup(range, ye);
    assert Lookup(base, ys) == Undefined && Lookup(base, ye) == Undefined;
    assert Lookup(range, y) == Undefined && Lookup(range, mo) == Undefined;
    Obj(single)
  }

  /** `{ ...f, k1: v1, k2: v2 }` when `show`, else `f`. */
  function SetPair(f: seq<(string, Value)>, show: bool, k1: string, v1: Value, k2: string, v2: Value): (r: seq<(string, Value)>)
    requires k1 != k2
    ensures Lookup(r, k1) == if show then v1 else Lookup(f, k1)
    ensures Lookup(r, k2) == if show then v2 else Lookup(f, k2)
    ensures forall k :: k != k1 && k != k2 ==> Lookup(r, k) == Lookup(f, k)
  {
    if show then SetField(SetField(f, k1, v1), k2, v2) else f
  }

  function ApplyTarget(hasApply: bool, hasChange: bool): (t: Target)
    ensures t == OnApply <==> hasApply
    ensures t == OnChange <==> !hasApply && hasChange
  {
    if hasApply then OnApply else if hasChange then OnChange else Nobody
  }

  /** `handleReset`: the whole year range, the latest year, no month, all cities. */
  function Reset(p: Panel, ys: seq<int>): (r: Panel)
    requires |ys| > 0
    ensures r.yearStart <= r.yearEnd
    ensures r.yearStart in ys && r.yearEnd in ys && r.year == Some(r.yearEnd)
    ensures forall i :: 0 <= i < |ys| ==> r.yearStart <= ys[i] <= r.yearEnd
    ensures r.month.None? && r.picker.selected == Str("all")
    ensures r.picker.term == p.picker.term && r.picker.open == p.picker.open
  {
    Panel(Least(ys), Greatest(ys), Some(Greatest(ys)), None, Dropdown(Str("all"), p.picker.term, p.picker.open))
  }

  /** The panel renders nothing when all four sections are hidden. */
  predicate Rendered(showPeriod: bool, showYearRange: bool, showMonthYear: bool, showMunicipio: bool) {
    showPeriod || showYearRange || showMonthYear || showMunicipio
  }
}

=== FILE: geo.dfy ===
/** Features of the map components: how a feature's state code and name are
    found, the state-name table, `BrasilMapReal`'s fallback collection, the
    chapter selector, and `BrasilMapSimple`'s cached GeoJSON load. */
module Geo {
  import opened Js
  import opened StateMap

  // ---------------------------------------------------------------------------
  // State codes and names of a feature

  /** `feature.properties || {}`. */
  function Props(feature: Value): Value {
    Or(Get(feature, "properties"), Obj([]))
  }

  const UfProps: seq<string> := ["uf", "sigla", "SIGLA", "UF", "uf_code", "state_code"]

  /** `getUF` of the Leaflet and Simple maps: the first truthy of six
      properties, in order, else `null`. */
  function FeatureUf(feature: Value): (r: Value)
    ensures r == Null <==> forall i :: 0 <= i < |UfProps| ==> !Truthy(Get(Props(feature), UfProps[i]))
    ensures Truthy(r) ==> exists i :: 0 <= i < |UfProps| && r == Get(Props(feature), UfProps[i]) &&
                                      forall j :: 0 <= j < i ==> !Truthy(Get(Props(feature), UfProps[j]))
  {
    FirstTruthy(Values(Props(feature), UfProps))
  }

  /** `name?.substring(0, 2)?.toUpperCase()`. */
  function NamePrefix(name: Value): (r: Value)
    ensures name.Str? ==> r == Str(Upper(name.s[..if |name.s| < 2 then |name.s| else 2]))
  {
    if name.Str? then Str(Upper(name.s[..if |name.s| < 2 then |name.s| else 2])) else Undefined
  }

  /** `BrasilMapReal`'s `getUF`: four properties, then the first two letters of
      the name, upper-cased. */
  function RealFeatureUf(feature: Value): (u: Value)
    ensures var props := Get(feature, "properties");
      (exists i :: 0 <= i < 4 && Truthy(Get(props, UfProps[i]))) ==>
        exists i :: 0 <= i < 4 && u == Get(props, UfProps[i]) && Truthy(u)
          && forall j :: 0 <= j < i ==> !Truthy(Get(props, UfProps[j]))
    ensures var props := Get(feature, "properties");
      (forall i :: 0 <= i < 4 ==> !Truthy(Get(props, UfProps[i]))) ==> u == NamePrefix(Get(props, "name"))
  {
    var props := Get(feature, "properties");
    var vs := Values(props, UfProps[..4]);
    var first := FirstTruthy(vs);
    assert forall i :: 0 <= i < 4 ==> vs[i] == Get(props, UfProps[i]);
    if Truthy(first) then first else NamePrefix(Get(props, "name"))
  }

  function NamedFeature(name: string): Value {
    Obj([("properties", Obj([("name", Str(name))]))])
  }

  /** A feature that carries only its name has none of the four code properties. */
  lemma {:induction false} NamedFeatureHasNoCode(name: string)
    ensures Get(NamedFeature(name), "properties") == Obj([("name", Str(name))])
    ensures FirstTruthy(Values(Obj([("name", Str(name))]), UfProps[..4])) == Null
  {
    var props := Obj([("name", Str(name))]);
    GetOfOne("properties", props, "name");
    var vs := Values(props, UfProps[..4]);
    assert UfProps[..4] == ["uf", "sigla", "SIGLA", "UF"];
    GetOfOne("name", Str(name), "uf");
    GetOfOne("name", Str(name), "sigla");
    GetOfOne("name", Str(name), "SIGLA");
    GetOfOne("name", Str(name), "UF");
    assert vs[0] == Undefined && vs[1] == Undefined && vs[2] == Undefined && vs[3] == Undefined;
  }

  /** Every name starting with "Pa" resolves to PA. */
  lemma {:induction false} PaNameIsPa(name: string)
    requires |name| >= 2 && name[..2] == "Pa"
    ensures RealFeatureUf(NamedFeature(name)) == Str("PA")
  {
    NamedFeatureHasNoCode(name);
    assert Upper(name[..2]) == "PA";
  }

  /** A feature that carries only its name resolves through the prefix, so
      Pará, Paraíba and Paraná all become PA. */
  lemma {:induction false} NamePrefixCollides()
    ensures RealFeatureUf(NamedFeature("Pará")) == Str("PA")
    ensures RealFeatureUf(NamedFeature("Paraíba")) == Str("PA")
    ensures RealFeatureUf(NamedFeature("Paraná")) == Str("PA")
  {
    assert "Pará"[..2] == "Pa" && "Paraíba"[..2] == "Pa" && "Paraná"[..2] == "Pa";
    PaNameIsPa("Pará");
    PaNameIsPa("Paraíba");
    PaNameIsPa("Paraná");
  }

  const NameProps: seq<string> := ["name", "nome", "NAME"]

  /** `getEstadoName` of the Leaflet map: a name property, else the state code,
      else "Desconhecido"; never empty. */
  function FeatureName(feature: Value): (r: Value)
    ensures Truthy(r)
    ensures var named := FirstTruthy(Values(Props(feature), NameProps));
      Truthy(named) ==> r == named
    ensures (forall i :: 0 <= i < |NameProps| ==> !Truthy(Get(Props(feature), NameProps[i]))) ==>
      r == if Truthy(FeatureUf(feature)) then FeatureUf(feature) else Str("Desconhecido")
  {
    var named := FirstTruthy(Values(Props(feature), NameProps));
    var uf := FeatureUf(feature);
    if Truthy(named) then named else if Truthy(uf) then uf else Str("Desconhecido")
  }

  /** The 27 federative units and their names, in the order of the source table. */
  const StateNames: seq<(string, string)> := [
    ("AC", "Acre"), ("AL", "Alagoas"), ("AP", "Amapá"), ("AM", "Amazonas"),
    ("BA", "Bahia"), ("CE", "Ceará"), ("DF", "Distrito Federal"), ("ES", "Espírito Santo"),
    ("GO", "Goiás"), ("MA", "Maranhão"), ("MT", "Mato Grosso"), ("MS", "Mato Grosso do Sul"),
    ("MG", "Minas Gerais"), ("PA", "Pará"), ("PB", "Paraíba"), ("PR", "Paraná"),
    ("PE", "Pernambuco"), ("PI", "Piauí"), ("RJ", "Rio de Janeiro"), ("RN", "Rio Grande do Norte"),
    ("RS", "Rio Grande do Sul"), ("RO", "Rondônia"), ("RR", "Roraima"), ("SC", "Santa Catarina"),
    ("SP", "São Paulo"), ("SE", "Sergipe"), ("TO", "Tocantins")]

  function NameLookup(table: seq<(string, string)>, uf: string): (r: Option<string>)
    ensures r.Some? ==> exists i :: 0 <= i < |table| && table[i] == (uf, r.value)
    ensures r.None? <==> forall i :: 0 <= i < |table| ==> table[i].0 != uf
  {
    if |table| == 0 then None
    else if table[0].0 == uf then Some(table[0].1)
    else
      var r := NameLookup(table[1..], uf);
      assert forall i :: 1 <= i < |table| ==> table[i] == table[1..][i - 1];
      assert r.Some? ==> exists i :: 0 <= i < |table| && table[i] == (uf, r.value) by {
        if r.Some? {
          var i :| 0 <= i < |table[1..]| && table[1..][i] == (uf, r.value);
          assert table[i + 1] == (uf, r.value);
        }
      }
      r
  }

  /** The entry at `i` is found when no earlier entry has its code. */
  lemma {:induction false} NameLookupAt(table: seq<(string, string)>, i: nat)
    requires i < |table|
    requires forall j :: 0 <= j < i ==> table[j].0 != table[i].0
    ensures NameLookup(table, table[i].0) == Some(table[i].1)
  {
    if i > 0 {
      assert table[1..][i - 1] == table[i];
      NameLookupAt(table[1..], i - 1);
    }
  }

  /** A two-letter code as a number, so that distinct codes compare as integers. */
  function CodeNum(s: string): (n: int)
    ensures |s| == 2 ==> n >= 0
  {
    if |s| == 2 then (s[0] as int) * 65536 + s[1] as int else -1
  }

  /** `getEstadoNameFromUF`: the table's name, or the code itself when the
      code is unknown. */
  function NameFromUf(uf: string): (name: string)
    ensures (forall i :: 0 <= i < |StateNames| ==> StateNames[i].0 != uf) ==> name == uf
  {
    var r := NameLookup(StateNames, uf);
    if r.Some? && r.value != [] then r.value else uf
  }

  /** The table's 27 codes are two letters each and pairwise distinct. */
  lemma StateCodesDistinct()
    ensures |StateNames| == 27
    ensures forall i, j :: 0 <= i < j < |StateNames| ==> CodeNum(StateNames[i].0) != CodeNum(StateNames[j].0)
  {
  }

  lemma StateNamesNonEmpty()
    ensures forall i :: 0 <= i < |StateNames| ==> StateNames[i].1 != []
  {
  }

  /** Every code of the table is named as the table names it. */
  lemma {:induction false} NameFromUfKnown(i: nat)
    requires i < |StateNames|
    ensures NameFromUf(StateNames[i].0) == StateNames[i].1
  {
    StateCodesDistinct();
    StateNamesNonEmpty();
    assert StateNames[i].1 != [];
    assert forall j :: 0 <= j < i ==> StateNames[j].0 != StateNames[i].0 by {
      forall j | 0 <= j < i ensures StateNames[j].0 != StateNames[i].0 {
        assert CodeNum(StateNames[j].0) != CodeNum(StateNames[i].0);
      }
    }
    NameLookupAt(StateNames, i);
  }

  /** The features `BrasilMapReal` uses when the GeoJSON request fails (their
      polygons are not modelled). */
  const Fallback: seq<(string, string)> := [
    ("Acre", "AC"), ("Alagoas", "AL"), ("Amapá", "AP"), ("Amazonas", "AM"),
    ("Bahia", "BA"), ("Ceará", "CE"), ("Distrito Federal", "DF"), ("Espírito Santo", "ES"),
    ("Goiás", "GO"), ("Maranhão", "MA"), ("Mato Grosso", "MT"), ("Mato Grosso do Sul", "MS"),
    ("Minas Gerais", "MG"), ("Pará", "PA"), ("Paraíba", "PB"), ("Paraná", "PR"),
    ("Pernambuco", "PE"), ("Piauí", "PI"), ("Rio de Janeiro", "RJ"), ("Rio Grande do Norte", "RN"),
    ("Rio Grande do Sul", "RS"), ("Rondônia", "RO"), ("Roraima", "RR"), ("Santa Catarina", "SC"),
    ("São Paulo", "SP"), ("Sergipe", "SE"), ("Tocantins", "TO")]

  function FallbackFeature(name: string, uf: string): Value {
    Obj([("type", Str("Feature")), ("properties", Obj([("name", Str(name)), ("uf", Str(uf))]))])
  }

  /** The fallback collection: 27 features whose state codes are pairwise
      distinct, each resolving to its own code and named as the name table
      names that code. */
  lemma {:induction false} FallbackCoversStates()
    ensures |Fallback| == 27
    ensures forall i, j :: 0 <= i < j < |Fallback| ==> Fallback[i].1 != Fallback[j].1
    ensures forall i :: 0 <= i < |Fallback| ==> Fallback[i].1 == StateNames[i].0
    ensures forall i :: 0 <= i < |Fallback| ==> RealFeatureUf(FallbackFeature(Fallback[i].0, Fallback[i].1)) == Str(Fallback[i].1)
    ensures forall i :: 0 <= i < |Fallback| ==> NameFromUf(Fallback[i].1) == Fallback[i].0
  {
    FallbackMirrorsNames();
    forall i | 0 <= i < |Fallback|
      ensures RealFeatureUf(FallbackFeature(Fallback[i].0, Fallback[i].1)) == Str(Fallback[i].1)
    {
      FallbackFeatureUf(Fallback[i].0, Fallback[i].1);
    }
    forall i | 0 <= i < |Fallback| ensures NameFromUf(Fallback[i].1) == Fallback[i].0 {
      NameFromUfKnown(i);
    }
    StateCodesDistinct();
    forall i, j | 0 <= i < j < |Fallback| ensures Fallback[i].1 != Fallback[j].1 {
      assert CodeNum(StateNames[i].0) != CodeNum(StateNames[j].0);
    }
  }

  /** The fallback table lists the name table's pairs, swapped. */
  lemma FallbackMirrorsNames()
    ensures |Fallback| == |StateNames| == 27
    ensures forall i :: 0 <= i < |Fallback| ==> StateNames[i] == (Fallback[i].1, Fallback[i].0)
  {
  }

  /** A fallback feature resolves to the code it carries whenever that code is non-empty. */
  lemma {:induction false} FallbackFeatureUf(name: string, uf: string)
    requires uf != []
    ensures RealFeatureUf(FallbackFeature(name, uf)) == Str(uf)
  {
    var props := Obj([("name", Str(name)), ("uf", Str(uf))]);
    GetOfTwo("name", Str(name), "uf", Str(uf));
    GetOfTwo("type", Str("Feature"), "properties", props);
    var vs := Values(props, UfProps[..4]);
    assert vs[0] == Str(uf);
  }

  /** `BrasilMapReal`'s `getStyle`: the fixed grey for a feature without a
      code, else the colour of its total and a stronger fill when it has data. */
  datatype Style = Style(fill: string, fillOpacity: real, weight: nat)

  function RealStyle(m: map<string, Summary>, uf: Value, maxValue: int): (s: Style)
    requires maxValue >= 1
    ensures !Truthy(uf) ==> s == Style("#cbd5e1", 0.3, 1)
    ensures Truthy(uf) ==> s.fill == Colour(RealPalette, Totals(m), ToStr(uf), maxValue)
    ensures Truthy(uf) ==> (s.weight == 2 <==> HasData(m, ToStr(uf))) && (s.fillOpacity == 0.7 <==> HasData(m, ToStr(uf)))
  {
    if !Truthy(uf) then Style("#cbd5e1", 0.3, 1)
    else
      var k := ToStr(uf);
      Style(Colour(RealPalette, Totals(m), k, maxValue), if HasData(m, k) then 0.7 else 0.3, if HasData(m, k) then 2 else 1)
  }

  /** A feature without a code gets no handlers and no popup; one with a code
      gets a popup iff its state has data. */
  lemma {:induction false} PopupOnlyWithData(m: map<string, Summary>, uf: Value)
    ensures BindsPopup(m, uf) ==> Truthy(uf) && uf.Str? && uf.s in m && m[uf.s].total > 0
    ensures !Truthy(uf) ==> !BindsPopup(m, uf)
  {
  }

  // ---------------------------------------------------------------------------
  // The chapter selector

  datatype Choice = Choice(value: Value, text: string)

  const AllChapters := "Todos os Capítulos"

  /** `cidOptions`: the "all chapters" choice, then one per chapter with the
      label "cod - nome" (a missing part prints as `undefined`). */
  function CidOptions(chapters: seq<Value>): (opts: seq<Choice>)
    ensures |opts| == |chapters| + 1
    ensures opts[0] == Choice(Str(""), AllChapters)
    ensures forall i :: 0 <= i < |chapters| ==>
      opts[i + 1].value == Get(chapters[i], "capitulo_cod") &&
      opts[i + 1].text == ToStr(Get(chapters[i], "capitulo_cod")) + " - " + ToStr(Get(chapters[i], "capitulo_nome"))
  {
    [Choice(Str(""), AllChapters)] +
    seq(|chapters|, i requires 0 <= i < |chapters| =>
      Choice(Get(chapters[i], "capitulo_cod"),
             ToStr(Get(chapters[i], "capitulo_cod")) + " - " + ToStr(Get(chapters[i], "capitulo_nome"))))
  }

  /** The option text: labels over 50 characters show their first 47 and "...". */
  function Shown(full: string): (t: string)
    ensures |t| <= 50
    ensures |full| <= 50 ==> t == full
    ensures |full| > 50 ==> |t| == 50 && t[..47] == full[..47] && t[47..] == "..."
  {
    if |full| > 50 then full[..47] + "..." else full
  }

  // ---------------------------------------------------------------------------
  // `BrasilMapSimple`'s GeoJSON

  const GeoCacheKey := "brasil_geojson_cache"
  const GeoCacheExpiryMs: int := 24 * 60 * 60 * 1000
  const MapLoadError := "Erro ao carregar mapa. Tente recarregar a página."

  /** A `fetch` outcome: a thrown network error, or a response whose `json()`
      may fail (`None`). */
  datatype Http = NetworkError | Response(status: int, body: Option<Value>)

  predicate OkStatus(status: int) {
    200 <= status <= 299
  }

  /** The component after its load: the geography (`null` when none), the
      error shown, the store, and how many requests were made. */
  datatype GeoLoad = GeoLoad(geo: Value, error: Option<string>, store: map<string, string>, fetches: nat)

  /** A FeatureCollection is kept; a bare array of features is wrapped into one
      (section 3.3 of RFC 7946); anything else is kept as it is. */
  function NormaliseGeo(d: Value): (r: Value)
    ensures Get(d, "type") == Str("FeatureCollection") && Truthy(Get(d, "features")) ==> r == d
    ensures d.Arr? ==> Get(r, "type") == Str("FeatureCollection") && Get(r, "features") == d
    ensures !(Get(d, "type") == Str("FeatureCollection") && Truthy(Get(d, "features"))) && !d.Arr? ==> r == d
  {
    if Get(d, "type") == Str("FeatureCollection") && Truthy(Get(d, "features")) then d
    else if d.Arr? then
      GetOfTwo("type", Str("FeatureCollection"), "features", d);
      Obj([("type", Str("FeatureCollection")), ("features", d)])
    else d
  }

  /** Normalising twice is normalising once, for the arrays and collections
      the component receives. */
  lemma {:induction false} NormaliseGeoIdempotent(d: Value)
    requires d.Arr? || (Get(d, "type") == Str("FeatureCollection") && Truthy(Get(d, "features")))
    ensures NormaliseGeo(NormaliseGeo(d)) == NormaliseGeo(d)
  {
    if d.Arr? {
      var r := NormaliseGeo(d);
      assert Get(r, "features") == d && Truthy(d);
    }
  }

  /** The parsed cache entry, when the key holds a non-empty string whose parse
      is not nullish (destructuring `null` throws). */
  function CachedEntry(store: map<string, string>, parse: string -> Option<Value>): (c: Option<Value>)
    ensures c.Some? <==> HasCachedText(store) && parse(store[GeoCacheKey]).Some? && !Nullish(parse(store[GeoCacheKey]).value)
    ensures c.Some? ==> c == parse(store[GeoCacheKey])
  {
    if GeoCacheKey in store && store[GeoCacheKey] != [] then
      match parse(store[GeoCacheKey])
      case Some(p) => if Nullish(p) then None else Some(p)
      case None => None
    else None
  }

  predicate HasCachedText(store: map<string, string>) {
    GeoCacheKey in store && store[GeoCacheKey] != []
  }

  /** The cache is fresh when its timestamp is less than 24 hours old. */
  function FreshEntry(entry: Value, now: int): (isFresh: bool)
    ensures isFresh ==> ToNumber(Get(entry, "timestamp")).Some?
    ensures Get(entry, "timestamp").Num? ==> (isFresh <==> now < Get(entry, "timestamp").n + GeoCacheExpiryMs)
  {
    var ts := ToNumber(Get(entry, "timestamp"));
    ts.Some? && now - ts.value < GeoCacheExpiryMs
  }

  /** An entry fresh now was fresh at every earlier moment. */
  lemma FreshEarlier(entry: Value, earlier: int, now: int)
    requires earlier <= now && FreshEntry(entry, now)
    ensures FreshEntry(entry, earlier)
  {
  }

  /** The `catch` block: any readable cache is used however old it is;
      otherwise the error is shown. */
  function Recover(store: map<string, string>, parse: string -> Option<Value>, fetches: nat): (g: GeoLoad)
    ensures g.store == store && g.fetches == fetches
    ensures g.error.None? <==> CachedEntry(store, parse).Some?
    ensures g.error.None? ==> g.geo == Get(CachedEntry(store, parse).value, "data")
  {
    match CachedEntry(store, parse)
    case Some(p) => GeoLoad(Get(p, "data"), None, store, fetches)
    case None => GeoLoad(Null, Some(MapLoadError), store, fetches)
  }

  /** The cache entry written for a map fetched at `now`. */
  function Entry(data: Value, now: int): Value {
    Obj([("data", data), ("timestamp", Num(now))])
  }

  /** The body of a successful response: normalised, cached with the time,
      and shown. A nullish body has no `type` and throws. `accepts` says
      whether localStorage takes a text: when it refuses one (its quota is
      exceeded), `setItem` throws before the map is shown, and the `catch`
      block recovers from the cache as it was. */
  function Accept(store: map<string, string>, parse: string -> Option<Value>, stringify: Value -> string,
                  accepts: string -> bool, now: int, body: Option<Value>, fetches: nat): (g: GeoLoad)
    ensures g.fetches == fetches
    ensures body.Some? && !Nullish(body.value) && accepts(stringify(Entry(NormaliseGeo(body.value), now))) ==>
      (g.geo == NormaliseGeo(body.value) && g.error.None? && g.store == store[GeoCacheKey := stringify(Entry(g.geo, now))])
    ensures body.Some? && !Nullish(body.value) && !accepts(stringify(Entry(NormaliseGeo(body.value), now))) ==>
      g == Recover(store, parse, fetches)
    ensures body.None? || Nullish(body.value) ==> g == Recover(store, parse, fetches)
  {
    if body.None? || Nullish(body.value) then Recover(store, parse, fetches)
    else
      var data := NormaliseGeo(body.value);
      var text := stringify(Entry(data, now));
      if accepts(text) then GeoLoad(data, None, store[GeoCacheKey := text], fetches)
      else Recover(store, parse, fetches)
  }

  /** `carregarGeoJSON`. */
  function LoadGeoJson(store: map<string, string>, parse: string -> Option<Value>, stringify: Value -> string,
                       accepts: string -> bool, now: int, primary: Http, alternative: Http): (g: GeoLoad)
    ensures g.fetches <= 2
    ensures g.fetches == 0 <==>
      (HasCachedText(store) && CachedEntry(store, parse).None?) ||
      (CachedEntry(store, parse).Some? && FreshEntry(CachedEntry(store, parse).value, now))
    ensures g.fetches == 0 && CachedEntry(store, parse).Some? ==> g == GeoLoad(Get(CachedEntry(store, parse).value, "data"), None, store, 0)
    ensures g.fetches == 0 && CachedEntry(store, parse).None? ==> g == GeoLoad(Null, Some(MapLoadError), store, 0)
    ensures g.fetches == 2 ==> primary.Response? && primary.status == 429
    ensures g.store != store ==> (g.error.None?
      && g.store == store[GeoCacheKey := stringify(Entry(g.geo, now))] && accepts(stringify(Entry(g.geo, now))))
    ensures (g.fetches == 1 && primary.Response? && OkStatus(primary.status) && primary.body.Some?
      && !Nullish(primary.body.value)) ==>
      var data := NormaliseGeo(primary.body.value);
      && (accepts(stringify(Entry(data, now))) ==>
            g.geo == data && g.error.None? && g.store == store[GeoCacheKey := stringify(Entry(data, now))])
      && (!accepts(stringify(Entry(data, now))) ==> g == Recover(store, parse, 1))
  {
    if HasCachedText(store) && CachedEntry(store, parse).None? then
      Recover(store, parse, 0)
    else if CachedEntry(store, parse).Some? && FreshEntry(CachedEntry(store, parse).value, now) then
      GeoLoad(Get(CachedEntry(store, parse).value, "data"), None, store, 0)
    else
      match primary
      case NetworkError => Recover(store, parse, 1)
      case Response(status, body) =>
        if OkStatus(status) then Accept(store, parse, stringify, accepts, now, body, 1)
        else if status != 429 then Recover(store, parse, 1)
        else
          match alternative
          case NetworkError => Recover(store, parse, 2)
          case Response(status2, body2) =>
            if OkStatus(status2) then Accept(store, parse, stringify, accepts, now, body2, 2)
            else Recover(store, parse, 2)
  }

  /** When both servers refuse and an old cache exists, the old cache is shown. */
  lemma {:induction false} RateLimitedUsesStaleCache(store: map<string, string>, parse: string -> Option<Value>, stringify: Value -> string,
                                                     accepts: string -> bool, now: int, body: Option<Value>, status2: int, body2: Option<Value>)
    requires CachedEntry(store, parse).Some? && !FreshEntry(CachedEntry(store, parse).value, now)
    requires !OkStatus(status2)
    ensures var g := LoadGeoJson(store, parse, stringify, accepts, now, Response(429, body), Response(status2, body2));
      g.fetches == 2 && g.error.None? && g.geo == Get(CachedEntry(store, parse).value, "data")
  {
  }

  /** When localStorage refuses the fetched map, the map is not shown: the old
      cache is, however stale, and without one the load error is. */
  lemma {:induction false} RefusedWriteDropsFetchedMap(store: map<string, string>, parse: string -> Option<Value>, stringify: Value -> string,
                                                       accepts: string -> bool, now: int, body: Value, alternative: Http)
    requires !Nullish(body)
    requires !(HasCachedText(store) && CachedEntry(store, parse).None?)
    requires CachedEntry(store, parse).Some? ==> !FreshEntry(CachedEntry(store, parse).value, now)
    requires !accepts(stringify(Entry(NormaliseGeo(body), now)))
    ensures var g := LoadGeoJson(store, parse, stringify, accepts, now, Response(200, Some(body)), alternative);
      && g.fetches == 1 && g.store == store
      && (CachedEntry(store, parse).Some? ==> g.error.None? && g.geo == Get(CachedEntry(store, parse).value, "data"))
      && (CachedEntry(store, parse).None? ==> g.geo == Null && g.error == Some(MapLoadError))
  {
  }

  /** A GeoJSON fetched and cached at `t0` is served from the cache, unfetched
      and unchanged, by any load less than 24 hours later. */
  lemma {:induction false} GeoCacheRoundTrip(store: map<string, string>, parse: string -> Option<Value>, stringify: Value -> string,
                                             accepts: string -> bool, t0: int, t1: int, primary: Http, alternative: Http, p2: Http, a2: Http)
    requires t0 <= t1 < t0 + GeoCacheExpiryMs
    requires var g := LoadGeoJson(store, parse, stringify, accepts, t0, primary, alternative); g.fetches > 0 && g.store != store
    requires var g := LoadGeoJson(store, parse, stringify, accepts, t0, primary, alternative);
      var entry := Entry(g.geo, t0);
      stringify(entry) != [] && parse(stringify(entry)) == Some(entry)
    ensures var g := LoadGeoJson(store, parse, stringify, accepts, t0, primary, alternative);
      var g2 := LoadGeoJson(g.store, parse, stringify, accepts, t1, p2, a2);
      g2.fetches == 0 && g2.geo == g.geo && g2.error.None?
  {
    var g := LoadGeoJson(store, parse, stringify, accepts, t0, primary, alternative);
    var entry := Entry(g.geo, t0);
    assert CachedEntry(g.store, parse) == Some(entry);
    GetOfTwo("data", g.geo, "timestamp", Num(t0));
    assert FreshEntry(entry, t1);
  }
}

=== FILE: js.dfy ===
/**
 The JavaScript values the dashboard's front end manipulates, and the handful
 of built-in coercions its components rely on: truthiness, `a || b`, property
 lookup, `String(v)`, `Number(v) || 0`, `trim`, case mapping and `includes`.

 Numbers are integers: every quantity the dashboard handles is a count, a year,
 a month or an identifier. Objects keep their keys in insertion order, as
 `Object.keys` reports them.
 */
module Js {

  datatype Option<+T> = None | Some(value: T)

  datatype Value =
    | Undefined
    | Null
    | Bool(b: bool)
    | Num(n: int)
    | Str(s: string)
    | Arr(items: seq<Value>)
    | Obj(fields: seq<(string, Value)>)

  /** JavaScript truthiness (`if (v)`, `!v`, `v && …`). */
  predicate Truthy(v: Value) {
    match v
    case Undefined => false
    case Null => false
    case Bool(b) => b
    case Num(n) => n != 0
    case Str(s) => s != ""
    case Arr(_) => true
    case Obj(_) => true
  }

  /** `v == null`: true of both null and undefined. */
  predicate Nullish(v: Value) {
    v.Undefined? || v.Null?
  }

  /** `a || b` */
  function Or(a: Value, b: Value): Value {
    if Truthy(a) then a else b
  }

  /** `Array.isArray(v) && v.length > 0` */
  predicate NonEmptyArray(v: Value) {
    v.Arr? && |v.items| > 0
  }

  // ---------------------------------------------------------------------------
  // Sequences

  /** The splits and regroupings of sequences the proofs below name. */
  lemma FrontAndLast<T>(xs: seq<T>)
    requires |xs| > 0
    ensures xs == xs[..|xs| - 1] + [xs[|xs| - 1]]
  {
  }

  lemma HeadAndTail<T>(xs: seq<T>)
    requires |xs| > 0
    ensures xs == [xs[0]] + xs[1..]
  {
  }

  lemma Associative<T>(a: seq<T>, b: seq<T>, c: seq<T>)
    ensures a + (b + c) == (a + b) + c
  {
  }

  // ---------------------------------------------------------------------------
  // Objects

  function Lookup(fields: seq<(string, Value)>, k: string): Value {
    if |fields| == 0 then Undefined
    else if fields[0].0 == k then fields[0].1
    else Lookup(fields[1..], k)
  }

  predicate HasKey(fields: seq<(string, Value)>, k: string) {
    exists i :: 0 <= i < |fields| && fields[i].0 == k
  }

  /** `v[k]`, undefined for a missing key or a value that is not an object. */
  function Get(v: Value, k: string): Value {
    if v.Obj? then Lookup(v.fields, k) else Undefined
  }

  /** The values of `keys` in `props`, in order. */
  function Values(props: Value, keys: seq<string>): (vs: seq<Value>)
    ensures |vs| == |keys| && forall i :: 0 <= i < |keys| ==> vs[i] == Get(props, keys[i])
  {
    seq(|keys|, i requires 0 <= i < |keys| => Get(props, keys[i]))
  }

  /** `Object.keys(v)` of an object. */
  function Keys(fields: seq<(string, Value)>): (ks: seq<string>)
    ensures |ks| == |fields|
    ensures forall i :: 0 <= i < |fields| ==> ks[i] == fields[i].0
  {
    if |fields| == 0 then [] else [fields[0].0] + Keys(fields[1..])
  }

  /** The spread update `{ ...o, [k]: x }`: an existing key keeps its place, a new key goes last. */
  function SetField(fields: seq<(string, Value)>, k: string, x: Value): (r: seq<(string, Value)>)
    ensures Lookup(r, k) == x
    ensures forall j :: j != k ==> Lookup(r, j) == Lookup(fields, j)
    ensures HasKey(fields, k) ==> Keys(r) == Keys(fields)
    ensures !HasKey(fields, k) ==> Keys(r) == Keys(fields) + [k]
  {
    if |fields| == 0 then [(k, x)]
    else if fields[0].0 == k then [(k, x)] + fields[1..]
    else
      var rest := SetField(fields[1..], k, x);
      HasKeyTail(fields, k);
      [fields[0]] + rest
  }

  /** Past a first key that differs, a key is present exactly when it is present in the rest. */
  lemma HasKeyTail(fields: seq<(string, Value)>, k: string)
    requires |fields| > 0 && fields[0].0 != k
    ensures HasKey(fields, k) <==> HasKey(fields[1..], k)
  {
    if HasKey(fields, k) {
      var i :| 0 <= i < |fields| && fields[i].0 == k;
      assert fields[1..][i - 1].0 == k;
    }
    if HasKey(fields[1..], k) {
      var i :| 0 <= i < |fields[1..]| && fields[1..][i].0 == k;
      assert fields[i + 1].0 == k;
    }
  }

  /** Writing a key's own value back over it changes nothing. */
  lemma {:induction false} SetFieldSame(fields: seq<(string, Value)>, k: string)
    requires HasKey(fields, k)
    ensures SetField(fields, k, Lookup(fields, k)) == fields
  {
    if fields[0].0 != k {
      var i :| 0 <= i < |fields| && fields[i].0 == k;
      assert fields[1..][i - 1].0 == k;
      SetFieldSame(fields[1..], k);
    }
  }

  /** Writing a defined key's own value back over it changes nothing. */
  lemma SetFieldUnchanged(fields: seq<(string, Value)>, k: string, x: Value)
    requires Lookup(fields, k) == x && x != Undefined
    ensures SetField(fields, k, x) == fields
  {
    DefinedHasKey(fields, k);
    SetFieldSame(fields, k);
  }

  /** A key whose value is defined is present. */
  lemma {:induction false} DefinedHasKey(fields: seq<(string, Value)>, k: string)
    requires Lookup(fields, k) != Undefined
    ensures HasKey(fields, k)
  {
    if fields[0].0 != k {
      DefinedHasKey(fields[1..], k);
      var i :| 0 <= i < |fields[1..]| && fields[1..][i].0 == k;
      assert fields[i + 1].0 == k;
    }
  }

  // ---------------------------------------------------------------------------
  // Strings

  /** The white space and line terminators `String.prototype.trim` removes:
      tab, line feed, vertical tab, form feed, carriage return, the byte-order
      mark, the space separators of Unicode 15 (category Zs) and U+2028/U+2029. */
  predicate IsSpace(c: char) {
    c == ' ' || c == '\t' || c == '\n' || c == '\r' || c == '\U{000B}' || c == '\U{000C}'
    || c == '\U{00A0}' || c == '\U{1680}' || ('\U{2000}' <= c <= '\U{200A}')
    || c == '\U{2028}' || c == '\U{2029}' || c == '\U{202F}' || c == '\U{205F}'
    || c == '\U{3000}' || c == '\U{FEFF}'
  }

  function TrimStart(s: string): (r: string)
    ensures |r| <= |s| && r == s[|s| - |r|..]
    ensures forall i :: 0 <= i < |s| - |r| ==> IsSpace(s[i])
    ensures r != [] ==> !IsSpace(r[0])
    ensures (forall i :: 0 <= i < |s| ==> !IsSpace(s[i])) ==> r == s
  {
    if |s| > 0 && IsSpace(s[0]) then
      var t := s[1..];
      var r := TrimStart(t);
      assert t[|t| - |r|..] == s[|s| - |r|..];
      assert forall i :: 0 <= i < |s| - |r| ==> IsSpace(s[i]) by {
        forall i | 0 <= i < |s| - |r| ensures IsSpace(s[i]) {
          if i > 0 { assert s[i] == t[i - 1]; }
        }
      }
      r
    else s
  }

  function TrimEnd(s: string): (r: string)
    ensures |r| <= |s| && r == s[..|r|]
    ensures forall i :: |r| <= i < |s| ==> IsSpace(s[i])
    ensures r != [] ==> !IsSpace(r[|r| - 1])
    ensures (forall i :: 0 <= i < |s| ==> !IsSpace(s[i])) ==> r == s
  {
    if |s| > 0 && IsSpace(s[|s| - 1]) then
      var r := TrimEnd(s[..|s| - 1]);
      assert s[..|s| - 1][..|r|] == s[..|r|];
      r
    else s
  }

  /** One step of `TrimStart` and `TrimEnd`, for literal arguments. */
  lemma TrimStartStep(s: string)
    requires |s| > 0
    ensures TrimStart(s) == if IsSpace(s[0]) then TrimStart(s[1..]) else s
  {
  }

  lemma TrimEndStep(s: string)
    requires |s| > 0
    ensures TrimEnd(s) == if IsSpace(s[|s| - 1]) then TrimEnd(s[..|s| - 1]) else s
  {
  }

  /** `s.trim()` */
  function Trim(s: string): (r: string)
    ensures |r| <= |s|
    ensures r != [] ==> !IsSpace(r[0]) && !IsSpace(r[|r| - 1])
    ensures (forall i :: 0 <= i < |s| ==> !IsSpace(s[i])) ==> r == s
  {
    TrimEnd(TrimStart(s))
  }

  /** Trimming keeps a contiguous part of the text and removes only white
      space around it. */
  lemma TrimIsInfix(s: string)
    ensures exists a, b :: (0 <= a <= b <= |s| && Trim(s) == s[a..b]
      && (forall i :: 0 <= i < a ==> IsSpace(s[i])) && (forall i :: b <= i < |s| ==> IsSpace(s[i])))
  {
    var t := TrimStart(s);
    var r := TrimEnd(t);
    var a := |s| - |t|;
    assert r == s[a..a + |r|];
    assert forall i :: a + |r| <= i < |s| ==> s[i] == t[i - a];
  }

  /** Trimming twice trims nothing more. */
  lemma TrimIdempotent(s: string)
    ensures Trim(Trim(s)) == Trim(s)
  {
    var r := Trim(s);
    assert TrimStart(r) == r;
    assert TrimEnd(r) == r;
  }

  /** The UTF-16 code units a character takes: two above U+FFFF, else one. */
  function Utf16Units(c: char): nat {
    if c as int > 0xFFFF then 2 else 1
  }

  /** `s.length`, which counts UTF-16 code units rather than characters. */
  function Utf16Length(s: string): (n: nat)
    ensures |s| <= n <= 2 * |s|
    ensures (forall i :: 0 <= i < |s| ==> s[i] as int <= 0xFFFF) ==> n == |s|
  {
    if |s| == 0 then 0
    else
      var init := s[..|s| - 1];
      assert forall i :: 0 <= i < |init| ==> init[i] == s[i];
      Utf16Length(init) + Utf16Units(s[|s| - 1])
  }

  /** The length of a concatenation is the sum of the lengths. */
  lemma {:induction false} Utf16LengthAppend(a: string, b: string)
    ensures Utf16Length(a + b) == Utf16Length(a) + Utf16Length(b)
    decreases |b|
  {
    if |b| > 0 {
      var init := b[..|b| - 1];
      assert (a + b)[..|a + b| - 1] == a + init;
      assert (a + b)[|a + b| - 1] == b[|b| - 1];
      Utf16LengthAppend(a, init);
    } else {
      assert a + b == a;
    }
  }

  /** `c.toLowerCase()` for ASCII and the Latin-1 letters. */
  function LowerChar(c: char): char {
    if 'A' <= c <= 'Z' || ('\U{00C0}' <= c <= '\U{00DE}' && c != '\U{00D7}') then (c as int + 32) as char else c
  }

  /** `c.toUpperCase()` for ASCII and the Latin-1 letters that stay in Latin-1. */
  function UpperChar(c: char): char {
    if 'a' <= c <= 'z' || ('\U{00E0}' <= c <= '\U{00FE}' && c != '\U{00F7}') then (c as int - 32) as char else c
  }

  function Lower(s: string): (r: string)
    ensures |r| == |s| && forall i :: 0 <= i < |s| ==> r[i] == LowerChar(s[i])
  {
    seq(|s|, i requires 0 <= i < |s| => LowerChar(s[i]))
  }

  function Upper(s: string): (r: string)
    ensures |r| == |s| && forall i :: 0 <= i < |s| ==> r[i] == UpperChar(s[i])
  {
    seq(|s|, i requires 0 <= i < |s| => UpperChar(s[i]))
  }

  /** `s.includes(t)`, stated as the existence of a position where `t` occurs. */
  ghost predicate OccursAt(s: string, t: string, i: int) {
    0 <= i && i + |t| <= |s| && s[i..i + |t|] == t
  }

  /** `s.includes(t)`, computed by scanning `s` from the left. */
  function Includes(s: string, t: string): (b: bool)
    ensures b <==> exists i :: OccursAt(s, t, i)
  {
    if |t| <= |s| && s[..|t|] == t then
      assert OccursAt(s, t, 0);
      true
    else if |s| == 0 then
      false
    else
      var b := Includes(s[1..], t);
      assert forall i :: OccursAt(s[1..], t, i) ==> OccursAt(s, t, i + 1) by {
        forall i | OccursAt(s[1..], t, i) ensures OccursAt(s, t, i + 1) {
          assert s[i + 1..i + 1 + |t|] == s[1..][i..i + |t|];
        }
      }
      assert forall i :: OccursAt(s, t, i) ==> OccursAt(s[1..], t, i - 1) by {
        forall i | OccursAt(s, t, i) ensures OccursAt(s[1..], t, i - 1) {
          assert i != 0;
          assert s[1..][i - 1..i - 1 + |t|] == s[i..i + |t|];
        }
      }
      b
  }

  /** `parts.join(sep)` */
  function Join(parts: seq<string>, sep: string): string {
    if |parts| == 0 then ""
    else if |parts| == 1 then parts[0]
    else parts[0] + sep + Join(parts[1..], sep)
  }

  // ---------------------------------------------------------------------------
  // Numbers and strings

  predicate IsDigit(c: char) {
    '0' <= c <= '9'
  }

  predicate AllDigits(s: string) {
    forall i :: 0 <= i < |s| ==> IsDigit(s[i])
  }

  function DigitChar(d: nat): (c: char)
    requires d < 10
    ensures IsDigit(c) && c as int - '0' as int == d
  {
    ('0' as int + d) as char
  }

  /** The decimal digits of `n`, most significant first, without leading zeros. */
  function Decimal(n: nat): (r: string)
    ensures |r| >= 1 && AllDigits(r)
    ensures n >= 10 <==> |r| >= 2
  {
    if n < 10 then [DigitChar(n)] else Decimal(n / 10) + [DigitChar(n % 10)]
  }

  /** The value of a string of decimal digits. */
  function DigitsValue(s: string): nat
    requires AllDigits(s)
  {
    if |s| == 0 then 0 else DigitsValue(s[..|s| - 1]) * 10 + (s[|s| - 1] as int - '0' as int)
  }

  /** Reading back the decimal digits of `n` gives `n`. */
  lemma {:induction false} DecimalRoundTrip(n: nat)
    ensures DigitsValue(Decimal(n)) == n
  {
    if n >= 10 {
      var d := Decimal(n);
      assert d[..|d| - 1] == Decimal(n / 10);
      DecimalRoundTrip(n / 10);
    }
  }

  /** `String(n)` of an integer. */
  function IntToStr(n: int): (r: string)
    ensures |r| >= 1
    ensures n >= 0 ==> AllDigits(r)
    ensures n < 0 ==> r[0] == '-' && AllDigits(r[1..])
  {
    if n < 0 then "-" + Decimal(-n) else Decimal(n)
  }

  /** `String(v)`. An array is joined with ',' and its null or undefined elements print as ''. */
  function ToStr(v: Value): (s: string)
    ensures v.Str? ==> s == v.s
    ensures v.Num? && v.n >= 0 ==> s != "" && AllDigits(s)
    ensures v.Num? && v.n < 0 ==> |s| >= 2 && s[0] == '-' && AllDigits(s[1..])
    ensures v.Arr? && |v.items| == 0 ==> s == ""
    ensures v.Arr? && |v.items| == 1 && Nullish(v.items[0]) ==> s == ""
    decreases v, 1
  {
    match v
    case Undefined => "undefined"
    case Null => "null"
    case Bool(b) => if b then "true" else "false"
    case Num(n) => IntToStr(n)
    case Str(s) => s
    case Arr(items) => JoinItems(v, items)
    case Obj(_) => "[object Object]"
  }

  function JoinItems(ghost parent: Value, items: seq<Value>): string
    requires forall i :: 0 <= i < |items| ==> items[i] < parent
    decreases parent, 0, |items|
  {
    if |items| == 0 then ""
    else
      var head := if Nullish(items[0]) then "" else ToStr(items[0]);
      if |items| == 1 then head else head + "," + JoinItems(parent, items[1..])
  }

  /** `Number(s)` of a string, as an integer when the trimmed text is empty or an
      optionally signed run of decimal digits; `None` stands for NaN. */
  function ParseNumber(s: string): (r: Option<int>)
    ensures Trim(s) == "" ==> r == Some(0)
    ensures r.Some? && Trim(s) != "" ==> AllDigits(Trim(s)) || AllDigits(Trim(s)[1..])
  {
    ParseText(Trim(s))
  }

  /** The reading of already trimmed text. */
  function ParseText(t: string): Option<int> {
    if t == "" then Some(0)
    else if AllDigits(t) then Some(DigitsValue(t))
    else if |t| >= 2 && (t[0] == '-' || t[0] == '+') && AllDigits(t[1..]) then
      var m: int := DigitsValue(t[1..]);
      Some(if t[0] == '-' then -m else m)
    else None
  }

  /** `Number` ignores the white space around its text. */
  lemma ParseTrimmed(s: string)
    ensures ParseNumber(Trim(s)) == ParseNumber(s)
  {
    TrimIdempotent(s);
  }

  /** `Number(v)`; `None` stands for NaN. */
  function ToNumber(v: Value): (r: Option<int>)
    ensures v.Num? ==> r == Some(v.n)
    ensures v.Undefined? || v.Obj? ==> r.None?
    ensures v.Null? ==> r == Some(0)
    ensures v.Bool? ==> r == Some(if v.b then 1 else 0)
  {
    match v
    case Undefined => None
    case Null => Some(0)
    case Bool(b) => Some(if b then 1 else 0)
    case Num(n) => Some(n)
    case Str(s) => ParseNumber(s)
    case Arr(_) => ParseNumber(ToStr(v))
    case Obj(_) => None
  }

  /** `Number(v) || 0`: NaN and 0 both become 0. */
  function NumberOr0(v: Value): (n: int)
    ensures !Truthy(v) ==> n == 0
    ensures v.Num? ==> n == v.n
    ensures ToNumber(v).None? ==> n == 0
  {
    match ToNumber(v)
    case Some(n) => n
    case None => 0
  }

  /** In an object whose keys are distinct, a key finds the value stored beside it. */
  lemma {:induction false} LookupDistinct(fields: seq<(string, Value)>, i: nat)
    requires i < |fields|
    requires forall a, b :: 0 <= a < b < |fields| ==> fields[a].0 != fields[b].0
    ensures Lookup(fields, fields[i].0) == fields[i].1
  {
    if i > 0 {
      LookupDistinct(fields[1..], i - 1);
    }
  }

  /** Reading either field of a two-field object literal. */
  lemma GetOfTwo(a: string, x: Value, b: string, y: Value)
    requires a != b
    ensures Get(Obj([(a, x), (b, y)]), a) == x && Get(Obj([(a, x), (b, y)]), b) == y
  {
    var f := [(a, x), (b, y)];
    assert Lookup(f, a) == x;
    assert f[1..] == [(b, y)];
    assert Lookup(f, b) == Lookup([(b, y)], b);
  }

  /** Reading a field of a one-field object literal. */
  lemma GetOfOne(a: string, x: Value, b: string)
    requires a != b
    ensures Get(Obj([(a, x)]), a) == x && Get(Obj([(a, x)]), b) == Undefined
  {
    var f := [(a, x)];
    assert f[1..] == [];
    assert Lookup(f, b) == Lookup(f[1..], b);
  }

  lemma DecimalHasNoSpace(n: nat)
    ensures forall i :: 0 <= i < |Decimal(n)| ==> !IsSpace(Decimal(n)[i])
  {
  }

  /** Parsing the decimal text of an integer gives the integer back. */
  lemma {:induction false} ParseIntToStr(n: int)
    ensures ParseNumber(IntToStr(n)) == Some(n)
  {
    if n < 0 {
      ParseNegative(n);
    } else {
      ParseDecimal(n);
    }
  }

  lemma {:induction false} ParseDecimal(n: nat)
    ensures ParseNumber(IntToStr(n)) == Some(n)
  {
    var s := Decimal(n);
    assert IntToStr(n) == s;
    DecimalHasNoSpace(n);
    assert Trim(s) == s;
    assert s != "";
    DecimalRoundTrip(n);
  }

  lemma {:induction false} ParseNegative(k: int)
    requires k < 0
    ensures ParseNumber(IntToStr(k)) == Some(k)
  {
    var n: nat := -k;
    var s := "-" + Decimal(n);
    assert IntToStr(k) == s;
    NegativeIsTrimmed(n);
    ReadNegative(n);
  }

  /** The text of a negative integer has no white space to trim. */
  lemma NegativeIsTrimmed(n: nat)
    ensures Trim("-" + Decimal(n)) == "-" + Decimal(n)
  {
    var s := "-" + Decimal(n);
    DecimalHasNoSpace(n);
    assert forall i :: 0 <= i < |s| ==> !IsSpace(s[i]) by {
      forall i | 0 <= i < |s| ensures !IsSpace(s[i]) {
        if i > 0 { assert s[i] == Decimal(n)[i - 1]; }
      }
    }
  }

  /** A minus sign and decimal digits read as the negated number. */
  lemma ReadNegative(n: nat)
    ensures ParseText("-" + Decimal(n)) == Some(-(n as int))
  {
    var s := "-" + Decimal(n);
    assert !AllDigits(s) by { assert !IsDigit(s[0]); }
    assert s[1..] == Decimal(n);
    DecimalRoundTrip(n);
  }

  /** `Number(String(n)) || 0 === n` for every integer `n`. */
  lemma {:induction false} NumberOfStringRoundTrip(n: int)
    ensures ToNumber(Str(ToStr(Num(n)))) == Some(n)
    ensures NumberOr0(Str(ToStr(Num(n)))) == n
  {
    assert ToStr(Num(n)) == IntToStr(n);
    ParseIntToStr(n);
  }
}

=== FILE: pages.dfy ===
/** The analysis pages: the dashboard's period text and drill-down, and each
    page's `aplicarFiltros` (which filters become query parameters, whether
    the server is asked at all, what the list shows afterwards) and the
    filter lines written into exported images. */
module Pages {
  import opened Js
  import Charts
  import Filters

  // ---------------------------------------------------------------------------
  // The period text (dashboard)

  const Unavailable := "Período não disponível"

  const Abbreviations: seq<string> :=
    ["", "Jan", "Fev", "Mar", "Abr", "Mai", "Jun", "Jul", "Ago", "Set", "Out", "Nov", "Dez"]

  /** `mes ? meses[mes] : ''`: a month 1..12 gives its abbreviation; any
      other value reads past the table, whose `undefined` counts as no month. */
  function Abbreviation(v: Value): (a: string)
    ensures a != "" <==> v.Num? && 1 <= v.n <= 12
  {
    if v.Num? && 1 <= v.n <= 12 then Abbreviations[v.n] else ""
  }

  /** The period carries both years. */
  predicate HasPeriod(p: Value) {
    Truthy(p) && Truthy(Get(p, "ano_inicio")) && Truthy(Get(p, "ano_fim"))
  }

  /** One end of the period: "Mmm/Y" with a month, else "Y". */
  function Endpoint(month: string, year: Value): string {
    if month != "" then month + "/" + ToStr(year) else ToStr(year)
  }

  /** `formatarPeriodo` */
  function FormatPeriod(p: Value): (r: string)
    ensures !HasPeriod(p) ==> r == Unavailable
  {
    if !HasPeriod(p) then Unavailable
    else
      var start, end := Get(p, "ano_inicio"), Get(p, "ano_fim");
      var first, last := Abbreviation(Get(p, "mes_inicio")), Abbreviation(Get(p, "mes_fim"));
      if start == end then
        if first != "" && last != "" then Endpoint(first, start) + " - " + Endpoint(last, end)
        else ToStr(start)
      else Endpoint(first, start) + " - " + Endpoint(last, end)
  }

  function PeriodOf(y0: int, m0: Value, y1: int, m1: Value): Value {
    Obj([("ano_inicio", Num(y0)), ("ano_fim", Num(y1)), ("mes_inicio", m0), ("mes_fim", m1)])
  }

  lemma PeriodFields(y0: int, m0: Value, y1: int, m1: Value)
    ensures var p := PeriodOf(y0, m0, y1, m1);
      && Get(p, "ano_inicio") == Num(y0) && Get(p, "ano_fim") == Num(y1)
      && Get(p, "mes_inicio") == m0 && Get(p, "mes_fim") == m1
  {
    var f := [("ano_inicio", Num(y0)), ("ano_fim", Num(y1)), ("mes_inicio", m0), ("mes_fim", m1)];
    assert forall i, j :: 0 <= i < j < |f| ==> f[i].0 != f[j].0;
    LookupDistinct(f, 0);
    LookupDistinct(f, 1);
    LookupDistinct(f, 2);
    LookupDistinct(f, 3);
  }

  /** Within one year with both months the text spans the months. */
  lemma PeriodWithinOneYear(y: int, m0: Value, m1: Value)
    requires y != 0
    requires m0.Num? && 1 <= m0.n <= 12 && m1.Num? && 1 <= m1.n <= 12
    ensures FormatPeriod(PeriodOf(y, m0, y, m1))
      == (Abbreviations[m0.n] + "/" + IntToStr(y)) + " - " + (Abbreviations[m1.n] + "/" + IntToStr(y))
  {
    var p := PeriodOf(y, m0, y, m1);
    PeriodFields(y, m0, y, m1);
    assert HasPeriod(p);
    var a, b := Abbreviation(m0), Abbreviation(m1);
    assert a == Abbreviations[m0.n] && b == Abbreviations[m1.n];
    assert a != "" && b != "";
    assert FormatPeriod(p) == Endpoint(a, Num(y)) + " - " + Endpoint(b, Num(y));
  }

  /** Within one year without both months the text is the bare year. */
  lemma PeriodWithinOneYearBare(y: int, m0: Value, m1: Value)
    requires y != 0
    requires !(m0.Num? && 1 <= m0.n <= 12 && m1.Num? && 1 <= m1.n <= 12)
    ensures FormatPeriod(PeriodOf(y, m0, y, m1)) == IntToStr(y)
  {
    var p := PeriodOf(y, m0, y, m1);
    PeriodFields(y, m0, y, m1);
    assert HasPeriod(p);
    assert Abbreviation(m0) == "" || Abbreviation(m1) == "";
  }

  /** Across years each end shows its month when it has one. */
  lemma PeriodAcrossYears(y0: int, m0: Value, y1: int, m1: Value)
    requires y0 != 0 && y1 != 0 && y0 != y1
    ensures FormatPeriod(PeriodOf(y0, m0, y1, m1))
      == Endpoint(Abbreviation(m0), Num(y0)) + " - " + Endpoint(Abbreviation(m1), Num(y1))
  {
    PeriodFields(y0, m0, y1, m1);
  }

  /** With numeric years the text is never the unavailable notice: it starts
      with a month abbreviation or a year's first character. */
  lemma AvailablePeriodIsShown(y0: int, m0: Value, y1: int, m1: Value)
    requires y0 != 0 && y1 != 0
    ensures FormatPeriod(PeriodOf(y0, m0, y1, m1)) != Unavailable
  {
    PeriodFields(y0, m0, y1, m1);
    var r := FormatPeriod(PeriodOf(y0, m0, y1, m1));
    var a := Abbreviation(m0);
    var s := IntToStr(y0);
    assert forall i :: 1 <= i < |Abbreviations| ==> Abbreviations[i][0] != 'P';
    if y0 == y1 && !(a != "" && Abbreviation(m1) != "") {
      assert r == s;
    } else if a != "" {
      assert r[0] == a[0];
    } else {
      assert r[0] == s[0];
    }
    assert s[0] != 'P';
  }

  /** The period banner of the age-bracket and place-of-death pages. */
  predicate ShowsPeriodBanner(p: Value) {
    HasPeriod(p)
  }

  // ---------------------------------------------------------------------------
  // The dashboard's drill-down and ranking

  /** The first record, or null for an empty list. */
  function Top(xs: seq<Value>): (r: Option<Value>)
    ensures r.None? <==> |xs| == 0
    ensures r.Some? ==> r.value == xs[0]
  {
    if |xs| == 0 then None else Some(xs[0])
  }

  /** The deaths chart gets `slice(0, 10)`. */
  function FirstTen(xs: seq<Value>): (r: seq<Value>)
    ensures |r| == if |xs| < 10 then |xs| else 10
    ensures r == xs[..|r|]
  {
    if |xs| < 10 then xs else xs[..10]
  }

  function SameChapter(xs: seq<Value>, code: Value): (keep: seq<bool>)
    ensures |keep| == |xs| && forall i :: 0 <= i < |xs| ==> (keep[i] <==> Get(xs[i], "capitulo_cod") == code)
  {
    seq(|xs|, i requires 0 <= i < |xs| => Get(xs[i], "capitulo_cod") == code)
  }

  /** An open drill-down: its name, its records and the list it came from. */
  datatype Drill = Drill(title: string, rows: seq<Value>, original: seq<Value>)

  /** A bar click on the dashboard: a clicked chapter with a code opens the
      records of that chapter, in list order. */
  function DrillDown(xs: seq<Value>, clicked: Value): (r: Option<Drill>)
    ensures r.Some? <==> Truthy(clicked) && Truthy(Get(clicked, "capitulo_cod"))
    ensures r.Some? ==> r.value.original == xs && |r.value.rows| <= |xs|
    ensures r.Some? ==> forall x :: x in r.value.rows <==> x in xs && Get(x, "capitulo_cod") == Get(clicked, "capitulo_cod")
  {
    if Truthy(clicked) && Truthy(Get(clicked, "capitulo_cod")) then
      var code := Get(clicked, "capitulo_cod");
      var keep := SameChapter(xs, code);
      var rows := Charts.Select(xs, keep);
      assert forall x :: x in rows <==> x in xs && Get(x, "capitulo_cod") == code by {
        forall x | x in rows ensures x in xs && Get(x, "capitulo_cod") == code {
          var i :| 0 <= i < |xs| && keep[i] && xs[i] == x;
        }
        forall x | x in xs && Get(x, "capitulo_cod") == code ensures x in rows {
          var i :| 0 <= i < |xs| && xs[i] == x;
        }
      }
      Some(Drill(ToStr(code) + " - " + ToStr(Get(clicked, "capitulo_nome")), rows, xs))
    else None
  }

  /** Drilling into the drilled records with the same click finds them all again. */
  lemma DrillDownIsIdempotent(xs: seq<Value>, clicked: Value)
    requires DrillDown(xs, clicked).Some?
    ensures DrillDown(DrillDown(xs, clicked).value.rows, clicked).value.rows == DrillDown(xs, clicked).value.rows
  {
    var rows := DrillDown(xs, clicked).value.rows;
    var code := Get(clicked, "capitulo_cod");
    var keep := SameChapter(rows, code);
    forall i | 0 <= i < |rows| ensures keep[i] {
      assert rows[i] in rows;
    }
    Charts.SelectAll(rows, keep);
  }

  // ---------------------------------------------------------------------------
  // Applying filters

  /** A request to the API: the path and the query parameters, in insertion order. */
  datatype Query = Query(path: string, params: seq<(string, Value)>)

  /** What the request brought back. */
  datatype Fetch = Loaded(body: Value) | Failed

  /** `res.data || []` on success; `[]` when the request failed. */
  function Received(f: Fetch): (v: Value)
    ensures Truthy(v)
  {
    match f
    case Loaded(body) => Or(body, Arr([]))
    case Failed => Arr([])
  }

  /** The effect of one `aplicarFiltros`: whether the list is blanked while it
      runs, the request (if any), and the list shown afterwards. */
  datatype Applied = Applied(blanked: bool, query: Option<Query>, shown: Value)

  /** Parameters from filters: a key is present exactly when its filter is set. */
  function Param(present: bool, key: string, v: Value): seq<(string, Value)> {
    if present then [(key, v)] else []
  }

  /** The parameters a page sends with the locality, one year or a year range, and the month. */
  function Params(municipio: Value, first: (string, Value), second: (string, Value), month: Value): (ps: seq<(string, Value)>)
    ensures |ps| == 0 <==> municipio == Str("all") && !Truthy(first.1) && !Truthy(second.1) && !Truthy(month)
  {
    Param(municipio != Str("all"), "id_localidade", municipio)
      + (Param(Truthy(first.1), first.0, first.1)
         + (Param(Truthy(second.1), second.0, second.1)
            + Param(Truthy(month), "mes", month)))
  }

  lemma LookupParam(present: bool, key: string, v: Value, rest: seq<(string, Value)>, k: string)
    ensures Lookup(Param(present, key, v) + rest, k) == if present && k == key then v else Lookup(rest, k)
  {
    if present {
      assert (Param(present, key, v) + rest)[1..] == rest;
    } else {
      assert Param(present, key, v) + rest == rest;
    }
  }

  /** A key's parameter is the first set filter with that key. */
  lemma LookupParams(municipio: Value, first: (string, Value), second: (string, Value), month: Value, k: string)
    ensures Lookup(Params(municipio, first, second, month), k)
      == if municipio != Str("all") && k == "id_localidade" then municipio
         else if Truthy(first.1) && k == first.0 then first.1
         else if Truthy(second.1) && k == second.0 then second.1
         else if Truthy(month) && k == "mes" then month
         else Undefined
  {
    var d := Param(Truthy(month), "mes", month);
    var c := Param(Truthy(second.1), second.0, second.1) + d;
    var b := Param(Truthy(first.1), first.0, first.1) + c;
    LookupParam(municipio != Str("all"), "id_localidade", municipio, b, k);
    LookupParam(Truthy(first.1), first.0, first.1, c, k);
    LookupParam(Truthy(second.1), second.0, second.1, d, k);
    LookupParam(Truthy(month), "mes", month, [], k);
    assert d + [] == d;
  }

  /** Each parameter carries its filter's value, and only set filters appear. */
  lemma ParamsCarryFilters(municipio: Value, first: (string, Value), second: (string, Value), month: Value)
    requires first.0 == "ano_inicio" && second.0 == "ano_fim"
    ensures Lookup(Params(municipio, first, second, month), "id_localidade") == (if municipio != Str("all") then municipio else Undefined)
    ensures Lookup(Params(municipio, first, second, month), "ano_inicio") == (if Truthy(first.1) then first.1 else Undefined)
    ensures Lookup(Params(municipio, first, second, month), "ano_fim") == (if Truthy(second.1) then second.1 else Undefined)
    ensures Lookup(Params(municipio, first, second, month), "mes") == (if Truthy(month) then month else Undefined)
  {
    var l, i, f, m: string := "id_localidade", "ano_inicio", "ano_fim", "mes";
    assert l[0] == 'i' && i[0] == 'a' && f[0] == 'a' && m[0] == 'm';
    assert i[4] == 'i' && f[4] == 'f' && |l| > 4 && l[1] == 'd' && i[1] == 'n';
    LookupParams(municipio, first, second, month, l);
    LookupParams(municipio, first, second, month, i);
    LookupParams(municipio, first, second, month, f);
    LookupParams(municipio, first, second, month, m);
  }

  /** Ask the server when there are parameters, else show the full data. */
  function Run(blanked: bool, path: string, ps: seq<(string, Value)>, full: Value, f: Fetch): (a: Applied)
    ensures a.blanked == blanked
    ensures a.query.Some? <==> |ps| > 0
    ensures a.query.Some? ==> a.query.value == Query(path, ps) && a.shown == Received(f)
    ensures a.query.None? ==> a.shown == full
  {
    if |ps| > 0 then Applied(blanked, Some(Query(path, ps)), Received(f)) else Applied(blanked, None, full)
  }

  /** The monthly series page's own filter state. */
  datatype SeriesFilters = SeriesFilters(municipio: Value, yearStart: Value, yearEnd: Value, month: Value)

  /** `filtersData?.k !== undefined ? filtersData.k : current` */
  function Override(filters: Value, k: string, current: Value): (v: Value)
    ensures Get(filters, k) != Undefined ==> v == Get(filters, k)
    ensures Get(filters, k) == Undefined ==> v == current
  {
    if Get(filters, k) != Undefined then Get(filters, k) else current
  }

  /** The filters in force: the applied object's defined fields over the page state. */
  function InForce(filters: Value, st: SeriesFilters): SeriesFilters {
    SeriesFilters(
      Override(filters, "municipio", st.municipio),
      Override(filters, "yearStart", st.yearStart),
      Override(filters, "yearEnd", st.yearEnd),
      Override(filters, "month", st.month))
  }

  /** `aplicarFiltros(filtersData)` of the monthly series page. */
  function ApplySeries(filters: Value, st: SeriesFilters, full: Value, f: Fetch): (a: Applied)
    ensures a.blanked
    ensures var e := InForce(filters, st);
      a.query.Some? <==> e.municipio != Str("all") || Truthy(e.yearStart) || Truthy(e.yearEnd) || Truthy(e.month)
    ensures a.query.Some? ==> a.query.value.path == "/api/series/mensal"
    ensures a.query.None? ==> a.shown == full
  {
    var e := InForce(filters, st);
    Run(true, "/api/series/mensal", Params(e.municipio, ("ano_inicio", e.yearStart), ("ano_fim", e.yearEnd), e.month), full, f)
  }

  /** The page first stores the applied object's defined fields, then applies:
      the same as applying its new state with no object at all. */
  lemma StoredFiltersApplyTheSame(filters: Value, st: SeriesFilters, full: Value, f: Fetch)
    ensures ApplySeries(filters, st, full, f) == ApplySeries(Null, InForce(filters, st), full, f)
  {
    var e := InForce(filters, st);
    assert InForce(Null, e) == e;
  }

  /** The panel's object on the monthly series page (range and month shown)
      carries every filter, so the page applies exactly what the panel holds. */
  lemma PanelFiltersReachTheQuery(p: Filters.Panel, st: SeriesFilters, full: Value, f: Fetch)
    requires p.picker.selected != Undefined
    ensures var e := InForce(Filters.Applied(p, true, true), st);
      && e.municipio == p.picker.selected
      && e.yearStart == Num(p.yearStart) && e.yearEnd == Num(p.yearEnd)
      && e.month == Filters.OptionalNumber(p.month)
  {
  }

  /** The chapter pages' filter state. */
  datatype ChapterFilters = ChapterFilters(municipio: Value, year: Value, month: Value)

  /** `aplicarFiltros` of the admissions and deaths by chapter pages. The list
      is not blanked; the drill-down is closed only when the apply succeeds. */
  function ApplyChapters(path: string, st: ChapterFilters, full: Value, f: Fetch): (r: (Applied, bool))
    ensures !r.0.blanked
    ensures r.0.query.Some? <==> st.municipio != Str("all") || Truthy(st.year) || Truthy(st.month)
    ensures r.0.query.Some? ==> r.0.query.value.path == path
    ensures r.0.query.None? ==> r.0.shown == full
    ensures r.1 <==> r.0.query.None? || f.Loaded?
  {
    var a := Run(false, path, Params(st.municipio, ("ano", st.year), ("ano_fim", Undefined), st.month), full, f);
    (a, a.query.None? || f.Loaded?)
  }

  /** The chapter pages store the applied object's defined fields. */
  function StoreChapters(filters: Value, st: ChapterFilters): (r: ChapterFilters)
    ensures Get(filters, "municipio") != Undefined ==> r.municipio == Get(filters, "municipio")
    ensures Get(filters, "year") != Undefined ==> r.year == Get(filters, "year")
    ensures Get(filters, "month") != Undefined ==> r.month == Get(filters, "month")
    ensures (Get(filters, "municipio") == Undefined && Get(filters, "year") == Undefined && Get(filters, "month") == Undefined) ==> r == st
  {
    ChapterFilters(
      Override(filters, "municipio", st.municipio),
      Override(filters, "year", st.year),
      Override(filters, "month", st.month))
  }

  /** The chapter pages' apply handler as written: the applied object's
      defined fields are stored, but the deferred `aplicarFiltros` is the one
      of the render that created the handler, so it reads the filters held
      before the apply. The result is the apply and the newly stored filters. */
  function ApplyChaptersAsWritten(path: string, filters: Value, st: ChapterFilters, full: Value, f: Fetch): (r: (Applied, bool, ChapterFilters))
    ensures r.2 == StoreChapters(filters, st)
    ensures !r.0.blanked
    ensures r.0.query.Some? <==> st.municipio != Str("all") || Truthy(st.year) || Truthy(st.month)
    ensures r.0.query.None? ==> r.0.shown == full
  {
    var (a, closed) := ApplyChapters(path, st, full, f);
    (a, closed, StoreChapters(filters, st))
  }

  /** Whatever the panel sends, the request as written is the one the
      previous filters make. */
  lemma StaleApplyIgnoresPanel(path: string, filters: Value, other: Value, st: ChapterFilters, full: Value, f: Fetch)
    ensures ApplyChaptersAsWritten(path, filters, st, full, f).0 == ApplyChaptersAsWritten(path, other, st, full, f).0
    ensures ApplyChaptersAsWritten(path, filters, st, full, f).0 == ApplyChapters(path, st, full, f).0
  {
  }

  /** Applying locality 5 from the unfiltered state stores locality 5 but
      asks the server nothing and shows the full list, while the corrected
      handler asks for locality 5. */
  lemma StaleChapterApply(path: string, full: Value, f: Fetch)
    ensures var st := ChapterFilters(Str("all"), Null, Null);
      var filters := Obj([("municipio", Num(5))]);
      var r := ApplyChaptersAsWritten(path, filters, st, full, f);
      && r.2.municipio == Num(5)
      && r.0.query.None? && r.0.shown == full
      && ApplyChaptersWith(path, filters, st, full, f).0.query == Some(Query(path, [("id_localidade", Num(5))]))
  {
    var st := ChapterFilters(Str("all"), Null, Null);
    var filters := Obj([("municipio", Num(5))]);
    assert Get(filters, "municipio") == Num(5);
    assert Get(filters, "year") == Undefined && Get(filters, "month") == Undefined;
    var e := StoreChapters(filters, st);
    assert e == ChapterFilters(Num(5), Null, Null);
    assert Params(e.municipio, ("ano", e.year), ("ano_fim", Undefined), e.month) == [("id_localidade", Num(5))];
  }

  /** The chapter pages' apply handler as intended: store the applied
      object's defined fields, then run `aplicarFiltros` on the stored filters. */
  function ApplyChaptersWith(path: string, filters: Value, st: ChapterFilters, full: Value, f: Fetch): (r: (Applied, bool))
    ensures var e := StoreChapters(filters, st);
      r.0.query.Some? <==> e.municipio != Str("all") || Truthy(e.year) || Truthy(e.month)
  {
    ApplyChapters(path, StoreChapters(filters, st), full, f)
  }

  /** The panel's locality, year and month reach the request whatever the
      page held before. */
  lemma ChapterPanelReachesQuery(path: string, p: Filters.Panel, st: ChapterFilters, full: Value, f: Fetch)
    requires p.picker.selected != Undefined
    ensures var e := StoreChapters(Filters.Applied(p, false, true), st);
      && e == ChapterFilters(p.picker.selected, Filters.OptionalNumber(p.year), Filters.OptionalNumber(p.month))
      && (ApplyChaptersWith(path, Filters.Applied(p, false, true), st, full, f).0.query.Some?
          <==> p.picker.selected != Str("all") || (p.year.Some? && p.year.value != 0) || (p.month.Some? && p.month.value != 0))
  {
  }

  /** `municipioId ?? selectedMunicipio` as written with `!== null && !== undefined`. */
  function EffectiveMunicipio(arg: Value, selected: Value): (m: Value)
    ensures !Nullish(arg) ==> m == arg
    ensures Nullish(arg) ==> m == selected
  {
    if !Nullish(arg) then arg else selected
  }

  /** `aplicarFiltros(municipioId)` of the age-bracket, place-of-death and
      marital-status pages: the list is blanked, and the server is asked only
      for a concrete locality. */
  function ApplyLocality(path: string, arg: Value, selected: Value, full: Value, f: Fetch): (a: Applied)
    ensures a.blanked
    ensures var m := EffectiveMunicipio(arg, selected);
      a.query.Some? <==> m != Str("all") && !Nullish(m)
    ensures a.query.Some? ==> a.query.value == Query(path, [("id_localidade", EffectiveMunicipio(arg, selected))])
    ensures a.query.None? ==> a.shown == full
  {
    var m := EffectiveMunicipio(arg, selected);
    Run(true, path, Param(m != Str("all") && !Nullish(m), "id_localidade", m), full, f)
  }

  /** `aplicarFiltros` of the race page (which blanks the list first) and of
      the sex page (which does not): the server is asked unless the state is 'all'. */
  function ApplyState(path: string, blanks: bool, selected: Value, full: Value, f: Fetch): (a: Applied)
    ensures a.blanked == blanks
    ensures a.query.Some? <==> selected != Str("all")
    ensures a.query.Some? ==> a.query.value == Query(path, [("id_localidade", selected)])
    ensures a.query.None? ==> a.shown == full
  {
    Run(blanks, path, Param(selected != Str("all"), "id_localidade", selected), full, f)
  }

  /** The two ways of choosing a locality agree except on a null or undefined
      state: the race and sex pages send it, the others show everything. */
  lemma LocalityRulesAgree(path: string, selected: Value, full: Value, f: Fetch)
    ensures !Nullish(selected) ==>
      ApplyLocality(path, Null, selected, full, f).query == ApplyState(path, true, selected, full, f).query
    ensures ApplyLocality(path, Null, Null, full, f).query.None?
    ensures ApplyState(path, true, Null, full, f).query.Some?
  {
  }

  /** A failed request leaves an empty list on every page. */
  lemma FailureShowsNothing(path: string, blanks: bool, selected: Value, full: Value)
    requires selected != Str("all")
    ensures ApplyState(path, blanks, selected, full, Failed).shown == Arr([])
  {
  }

  /** `if (initial && initial.length > 0)`: a non-empty initial list replaces
      both the full and the displayed data; otherwise both stay. */
  function AdoptInitial(initial: Value, full: Value, shown: Value): (r: (Value, Value))
    ensures NonEmptyArray(initial) ==> r == (initial, initial)
    ensures !NonEmptyArray(initial) ==> r == (full, shown)
  {
    if NonEmptyArray(initial) then (initial, initial) else (full, shown)
  }

  // ---------------------------------------------------------------------------
  // Export filter lines

  const MonthNames: seq<string> :=
    ["", "Janeiro", "Fevereiro", "Março", "Abril", "Maio", "Junho",
     "Julho", "Agosto", "Setembro", "Outubro", "Novembro", "Dezembro"]

  /** `meses[mes]` in a template: past the table it prints "undefined". */
  function MonthName(v: Value): (name: string)
    ensures !(v.Num? && 0 <= v.n <= 12) ==> name == "undefined"
    ensures v == Num(0) ==> name == ""
    ensures v.Num? && 1 <= v.n <= 12 ==> name != "" && name != "undefined"
  {
    if v.Num? && 0 <= v.n <= 12 then MonthNames[v.n] else "undefined"
  }

  /** "Município: …" when a locality is selected and found in the list. */
  function LocalityLine(selected: Value, locs: seq<Value>): (lines: seq<string>)
    ensures |lines| <= 1
    ensures |lines| == 1 <==> selected != Str("all") && Filters.Find(locs, selected).Some?
    ensures Heads(lines) == if |lines| == 1 then ["Município"] else []
  {
    if selected == Str("all") then []
    else
      match Filters.Find(locs, selected)
      case None => []
      case Some(i) => [Line("Município", ToStr(Get(locs[i], "municipio")) + " - " + ToStr(Get(locs[i], "uf")))]
  }

  /** A line's head: the text before its first ':'. */
  function Head(line: string): (h: string)
    ensures |h| <= |line| && h == line[..|h|] && ':' !in h
  {
    if |line| == 0 || line[0] == ':' then "" else [line[0]] + Head(line[1..])
  }

  /** A name without ':' is the head of "name: …". */
  lemma {:induction false} HeadOfLabel(name: string, rest: string)
    requires ':' !in name
    ensures Head(name + ":" + rest) == name
  {
    if |name| > 0 {
      assert (name + ":" + rest)[1..] == name[1..] + ":" + rest;
      HeadOfLabel(name[1..], rest);
    }
  }

  /** An export line "name: value". */
  function Line(name: string, value: string): (line: string)
    requires ':' !in name
    ensures Head(line) == name
  {
    HeadOfLabel(name, " " + value);
    assert name + ":" + " " + value == name + ":" + (" " + value);
    name + ":" + " " + value
  }

  function Heads(lines: seq<string>): (hs: seq<string>)
    ensures |hs| == |lines| && forall i :: 0 <= i < |lines| ==> hs[i] == Head(lines[i])
  {
    seq(|lines|, i requires 0 <= i < |lines| => Head(lines[i]))
  }

  /** A line that is written only when its filter is set. */
  function Optional(present: bool, name: string, value: string): (lines: seq<string>)
    requires ':' !in name
    ensures |lines| <= 1
    ensures Heads(lines) == if present then [name] else []
  {
    if present then [Line(name, value)] else []
  }

  /** The series page's lines: Município, then Período when both years are
      set, then Mês. */
  function SeriesLines(st: SeriesFilters, locs: seq<Value>): (lines: seq<string>)
    ensures |lines| <= 3
    ensures Heads(lines) ==
      (if |LocalityLine(st.municipio, locs)| == 1 then ["Município"] else [])
      + (if Truthy(st.yearStart) && Truthy(st.yearEnd) then ["Período"] else [])
      + (if Truthy(st.month) then ["Mês"] else [])
  {
    assert ':' !in "Período" && ':' !in "Mês";
    var a := LocalityLine(st.municipio, locs);
    var b := Optional(Truthy(st.yearStart) && Truthy(st.yearEnd), "Período", ToStr(st.yearStart) + " a " + ToStr(st.yearEnd));
    var c := Optional(Truthy(st.month), "Mês", MonthName(st.month));
    HeadsAppend3(a, b, c);
    a + b + c
  }

  /** The chapter pages' lines: Município, Ano, Mês, then Capítulo for an open drill-down. */
  function ChapterLines(st: ChapterFilters, locs: seq<Value>, drill: Value): (lines: seq<string>)
    ensures |lines| <= 4
    ensures Heads(lines) ==
      (if |LocalityLine(st.municipio, locs)| == 1 then ["Município"] else [])
      + (if Truthy(st.year) then ["Ano"] else [])
      + (if Truthy(st.month) then ["Mês"] else [])
      + (if Truthy(drill) then ["Capítulo"] else [])
  {
    assert ':' !in "Ano" && ':' !in "Mês" && ':' !in "Capítulo";
    var a := LocalityLine(st.municipio, locs);
    var b := Optional(Truthy(st.year), "Ano", ToStr(st.year));
    var c := Optional(Truthy(st.month), "Mês", MonthName(st.month));
    var d := Optional(Truthy(drill), "Capítulo", ToStr(Get(drill, "capitulo_cod")) + " - " + ToStr(Get(drill, "capitulo_nome")));
    var ab := a + b;
    HeadsAppend(a, b);
    HeadsAppend3(ab, c, d);
    ab + c + d
  }

  lemma HeadsAppend(a: seq<string>, b: seq<string>)
    ensures Heads(a + b) == Heads(a) + Heads(b)
  {
  }

  lemma HeadsAppend3(a: seq<string>, b: seq<string>, c: seq<string>)
    ensures Heads(a + b + c) == Heads(a) + Heads(b) + Heads(c)
  {
  }
}

=== FILE: series.dfy ===
/** `MonthlySeriesChart`: the monthly points' validity filter and
    normalisation, their stable sort by (year, month), the chart height, and
    the brush window the zoom buttons move. */
module Series {
  import opened Js
  import opened Charts
  import Export

  // ---------------------------------------------------------------------------
  // Validity and normalisation

  /** A point is kept when it is truthy, has a truthy `ano_mes`, and carries
      `internacoes` or `obitos` that is neither null nor undefined. */
  function PointCheck(d: Value): (v: Verdict)
    ensures v != Throw
    ensures v == Keep ==> d.Obj?
  {
    if Truthy(d) && Truthy(Get(d, "ano_mes"))
       && (!Nullish(Get(d, "internacoes")) || !Nullish(Get(d, "obitos")))
    then Keep else Drop
  }

  function PointVerdicts(xs: seq<Value>): (vs: seq<Verdict>)
    ensures |vs| == |xs| && forall i :: 0 <= i < |xs| ==> vs[i] == PointCheck(xs[i])
  {
    seq(|xs|, i requires 0 <= i < |xs| => PointCheck(xs[i]))
  }

  /** The fields of `{ ...d, internacoes, obitos, ano_mes, ano, mes }`, each coerced. */
  function PointFields(d: Value): seq<(string, Value)>
    requires d.Obj?
  {
    var a := SetField(d.fields, "internacoes", Num(NumberOr0(Get(d, "internacoes"))));
    var b := SetField(a, "obitos", Num(NumberOr0(Get(d, "obitos"))));
    var c := SetField(b, "ano_mes", Str(Text(Get(d, "ano_mes"))));
    var e := SetField(c, "ano", Num(NumberOr0(Get(d, "ano"))));
    SetField(e, "mes", Num(NumberOr0(Get(d, "mes"))))
  }

  const PointKeys: set<string> := {"internacoes", "obitos", "ano_mes", "ano", "mes"}

  /** A normalised point: both counts, the year and the month are numbers
      (`Number(v) || 0`), `ano_mes` is the trimmed text, and every other
      field is the record's own. */
  function NormalisePoint(d: Value): (r: Value)
    requires d.Obj?
    ensures r.Obj?
    ensures Get(r, "internacoes") == Num(NumberOr0(Get(d, "internacoes")))
    ensures Get(r, "obitos") == Num(NumberOr0(Get(d, "obitos")))
    ensures Get(r, "ano_mes") == Str(Text(Get(d, "ano_mes")))
    ensures Get(r, "ano") == Num(NumberOr0(Get(d, "ano")))
    ensures Get(r, "mes") == Num(NumberOr0(Get(d, "mes")))
    ensures forall k :: k !in PointKeys ==> Get(r, k) == Get(d, k)
  {
    PointFieldsLookup(d);
    Obj(PointFields(d))
  }

  lemma PointFieldsLookup(d: Value)
    requires d.Obj?
    ensures Lookup(PointFields(d), "internacoes") == Num(NumberOr0(Get(d, "internacoes")))
    ensures Lookup(PointFields(d), "obitos") == Num(NumberOr0(Get(d, "obitos")))
    ensures Lookup(PointFields(d), "ano_mes") == Str(Text(Get(d, "ano_mes")))
    ensures Lookup(PointFields(d), "ano") == Num(NumberOr0(Get(d, "ano")))
    ensures Lookup(PointFields(d), "mes") == Num(NumberOr0(Get(d, "mes")))
    ensures forall k :: k !in PointKeys ==> Lookup(PointFields(d), k) == Get(d, k)
  {
    var i, o, am, y, m: string := "internacoes", "obitos", "ano_mes", "ano", "mes";
    assert i[0] == 'i' && o[0] == 'o' && am[0] == 'a' && y[0] == 'a' && m[0] == 'm';
    assert |am| == 7 && |y| == 3;
    var vi, vo, vam := Num(NumberOr0(Get(d, i))), Num(NumberOr0(Get(d, o))), Str(Text(Get(d, am)));
    var vy, vm := Num(NumberOr0(Get(d, y))), Num(NumberOr0(Get(d, m)));
    var a := SetField(d.fields, i, vi);
    var b := SetField(a, o, vo);
    var c := SetField(b, am, vam);
    var e := SetField(c, y, vy);
    var r := SetField(e, m, vm);
    assert PointFields(d) == r;
    assert Lookup(r, y) == Lookup(e, y) == vy;
    assert Lookup(r, am) == Lookup(e, am) == Lookup(c, am) == vam;
    assert Lookup(r, o) == Lookup(e, o) == Lookup(c, o) == Lookup(b, o) == vo;
    assert Lookup(r, i) == Lookup(e, i) == Lookup(c, i) == Lookup(b, i) == Lookup(a, i) == vi;
    forall k | k !in PointKeys
      ensures Lookup(r, k) == Get(d, k)
    {
      assert k != i && k != o && k != am && k != y && k != m;
      assert Lookup(r, k) == Lookup(e, k) == Lookup(c, k) == Lookup(b, k) == Lookup(a, k) == Lookup(d.fields, k);
    }
  }

  /** A point the chart plots. */
  predicate Plotted(r: Value) {
    && r.Obj?
    && Get(r, "ano_mes").Str? && Get(r, "ano_mes").s != ""
    && Get(r, "internacoes").Num? && Get(r, "obitos").Num?
    && Get(r, "ano").Num? && Get(r, "mes").Num?
  }

  function Normals(valid: seq<Value>): (ns: seq<Value>)
    requires forall i :: 0 <= i < |valid| ==> valid[i].Obj?
    ensures |ns| == |valid| && forall i :: 0 <= i < |valid| ==> ns[i] == NormalisePoint(valid[i])
  {
    seq(|valid|, i requires 0 <= i < |valid| => NormalisePoint(valid[i]))
  }

  function NonBlank(ns: seq<Value>): (keep: seq<bool>)
    ensures |keep| == |ns| && forall i :: 0 <= i < |ns| ==> (keep[i] <==> Get(ns[i], "ano_mes") != Str(""))
  {
    seq(|ns|, i requires 0 <= i < |ns| => Get(ns[i], "ano_mes") != Str(""))
  }

  /** `valid.map(normalise).filter(d => d.ano_mes !== '')` */
  lemma NormalisedIsPlotted(d: Value)
    requires d.Obj? && Get(NormalisePoint(d), "ano_mes") != Str("")
    ensures Plotted(NormalisePoint(d))
  {
  }

  /** Every row is plottable and one of the normalised points `ns`. */
  predicate PlottedFrom(ns: seq<Value>, rows: seq<Value>) {
    forall j :: 0 <= j < |rows| ==> Plotted(rows[j]) && rows[j] in ns
  }

  /** Every normalised point of `ns` with a non-empty `ano_mes` is among the rows. */
  predicate NonBlankKept(ns: seq<Value>, rows: seq<Value>) {
    forall i :: 0 <= i < |ns| && Get(ns[i], "ano_mes") != Str("") ==> ns[i] in rows
  }

  /** The normalised points whose trimmed `ano_mes` is not empty, in input order. */
  function NormalisedPoints(valid: seq<Value>): (rows: seq<Value>)
    requires forall i :: 0 <= i < |valid| ==> valid[i].Obj?
    ensures |rows| <= |valid|
    ensures PlottedFrom(Normals(valid), rows) && NonBlankKept(Normals(valid), rows)
  {
    var ns := Normals(valid);
    var rows := Select(ns, NonBlank(ns));
    assert forall j :: 0 <= j < |rows| ==> Plotted(rows[j]) && rows[j] in ns by {
      forall j | 0 <= j < |rows| ensures Plotted(rows[j]) && rows[j] in ns {
        assert rows[j] in rows;
        var i :| 0 <= i < |ns| && NonBlank(ns)[i] && ns[i] == rows[j];
        NormalisedIsPlotted(valid[i]);
      }
    }
    rows
  }

  // ---------------------------------------------------------------------------
  // Sorting by (year, month)

  datatype Key = Key(year: int, month: int)

  /** A point's (year, month). */
  function KeyOf(r: Value): Key {
    Key(NumberOr0(Get(r, "ano")), NumberOr0(Get(r, "mes")))
  }

  /** The comparator `a.ano - b.ano || a.mes - b.mes` is positive. */
  predicate Later(a: Key, b: Key) {
    a.year > b.year || (a.year == b.year && a.month > b.month)
  }

  predicate SortedBy<T>(s: seq<T>, key: T -> Key) {
    forall i, j :: 0 <= i < j < |s| ==> !Later(key(s[i]), key(s[j]))
  }

  /** Places `x` after every element of the sorted `s` that does not come after it. */
  function Insert<T>(x: T, s: seq<T>, key: T -> Key): (r: seq<T>)
    requires SortedBy(s, key)
    ensures SortedBy(r, key)
    ensures multiset(r) == multiset(s) + multiset{x}
  {
    if |s| == 0 then [x]
    else if Later(key(s[0]), key(x)) then
      assert forall j :: 0 <= j < |s| ==> !Later(key(x), key(s[j])) by {
        forall j | 0 <= j < |s| ensures !Later(key(x), key(s[j])) {
          if j > 0 { assert !Later(key(s[0]), key(s[j])); }
        }
      }
      SortedCons(x, s, key);
      [x] + s
    else
      var rest := Insert(x, s[1..], key);
      HeadAndTail(s);
      FirstBeforeAll(s[0], s[1..], x, rest, key);
      SortedCons(s[0], rest, key);
      [s[0]] + rest
  }

  /** An element no later than any of a sorted sequence can go in front of it. */
  lemma SortedCons<T>(y: T, r: seq<T>, key: T -> Key)
    requires SortedBy(r, key)
    requires forall j :: 0 <= j < |r| ==> !Later(key(y), key(r[j]))
    ensures SortedBy([y] + r, key)
  {
    forall i, j | 0 <= i < j < |[y] + r| ensures !Later(key(([y] + r)[i]), key(([y] + r)[j])) {
      assert ([y] + r)[j] == r[j - 1];
      if i > 0 { assert ([y] + r)[i] == r[i - 1]; }
    }
  }

  /** What `y` precedes in `s` and `x` it precedes in any rearrangement of `s` and `x`. */
  lemma FirstBeforeAll<T>(y: T, s: seq<T>, x: T, rest: seq<T>, key: T -> Key)
    requires SortedBy([y] + s, key) && !Later(key(y), key(x))
    requires multiset(rest) == multiset(s) + multiset{x}
    ensures forall j :: 0 <= j < |rest| ==> !Later(key(y), key(rest[j]))
  {
    forall j | 0 <= j < |rest| ensures !Later(key(y), key(rest[j])) {
      assert rest[j] in multiset(rest);
      if rest[j] != x {
        assert rest[j] in multiset(s);
        var k :| 0 <= k < |s| && s[k] == rest[j];
        assert ([y] + s)[0] == y && ([y] + s)[k + 1] == s[k];
      }
    }
  }

  /** A stable insertion sort by `key`. */
  function Sort<T>(xs: seq<T>, key: T -> Key): (r: seq<T>)
    ensures SortedBy(r, key)
    ensures multiset(r) == multiset(xs)
    ensures |r| == |xs|
  {
    if |xs| == 0 then []
    else
      var front := xs[..|xs| - 1];
      assert xs == front + [xs[|xs| - 1]];
      var r := Insert(xs[|xs| - 1], Sort(front, key), key);
      assert |r| == |multiset(r)| == |multiset(xs)| == |xs|;
      r
  }

  /** The elements of `s` whose key is `k`, in order. */
  function Ties<T>(s: seq<T>, key: T -> Key, k: Key): seq<T> {
    if |s| == 0 then []
    else (if key(s[0]) == k then [s[0]] else []) + Ties(s[1..], key, k)
  }

  lemma {:induction false} TiesAppend<T>(a: seq<T>, b: seq<T>, key: T -> Key, k: Key)
    ensures Ties(a + b, key, k) == Ties(a, key, k) + Ties(b, key, k)
  {
    if |a| > 0 {
      assert (a + b)[1..] == a[1..] + b;
      TiesAppend(a[1..], b, key, k);
    } else {
      assert a + b == b;
    }
  }

  lemma TiesOfOne<T>(x: T, key: T -> Key, k: Key)
    ensures Ties([x], key, k) == if key(x) == k then [x] else []
  {
    assert [x][1..] == [];
  }

  lemma {:induction false} NoTies<T>(s: seq<T>, key: T -> Key, k: Key)
    requires forall i :: 0 <= i < |s| ==> Later(key(s[i]), k)
    ensures Ties(s, key, k) == []
  {
    if |s| > 0 {
      NoTies(s[1..], key, k);
    }
  }

  /** In a sorted sequence whose first key comes after `k`, every key does. */
  lemma AllLater<T>(s: seq<T>, key: T -> Key, k: Key)
    requires SortedBy(s, key) && |s| > 0 && Later(key(s[0]), k)
    ensures forall i :: 0 <= i < |s| ==> Later(key(s[i]), k)
  {
    forall i | 0 <= i < |s| ensures Later(key(s[i]), k) {
      if i > 0 { assert !Later(key(s[0]), key(s[i])); }
    }
  }

  lemma {:induction false} InsertTies<T>(x: T, s: seq<T>, key: T -> Key, k: Key)
    requires SortedBy(s, key)
    ensures Ties(Insert(x, s, key), key, k) == Ties(s, key, k) + (if key(x) == k then [x] else [])
  {
    var mine := if key(x) == k then [x] else [];
    TiesOfOne(x, key, k);
    if |s| == 0 {
      assert Insert(x, s, key) == [x];
      assert Ties(s, key, k) == [];
    } else if Later(key(s[0]), key(x)) {
      assert Insert(x, s, key) == [x] + s;
      TiesAppend([x], s, key, k);
      if key(x) == k {
        AllLater(s, key, k);
        NoTies(s, key, k);
        assert Ties([x] + s, key, k) == [x] + [];
      } else {
        assert Ties([x] + s, key, k) == [] + Ties(s, key, k);
      }
    } else {
      var rest := Insert(x, s[1..], key);
      HeadAndTail(s);
      assert Insert(x, s, key) == [s[0]] + rest;
      InsertTies(x, s[1..], key, k);
      TiesAppend([s[0]], rest, key, k);
      TiesAppend([s[0]], s[1..], key, k);
      var head, tail := Ties([s[0]], key, k), Ties(s[1..], key, k);
      assert Ties([s[0]] + rest, key, k) == head + (tail + mine);
      Associative(head, tail, mine);
    }
  }

  /** The sort is stable: elements with equal keys keep their input order.
      With sortedness and the multiset equality this pins the result down. */
  lemma {:induction false} SortKeepsTies<T>(xs: seq<T>, key: T -> Key, k: Key)
    ensures Ties(Sort(xs, key), key, k) == Ties(xs, key, k)
  {
    if |xs| > 0 {
      var front, last := xs[..|xs| - 1], xs[|xs| - 1];
      FrontAndLast(xs);
      var sorted := Sort(front, key);
      assert Sort(xs, key) == Insert(last, sorted, key);
      SortKeepsTies(front, key, k);
      InsertTies(last, sorted, key, k);
      TiesOfOne(last, key, k);
      TiesAppend(front, [last], key, k);
    }
  }

  lemma {:induction false} InsertLast<T>(x: T, s: seq<T>, key: T -> Key)
    requires SortedBy(s, key)
    requires forall i :: 0 <= i < |s| ==> !Later(key(s[i]), key(x))
    ensures Insert(x, s, key) == s + [x]
  {
    if |s| > 0 {
      assert SortedBy(s[1..], key);
      InsertLast(x, s[1..], key);
      assert [s[0]] + (s[1..] + [x]) == s + [x];
    }
  }

  /** Sorting an already ordered series leaves it as it is. */
  lemma {:induction false} SortOfSorted<T>(xs: seq<T>, key: T -> Key)
    requires SortedBy(xs, key)
    ensures Sort(xs, key) == xs
  {
    if |xs| > 0 {
      var front, last := xs[..|xs| - 1], xs[|xs| - 1];
      assert SortedBy(front, key);
      SortOfSorted(front, key);
      InsertLast(last, front, key);
      assert front + [last] == xs;
    }
  }

  // ---------------------------------------------------------------------------
  // The rendered series

  /** `data.filter(check)`: the points that pass the validity check, in order. */
  function ValidPoints(xs: seq<Value>): (valid: seq<Value>)
    ensures |valid| <= |xs|
    ensures forall j :: 0 <= j < |valid| ==> valid[j].Obj? && PointCheck(valid[j]) == Keep && valid[j] in xs
    ensures forall i :: 0 <= i < |xs| && PointCheck(xs[i]) == Keep ==> xs[i] in valid
    ensures |valid| == 0 <==> forall i :: 0 <= i < |xs| ==> PointCheck(xs[i]) == Drop
  {
    var valid := Select(xs, KeepFlags(PointVerdicts(xs)));
    assert forall j :: 0 <= j < |valid| ==> valid[j].Obj? && PointCheck(valid[j]) == Keep && valid[j] in xs by {
      forall j | 0 <= j < |valid| ensures valid[j].Obj? && PointCheck(valid[j]) == Keep && valid[j] in xs {
        assert valid[j] in valid;
      }
    }
    assert (forall i :: 0 <= i < |xs| ==> PointCheck(xs[i]) == Drop) ==> |valid| == 0 by {
      if |valid| > 0 {
        assert valid[0] in valid;
      }
    }
    assert |valid| == 0 ==> forall i :: 0 <= i < |xs| ==> PointCheck(xs[i]) == Drop by {
      forall i | 0 <= i < |xs| && PointCheck(xs[i]) == Keep ensures |valid| > 0 {
        assert xs[i] in valid;
      }
    }
    valid
  }

  /** Sequences with the same multiset have the same members. */
  lemma SameMembers<T>(a: seq<T>, b: seq<T>)
    requires multiset(a) == multiset(b)
    ensures forall x :: x in a <==> x in b
  {
    forall x ensures x in a <==> x in b {
      assert x in a <==> x in multiset(a);
      assert x in b <==> x in multiset(b);
    }
  }

  /** A reordering of the rows keeps both where they come from and that none is missing. */
  lemma ReorderedRows(ns: seq<Value>, a: seq<Value>, b: seq<Value>)
    requires multiset(a) == multiset(b)
    requires PlottedFrom(ns, a) && NonBlankKept(ns, a)
    ensures PlottedFrom(ns, b) && NonBlankKept(ns, b)
  {
    SameMembers(a, b);
    forall j | 0 <= j < |b| ensures Plotted(b[j]) && b[j] in ns {
      assert b[j] in a;
      var k :| 0 <= k < |a| && a[k] == b[j];
    }
  }

  /** The normalised, non-blank points in (year, month) order. */
  function SortedPoints(valid: seq<Value>): (rows: seq<Value>)
    requires forall j :: 0 <= j < |valid| ==> valid[j].Obj?
    ensures |rows| <= |valid|
    ensures SortedBy(rows, KeyOf)
    ensures multiset(rows) == multiset(NormalisedPoints(valid))
    ensures PlottedFrom(Normals(valid), rows) && NonBlankKept(Normals(valid), rows)
  {
    var normal := NormalisedPoints(valid);
    var rows := Sort(normal, KeyOf);
    ReorderedRows(Normals(valid), normal, rows);
    rows
  }

  /** The component's empty states and the plotted points, in (year, month) order. */
  function Render(data: Value): (v: View)
    ensures v != Crash
    ensures v == NoData <==> !NonEmptyArray(data)
    ensures v == Invalid <==> NonEmptyArray(data) && forall i :: 0 <= i < |data.items| ==> PointCheck(data.items[i]) == Drop
    ensures v.Drawn? ==> 0 < |v.rows| <= |data.items| && SortedBy(v.rows, KeyOf)
    ensures v.Drawn? ==> forall j :: 0 <= j < |v.rows| ==> Plotted(v.rows[j])
    ensures v.Drawn? ==> v.rows == SortedPoints(ValidPoints(data.items))
  {
    if !NonEmptyArray(data) then NoData
    else
      var valid := ValidPoints(data.items);
      if |valid| == 0 then Invalid
      else
        var rows := SortedPoints(valid);
        if |rows| == 0 then NoneValid else Drawn(rows)
  }

  /** The chart height: 8 pixels per point plus 200, within [450, 800]. */
  function Height(n: nat): (h: int)
    ensures 450 <= h <= 800
    ensures (h == 450 <==> n <= 31) && (h == 800 <==> n >= 75)
  {
    var grown := if n * 8 + 200 < 800 then n * 8 + 200 else 800;
    if 450 > grown then 450 else grown
  }

  lemma HeightGrows(n: nat, m: nat)
    requires n <= m
    ensures Height(n) <= Height(m)
    ensures 32 <= n < 75 ==> Height(n + 1) == Height(n) + 8
  {
  }

  // ---------------------------------------------------------------------------
  // The brush window

  /** `currentBrushStart` and `currentBrushEnd`; `None` stands for `null`, the whole series. */
  datatype Brush = Brush(start: int, end: Option<int>)

  /** The last visible index. */
  function End(b: Brush, n: nat): int {
    if b.end.Some? then b.end.value else n - 1
  }

  /** The window lies inside the series. */
  predicate ValidBrush(b: Brush, n: nat) {
    && 0 <= b.start <= End(b, n) <= n - 1
    && (b.end.None? ==> b.start == 0)
  }

  /** The initial window (and the one `handleResetZoom` restores): the first
      31 points of a series longer than 30, else the whole series. */
  function DefaultBrush(n: nat): (b: Brush)
    requires n >= 1
    ensures ValidBrush(b, n)
    ensures n > 30 ==> b.start == 0 && End(b, n) == 30
    ensures n <= 30 ==> b.start == 0 && End(b, n) == n - 1 && b.end.None?
  {
    if n > 30 then Brush(0, Some(if 30 < n - 1 then 30 else n - 1)) else Brush(0, None)
  }

  /** `handleBrushChange`: the brush reports its first and last index, or nothing. */
  function BrushChange(b: Brush, n: nat, report: Option<(nat, nat)>): (r: Brush)
    requires ValidBrush(b, n)
    requires report.Some? ==> report.value.0 <= report.value.1 <= n - 1
    ensures ValidBrush(r, n)
    ensures report.None? ==> r == b
    ensures report.Some? ==> r.start == report.value.0 && End(r, n) == report.value.1
  {
    match report
    case None => b
    case Some((first, last)) => Brush(first, Some(last))
  }

  /** The window centred on the current one with `newRange` points, clamped
      to the series; `Math.floor(center ± newRange / 2)` with
      `center = start + range / 2` is `start + (range ± newRange) / 2`. */
  function Recentre(b: Brush, n: nat, newRange: int): (r: Brush)
    requires ValidBrush(b, n)
    ensures r.end.Some?
    ensures newRange >= 0 ==> ValidBrush(r, n) && End(r, n) - r.start <= newRange
    ensures r.start > 0 && End(r, n) < n - 1 ==> End(r, n) - r.start == newRange
    ensures 0 <= newRange <= End(b, n) - b.start ==> b.start <= r.start && End(r, n) <= End(b, n)
  {
    var range := End(b, n) - b.start;
    var newStart := b.start + (range - newRange) / 2;
    var newEnd := b.start + (range + newRange) / 2;
    Brush(if newStart < 0 then 0 else newStart, Some(if newEnd > n - 1 then n - 1 else newEnd))
  }

  /** `handleZoomIn`: target `max(5, floor(0.7 · range))` points. */
  function ZoomIn(b: Brush, n: nat): (r: Brush)
    requires ValidBrush(b, n)
    ensures ValidBrush(r, n)
    ensures End(b, n) - b.start >= 5 ==> b.start <= r.start && End(r, n) <= End(b, n)
  {
    var range := End(b, n) - b.start;
    var target := if 5 > (7 * range) / 10 then 5 else (7 * range) / 10;
    Recentre(b, n, target)
  }

  /** `handleZoomOut`: target `min(n, floor(1.4 · range))` points. */
  function ZoomOut(b: Brush, n: nat): (r: Brush)
    requires ValidBrush(b, n)
    ensures ValidBrush(r, n)
    ensures r.start <= b.start && End(b, n) <= End(r, n)
  {
    var range := End(b, n) - b.start;
    var target := if n < (14 * range) / 10 then n else (14 * range) / 10;
    Recentre(b, n, target)
  }

  /** Zooming in narrows a window of more than five points, and never leaves
      more than five points beyond its target. */
  lemma {:induction false} ZoomInNarrows(b: Brush, n: nat)
    requires ValidBrush(b, n)
    ensures End(ZoomIn(b, n), n) - ZoomIn(b, n).start <= (if End(b, n) - b.start > 5 then End(b, n) - b.start else 5)
  {
    var range := End(b, n) - b.start;
    var target := if 5 > (7 * range) / 10 then 5 else (7 * range) / 10;
    assert (range + target) / 2 - (range - target) / 2 <= target;
  }

  /** The points on screen: `slice(start, end + 1)`, or all of them. */
  function Visible(rows: seq<Value>, b: Brush): (v: seq<Value>)
    requires ValidBrush(b, |rows|)
    ensures |v| == End(b, |rows|) - b.start + 1
    ensures forall i :: 0 <= i < |v| ==> v[i] == rows[b.start + i]
  {
    if b.end.None? then rows else rows[b.start..b.end.value + 1]
  }

  // ---------------------------------------------------------------------------
  // Tick labels

  /** The x-axis tick: with more than 20 visible points, a text with exactly
      one '-' shows only its part before the '-'. */
  function AxisTick(visible: nat, value: Value): (t: Value)
    ensures visible <= 20 || !value.Str? ==> t == value
    ensures t != value ==> (
      && value.Str? && t.Str? && |t.s| < |value.s|
      && t.s == value.s[..|t.s|] && value.s[|t.s|] == '-')
  {
    if visible > 20 && Truthy(value) && value.Str? && Includes(value.s, "-") then
      var parts := Export.Split(value.s, '-');
      Export.JoinSplit(value.s, '-');
      if |parts| == 2 then
        assert value.s == parts[0] + "-" + parts[1];
        Str(parts[0])
      else value
    else value
  }

  /** The brush tick: a text with exactly one '-' shows it as a '/'. */
  function BrushTick(value: Value): (t: Value)
    ensures !value.Str? ==> t == value
    ensures t.Str? <==> value.Str?
    ensures t.Str? ==> |t.s| == |value.s|
    ensures t.Str? ==> forall i :: 0 <= i < |t.s| && t.s[i] != value.s[i] ==> value.s[i] == '-' && t.s[i] == '/'
  {
    if Truthy(value) && value.Str? && Includes(value.s, "-") then
      var parts := Export.Split(value.s, '-');
      Export.JoinSplit(value.s, '-');
      if |parts| == 2 then
        var u := parts[0] + "/" + parts[1];
        assert value.s == parts[0] + "-" + parts[1];
        assert forall i :: 0 <= i < |u| && i != |parts[0]| ==> u[i] == value.s[i];
        Str(u)
      else value
    else value
  }

  /** A `YYYY-MM` label shows as `YYYY` on a crowded axis, unchanged on a
      sparse one, and as `YYYY/MM` on the brush. */
  lemma {:induction false} TicksOfYearMonth(year: string, month: string, visible: nat)
    requires year != "" && '-' !in year && '-' !in month
    ensures visible > 20 ==> AxisTick(visible, Str(year + "-" + month)) == Str(year)
    ensures visible <= 20 ==> AxisTick(visible, Str(year + "-" + month)) == Str(year + "-" + month)
    ensures BrushTick(Str(year + "-" + month)) == Str(year + "/" + month)
  {
    var s := year + "-" + month;
    assert s == year + ['-'] + month;
    assert OccursAt(s, "-", |year|) by {
      assert s[|year|..|year| + 1] == "-";
    }
    Export.SplitAppend(year, '-', month);
    Export.SplitFree(month, '-');
  }
}

=== FILE: statemap.dfy ===
/** Per-state (UF) aggregation and choropleth colouring, shared by the five map
    components: `BrasilMapRealLeaflet`, `BrasilMapSimple`, `BrasilMapReal`,
    `BrasilMapCid10` and `BrasilMap`. */
module StateMap {
  import opened Js

  // ---------------------------------------------------------------------------
  // Rows into contributions

  /** What a row's `uf` becomes: a key, a skipped row, or a thrown TypeError. */
  datatype KeyOutcome = Key(k: string) | Skip | Throws

  /** How a component turns `item.uf` into a key: upper-cased and trimmed
      (Leaflet, Simple) or used as it comes (Real, Cid10, BrasilMap). */
  datatype KeyRule = Normalised | Raw

  /** How a component reads a row's total: `Number(x) || 0` or `x || 0`. */
  datatype AmountRule = Numeric | Falsy0

  /** One row after its key and amount are read. */
  datatype Contribution = Contribution(key: string, amount: int, cod: Value, nome: Value)

  /** `item.uf ? item.uf.toUpperCase().trim() : null` followed by `if (!uf) return`;
      a truthy `uf` that is not a string has no `toUpperCase` and throws. Under the
      raw rule the value becomes an object key, that is, its string form. */
  function KeyOf(rule: KeyRule, uf: Value): (o: KeyOutcome)
    ensures rule.Normalised? && o.Key? ==> o.k != [] && uf.Str? && o.k == Trim(Upper(uf.s))
    ensures rule.Normalised? ==> (o.Skip? <==> !Truthy(uf) || (uf.Str? && Trim(Upper(uf.s)) == []))
    ensures rule.Normalised? ==> (o.Throws? <==> Truthy(uf) && !uf.Str?)
    ensures rule.Raw? ==> o == Key(ToStr(uf))
  {
    match rule
    case Raw => Key(ToStr(uf))
    case Normalised =>
      if !Truthy(uf) then Skip
      else if !uf.Str? then Throws
      else
        var k := Trim(Upper(uf.s));
        if k == [] then Skip else Key(k)
  }

  /** `x || 0` on the totals the API sends: a number, or a falsy value. */
  function RawAmount(v: Value): (a: int)
    ensures !Truthy(v) ==> a == 0
    ensures v.Num? ==> a == v.n
  {
    match v
    case Num(n) => n
    case Bool(b) => if b then 1 else 0
    case _ => 0
  }

  function Amount(rule: AmountRule, v: Value): int {
    match rule
    case Numeric => NumberOr0(v)
    case Falsy0 => RawAmount(v)
  }

  /** The outcome of reading one row; a nullish row has no `uf` to read and throws. */
  function RowOutcome(keys: KeyRule, row: Value): KeyOutcome {
    if Nullish(row) then Throws else KeyOf(keys, Get(row, "uf"))
  }

  /** One row as the `forEach` callback reads it. */
  datatype Read = Read(outcome: KeyOutcome, amount: int, cod: Value, nome: Value)

  function ReadRow(keys: KeyRule, amounts: AmountRule, field: string, row: Value): Read {
    Read(RowOutcome(keys, row), Amount(amounts, Get(row, field)), Get(row, "capitulo_cod"), Get(row, "capitulo_nome"))
  }

  /** The rows read in order; `None` when some row throws, which aborts the
      whole `forEach`; skipped rows contribute nothing. */
  function Collect(scanned: seq<Read>): (r: Option<seq<Contribution>>)
    ensures r.None? <==> exists i :: 0 <= i < |scanned| && scanned[i].outcome.Throws?
    ensures r.Some? ==> |r.value| <= |scanned|
  {
    if |scanned| == 0 then Some([])
    else
      var rest := Collect(scanned[1..]);
      assert forall i :: 1 <= i < |scanned| ==> scanned[i] == scanned[1..][i - 1];
      var x := scanned[0];
      match x.outcome
      case Throws => None
      case Skip => rest
      case Key(k0) =>
        if rest.None? then None
        else Some([Contribution(k0, x.amount, x.cod, x.nome)] + rest.value)
  }

  function Contributions(rows: seq<Value>, keys: KeyRule, amounts: AmountRule, field: string): (r: Option<seq<Contribution>>) {
    Collect(seq(|rows|, i requires 0 <= i < |rows| => ReadRow(keys, amounts, field, rows[i])))
  }

  /** A state appears among the contributions iff some row yields its key. */
  lemma CollectKeys(scanned: seq<Read>, k: string)
    requires Collect(scanned).Some?
    ensures var cs := Collect(scanned).value;
      (exists j :: 0 <= j < |cs| && cs[j].key == k) <==>
      (exists i :: 0 <= i < |scanned| && scanned[i].outcome == Key(k))
  {
    var cs := Collect(scanned).value;
    if exists i :: 0 <= i < |scanned| && scanned[i].outcome == Key(k) {
      var i :| 0 <= i < |scanned| && scanned[i].outcome == Key(k);
      KeyedReadContributes(scanned, i);
    }
    if exists j :: 0 <= j < |cs| && cs[j].key == k {
      var j :| 0 <= j < |cs| && cs[j].key == k;
      ContributionHasRead(scanned, j);
    }
  }

  lemma {:induction false} KeyedReadContributes(scanned: seq<Read>, i: nat)
    requires Collect(scanned).Some?
    requires i < |scanned| && scanned[i].outcome.Key?
    ensures var cs := Collect(scanned).value;
      exists j :: 0 <= j < |cs| && cs[j].key == scanned[i].outcome.k
  {
    var cs := Collect(scanned).value;
    var o := scanned[0].outcome;
    if i > 0 {
      var rest := Collect(scanned[1..]).value;
      assert scanned[1..][i - 1] == scanned[i];
      KeyedReadContributes(scanned[1..], i - 1);
      var j :| 0 <= j < |rest| && rest[j].key == scanned[i].outcome.k;
      if o.Key? {
        assert cs[j + 1] == rest[j];
      } else {
        assert cs[j] == rest[j];
      }
    } else {
      assert cs[0].key == o.k;
    }
  }

  lemma {:induction false} ContributionHasRead(scanned: seq<Read>, j: nat)
    requires Collect(scanned).Some?
    requires j < |Collect(scanned).value|
    ensures exists i :: 0 <= i < |scanned| && scanned[i].outcome == Key(Collect(scanned).value[j].key)
  {
    var cs := Collect(scanned).value;
    var o := scanned[0].outcome;
    var rest := Collect(scanned[1..]).value;
    if o.Key? && j == 0 {
      assert scanned[0].outcome == Key(cs[j].key);
    } else {
      var j' := if o.Key? then j - 1 else j;
      assert cs[j] == rest[j'];
      ContributionHasRead(scanned[1..], j');
      var i :| 0 <= i < |scanned[1..]| && scanned[1..][i].outcome == Key(rest[j'].key);
      assert scanned[1..][i] == scanned[i + 1];
    }
  }

  // ---------------------------------------------------------------------------
  // Folding contributions per state

  /** What a map component keeps per state. */
  datatype Summary = Summary(total: int, cod: Value, nome: Value)

  /** The first truthy value of `vs`, or `null` when there is none. */
  function FirstTruthy(vs: seq<Value>): (r: Value)
    ensures r == Null || Truthy(r)
    ensures Truthy(r) ==> exists i :: 0 <= i < |vs| && vs[i] == r && forall j :: 0 <= j < i ==> !Truthy(vs[j])
    ensures r == Null <==> forall i :: 0 <= i < |vs| ==> !Truthy(vs[i])
  {
    if |vs| == 0 then Null
    else if Truthy(vs[0]) then vs[0]
    else
      var r := FirstTruthy(vs[1..]);
      assert forall i :: 1 <= i < |vs| ==> vs[i] == vs[1..][i - 1];
      assert Truthy(r) ==> exists i :: 0 <= i < |vs| && vs[i] == r && forall j :: 0 <= j < i ==> !Truthy(vs[j]) by {
        if Truthy(r) {
          var i :| 0 <= i < |vs[1..]| && vs[1..][i] == r && forall j :: 0 <= j < i ==> !Truthy(vs[1..][j]);
          assert vs[i + 1] == r;
          assert forall j :: 0 <= j < i + 1 ==> !Truthy(vs[j]) by {
            forall j | 0 <= j < i + 1 ensures !Truthy(vs[j]) {
              if j > 0 { assert vs[j] == vs[1..][j - 1]; }
            }
          }
        }
      }
      r
  }

  /** The sum of the amounts contributed to `k`. */
  function SumFor(cs: seq<Contribution>, k: string): int {
    if |cs| == 0 then 0
    else SumFor(cs[..|cs| - 1], k) + (if cs[|cs| - 1].key == k then cs[|cs| - 1].amount else 0)
  }

  /** The chapter codes (or names) contributed to `k`, in order. */
  function CodsFor(cs: seq<Contribution>, k: string): seq<Value> {
    if |cs| == 0 then []
    else CodsFor(cs[..|cs| - 1], k) + (if cs[|cs| - 1].key == k then [cs[|cs| - 1].cod] else [])
  }

  function NomesFor(cs: seq<Contribution>, k: string): seq<Value> {
    if |cs| == 0 then []
    else NomesFor(cs[..|cs| - 1], k) + (if cs[|cs| - 1].key == k then [cs[|cs| - 1].nome] else [])
  }

  lemma {:induction false} FirstTruthyAppend(vs: seq<Value>, v: Value)
    ensures FirstTruthy(vs + [v]) ==
            if Truthy(FirstTruthy(vs)) then FirstTruthy(vs) else if Truthy(v) then v else Null
  {
    if |vs| == 0 {
      assert vs + [v] == [v];
      assert [v][1..] == [];
    } else {
      assert (vs + [v])[1..] == vs[1..] + [v];
      FirstTruthyAppend(vs[1..], v);
    }
  }

  lemma {:induction false} NoKeyNoCods(cs: seq<Contribution>, k: string)
    requires forall i :: 0 <= i < |cs| ==> cs[i].key != k
    ensures CodsFor(cs, k) == [] && NomesFor(cs, k) == [] && SumFor(cs, k) == 0
  {
    if |cs| > 0 {
      NoKeyNoCods(cs[..|cs| - 1], k);
    }
  }

  /** One `forEach` step: a new state starts at 0 with `cod || null`; the total
      grows by the amount, and a chapter is filled in only while it is falsy. */
  function Step(acc: map<string, Summary>, c: Contribution): (m: map<string, Summary>)
    ensures m.Keys == acc.Keys + {c.key}
    ensures forall k :: k in acc && k != c.key ==> m[k] == acc[k]
    ensures m[c.key].total == (if c.key in acc then acc[c.key].total else 0) + c.amount
    ensures c.key in acc && Truthy(acc[c.key].cod) ==> m[c.key].cod == acc[c.key].cod
    ensures c.key in acc && Truthy(acc[c.key].nome) ==> m[c.key].nome == acc[c.key].nome
    ensures c.key !in acc ==> m[c.key].cod == Or(c.cod, Null) && m[c.key].nome == Or(c.nome, Null)
  {
    var cur := if c.key in acc then acc[c.key] else Summary(0, Or(c.cod, Null), Or(c.nome, Null));
    acc[c.key := Summary(
      cur.total + c.amount,
      if Truthy(c.cod) && !Truthy(cur.cod) then c.cod else cur.cod,
      if Truthy(c.nome) && !Truthy(cur.nome) then c.nome else cur.nome)]
  }

  /** The per-state summary after all rows: a state is present iff some row
      names it, its total is the sum of its amounts, and its chapter code and
      name are the first truthy ones it was given. */
  function Fold(cs: seq<Contribution>): (m: map<string, Summary>)
    ensures forall k :: k in m <==> exists i :: 0 <= i < |cs| && cs[i].key == k
    ensures forall k :: k in m ==> m[k].total == SumFor(cs, k)
  {
    if |cs| == 0 then map[]
    else
      var init := cs[..|cs| - 1];
      var c := cs[|cs| - 1];
      var acc := Fold(init);
      assert cs == init + [c];
      StepKeys(init, c, acc);
      StepTotals(init, c, acc);
      Step(acc, c)
  }

  /** A step adds exactly the row's state to the states named so far. */
  lemma StepKeys(init: seq<Contribution>, c: Contribution, acc: map<string, Summary>)
    requires forall k :: k in acc <==> exists i :: 0 <= i < |init| && init[i].key == k
    ensures forall k :: k in Step(acc, c) <==> exists i :: 0 <= i < |init + [c]| && (init + [c])[i].key == k
  {
    var cs := init + [c];
    assert cs[|init|] == c;
    assert forall i :: 0 <= i < |init| ==> cs[i] == init[i];
  }

  /** A step keeps every state's total equal to the sum of its rows. */
  lemma StepTotals(init: seq<Contribution>, c: Contribution, acc: map<string, Summary>)
    requires forall k :: k in acc <==> exists i :: 0 <= i < |init| && init[i].key == k
    requires forall k :: k in acc ==> acc[k].total == SumFor(init, k)
    ensures forall k :: k in Step(acc, c) ==> Step(acc, c)[k].total == SumFor(init + [c], k)
  {
    var cs := init + [c];
    var m := Step(acc, c);
    assert cs[..|cs| - 1] == init && cs[|cs| - 1] == c;
    forall k | k in m ensures m[k].total == SumFor(cs, k) {
      assert SumFor(cs, k) == SumFor(init, k) + (if c.key == k then c.amount else 0);
      if k == c.key && k !in acc {
        NoKeyNoCods(init, k);
      }
    }
  }

  /** A state's chapter code and name are the first truthy ones its rows gave,
      and are never overwritten afterwards. */
  lemma {:induction false} FoldKeepsFirstChapter(cs: seq<Contribution>, k: string)
    requires k in Fold(cs)
    ensures Fold(cs)[k].cod == FirstTruthy(CodsFor(cs, k))
    ensures Fold(cs)[k].nome == FirstTruthy(NomesFor(cs, k))
  {
    var init := cs[..|cs| - 1];
    var c := cs[|cs| - 1];
    var acc := Fold(init);
    assert forall i :: 0 <= i < |init| ==> init[i] == cs[i];
    if k != c.key {
      assert CodsFor(cs, k) == CodsFor(init, k) && NomesFor(cs, k) == NomesFor(init, k);
      FoldKeepsFirstChapter(init, k);
    } else {
      assert CodsFor(cs, k) == CodsFor(init, k) + [c.cod];
      assert NomesFor(cs, k) == NomesFor(init, k) + [c.nome];
      FirstTruthyAppend(CodsFor(init, k), c.cod);
      FirstTruthyAppend(NomesFor(init, k), c.nome);
      if k in acc {
        FoldKeepsFirstChapter(init, k);
      } else {
        NoKeyNoCods(init, k);
        assert [] + [c.cod] == [c.cod] && [] + [c.nome] == [c.nome];
        assert [c.cod][1..] == [] && [c.nome][1..] == [];
      }
    }
  }

  /** The amount of the last contribution to `k`, scanning from the front. */
  function LastAmount(cs: seq<Contribution>, k: string, found: int): int {
    if |cs| == 0 then found
    else LastAmount(cs[1..], k, if cs[0].key == k then cs[0].amount else found)
  }

  /** `BrasilMap` assigns `dados[item.uf] = {...}`: a repeated state keeps only
      the amount of its last row. */
  function LastWins(cs: seq<Contribution>): (m: map<string, int>)
    ensures forall k :: k in m <==> exists i :: 0 <= i < |cs| && cs[i].key == k
  {
    if |cs| == 0 then map[]
    else
      var init := cs[..|cs| - 1];
      assert forall i :: 0 <= i < |init| ==> init[i] == cs[i];
      LastWins(init)[cs[|cs| - 1].key := cs[|cs| - 1].amount]
  }

  lemma {:induction false} LastAmountAppend(cs: seq<Contribution>, c: Contribution, k: string, found: int)
    ensures LastAmount(cs + [c], k, found) == if c.key == k then c.amount else LastAmount(cs, k, found)
  {
    if |cs| == 0 {
      assert ([] + [c])[1..] == [];
    } else {
      assert (cs + [c])[1..] == cs[1..] + [c];
      LastAmountAppend(cs[1..], c, k, if cs[0].key == k then cs[0].amount else found);
    }
  }

  /** Whatever the order of the rows, each state ends with the amount of its
      last row. */
  lemma {:induction false} LastRowWins(cs: seq<Contribution>, k: string)
    requires k in LastWins(cs)
    ensures LastWins(cs)[k] == LastAmount(cs, k, 0)
  {
    var init := cs[..|cs| - 1];
    var c := cs[|cs| - 1];
    assert cs == init + [c];
    LastAmountAppend(init, c, k, 0);
    if c.key != k {
      LastRowWins(init, k);
    }
  }

  /** `totalGeral` of one `BrasilMap` row. */
  function TotalGeral(row: Value): (t: int)
    ensures !Truthy(Get(row, "total_internacoes")) && !Truthy(Get(row, "total_obitos")) ==> t == 0
    ensures Get(row, "total_internacoes").Num? && Get(row, "total_obitos").Num? ==>
      t == Get(row, "total_internacoes").n + Get(row, "total_obitos").n
    ensures Get(row, "total_internacoes").Num? && !Truthy(Get(row, "total_obitos")) ==>
      t == Get(row, "total_internacoes").n
    ensures !Truthy(Get(row, "total_internacoes")) && Get(row, "total_obitos").Num? ==>
      t == Get(row, "total_obitos").n
  {
    RawAmount(Get(row, "total_internacoes")) + RawAmount(Get(row, "total_obitos"))
  }

  /** The rows of a `BrasilMap` response; a nullish row throws. */
  function GeralContributions(rows: seq<Value>): (r: Option<seq<Contribution>>)
    ensures r.None? <==> exists i :: 0 <= i < |rows| && Nullish(rows[i])
    ensures r.Some? ==> |r.value| == |rows| && forall i :: 0 <= i < |rows| ==>
      r.value[i].key == ToStr(Get(rows[i], "uf")) && r.value[i].amount == TotalGeral(rows[i])
  {
    if |rows| == 0 then Some([])
    else
      var rest := GeralContributions(rows[1..]);
      assert forall i :: 1 <= i < |rows| ==> rows[i] == rows[1..][i - 1];
      if Nullish(rows[0]) || rest.None? then None
      else Some([Contribution(ToStr(Get(rows[0], "uf")), TotalGeral(rows[0]), Null, Null)] + rest.value)
  }

  function Totals(m: map<string, Summary>): (t: map<string, int>)
    ensures t.Keys == m.Keys && forall k :: k in m ==> t[k] == m[k].total
  {
    map k | k in m :: m[k].total
  }

  // ---------------------------------------------------------------------------
  // Colours, radii and opacity

  /** `Math.max(...valores, 1)` over the positive totals, or 1 when none. */
  function MaxValue(totals: seq<int>): (r: int)
    ensures r >= 1
    ensures forall i :: 0 <= i < |totals| ==> totals[i] <= r
    ensures r == 1 || exists i :: 0 <= i < |totals| && totals[i] == r
  {
    if |totals| == 0 then 1
    else
      var rest := MaxValue(totals[1..]);
      assert forall i :: 1 <= i < |totals| ==> totals[i] == totals[1..][i - 1];
      if totals[0] > rest then totals[0] else rest
  }

  /** `totals` lists exactly the values of `m` (the order of `Object.values`
      does not matter to the maximum). */
  predicate ValuesOf(m: map<string, int>, totals: seq<int>) {
    (forall k :: k in m ==> m[k] in totals) && (forall i :: 0 <= i < |totals| ==> totals[i] in m.Values)
  }

  /** The ratio test `ratio > a/b` on integers. */
  lemma RatioAbove(t: int, m: int, a: int, b: int)
    requires m > 0 && b > 0
    ensures (t as real) / (m as real) > (a as real) / (b as real) <==> b * t > a * m
  {
    var x := (t as real) / (m as real);
    assert x * (m as real) == t as real;
    var y := (a as real) / (b as real);
    assert y * (b as real) == a as real;
    assert (b * t) as real == x * (m as real) * (b as real);
    assert (a * m) as real == y * (b as real) * (m as real);
  }

  /** The shade index for a total against the maximum: 0 is the darkest, at
      ratio above 0.7, then above 0.5, 0.3 and 0.1, and 4 below that. */
  function Bucket(t: int, maxValue: int): (b: nat)
    requires maxValue >= 1
    ensures b <= 4
    ensures var ratio := (t as real) / (maxValue as real);
      (b == 0 <==> ratio > 0.7) &&
      (b == 1 <==> !(ratio > 0.7) && ratio > 0.5) &&
      (b == 2 <==> !(ratio > 0.5) && ratio > 0.3) &&
      (b == 3 <==> !(ratio > 0.3) && ratio > 0.1) &&
      (b == 4 <==> !(ratio > 0.1))
  {
    RatioAbove(t, maxValue, 7, 10);
    RatioAbove(t, maxValue, 5, 10);
    RatioAbove(t, maxValue, 3, 10);
    RatioAbove(t, maxValue, 1, 10);
    assert 0.7 == (7 as real) / (10 as real) && 0.5 == (5 as real) / (10 as real);
    assert 0.3 == (3 as real) / (10 as real) && 0.1 == (1 as real) / (10 as real);
    if 10 * t > 7 * maxValue then 0
    else if 10 * t > 5 * maxValue then 1
    else if 10 * t > 3 * maxValue then 2
    else if 10 * t > maxValue then 3
    else 4
  }

  /** A larger total never gets a lighter shade. */
  lemma BucketMonotone(t1: int, t2: int, maxValue: int)
    requires maxValue >= 1 && t1 <= t2
    ensures Bucket(t2, maxValue) <= Bucket(t1, maxValue)
  {
  }

  /** A component's colours: one for "no data", five shades darkest first. */
  datatype Palette = Palette(empty: string, shades: seq<string>)

  const LeafletPalette := Palette("#e2e8f0", ["#0d9488", "#14b8a6", "#2dd4bf", "#5eead4", "#99f6e4"])
  const RealPalette := Palette("#cbd5e1", ["#dc2626", "#ef4444", "#f87171", "#fca5a5", "#fecaca"])
  const SimplePalette := Palette("#e2e8f0", ["#991b1b", "#dc2626", "#ef4444", "#f87171", "#fca5a5"])
  const Cid10Palette := RealPalette
  const GeralPalette := Palette("#cbd5e1", ["#059669", "#10b981", "#14b8a6", "#5eead4", "#ccfbf1"])

  predicate WellFormed(p: Palette) {
    |p.shades| == 5
  }

  /** `getEstadoColor(uf)`: the empty colour without an entry or with a zero
      total (the Leaflet map's extra `!total` test is the same test on integers),
      else the shade of the total's ratio to the maximum. */
  function Colour(p: Palette, m: map<string, int>, uf: string, maxValue: int): (c: string)
    requires WellFormed(p) && maxValue >= 1
    ensures uf !in m || m[uf] == 0 ==> c == p.empty
    ensures uf in m && m[uf] != 0 ==> c == p.shades[Bucket(m[uf], maxValue)]
  {
    if uf !in m || m[uf] == 0 then p.empty else p.shades[Bucket(m[uf], maxValue)]
  }

  /** A state holding the largest total gets the darkest shade. */
  lemma {:induction false} MaxStateGetsTopColour(p: Palette, m: map<string, int>, totals: seq<int>, uf: string)
    requires WellFormed(p) && ValuesOf(m, totals)
    requires uf in m && m[uf] > 0
    requires forall k :: k in m ==> m[k] <= m[uf]
    ensures Colour(p, m, uf, MaxValue(totals)) == p.shades[0]
  {
    var mv := MaxValue(totals);
    assert m[uf] in totals;
    assert mv == m[uf] by {
      if mv != 1 {
        var i :| 0 <= i < |totals| && totals[i] == mv;
        assert totals[i] in m.Values;
      }
    }
    assert 10 * m[uf] > 7 * mv;
  }

  /** Every positive total lies in (0, 1] relative to the maximum. */
  lemma {:induction false} RatioAtMostOne(m: map<string, int>, totals: seq<int>, uf: string)
    requires ValuesOf(m, totals) && uf in m
    ensures m[uf] <= MaxValue(totals)
  {
    assert m[uf] in totals;
  }

  function MinR(a: real, b: real): real { if a < b then a else b }
  function MaxR(a: real, b: real): real { if a > b then a else b }

  /** The circle radius of `BrasilMapCid10` and `BrasilMap`: 12 without data,
      else `ratio * 25 + 15` clamped to [15, 35]. */
  function Radius(hasData: bool, t: int, maxValue: int): (r: real)
    requires maxValue >= 1
    ensures !hasData ==> r == 12.0
    ensures hasData ==> 15.0 <= r <= 35.0
    ensures hasData && 0 <= t ==> r == MinR(35.0, (t as real) / (maxValue as real) * 25.0 + 15.0)
    ensures hasData && 5 * t >= 4 * maxValue ==> r == 35.0
  {
    if !hasData then 12.0
    else
      var ratio := (t as real) / (maxValue as real);
      assert ratio * (maxValue as real) == t as real;
      assert 0 <= t ==> 0.0 <= ratio;
      assert 5 * t >= 4 * maxValue ==> ratio >= 0.8 by {
        RatioAbove(4, 5, t, maxValue);
        assert (4 as real) / (5 as real) == 0.8;
      }
      MaxR(15.0, MinR(35.0, ratio * 25.0 + 15.0))
  }

  /** A larger total never draws a smaller circle. */
  lemma RadiusMonotone(t1: int, t2: int, maxValue: int)
    requires maxValue >= 1 && t1 <= t2
    ensures Radius(true, t1, maxValue) <= Radius(true, t2, maxValue)
  {
    assert (t1 as real) / (maxValue as real) <= (t2 as real) / (maxValue as real);
  }

  /** `getEstadoOpacity`: 0.5 for every other state while one is hovered. */
  function Opacity(hovered: Option<string>, uf: string): (o: real)
    ensures o == 0.5 || o == 1.0
    ensures o == 0.5 <==> hovered.Some? && hovered.value != [] && hovered.value != uf
  {
    if hovered.Some? && hovered.value != [] && hovered.value != uf then 0.5 else 1.0
  }

  /** `onMouseEnter` hovers only a state with data; `onMouseLeave` clears. */
  function Enter(hovered: Option<string>, uf: string, hasData: bool): Option<string> {
    if hasData then Some(uf) else hovered
  }

  function Leave(): Option<string> {
    None
  }

  /** Only states with data ever become hovered: the invariant holds initially
      and survives every enter and leave. */
  lemma HoverKeepsData(m: map<string, int>, hovered: Option<string>, uf: string)
    requires hovered.None? || (hovered.value in m && m[hovered.value] > 0)
    ensures var h := Enter(hovered, uf, uf in m && m[uf] > 0);
      h.None? || (h.value in m && m[h.value] > 0)
    ensures Leave().None?
  {
  }

  /** While one state is hovered, exactly the others are dimmed. */
  lemma {:induction false} HoveredStateStaysOpaque(hovered: Option<string>, uf: string, hasData: bool, other: string)
    requires hasData && other != uf && uf != []
    ensures Opacity(Enter(hovered, uf, hasData), uf) == 1.0
    ensures Opacity(Enter(hovered, uf, hasData), other) == 0.5
  {
    assert Enter(hovered, uf, hasData) == Some(uf);
  }

  // ---------------------------------------------------------------------------
  // Loading the state data

  /** The reply of the state-data request. */
  datatype Reply = Ok(data: Value) | Failed(status: int, code: string)

  /** What a component holds after a load: the summaries and the error shown. */
  datatype Loaded = Loaded(states: map<string, Summary>, error: Option<string>)

  const TooManyRequests := "Muitas requisições. Aguarde alguns instantes e tente novamente."
  const TookTooLong := "A requisição demorou muito para responder. Tente novamente."
  const TookTooLongCid10 := "A requisição demorou muito para responder. Tente novamente ou selecione um CID-10 específico."
  const LoadFailed := "Erro ao carregar dados do mapa. Tente novamente."

  /** `carregarDadosEstados` of the Leaflet and Simple maps: a non-empty array
      is folded with normalised keys and `Number(total) || 0`; anything else is
      an empty map; a failure, or a row that throws, clears the map and shows
      the message for a 429, a timeout, or the generic one. */
  function LoadNormalised(reply: Reply): (l: Loaded)
    ensures l.error.Some? ==> l.states == map[]
    ensures reply.Ok? && !NonEmptyArray(reply.data) ==> l == Loaded(map[], None)
    ensures reply.Ok? && NonEmptyArray(reply.data) ==>
      match Contributions(reply.data.items, Normalised, Numeric, "total_internacoes")
      case None => l == Loaded(map[], Some(LoadFailed))
      case Some(cs) => l == Loaded(Fold(cs), None)
    ensures reply.Failed? ==> l.error == Some(
      if reply.status == 429 then TooManyRequests
      else if reply.code == "ECONNABORTED" then TookTooLong
      else LoadFailed)
  {
    match reply
    case Ok(data) =>
      if data.Arr? && |data.items| > 0 then
        (match Contributions(data.items, Normalised, Numeric, "total_internacoes")
         case None => Loaded(map[], Some(LoadFailed))
         case Some(cs) => Loaded(Fold(cs), None))
      else Loaded(map[], None)
    case Failed(status, code) =>
      Loaded(map[], Some(
        if status == 429 then TooManyRequests
        else if code == "ECONNABORTED" then TookTooLong
        else LoadFailed))
  }

  /** Every state the Leaflet and Simple maps show is an upper-case trimmed,
      non-empty code that some row carried. */
  lemma {:induction false} NormalisedKeysCome(reply: Reply, k: string)
    requires reply.Ok? && k in LoadNormalised(reply).states
    ensures exists i :: (0 <= i < |reply.data.items| &&
      Get(reply.data.items[i], "uf").Str? && k == Trim(Upper(Get(reply.data.items[i], "uf").s)) && k != [])
  {
    var rows := reply.data.items;
    var c := Contributions(rows, Normalised, Numeric, "total_internacoes");
    assert c.Some? && LoadNormalised(reply).states == Fold(c.value);
    ContributedKeyHasRow(rows, k);
  }

  lemma {:induction false} ContributedKeyHasRow(rows: seq<Value>, k: string)
    requires Contributions(rows, Normalised, Numeric, "total_internacoes").Some?
    requires k in Fold(Contributions(rows, Normalised, Numeric, "total_internacoes").value)
    ensures exists i :: (0 <= i < |rows| &&
      Get(rows[i], "uf").Str? && k == Trim(Upper(Get(rows[i], "uf").s)) && k != [])
  {
    var scanned := seq(|rows|, i requires 0 <= i < |rows| => ReadRow(Normalised, Numeric, "total_internacoes", rows[i]));
    var cs := Collect(scanned).value;
    var j :| 0 <= j < |cs| && cs[j].key == k;
    CollectKeys(scanned, k);
    var i :| 0 <= i < |scanned| && scanned[i].outcome == Key(k);
    assert KeyOf(Normalised, Get(rows[i], "uf")) == Key(k);
  }

  /** Whether `BrasilMapReal` and `BrasilMapCid10` skip loading: while the
      chapter list is missing or an empty array. */
  predicate SkipsLoading(chapters: Value) {
    !Truthy(chapters) || (chapters.Arr? && |chapters.items| == 0)
  }

  /** `carregarDadosEstados` of `BrasilMapReal` (and, with its own timeout
      text, `BrasilMapCid10`): raw keys and `total || 0`. A reply that is not an
      array has no `forEach` and throws; on any error the previous map stays. */
  function LoadRaw(chapters: Value, reply: Reply, prev: map<string, Summary>, timeoutText: string): (l: Loaded)
    ensures SkipsLoading(chapters) ==> l == Loaded(prev, None)
    ensures l.error.Some? ==> l.states == prev
    ensures !SkipsLoading(chapters) && reply.Failed? ==>
      l.error == Some(if reply.code == "ECONNABORTED" then timeoutText else LoadFailed)
    ensures !SkipsLoading(chapters) && reply.Ok? ==>
      (l.error.None? <==> reply.data.Arr? && Contributions(reply.data.items, Raw, Falsy0, "total_internacoes").Some?)
    ensures l.error.None? && !SkipsLoading(chapters) ==>
      reply.Ok? && l.states == Fold(Contributions(reply.data.items, Raw, Falsy0, "total_internacoes").value)
  {
    if SkipsLoading(chapters) then Loaded(prev, None)
    else
      match reply
      case Ok(data) =>
        if !data.Arr? then Loaded(prev, Some(LoadFailed))
        else
          (match Contributions(data.items, Raw, Falsy0, "total_internacoes")
           case None => Loaded(prev, Some(LoadFailed))
           case Some(cs) => Loaded(Fold(cs), None))
      case Failed(_, code) =>
        Loaded(prev, Some(if code == "ECONNABORTED" then timeoutText else LoadFailed))
  }

  /** `BrasilMap`'s load: an array of rows, last one per state winning; any
      error is swallowed and the previous map stays. */
  function LoadGeral(reply: Reply, prev: map<string, int>): (m: map<string, int>)
    ensures reply.Failed? ==> m == prev
    ensures reply.Ok? && reply.data.Arr? && GeralContributions(reply.data.items).Some? ==>
      forall k :: k in m <==> exists i :: 0 <= i < |reply.data.items| && ToStr(Get(reply.data.items[i], "uf")) == k
  {
    match reply
    case Ok(data) =>
      if !data.Arr? then prev
      else
        (match GeralContributions(data.items)
        case None => prev
        case Some(cs) =>
          var m := LastWins(cs);
          assert forall k :: k in m <==> exists i :: 0 <= i < |data.items| && ToStr(Get(data.items[i], "uf")) == k by {
            forall k ensures k in m <==> exists i :: 0 <= i < |data.items| && ToStr(Get(data.items[i], "uf")) == k {
              if k in m {
                var i :| 0 <= i < |cs| && cs[i].key == k;
                assert ToStr(Get(data.items[i], "uf")) == k;
              }
              if exists i :: 0 <= i < |data.items| && ToStr(Get(data.items[i], "uf")) == k {
                var i :| 0 <= i < |data.items| && ToStr(Get(data.items[i], "uf")) == k;
                assert cs[i].key == k;
              }
            }
          }
          m)
    case Failed(_, _) => prev
  }

  /** A state repeated in a `BrasilMap` reply keeps its last row's total. */
  lemma {:induction false} LastAmountIsLastRow(cs: seq<Contribution>, k: string, found: int, i: nat)
    requires i < |cs| && cs[i].key == k
    requires forall j :: i < j < |cs| ==> cs[j].key != k
    ensures LastAmount(cs, k, found) == cs[i].amount
  {
    if i == 0 {
      LastAmountUnchanged(cs[1..], k, cs[0].amount);
    } else {
      LastAmountIsLastRow(cs[1..], k, if cs[0].key == k then cs[0].amount else found, i - 1);
    }
  }

  lemma {:induction false} LastAmountUnchanged(cs: seq<Contribution>, k: string, found: int)
    requires forall j :: 0 <= j < |cs| ==> cs[j].key != k
    ensures LastAmount(cs, k, found) == found
  {
    if |cs| > 0 {
      LastAmountUnchanged(cs[1..], k, found);
    }
  }

  /** A state repeated in a `BrasilMap` reply keeps the total of its last row. */
  lemma {:induction false} GeralLastRowWins(rows: seq<Value>, i: nat)
    requires GeralContributions(rows).Some?
    requires i < |rows|
    requires forall j :: i < j < |rows| ==> ToStr(Get(rows[j], "uf")) != ToStr(Get(rows[i], "uf"))
    ensures var m := LastWins(GeralContributions(rows).value);
      var k := ToStr(Get(rows[i], "uf"));
      k in m && m[k] == TotalGeral(rows[i])
  {
    var cs := GeralContributions(rows).value;
    var k := ToStr(Get(rows[i], "uf"));
    assert cs[i].key == k;
    LastRowWins(cs, k);
    LastAmountIsLastRow(cs, k, 0, i);
  }

  // ---------------------------------------------------------------------------
  // Interaction gates

  /** Whether a state has data: an entry with a positive total. */
  predicate HasData(m: map<string, Summary>, uf: string) {
    uf in m && m[uf].total > 0
  }

  datatype Selection = Selection(uf: string, nome: string, dados: Summary)

  /** `BrasilMapSimple`'s click: details open only for a state with data. */
  function Click(m: map<string, Summary>, uf: string, nome: string, selected: Option<Selection>): (s: Option<Selection>)
    ensures s != selected ==> HasData(m, uf) && s == Some(Selection(uf, nome, m[uf]))
    ensures HasData(m, uf) ==> s == Some(Selection(uf, nome, m[uf]))
  {
    if HasData(m, uf) then Some(Selection(uf, nome, m[uf])) else selected
  }

  /** `BrasilMapSimple`'s tooltip: shown only for a hovered state with an entry
      and a positive x position. */
  predicate TooltipShown(m: map<string, Summary>, hovered: Option<string>, x: int) {
    hovered.Some? && hovered.value != [] && hovered.value in m && x > 0
  }

  /** `BrasilMapReal` binds a popup only for a state with data. */
  predicate BindsPopup(m: map<string, Summary>, uf: Value) {
    Truthy(uf) && uf.Str? && HasData(m, uf.s)
  }
}

=== FILE: stats.dfy ===
/** The summary figures the pages compute from their record lists: field
    totals, the largest entry, shares, monthly means, and the year lists. */
module Stats {
  import opened Js
  import Filters

  // ---------------------------------------------------------------------------
  // Totals

  /** What `sum + (v || 0)` adds for a field value: a number itself, `true`
      one, anything falsy nothing. */
  function Addend(v: Value): int {
    if v.Num? then v.n else if v == Bool(true) then 1 else 0
  }

  function Amount(x: Value, k: string): int {
    Addend(Get(x, k))
  }

  /** `xs.reduce((sum, item) => sum + (item[k] || 0), 0)` */
  function Total(xs: seq<Value>, k: string): (t: int)
    ensures (forall i :: 0 <= i < |xs| ==> Amount(xs[i], k) == 0) ==> t == 0
    ensures (forall i :: 0 <= i < |xs| ==> Amount(xs[i], k) >= 0) ==> t >= 0
    ensures (forall i :: 0 <= i < |xs| ==> !Truthy(Get(xs[i], k))) ==> t == 0
  {
    if |xs| == 0 then 0 else Total(xs[..|xs| - 1], k) + Amount(xs[|xs| - 1], k)
  }

  lemma {:induction false} TotalAppend(a: seq<Value>, b: seq<Value>, k: string)
    ensures Total(a + b, k) == Total(a, k) + Total(b, k)
  {
    if |b| > 0 {
      assert (a + b)[..|a + b| - 1] == a + b[..|b| - 1];
      TotalAppend(a, b[..|b| - 1], k);
    } else {
      assert a + b == a;
    }
  }

  predicate NonNegative(xs: seq<Value>, k: string) {
    forall i :: 0 <= i < |xs| ==> Amount(xs[i], k) >= 0
  }

  /** With no negative amounts, two different entries together never exceed the total. */
  lemma {:induction false} TwoWithinTotal(xs: seq<Value>, k: string, i: nat, j: nat)
    requires NonNegative(xs, k)
    requires i < |xs| && j < |xs| && i != j
    ensures Amount(xs[i], k) + Amount(xs[j], k) <= Total(xs, k)
  {
    var n := |xs| - 1;
    var front := xs[..n];
    assert NonNegative(front, k);
    TotalNonNegative(front, k);
    if i == n {
      OneWithinTotal(front, k, j);
    } else if j == n {
      OneWithinTotal(front, k, i);
    } else {
      TwoWithinTotal(front, k, i, j);
    }
  }

  lemma {:induction false} TotalNonNegative(xs: seq<Value>, k: string)
    requires NonNegative(xs, k)
    ensures Total(xs, k) >= 0
  {
    if |xs| > 0 {
      assert NonNegative(xs[..|xs| - 1], k);
      TotalNonNegative(xs[..|xs| - 1], k);
    }
  }

  /** With no negative amounts, every entry is at most the total. */
  lemma {:induction false} OneWithinTotal(xs: seq<Value>, k: string, i: nat)
    requires NonNegative(xs, k)
    requires i < |xs|
    ensures Amount(xs[i], k) <= Total(xs, k)
  {
    var n := |xs| - 1;
    assert NonNegative(xs[..n], k);
    TotalNonNegative(xs[..n], k);
    if i < n {
      OneWithinTotal(xs[..n], k, i);
    }
  }

  /** A positive total needs some positive amount. */
  lemma {:induction false} PositiveTotalHasPositiveEntry(xs: seq<Value>, k: string)
    requires Total(xs, k) > 0
    ensures exists i :: 0 <= i < |xs| && Amount(xs[i], k) > 0
  {
    var n := |xs| - 1;
    if Amount(xs[n], k) <= 0 {
      PositiveTotalHasPositiveEntry(xs[..n], k);
      var i :| 0 <= i < n && Amount(xs[..n][i], k) > 0;
      assert xs[i] == xs[..n][i];
    }
  }

  // ---------------------------------------------------------------------------
  // The largest entry

  /** `xs.reduce((max, item) => (item[k] || 0) > (max[k] || 0) ? item : max)`,
      as the index it ends on. */
  function Largest(xs: seq<Value>, k: string): (i: nat)
    requires |xs| > 0
    ensures i < |xs|
    ensures forall j :: 0 <= j < |xs| ==> Amount(xs[j], k) <= Amount(xs[i], k)
    ensures forall j :: 0 <= j < i ==> Amount(xs[j], k) < Amount(xs[i], k)
  {
    if |xs| == 1 then 0
    else
      var n := |xs| - 1;
      var best := Largest(xs[..n], k);
      assert forall j :: 0 <= j < n ==> xs[j] == xs[..n][j];
      if Amount(xs[n], k) > Amount(xs[best], k) then n else best
  }

  /** The two properties single out one entry: the first of the tied maxima. */
  lemma FirstMaximumIsUnique(xs: seq<Value>, k: string, i: nat)
    requires i < |xs|
    requires forall j :: 0 <= j < |xs| ==> Amount(xs[j], k) <= Amount(xs[i], k)
    requires forall j :: 0 <= j < i ==> Amount(xs[j], k) < Amount(xs[i], k)
    ensures Largest(xs, k) == i
  {
  }

  /** `maiorFaixa` / `maiorLocal` / `maiorGrupo`: null for an empty list. */
  function Biggest(xs: seq<Value>, k: string): (r: Option<Value>)
    ensures r.None? <==> |xs| == 0
    ensures r.Some? ==> r.value == xs[Largest(xs, k)]
  {
    if |xs| == 0 then None else Some(xs[Largest(xs, k)])
  }

  /** The largest entry's share of the total: shown as 0 without a largest
      entry or a positive total; NaN when its raw field is not numeric. */
  datatype Share = Zero | Percent(p: real) | NotANumber

  function ShareOf(biggest: Option<Value>, k: string, total: int): (s: Share)
    ensures s == Zero <==> biggest.None? || total <= 0
  {
    if biggest.None? || total <= 0 then Zero
    else
      match ToNumber(Get(biggest.value, k))
      case Some(n) => Percent(100.0 * (n as real) / (total as real))
      case None => NotANumber
  }

  /** With no negative amounts and a positive total, the largest entry's share
      is a real percentage in (0, 100]. */
  lemma ShareIsPercentage(xs: seq<Value>, k: string)
    requires NonNegative(xs, k) && Total(xs, k) > 0
    ensures ShareOf(Biggest(xs, k), k, Total(xs, k)).Percent?
    ensures 0.0 < ShareOf(Biggest(xs, k), k, Total(xs, k)).p <= 100.0
  {
    var b := Largest(xs, k);
    PositiveTotalHasPositiveEntry(xs, k);
    OneWithinTotal(xs, k, b);
    var v := Get(xs[b], k);
    assert Addend(v) > 0;
    PositiveAddendIsNumber(v);
    assert Biggest(xs, k) == Some(xs[b]);
    PercentBound(Addend(v), Total(xs, k));
  }

  lemma PositiveAddendIsNumber(v: Value)
    requires Addend(v) > 0
    ensures ToNumber(v) == Some(Addend(v))
  {
  }

  lemma PercentBound(a: int, t: int)
    requires 0 < a <= t
    ensures 0.0 < 100.0 * (a as real) / (t as real) <= 100.0
  {
    var q := 100.0 * (a as real) / (t as real);
    assert q * (t as real) == 100.0 * (a as real);
    assert (a as real) <= (t as real);
  }

  // ---------------------------------------------------------------------------
  // Means

  /** `n > 0 ? Math.round(total / n) : 0` */
  function Mean(total: int, n: nat): (m: int)
    ensures n == 0 ==> m == 0
    ensures n > 0 ==> 2 * n * m - n <= 2 * total < 2 * n * m + n
  {
    if n == 0 then 0 else (2 * total + n) / (2 * n)
  }

  /** The mean of n equal months is that month's figure. */
  lemma MeanOfEqualMonths(c: int, n: nat)
    requires n > 0
    ensures Mean(n * c, n) == c
  {
    var m := Mean(n * c, n);
    var d := m - c;
    assert 2 * n * m == 2 * n * c + 2 * n * d;
    assert 2 * (n * c) == 2 * n * c;
    Bracket(n, d);
  }

  /** An integer strictly between -1 and 1 times a positive factor is 0. */
  lemma Bracket(n: nat, d: int)
    requires n > 0 && -2 * n < 2 * n * d < 2 * n
    ensures d == 0
  {
    if d >= 1 {
      MulAtLeast(2 * n, d);
    } else if d <= -1 {
      MulAtLeast(2 * n, -d);
    }
  }

  lemma MulAtLeast(a: nat, d: int)
    requires d >= 1
    ensures a * d >= a
  {
  }

  // ---------------------------------------------------------------------------
  // Years

  predicate Descending(s: seq<int>) {
    forall i, j :: 0 <= i < j < |s| ==> s[i] > s[j]
  }

  function InsertDescending(y: int, s: seq<int>): (r: seq<int>)
    requires Descending(s)
    ensures Descending(r)
    ensures forall z :: z in r <==> z == y || z in s
  {
    if |s| == 0 then [y]
    else if y > s[0] then [y] + s
    else if y == s[0] then s
    else
      var rest := InsertDescending(y, s[1..]);
      assert forall z :: z in s <==> z == s[0] || z in s[1..] by {
        assert s == [s[0]] + s[1..];
      }
      assert forall j :: 0 <= j < |rest| ==> rest[j] < s[0] by {
        forall j | 0 <= j < |rest| ensures rest[j] < s[0] {
          assert rest[j] in rest;
          if rest[j] != y {
            var i :| 0 <= i < |s[1..]| && s[1..][i] == rest[j];
            assert s[0] > s[i + 1];
          }
        }
      }
      [s[0]] + rest
  }

  /** A year the list records: a non-zero number in `ano`. */
  predicate HasYear(x: Value, y: int) {
    Get(x, "ano") == Num(y) && y != 0
  }

  /** `[...new Set(xs.map(item => item.ano).filter(Boolean))].sort((a, b) => b - a)`:
      the distinct years, latest first. */
  function Years(xs: seq<Value>): (ys: seq<int>)
    ensures Descending(ys)
    ensures forall y :: y in ys <==> exists i :: 0 <= i < |xs| && HasYear(xs[i], y)
  {
    if |xs| == 0 then []
    else
      var n := |xs| - 1;
      var r := Years(xs[..n]);
      assert forall i :: 0 <= i < n ==> xs[..n][i] == xs[i];
      var v := Get(xs[n], "ano");
      if v.Num? && v.n != 0 then InsertDescending(v.n, r) else r
  }

  /** The years the filter offers: from the full data when it has records,
      else from the displayed series, else the ones offered before. */
  function AvailableYears(full: seq<Value>, shown: seq<Value>, before: seq<int>): (ys: seq<int>)
    ensures |full| > 0 ==> ys == Years(full)
    ensures |full| == 0 && |shown| > 0 ==> ys == Years(shown)
    ensures |full| == 0 && |shown| == 0 ==> ys == before
  {
    if |full| > 0 then Years(full) else if |shown| > 0 then Years(shown) else before
  }

  /** `minYear` and `maxYear`: the earliest and latest available year, or ten
      years back and the current year when there are none. */
  function YearBounds(ys: seq<int>, current: int): (b: (int, int))
    ensures |ys| == 0 ==> b == (current - 10, current)
    ensures |ys| > 0 ==> b.0 in ys && b.1 in ys
    ensures forall i :: 0 <= i < |ys| ==> b.0 <= ys[i] <= b.1
  {
    if |ys| == 0 then (current - 10, current) else (Filters.Least(ys), Filters.Greatest(ys))
  }

  /** For the latest-first list the bounds are its last and first years. */
  lemma BoundsOfDescending(ys: seq<int>, current: int)
    requires Descending(ys) && |ys| > 0
    ensures YearBounds(ys, current) == (ys[|ys| - 1], ys[0])
  {
  }

  /** The distinct values of `ano`, missing ones included. */
  function YearValues(xs: seq<Value>): set<Value> {
    set i | 0 <= i < |xs| :: Get(xs[i], "ano")
  }

  /** 'Anos Analisados': `new Set(xs.map(item => item.ano)).size`. */
  function YearsAnalysed(xs: seq<Value>): (n: nat)
    ensures |xs| > 0 ==> 1 <= n
    ensures n <= |xs|
  {
    YearValuesBound(xs);
    assert |xs| > 0 ==> Get(xs[0], "ano") in YearValues(xs);
    |YearValues(xs)|
  }

  lemma {:induction false} YearValuesBound(xs: seq<Value>)
    ensures |YearValues(xs)| <= |xs|
  {
    if |xs| > 0 {
      var n := |xs| - 1;
      YearValuesBound(xs[..n]);
      assert YearValues(xs) == YearValues(xs[..n]) + {Get(xs[n], "ano")} by {
        forall v | v in YearValues(xs) ensures v in YearValues(xs[..n]) + {Get(xs[n], "ano")} {
          var i :| 0 <= i < |xs| && Get(xs[i], "ano") == v;
          if i < n {
            assert xs[..n][i] == xs[i];
          }
        }
        forall v | v in YearValues(xs[..n]) ensures v in YearValues(xs) {
          var i :| 0 <= i < n && Get(xs[..n][i], "ano") == v;
          assert xs[i] == xs[..n][i];
        }
      }
    }
  }

  /** When every record has a non-zero numeric year, 'Anos Analisados' counts
      exactly the years the filter offers. */
  lemma YearsAnalysedCountsYears(xs: seq<Value>)
    requires forall i :: 0 <= i < |xs| ==> Get(xs[i], "ano").Num? && Get(xs[i], "ano").n != 0
    ensures YearsAnalysed(xs) == |Years(xs)|
  {
    var ys := Years(xs);
    DescendingDistinct(ys);
    assert YearValues(xs) == set y | y in ys :: Num(y) by {
      forall v | v in YearValues(xs) ensures v in set y | y in ys :: Num(y) {
        var i :| 0 <= i < |xs| && Get(xs[i], "ano") == v;
        assert HasYear(xs[i], v.n);
      }
    }
    NumImage(ys);
  }

  /** A latest-first list has no repeats. */
  lemma {:induction false} DescendingDistinct(ys: seq<int>)
    requires Descending(ys)
    ensures |set y | y in ys| == |ys|
  {
    if |ys| > 0 {
      var rest := ys[1..];
      DescendingDistinct(rest);
      assert ys[0] !in rest by {
        assert forall j :: 0 <= j < |rest| ==> rest[j] == ys[j + 1] < ys[0];
      }
      ElementsOfCons(ys);
      CardinalityOfAdd((set y | y in rest), ys[0]);
    }
  }

  lemma {:induction false} NumImage(ys: seq<int>)
    ensures |set y | y in ys :: Num(y)| == |set y | y in ys|
  {
    if |ys| > 0 {
      var rest := ys[1..];
      NumImage(rest);
      ElementsOfCons(ys);
      NumsOfCons(ys);
      var elems, nums := (set y | y in rest), (set y | y in rest :: Num(y));
      assert ys[0] in elems <==> Num(ys[0]) in nums;
      CardinalityOfAdd(elems, ys[0]);
      CardinalityOfAdd(nums, Num(ys[0]));
    }
  }

  lemma ElementsOfCons(ys: seq<int>)
    requires |ys| > 0
    ensures (set y | y in ys) == (set y | y in ys[1..]) + {ys[0]}
  {
    assert ys == [ys[0]] + ys[1..];
  }

  lemma NumsOfCons(ys: seq<int>)
    requires |ys| > 0
    ensures (set y | y in ys :: Num(y)) == (set y | y in ys[1..] :: Num(y)) + {Num(ys[0])}
  {
    assert ys == [ys[0]] + ys[1..];
  }

  lemma CardinalityOfAdd<T>(s: set<T>, x: T)
    ensures |s + {x}| == if x in s then |s| else |s| + 1
  {
    if x in s {
      assert s + {x} == s;
    } else {
      assert s * {x} == {};
    }
  }

  // ---------------------------------------------------------------------------
  // Admissions by sex

  /** The index of the first record whose `k` is exactly `v`. */
  function FirstWith(xs: seq<Value>, k: string, v: Value): (r: Option<nat>)
    ensures r.Some? ==> r.value < |xs| && Get(xs[r.value], k) == v
    ensures r.Some? ==> forall j :: 0 <= j < r.value ==> Get(xs[j], k) != v
    ensures r.None? <==> forall j :: 0 <= j < |xs| ==> Get(xs[j], k) != v
  {
    if |xs| == 0 then None
    else if Get(xs[0], k) == v then Some(0)
    else
      match FirstWith(xs[1..], k, v)
      case None =>
        assert forall j :: 1 <= j < |xs| ==> xs[j] == xs[1..][j - 1];
        None
      case Some(i) =>
        assert forall j :: 1 <= j <= i ==> xs[j] == xs[1..][j - 1];
        Some(i + 1)
  }

  /** `xs.find(item => item.sexo_desc === sex)?.total_internacoes || 0` */
  function SexCount(xs: seq<Value>, sex: string): (c: int)
    ensures FirstWith(xs, "sexo_desc", Str(sex)).None? ==> c == 0
    ensures FirstWith(xs, "sexo_desc", Str(sex)).Some? ==>
      c == Amount(xs[FirstWith(xs, "sexo_desc", Str(sex)).value], "total_internacoes")
  {
    match FirstWith(xs, "sexo_desc", Str(sex))
    case None => 0
    case Some(i) => Amount(xs[i], "total_internacoes")
  }

  /** The male and female counts never add up to more than the total. */
  lemma SexCountsWithinTotal(xs: seq<Value>)
    requires NonNegative(xs, "total_internacoes")
    ensures SexCount(xs, "Masculino") + SexCount(xs, "Feminino") <= Total(xs, "total_internacoes")
  {
    var k := "total_internacoes";
    TotalNonNegative(xs, k);
    var m, f := FirstWith(xs, "sexo_desc", Str("Masculino")), FirstWith(xs, "sexo_desc", Str("Feminino"));
    if m.Some? && f.Some? {
      assert m.value != f.value;
      TwoWithinTotal(xs, k, m.value, f.value);
    } else if m.Some? {
      OneWithinTotal(xs, k, m.value);
    } else if f.Some? {
      OneWithinTotal(xs, k, f.value);
    }
  }

  /** A sex's share of the total, 0 when the total is not positive. */
  function SexShare(count: int, total: int): (r: real)
    ensures total <= 0 ==> r == 0.0
    ensures total > 0 && 0 <= count <= total ==> 0.0 <= r <= 100.0
  {
    if total > 0 then
      assert 100.0 * (count as real) <= 100.0 * (total as real) || count > total;
      100.0 * (count as real) / (total as real)
    else 0.0
  }

  /** The M/F ratio; `None` is 'N/A', shown when there are no female admissions. */
  function SexRatio(male: int, female: int): (r: Option<real>)
    ensures r.None? <==> female <= 0
    ensures r.Some? ==> r.value * (female as real) == male as real
  {
    if female > 0 then Some((male as real) / (female as real)) else None
  }
}

=== FILE: sync.dfy ===
/**
 The dashboard shell (`Dashboard` in App.jsx): the eight-dataset synchronisation
 with its per-request retry, the 24-hour local cache of the last snapshot, the
 first-run tutorial, the navigation gate and the URL/page routing table.

 The network is an oracle: each dataset is given the sequence of outcomes its
 successive attempts would see. localStorage is a map from keys to strings and
 JSON text is produced and read back by caller-supplied functions.
 */
module Sync {
  import opened Js

  // ---------------------------------------------------------------------------
  // One request with retry (`carregarComErro`)

  /** What one GET produced: the response body, or a failure carrying axios's `error.code`. */
  datatype Fetch = Ok(data: Value) | Fail(code: string)

  /** Failures worth a second attempt. */
  predicate IsNetworkError(code: string) {
    code == "ERR_NETWORK" || code == "ECONNABORTED"
  }

  predicate RetriableFailure(f: Fetch) {
    f.Fail? && IsNetworkError(f.code)
  }

  const BackoffStepMs: nat := 3000

  /** The retry loop's observable behaviour: what it returned, how many requests it
      made, the waits before each of them, and whether it raised an error toast. */
  datatype LoadTrace = LoadTrace(result: Value, attempts: nat, delays: seq<nat>, notified: bool)

  /** The attempt that ends the loop: a success, a failure that is not a network
      error, or the last allowed attempt. */
  predicate Decisive(outcomes: seq<Fetch>, retries: nat, i: nat)
    requires i < |outcomes|
  {
    outcomes[i].Ok? || !IsNetworkError(outcomes[i].code) || i == retries
  }

  /** The loop body from attempt number `attempt` on. */
  function RetryFrom(outcomes: seq<Fetch>, retries: nat, forceRefresh: bool, attempt: nat): (t: LoadTrace)
    requires attempt <= retries < |outcomes|
    decreases retries - attempt
    ensures attempt < t.attempts <= retries + 1
    ensures forall i :: attempt <= i < t.attempts - 1 ==> RetriableFailure(outcomes[i])
    ensures Decisive(outcomes, retries, t.attempts - 1)
    ensures |t.delays| == t.attempts - (if attempt == 0 then 1 else attempt)
    ensures forall i :: 0 <= i < |t.delays| ==>
              t.delays[i] == (i + (if attempt == 0 then 1 else attempt)) * BackoffStepMs
    ensures outcomes[t.attempts - 1].Ok? ==> t.result == Or(outcomes[t.attempts - 1].data, Arr([]))
    ensures outcomes[t.attempts - 1].Fail? ==> t.result == Arr([])
    ensures t.notified <==> forceRefresh && t.attempts == retries + 1 && outcomes[retries].Fail?
  {
    var wait := if attempt > 0 then [attempt * BackoffStepMs] else [];
    match outcomes[attempt]
    case Ok(data) =>
      LoadTrace(Or(data, Arr([])), attempt + 1, wait, false)
    case Fail(code) =>
      if attempt == retries then
        LoadTrace(Arr([]), attempt + 1, wait, forceRefresh)
      else if !IsNetworkError(code) then
        LoadTrace(Arr([]), attempt + 1, wait, false)
      else
        var rest := RetryFrom(outcomes, retries, forceRefresh, attempt + 1);
        rest.(delays := wait + rest.delays)
  }

  /** `carregarComErro(endpoint, nome, retries)`: at most `retries + 1` requests, a
      wait of `attempt * 3000` ms before every attempt but the first, and a result
      that is always the body or `[]`. */
  function LoadWithRetry(outcomes: seq<Fetch>, retries: nat, forceRefresh: bool): (t: LoadTrace)
    requires retries < |outcomes|
    ensures 1 <= t.attempts <= retries + 1
    ensures forall i :: 0 <= i < t.attempts - 1 ==> RetriableFailure(outcomes[i])
    ensures Decisive(outcomes, retries, t.attempts - 1)
    ensures |t.delays| == t.attempts - 1
    ensures forall i :: 0 <= i < |t.delays| ==> t.delays[i] == (i + 1) * BackoffStepMs
    ensures outcomes[t.attempts - 1].Ok? ==> t.result == Or(outcomes[t.attempts - 1].data, Arr([]))
    ensures outcomes[t.attempts - 1].Fail? ==> t.result == Arr([])
    ensures Truthy(t.result)
    ensures t.notified <==> forceRefresh && t.attempts == retries + 1 && outcomes[retries].Fail?
  {
    RetryFrom(outcomes, retries, forceRefresh, 0)
  }

  /** A failure that is not a network error stops the loop at once, with `[]` and no
      toast, whether or not the refresh was explicit. */
  lemma {:induction false} NonNetworkFailureStops(outcomes: seq<Fetch>, retries: nat, forceRefresh: bool, k: nat)
    requires k < retries < |outcomes|
    requires forall i :: 0 <= i < k ==> RetriableFailure(outcomes[i])
    requires outcomes[k].Fail? && !IsNetworkError(outcomes[k].code)
    ensures LoadWithRetry(outcomes, retries, forceRefresh).attempts == k + 1
    ensures LoadWithRetry(outcomes, retries, forceRefresh).result == Arr([])
    ensures !LoadWithRetry(outcomes, retries, forceRefresh).notified
  {
    var t := LoadWithRetry(outcomes, retries, forceRefresh);
    assert !(t.attempts - 1 > k) by {
      assert !RetriableFailure(outcomes[k]);
    }
  }

  // ---------------------------------------------------------------------------
  // The eight datasets

  datatype Dataset =
    | InternacoesCid | ObitosCid | ObitosLocal | SeriesMensal
    | InternacoesSexo | ObitosRaca | InternacoesFaixa | ObitosEstadoCivil

  /** The order the loaders are started in under `Promise.all`. */
  const LoadOrder: seq<Dataset> :=
    [InternacoesCid, ObitosCid, ObitosLocal, SeriesMensal, InternacoesSexo, ObitosRaca, InternacoesFaixa, ObitosEstadoCivil]

  /** The order of the fields in the cached snapshot. */
  const CacheOrder: seq<Dataset> :=
    [SeriesMensal, InternacoesSexo, ObitosRaca, InternacoesFaixa, ObitosEstadoCivil, ObitosLocal, InternacoesCid, ObitosCid]

  const AllDatasets: set<Dataset> :=
    {InternacoesCid, ObitosCid, ObitosLocal, SeriesMensal, InternacoesSexo, ObitosRaca, InternacoesFaixa, ObitosEstadoCivil}

  function Endpoint(d: Dataset): string {
    match d
    case InternacoesCid => "/api/internacoes/cid-cap"
    case ObitosCid => "/api/obitos/cid-cap"
    case ObitosLocal => "/api/obitos/local"
    case SeriesMensal => "/api/series/mensal?limit=5000"
    case InternacoesSexo => "/api/internacoes/sexo"
    case ObitosRaca => "/api/obitos/raca"
    case InternacoesFaixa => "/api/internacoes/faixa"
    case ObitosEstadoCivil => "/api/obitos/estado-civil"
  }

  /** The name shown in the error toast. */
  function Label(d: Dataset): string {
    match d
    case InternacoesCid => "Internações por CID-10"
    case ObitosCid => "Óbitos por CID-10"
    case ObitosLocal => "Óbitos por Local"
    case SeriesMensal => "Série Mensal"
    case InternacoesSexo => "Internações por Sexo"
    case ObitosRaca => "Óbitos por Raça"
    case InternacoesFaixa => "Internações por Faixa"
    case ObitosEstadoCivil => "Óbitos por Estado Civil"
  }

  /** The field of the cached snapshot that holds the dataset. */
  function CacheField(d: Dataset): string {
    match d
    case SeriesMensal => "seriesMensal"
    case InternacoesSexo => "internacoesSexo"
    case ObitosRaca => "obitosRaca"
    case InternacoesFaixa => "internacoesFaixa"
    case ObitosEstadoCivil => "obitosEstadoCivil"
    case ObitosLocal => "obitosLocal"
    case InternacoesCid => "internacoesCid"
    case ObitosCid => "obitosCid"
  }

  const PeriodField := "periodoDados"

  /** Where a dataset sits in the cached snapshot. */
  function CacheIndex(d: Dataset): (i: nat)
    ensures i < |CacheOrder| && CacheOrder[i] == d
  {
    match d
    case SeriesMensal => 0
    case InternacoesSexo => 1
    case ObitosRaca => 2
    case InternacoesFaixa => 3
    case ObitosEstadoCivil => 4
    case ObitosLocal => 5
    case InternacoesCid => 6
    case ObitosCid => 7
  }

  /** Every loader calls `carregarComErro` with one retry. */
  const DatasetRetries: nat := 1

  // ---------------------------------------------------------------------------
  // Application state

  datatype Overlay = Hidden | Loading | Succeeded | Errored

  datatype Toast = ErrorToast(message: string) | SuccessToast(message: string)

  datatype App = App(
    data: map<Dataset, Value>,
    periodo: Value,
    loading: bool,
    refreshing: bool,
    overlay: Overlay,
    canNavigate: bool,
    showTutorial: bool,
    currentPage: string,
    history: seq<string>,
    store: map<string, string>,
    toasts: seq<Toast>)

  predicate WellFormed(app: App) {
    app.data.Keys == AllDatasets
  }

  const CacheKey := "dashboard_data_cache"
  const SyncedKey := "has_synced_before"
  const TutorialKey := "has_seen_tutorial"
  const PageKey := "current_page"

  lemma StoreKeysDiffer()
    ensures CacheKey != SyncedKey && CacheKey != PageKey && SyncedKey != PageKey
    ensures TutorialKey != SyncedKey && TutorialKey != PageKey && TutorialKey != CacheKey
  {
    assert CacheKey[0] == 'd' && SyncedKey[0] == 'h' && TutorialKey[0] == 'h' && PageKey[0] == 'c';
    assert SyncedKey[4] == 's' && TutorialKey[4] == 's' && SyncedKey[5] == 'y' && TutorialKey[5] == 'e';
  }

  /** 24 hours in milliseconds. */
  const MaxAgeMs: int := 24 * 60 * 60 * 1000

  /** `localStorage.getItem(k)` read as a truth value: an empty string counts as absent. */
  predicate Stored(store: map<string, string>, k: string) {
    k in store && store[k] != ""
  }

  /** The first render: every dataset `[]`, no period, and the page saved in
      localStorage or 'dashboard'. */
  function Initial(store: map<string, string>): (app: App)
    ensures WellFormed(app)
    ensures forall d :: d in AllDatasets ==> app.data[d] == Arr([])
    ensures !app.canNavigate && !app.loading && !app.refreshing && app.overlay == Hidden
    ensures app.currentPage == (if Stored(store, PageKey) then store[PageKey] else "dashboard")
  {
    App(map d | d in AllDatasets :: Arr([]), Null, false, false, Hidden, false, false,
        if Stored(store, PageKey) then store[PageKey] else "dashboard", [], store, [])
  }

  // ---------------------------------------------------------------------------
  // The cache (`carregarDadosDoCache`, `salvarDadosNoCache`)

  /** The `data` object written to the cache: the eight datasets in `CacheOrder`, then the period. */
  function SnapshotData(data: map<Dataset, Value>, cachedPeriod: Value): Value
    requires data.Keys == AllDatasets
  {
    Obj(seq(8, i requires 0 <= i < 8 => (CacheField(CacheOrder[i]), data[CacheOrder[i]]))
        + [(PeriodField, cachedPeriod)])
  }

  /** `{ timestamp: now, data }` */
  function Snapshot(now: int, data: map<Dataset, Value>, cachedPeriod: Value): Value
    requires data.Keys == AllDatasets
  {
    Obj([("timestamp", Num(now)), ("data", SnapshotData(data, cachedPeriod))])
  }

  /** Whether a parsed cache entry is fresh and carries data. A non-numeric
      timestamp makes the age NaN, which is never below the limit. */
  predicate Fresh(parsed: Value, now: int) {
    match ToNumber(Or(Get(parsed, "timestamp"), Num(0)))
    case Some(t) => now - t < MaxAgeMs && Truthy(Get(parsed, "data"))
    case None => false
  }

  /** `carregarDadosDoCache`. Reading a field of a parsed `null` throws, and a
      throw (like a parse error) is caught and changes nothing. */
  function LoadFromCache(app: App, parse: string -> Option<Value>, now: int): (a: App)
    requires WellFormed(app)
    ensures WellFormed(a)
    ensures a == app
         || (Stored(app.store, CacheKey) && parse(app.store[CacheKey]).Some?
             && Fresh(parse(app.store[CacheKey]).value, now))
    ensures a != app ==> a == app.(data := a.data, periodo := a.periodo)
    ensures a != app ==> forall d :: d in AllDatasets ==> Truthy(a.data[d])
  {
    if !Stored(app.store, CacheKey) then app
    else match parse(app.store[CacheKey])
      case None => app
      case Some(parsed) =>
        if Nullish(parsed) || !Fresh(parsed, now) then app
        else
          var d := Get(parsed, "data");
          app.(data := CachedDatasets(d), periodo := Or(Get(d, PeriodField), Null))
  }

  /** Each dataset of a cached `data` object, `[]` when missing or falsy. */
  function CachedDatasets(d: Value): (data: map<Dataset, Value>)
    ensures data.Keys == AllDatasets
    ensures forall ds :: ds in AllDatasets ==> Truthy(data[ds])
  {
    map ds | ds in AllDatasets :: Or(Get(d, CacheField(ds)), Arr([]))
  }

  /** The cached period: the response body or null, never the all-null placeholder. */
  function CachedPeriod(period: Fetch): (v: Value)
    ensures !period.Ok? ==> v == Null
    ensures period.Ok? && Truthy(period.data) ==> v == period.data
    ensures !Truthy(v) ==> v == Null
  {
    if period.Ok? then Or(period.data, Null) else Null
  }

  /** The placeholder period shown after `/api/periodo-dados` fails. */
  const NullPeriod: Value :=
    Obj([("ano_inicio", Null), ("ano_fim", Null), ("mes_inicio", Null), ("mes_fim", Null)])

  lemma SnapshotKeysDistinct(data: map<Dataset, Value>, cachedPeriod: Value)
    requires data.Keys == AllDatasets
    ensures var fs := SnapshotData(data, cachedPeriod).fields;
      forall a, b :: 0 <= a < b < |fs| ==> fs[a].0 != fs[b].0
  {
  }

  /** Every field of a snapshot reads back as the value written into it. */
  lemma {:induction false} SnapshotFields(saved: int, data: map<Dataset, Value>, cachedPeriod: Value)
    requires data.Keys == AllDatasets
    ensures Get(Snapshot(saved, data, cachedPeriod), "timestamp") == Num(saved)
    ensures Get(Snapshot(saved, data, cachedPeriod), "data") == SnapshotData(data, cachedPeriod)
    ensures forall d :: d in AllDatasets ==> Get(SnapshotData(data, cachedPeriod), CacheField(d)) == data[d]
    ensures Get(SnapshotData(data, cachedPeriod), PeriodField) == cachedPeriod
  {
    var snap := Snapshot(saved, data, cachedPeriod);
    var sd := SnapshotData(data, cachedPeriod);
    assert snap.fields[0].0 != "data";
    assert Lookup(snap.fields[1..], "data") == sd;
    SnapshotKeysDistinct(data, cachedPeriod);
    forall d | d in AllDatasets
      ensures Get(sd, CacheField(d)) == data[d]
    {
      LookupDistinct(sd.fields, CacheIndex(d));
    }
    LookupDistinct(sd.fields, 8);
  }

  /** A snapshot written at `saved` and read back before 24 hours have passed
      restores every dataset and the cached period exactly. */
  lemma {:induction false} CacheRoundTrip(app: App, data: map<Dataset, Value>, period: Fetch, saved: int, now: int,
                                          parse: string -> Option<Value>, stringify: Value -> string)
    requires WellFormed(app) && data.Keys == AllDatasets
    requires forall d :: d in AllDatasets ==> Truthy(data[d])
    requires CacheKey in app.store && app.store[CacheKey] == stringify(Snapshot(saved, data, CachedPeriod(period)))
    requires stringify(Snapshot(saved, data, CachedPeriod(period))) != ""
    requires parse(stringify(Snapshot(saved, data, CachedPeriod(period)))) == Some(Snapshot(saved, data, CachedPeriod(period)))
    requires now - saved < MaxAgeMs
    ensures LoadFromCache(app, parse, now).data == data
    ensures LoadFromCache(app, parse, now).periodo == CachedPeriod(period)
  {
    var cp := CachedPeriod(period);
    SnapshotFields(saved, data, cp);
    var snap := Snapshot(saved, data, cp);
    assert Fresh(snap, now);
    var d := Get(snap, "data");
    assert CachedDatasets(d) == data;
  }

  // ---------------------------------------------------------------------------
  // Synchronisation (`carregarDados`)

  function ErrorMessage(d: Dataset): (m: string)
    ensures |m| == 17 + |Label(d)| + 29
    ensures m[..17] == "Erro ao carregar " && m[17..|m| - 29] == Label(d)
    ensures m[|m| - 29..] == ". Tente novamente mais tarde."
  {
    "Erro ao carregar " + Label(d) + ". Tente novamente mais tarde."
  }

  /** Different datasets fail with different messages. */
  lemma ErrorMessagesDistinct(d: Dataset, e: Dataset)
    requires d != e
    ensures ErrorMessage(d) != ErrorMessage(e)
  {
  }

  const SyncSuccessMessage := "Dados atualizados com sucesso!"

  /** The indicator `carregarDados` raises before loading. */
  function BeginSync(app: App, forceRefresh: bool, showOverlay: bool): (a: App)
    ensures showOverlay ==> a == app.(overlay := Loading)
    ensures !showOverlay && forceRefresh ==> a == app.(refreshing := true)
    ensures !showOverlay && !forceRefresh ==> a == app.(loading := true)
  {
    if showOverlay then app.(overlay := Loading)
    else if forceRefresh then app.(refreshing := true)
    else app.(loading := true)
  }

  /** The error toasts of the loaders, in start order. */
  function LoaderToasts(order: seq<Dataset>, traces: map<Dataset, LoadTrace>): (ts: seq<Toast>)
    requires forall d :: d in order ==> d in traces
    ensures |ts| <= |order|
    ensures forall i :: 0 <= i < |ts| ==> ts[i].ErrorToast?
  {
    if |order| == 0 then []
    else
      (if traces[order[0]].notified then [ErrorToast(ErrorMessage(order[0]))] else [])
      + LoaderToasts(order[1..], traces)
  }

  /** Every loader's outcomes cover its two attempts. */
  predicate Covers(outcomes: map<Dataset, seq<Fetch>>) {
    forall d :: d in AllDatasets ==> d in outcomes && |outcomes[d]| > DatasetRetries
  }

  /** The eight loaders, each settled with its own retry loop. */
  function LoadAll(outcomes: map<Dataset, seq<Fetch>>, forceRefresh: bool): (traces: map<Dataset, LoadTrace>)
    requires Covers(outcomes)
    ensures traces.Keys == AllDatasets
    ensures forall d :: d in AllDatasets ==> traces[d] == LoadWithRetry(outcomes[d], DatasetRetries, forceRefresh)
    ensures !forceRefresh ==> LoaderToasts(LoadOrder, traces) == []
  {
    var traces := map d | d in AllDatasets :: LoadWithRetry(outcomes[d], DatasetRetries, forceRefresh);
    assert !forceRefresh ==> LoaderToasts(LoadOrder, traces) == [] by {
      if !forceRefresh {
        NoToastWithoutRefresh(LoadOrder, traces);
      }
    }
    traces
  }

  /** What `carregarDados` does once the loaders and the period request have
      settled: store the results, cache the snapshot and mark the sync as done. */
  function Settle(app: App, traces: map<Dataset, LoadTrace>, period: Fetch, now: int,
                  stringify: Value -> string): (a: App)
    requires traces.Keys == AllDatasets
    ensures a.data.Keys == AllDatasets
    ensures forall d :: d in AllDatasets ==> a.data[d] == traces[d].result
    ensures a.periodo == (if period.Ok? then period.data else NullPeriod)
    ensures a.store == app.store[CacheKey := stringify(Snapshot(now, a.data, CachedPeriod(period)))]
                                [SyncedKey := "true"]
    ensures a.toasts == app.toasts + LoaderToasts(LoadOrder, traces)
    ensures a == app.(data := a.data, periodo := a.periodo, store := a.store, toasts := a.toasts)
  {
    var data := map d | d in AllDatasets :: traces[d].result;
    app.(data := data,
         periodo := if period.Ok? then period.data else NullPeriod,
         store := app.store[CacheKey := stringify(Snapshot(now, data, CachedPeriod(period)))][SyncedKey := "true"],
         toasts := app.toasts + LoaderToasts(LoadOrder, traces))
  }

  /** The closing indicator: the overlay reports success and unlocks navigation, or
      an explicit refresh gets a success toast; loading and refreshing end. */
  function Conclude(app: App, forceRefresh: bool, showOverlay: bool): (a: App)
    ensures !a.loading && !a.refreshing
    ensures a.canNavigate == (app.canNavigate || showOverlay)
    ensures a.overlay == (if showOverlay then Succeeded else app.overlay)
    ensures a.toasts == app.toasts + (if !showOverlay && forceRefresh then [SuccessToast(SyncSuccessMessage)] else [])
    ensures a == app.(loading := false, refreshing := false, canNavigate := a.canNavigate,
                      overlay := a.overlay, toasts := a.toasts)
  {
    var finished :=
      if showOverlay then app.(overlay := Succeeded, canNavigate := true)
      else if forceRefresh then app.(toasts := app.toasts + [SuccessToast(SyncSuccessMessage)])
      else app;
    finished.(loading := false, refreshing := false)
  }

  /** `carregarDados(forceRefresh, showOverlay)`: all eight loaders settle, then the
      period is fetched, then the snapshot is cached and the sync is marked done.
      Every loader catches its own failures, so the outer `catch` is never reached. */
  function SyncAll(app: App, forceRefresh: bool, showOverlay: bool, outcomes: map<Dataset, seq<Fetch>>,
                   period: Fetch, now: int, stringify: Value -> string): (a: App)
    requires WellFormed(app) && Covers(outcomes)
    ensures WellFormed(a)
    ensures forall d :: d in AllDatasets ==>
              a.data[d] == LoadWithRetry(outcomes[d], DatasetRetries, forceRefresh).result
    ensures a.periodo == (if period.Ok? then period.data else NullPeriod)
    ensures a.store == app.store[CacheKey := stringify(Snapshot(now, a.data, CachedPeriod(period)))]
                                [SyncedKey := "true"]
    ensures !a.loading && !a.refreshing
    ensures a.canNavigate == (app.canNavigate || showOverlay)
    ensures a.overlay == (if showOverlay then Succeeded else app.overlay)
    ensures !forceRefresh ==> a.toasts == app.toasts
    ensures |a.toasts| <= |app.toasts| + |LoadOrder| + 1
    ensures a.currentPage == app.currentPage && a.history == app.history && a.showTutorial == app.showTutorial
  {
    var started := BeginSync(app, forceRefresh, showOverlay);
    var traces := LoadAll(outcomes, forceRefresh);
    Conclude(Settle(started, traces, period, now, stringify), forceRefresh, showOverlay)
  }

  lemma {:induction false} NoToastWithoutRefresh(order: seq<Dataset>, traces: map<Dataset, LoadTrace>)
    requires forall d :: d in order ==> d in traces && !traces[d].notified
    ensures LoaderToasts(order, traces) == []
  {
    if |order| > 0 {
      NoToastWithoutRefresh(order[1..], traces);
    }
  }

  /** `handleRefresh`: an explicit refresh, with the overlay only before the first sync. */
  function Refresh(app: App, outcomes: map<Dataset, seq<Fetch>>, period: Fetch, now: int,
                   stringify: Value -> string): (a: App)
    requires WellFormed(app) && Covers(outcomes)
    ensures a.canNavigate == (app.canNavigate || !Stored(app.store, SyncedKey))
    ensures Stored(a.store, SyncedKey)
  {
    SyncAll(app, true, !Stored(app.store, SyncedKey), outcomes, period, now, stringify)
  }

  /** `handleTutorialStartSync`: the tutorial is dismissed for good and the first
      sync runs under the overlay, which unlocks navigation. */
  function TutorialStartSync(app: App, outcomes: map<Dataset, seq<Fetch>>, period: Fetch, now: int,
                             stringify: Value -> string): (a: App)
    requires WellFormed(app) && Covers(outcomes)
    ensures !a.showTutorial && a.canNavigate && a.overlay == Succeeded
    ensures Stored(a.store, TutorialKey) && Stored(a.store, SyncedKey)
    ensures a.toasts == app.toasts
  {
    var dismissed := app.(showTutorial := false, store := app.store[TutorialKey := "true"]);
    var a := SyncAll(dismissed, false, true, outcomes, period, now, stringify);
    SyncKeepsTutorial(dismissed.store, stringify(Snapshot(now, a.data, CachedPeriod(period))));
    a
  }

  /** Writing the cache and the sync flag keeps the tutorial flag. */
  lemma SyncKeepsTutorial(store: map<string, string>, text: string)
    requires Stored(store, TutorialKey)
    ensures Stored(store[CacheKey := text][SyncedKey := "true"], TutorialKey)
    ensures Stored(store[CacheKey := text][SyncedKey := "true"], SyncedKey)
  {
    StoreKeysDiffer();
  }

  /** `handleTutorialClose` */
  function TutorialClose(app: App): (a: App)
    ensures !a.showTutorial && Stored(a.store, TutorialKey)
    ensures a.data == app.data && a.canNavigate == app.canNavigate
  {
    app.(showTutorial := false, store := app.store[TutorialKey := "true"])
  }

  // ---------------------------------------------------------------------------
  // Routing (`urlToPage`, `pageToUrl`, `handlePageChange`)

  /** The ten routes, as (path, page) pairs. */
  const Routes: seq<(string, string)> := [
    ("/", "dashboard"),
    ("/serie-mensal", "serie-mensal"),
    ("/internacoes-cid", "internacoes-cid"),
    ("/internacoes-sexo", "internacoes-sexo"),
    ("/internacoes-faixa", "internacoes-faixa"),
    ("/obitos-cid", "obitos-cid"),
    ("/obitos-raca", "obitos-raca"),
    ("/obitos-estado-civil", "obitos-estado-civil"),
    ("/obitos-local", "obitos-local"),
    ("/perfil", "perfil")
  ]

  function UrlLookup(routes: seq<(string, string)>, path: string): Option<string> {
    if |routes| == 0 then None
    else if routes[0].0 == path then Some(routes[0].1)
    else UrlLookup(routes[1..], path)
  }

  function PageLookup(routes: seq<(string, string)>, page: string): Option<string> {
    if |routes| == 0 then None
    else if routes[0].1 == page then Some(routes[0].0)
    else PageLookup(routes[1..], page)
  }

  /** `urlToPage[path]` */
  function UrlToPage(path: string): (p: Option<string>)
    ensures p.None? <==> forall i :: 0 <= i < |Routes| ==> Routes[i].0 != path
    ensures p.Some? ==> (path, p.value) in Routes
  {
    UrlLookupNone(Routes, path);
    var p := UrlLookup(Routes, path);
    if p.Some? then UrlLookupFound(Routes, path); p else p
  }

  /** `pageToUrl[page] || '/'` */
  function PageToUrl(page: string): (u: string)
    ensures (forall i :: 0 <= i < |Routes| ==> Routes[i].1 != page) ==> u == "/"
    ensures (exists i :: 0 <= i < |Routes| && Routes[i].1 == page) ==> (u, page) in Routes
  {
    PageLookupNone(Routes, page);
    match PageLookup(Routes, page)
    case Some(u) =>
      PageLookupFound(Routes, page);
      u
    case None => "/"
  }

  /** A path is missing from the lookup exactly when no row has it. */
  lemma {:induction false} UrlLookupNone(routes: seq<(string, string)>, path: string)
    ensures UrlLookup(routes, path).None? <==> forall i :: 0 <= i < |routes| ==> routes[i].0 != path
  {
    if |routes| > 0 {
      UrlLookupNone(routes[1..], path);
      assert forall i :: 1 <= i < |routes| ==> routes[i] == routes[1..][i - 1];
    }
  }

  /** A page is missing from the lookup exactly when no row has it. */
  lemma {:induction false} PageLookupNone(routes: seq<(string, string)>, page: string)
    ensures PageLookup(routes, page).None? <==> forall i :: 0 <= i < |routes| ==> routes[i].1 != page
  {
    if |routes| > 0 {
      PageLookupNone(routes[1..], page);
      assert forall i :: 1 <= i < |routes| ==> routes[i] == routes[1..][i - 1];
    }
  }

  /** Both columns of a table hold distinct entries. */
  predicate Bijective(routes: seq<(string, string)>) {
    forall a, b :: 0 <= a < b < |routes| ==> routes[a].0 != routes[b].0 && routes[a].1 != routes[b].1
  }

  /** In a table without repeated entries the two lookups undo each other. */
  lemma {:induction false} LookupsInverse(routes: seq<(string, string)>, path: string, page: string)
    requires Bijective(routes)
    ensures UrlLookup(routes, path) == Some(page) <==> PageLookup(routes, page) == Some(path)
  {
    if |routes| > 0 {
      assert Bijective(routes[1..]) by {
        forall a, b | 0 <= a < b < |routes[1..]|
          ensures routes[1..][a].0 != routes[1..][b].0 && routes[1..][a].1 != routes[1..][b].1
        {
          assert routes[1..][a] == routes[a + 1] && routes[1..][b] == routes[b + 1];
        }
      }
      LookupsInverse(routes[1..], path, page);
      if UrlLookup(routes[1..], path).Some? {
        UrlLookupFound(routes[1..], path);
      }
      if PageLookup(routes[1..], page).Some? {
        PageLookupFound(routes[1..], page);
      }
    }
  }

  lemma {:induction false} UrlLookupFound(routes: seq<(string, string)>, path: string)
    requires UrlLookup(routes, path).Some?
    ensures exists i :: 0 <= i < |routes| && routes[i] == (path, UrlLookup(routes, path).value)
  {
    if routes[0].0 != path {
      UrlLookupFound(routes[1..], path);
      var i :| 0 <= i < |routes[1..]| && routes[1..][i] == (path, UrlLookup(routes, path).value);
      assert routes[i + 1] == routes[1..][i];
    }
  }

  lemma {:induction false} PageLookupFound(routes: seq<(string, string)>, page: string)
    requires PageLookup(routes, page).Some?
    ensures exists i :: 0 <= i < |routes| && routes[i] == (PageLookup(routes, page).value, page)
  {
    if routes[0].1 != page {
      PageLookupFound(routes[1..], page);
      var i :| 0 <= i < |routes[1..]| && routes[1..][i] == (PageLookup(routes, page).value, page);
      assert routes[i + 1] == routes[1..][i];
    }
  }

  /** The URL-to-page and page-to-URL tables are mutual inverses over the ten pages. */
  lemma RoutesInverse(path: string, page: string)
    ensures UrlToPage(path) == Some(page) <==> (PageLookup(Routes, page) == Some(path))
    ensures UrlToPage(path) == Some(page) ==> PageToUrl(page) == path
  {
    RoutesBijective();
    LookupsInverse(Routes, path, page);
  }

  /** No URL and no page appears twice in the table. */
  lemma RoutesBijective()
    ensures Bijective(Routes)
  {
    var r := Routes;
    assert |r| == 10;
    assert |r[0].0| == 1 && |r[1].0| == 13 && |r[2].0| == 16 && |r[3].0| == 17 && |r[4].0| == 18;
    assert |r[5].0| == 11 && |r[6].0| == 12 && |r[7].0| == 20 && |r[8].0| == 13 && |r[9].0| == 7;
    assert |r[0].1| == 9 && |r[1].1| == 12 && |r[2].1| == 15 && |r[3].1| == 16 && |r[4].1| == 17;
    assert |r[5].1| == 10 && |r[6].1| == 11 && |r[7].1| == 19 && |r[8].1| == 12 && |r[9].1| == 6;
    assert r[1].0[1] != r[8].0[1] && r[1].1[0] != r[8].1[0];
  }

  /** `handlePageChange(page)`: refused before the first sync unless the target is
      the dashboard; otherwise the page is shown, saved and pushed as a URL. */
  function ChangePage(app: App, page: string): (a: App)
    ensures !app.canNavigate && page != "dashboard" ==> a == app
    ensures app.canNavigate || page == "dashboard" ==>
              a.currentPage == page && a.store == app.store[PageKey := page]
              && |a.history| == |app.history| + 1 && a.history[..|app.history|] == app.history
    ensures a.data == app.data && a.canNavigate == app.canNavigate
  {
    if !app.canNavigate && page != "dashboard" then app
    else app.(currentPage := page, store := app.store[PageKey := page], history := app.history + [PageToUrl(page)])
  }

  /** The URL pushed for a page of the table leads back to that page; any other
      page pushes '/', the dashboard's URL. */
  lemma {:induction false} PushedUrlRestoresPage(app: App, page: string)
    requires app.canNavigate
    ensures var a := ChangePage(app, page);
      UrlToPage(a.history[|a.history| - 1]) ==
        (if PageLookup(Routes, page).Some? then Some(page) else Some("dashboard"))
  {
    var url := PageToUrl(page);
    if PageLookup(Routes, page).Some? {
      RoutesInverse(url, page);
    } else {
      assert url == "/";
    }
  }

  /** The page a path selects, applied on mount and on `popstate`. */
  function FollowUrl(app: App, path: string): (a: App)
    ensures UrlToPage(path).Some? ==>
              a.currentPage == UrlToPage(path).value && a.store == app.store[PageKey := a.currentPage]
    ensures UrlToPage(path).None? ==> a == app
  {
    match UrlToPage(path)
    case Some(p) => app.(currentPage := p, store := app.store[PageKey := p])
    case None => app
  }

  /** The mount effect: follow the URL, then either restore the cache and unlock
      navigation (a sync has happened before) or show the tutorial once. */
  function Mount(app: App, path: string, parse: string -> Option<Value>, now: int): (a: App)
    requires WellFormed(app)
    ensures WellFormed(a)
    ensures SyncedKey in app.store && app.store[SyncedKey] == "true" ==> a.canNavigate && a.showTutorial == app.showTutorial
    ensures !(SyncedKey in app.store && app.store[SyncedKey] == "true") ==>
              a.canNavigate == app.canNavigate && a.showTutorial == (app.showTutorial || !Stored(app.store, TutorialKey))
  {
    var routed := FollowUrl(app, path);
    if SyncedKey in routed.store && routed.store[SyncedKey] == "true" then
      LoadFromCache(routed, parse, now).(canNavigate := true)
    else if !Stored(routed.store, TutorialKey) then routed.(showTutorial := true)
    else routed
  }

  /** After a sync, reloading the page within 24 hours brings back the same datasets
      and unlocks navigation without a new sync. */
  lemma {:induction false} ReloadRestoresSync(app: App, forceRefresh: bool, showOverlay: bool,
                                              outcomes: map<Dataset, seq<Fetch>>, period: Fetch,
                                              saved: int, now: int, path: string,
                                              parse: string -> Option<Value>, stringify: Value -> string)
    requires WellFormed(app) && Covers(outcomes)
    requires var snapshot := Snapshot(saved, SyncAll(app, forceRefresh, showOverlay, outcomes, period, saved, stringify).data, CachedPeriod(period));
      stringify(snapshot) != "" && parse(stringify(snapshot)) == Some(snapshot)
    requires now - saved < MaxAgeMs
    ensures var synced := SyncAll(app, forceRefresh, showOverlay, outcomes, period, saved, stringify);
      var reloaded := Mount(Initial(synced.store), path, parse, now);
      reloaded.canNavigate && reloaded.data == synced.data && reloaded.periodo == CachedPeriod(period)
  {
    var synced := SyncAll(app, forceRefresh, showOverlay, outcomes, period, saved, stringify);
    var reopened := Initial(synced.store);
    var routed := FollowUrl(reopened, path);
    var text := stringify(Snapshot(saved, synced.data, CachedPeriod(period)));
    RoutedAfterSync(app.store, text, path);
    CacheRoundTrip(routed, synced.data, period, saved, now, parse, stringify);
    var loaded := LoadFromCache(routed, parse, now);
    assert Mount(reopened, path, parse, now) == loaded.(canNavigate := true);
  }

  /** A reopened tab whose store holds the cache and the sync flag still holds
      both once it has followed the URL. */
  lemma RoutedAfterSync(store: map<string, string>, text: string, path: string)
    ensures var routed := FollowUrl(Initial(store[CacheKey := text][SyncedKey := "true"]), path);
      && WellFormed(routed)
      && CacheKey in routed.store && routed.store[CacheKey] == text
      && SyncedKey in routed.store && routed.store[SyncedKey] == "true"
  {
    StoreKeysDiffer();
  }
}
